=== FILE: README.md ===
# Voice pipeline and helpers of the AI trip planner, in Dafny

This project models the voice pipeline of a Next.js trip-planning application
and the small pure decision functions around it, and proves properties of the
model.

The voice pipeline has these parts:

- **The streaming recogniser session** (`xunfei.ts`), a state machine over the
  recogniser status and an accumulated result text. It frames outbound audio as
  status-0, status-1 and status-2 messages. It resolves a one-shot readiness
  signal after the opening frame. It folds inbound recognition frames into
  result and completion notifications.
- **Two capture units.** The PCM recorder (`pcm-recorder.ts`) delivers int16
  samples and an audio level. The media recorder (`recorder.ts`) collects
  container chunks and stops itself after a maximum duration.
- **The audio converter** (`audio-converter.ts`): linear resampling and the
  float to int16 conversion.
- **The facade** (`service.ts`). It picks the capture unit by mode and starts
  the recogniser before the recorder. It forwards audio to the recogniser and
  mirrors statuses. In batch mode it streams a converted buffer as 1280-byte
  slices.
- **The signed endpoint URL**, built both by the token route and by the client
  recogniser.
- **The voice input component's display state** (`VoiceInput.tsx`).

Around the pipeline sit these helpers:

- map utilities: address cleaning, the city lookup, marker selection and
  classification, routes, and the map centre and zoom;
- the zod form schemas, as predicates and parse functions;
- the two voice parsing routes: their guards, the JSON extraction from a
  model reply, defaults and missing-field reports;
- the profile route's partial update;
- the budget card;
- the route-protection rule of the middleware.

Every component is a pure step function: a state and an input give a new state
and a list of effects or notifications. A run over a sequence of inputs is the
fold of that step. Callbacks, sockets, devices and timers become inputs and
effects. Strings are `seq<char>`, bytes are naturals below 256, and audio and
map arithmetic use reals. Floors, truncation toward zero and `Math.round` are
written out explicitly. Dates are integer day numbers.

These are parameters of the model:

- HMAC-SHA256 (RFC 2104);
- percent-encoding (section 2.1 of RFC 3986);
- the date string (section 7.1.1.1 of RFC 7231);
- `JSON.parse`;
- the browser's audio decoder (`decodeAudioData`);
- the e-mail, URL and UUID checks;
- the geocoder.

Base64 (section 4 of RFC 4648) is implemented, and its round trip is proved.

Behaviour of the code worth noting:

- The recogniser appends text to its accumulated result only on the frame whose
  `data.status` is 2.
- The recogniser ignores the `bg` begin offset of a segment.
- Non-final frames report only their own text.
- In `recorder.ts`, `cancel` does not suppress the later completion: the
  engine's pending stop event still reports `completed`
  (`MediaRecorder.CancelThenEngineStopStillCompletes`).
- The client-side signer uses `btoa`, which rejects API keys with characters
  above U+00FF, where the server route succeeds
  (`SignedUrl.ClientRejectsWideKey`).
- A recogniser that cannot obtain its endpoint is reported to `onError` twice
  (`VoiceService.RejectedRecognizerReportedTwice`).
- The voice input widget clears only the duration interval it still refers to.
  A new start after a completion or an error, with no stop in between,
  replaces that reference. The earlier interval then keeps running and keeps
  overwriting the shown duration (`VoiceInput.OrphanedIntervalKeepsRunning`).
- The trip parser gives no dates for a negative day count, yet does not report
  dates as missing (`ParseTrip.NegativeDaysUnreported`).
- The trip parser's dates are UTC dates of local midnights. East of UTC they
  start on the request's own day rather than tomorrow
  (`ParseTrip.EastOfUtcStartsToday`), and a daylight saving change inside the
  trip can shorten it by a day (`ParseTrip.DaylightSavingShortensTrip`).
- The voice input component's unmount cleanup clears only the interval it
  still refers to, so an orphaned interval outlives the component
  (`VoiceInput.OrphanOutlivesUnmount`).
- The facade creates its recogniser with only the app id
  (service.ts:72-74). The recogniser still signs its own URL, so it writes
  the API key as `undefined` and encodes the absent secret as an empty HMAC
  key (`SignedUrl.AppIdOnlySigning`). The Web Cryptography API refuses empty
  raw HMAC key data, in which case a realtime start fails at the URL step.

## Model

| member | source | states |
|---|---|---|
| Xunfei.DefaultParams | src/lib/voice/xunfei.ts:30-40 | Without overrides the session uses language zh_cn, domain iat, 16 kHz raw audio and ptt 1. |
| Xunfei.OverrideOneField | src/lib/voice/xunfei.ts:30-40 | A supplied setting replaces its default, and every other setting keeps its default. |
| Xunfei.New | src/lib/voice/xunfei.ts:30-40 | A new session is idle, holds no socket, has empty text, has no readiness armed and has no listeners. |
| Xunfei.Cleanup | src/lib/voice/xunfei.ts:257-264 | Cleanup releases the socket and closes it exactly when it is open; nothing else changes. |
| Xunfei.HandleError | src/lib/voice/xunfei.ts:240-244 | An error sets the `error` status, reports the status and the message to their listeners, and releases the socket. |
| Xunfei.FrameTextAppend | src/lib/voice/xunfei.ts:203-210 | The text of a list of word entries is the text of its first part followed by that of the rest. |
| Xunfei.EntryWithoutWordsIsSilent | src/lib/voice/xunfei.ts:203-210 | An entry without a word array contributes nothing, wherever it sits. |
| Xunfei.CollectWords | src/lib/voice/xunfei.ts:206-208 | The inner loop concatenates every word of one entry in order. |
| Xunfei.CollectText | src/lib/voice/xunfei.ts:203-210 | The nested loops compute the in-order concatenation of every word of every entry. |
| Xunfei.ErrorFrame | src/lib/voice/xunfei.ts:189-194 | A non-zero code fails the session, notifies `onError`, releases the socket and keeps the accumulated text; no result is reported. |
| Xunfei.HandleMessage | src/lib/voice/xunfei.ts:188-235 | A non-zero code fails the session, releases the socket and keeps the text. A frame without a word list changes nothing. A frame with one adds its text exactly when it is final, and only the final frame completes the session and releases the socket. |
| Xunfei.IncompleteFrameIgnored | src/lib/voice/xunfei.ts:196-202 | A code-0 frame without data, result or a word array changes nothing and emits nothing, so it can never complete the session. |
| Xunfei.NonFinalFrame | src/lib/voice/xunfei.ts:213-225 | A non-final frame reports only its own text as an interim result and leaves the session unchanged. |
| Xunfei.FinalFrame | src/lib/voice/xunfei.ts:215-232 | For a session with the status, result and completion listeners the facade registers, a status-2 frame appends its text once. It then emits the final result with the whole text, the `completed` status and the completion, and releases the socket, in that order. |
| Xunfei.ArrayBufferToBase64 | src/lib/voice/xunfei.ts:355-362 | The byte-to-binary-string loop followed by `btoa` yields the base64 encoding of the bytes, and it decodes back to them. |
| Xunfei.Send | src/lib/voice/xunfei.ts:77-100 | On an open socket one status-1 raw 16 kHz frame is sent, whose payload decodes to the audio; otherwise nothing happens. |
| Xunfei.End | src/lib/voice/xunfei.ts:105-125 | On an open socket exactly one status-2 frame with empty audio is sent; otherwise nothing happens. |
| Xunfei.OpeningFrameOf | src/lib/voice/xunfei.ts:274-292 | The opening frame carries the app id and status 0, with vad_eos 5000, dwa wpgs and a mandarin accent, plus the session's language, domain and ptt. |
| Xunfei.SendBusinessParams | src/lib/voice/xunfei.ts:269-305 | On an open socket the opening frame is sent, then readiness is resolved if armed and disarmed, then `onReady` is notified. |
| Xunfei.Start | src/lib/voice/xunfei.ts:45-72 | A session with an open socket is rejected unchanged. Otherwise the text is cleared, `recognizing` is reported, readiness is armed and the endpoint is connected; a missing endpoint fails the start. |
| Xunfei.Cancel | src/lib/voice/xunfei.ts:130-134 | Cancel drops the socket (closing it if open), clears the text, reports `idle` and never reports a completion. |
| Xunfei.Destroy | src/lib/voice/xunfei.ts:367-370 | Destroy closes an open socket, reports `idle` to the listeners it had, clears the text and then forgets every listener; it reports no completion. |
| Xunfei.ReleasedIsQuiet | src/lib/voice/xunfei.ts:156-183 | Once the socket is released, no socket event changes anything or emits anything. |
| Xunfei.DeliverReadiness | src/lib/voice/xunfei.ts:156-183 | Each socket event resolves readiness at most once, only when it was armed, and only right after the status-0 frame. |
| Xunfei.MessageReadiness | src/lib/voice/xunfei.ts:188-235 | Handling an inbound frame keeps the readiness rules: at most one resolution, only when armed, only right after the opening frame, and it never re-arms readiness. |
| Xunfei.ErrorReadiness | src/lib/voice/xunfei.ts:240-244 | An error keeps the readiness rules and never re-arms readiness. |
| Xunfei.OpenedReadiness | src/lib/voice/xunfei.ts:159-163 | Opening the socket resolves readiness only if it was armed, and only after the opening frame. |
| Xunfei.ReadinessAtMostOnce | src/lib/voice/xunfei.ts:297-301 | Over any run of socket events, readiness is resolved at most once, never unless `start` armed it, and each time right after the status-0 frame. |
| Xunfei.NonFinalFrameNoFinalNotice | src/lib/voice/xunfei.ts:188-235 | A frame that is not final never emits a final result. |
| Xunfei.FinalFrameOneNotice | src/lib/voice/xunfei.ts:215-232 | A final frame emits at most one final result and releases the socket. |
| Xunfei.HandleMessageFinal | src/lib/voice/xunfei.ts:188-235 | Any frame emits at most one final result, and emitting one releases the socket. |
| Xunfei.DeliverFinal | src/lib/voice/xunfei.ts:156-183 | Any socket event emits at most one final result, and only by releasing the socket. |
| Xunfei.AtMostOneFinal | src/lib/voice/xunfei.ts:215-232 | Over any run of socket events at most one final result is emitted. |
| Xunfei.ResultTextOnlyGrows | src/lib/voice/xunfei.ts:215-218 | Between starts, socket events only ever extend the accumulated text. |
| VoiceService.RecorderErrorText | src/lib/voice/service.ts:170-174 | A recorder failure is reported with its message when there is one, else with a non-empty generic text. |
| VoiceService.SlicesPartition | src/lib/voice/service.ts:264-277 | The slices concatenate to the buffer and number ceil(n / 1280). None is empty or longer than 1280 bytes, and all but the last are full. |
| VoiceService.SlicesFrom | src/lib/voice/service.ts:264-277 | The slices from offset i are the piece [i, min(i + 1280, n)) followed by the slices from its end. |
| VoiceService.SliceBuffer | src/lib/voice/service.ts:264-277 | The slicing loop produces exactly the partition into 1280-byte slices. |
| VoiceService.AudioFrameOf | src/lib/voice/service.ts:269-272 | A slice becomes a status-1 audio frame whose payload decodes back to the slice. |
| VoiceService.ModeSelection | src/lib/voice/service.ts:37-57 | The defaults are real-time, 60 s and auto-start. Real-time mode builds only the PCM recorder, otherwise only the media recorder with the maximum duration. A new facade is idle, without recogniser or listeners. |
| VoiceService.RouteEffectKeeps | src/lib/voice/service.ts:221-246 | A routed recogniser effect touches only status, text and the pending start, and the pending start only on readiness. |
| VoiceService.RouteRecognizerKeeps | src/lib/voice/service.ts:221-246 | Routing a list of recogniser effects touches only status, text and the pending start, and releases the start exactly when readiness is among them. |
| VoiceService.RouteTransport | src/lib/voice/service.ts:221-246 | Socket traffic passes through in order and leaves the facade unchanged. |
| VoiceService.ForwardToOpenRecognizer | src/lib/voice/service.ts:177-183 | A buffer forwarded to an open recogniser becomes exactly one audio frame, and nothing else changes. |
| VoiceService.OnPcmEventsKeeps | src/lib/voice/service.ts:162-188 | PCM notifications never replace a capture unit, release a pending start or move the socket. |
| VoiceService.MediaStateEventsKeep | src/lib/voice/service.ts:193-216 | State and error notifications from the media recorder change only the facade's status. |
| VoiceService.MediaStartEvents | src/lib/voice/recorder.ts:56-139 | Starting the media recorder notifies only state changes and errors. |
| VoiceService.MissingAppId | src/lib/voice/service.ts:65-69 | Without an app id the start reports `error` and then the failure, and creates or starts nothing. |
| VoiceService.RealtimeStartAwaitsRecognizer | src/lib/voice/service.ts:79-83 | In real-time auto-start mode the start connects the recogniser with the app id and then waits for readiness; the capture unit is not started yet. |
| VoiceService.ReadinessReleasesStart | src/lib/voice/service.ts:79-83 | The suspended start is released exactly when the recogniser resolves readiness, right after the opening frame, and no capture unit is touched. |
| VoiceService.ContinueStartOnlyWhenReleased | src/lib/voice/service.ts:86-92 | The rest of a start runs only once released and only once, and starts the capture unit first. |
| VoiceService.RealtimeStartCompletes | src/lib/voice/service.ts:86-92 | A released real-time start that is granted the microphone is capturing and reports `recording` last. |
| VoiceService.RejectedRecognizerReportedTwice | src/lib/voice/service.ts:93-97 | A recogniser without an endpoint is reported twice: once by its own error handler and once by the facade's catch. |
| VoiceService.RecognizerStatusMirrored | src/lib/voice/service.ts:224-228 | Of the recogniser's statuses only `recognizing` is mirrored. |
| VoiceService.RecognizerResultMirrored | src/lib/voice/service.ts:230-235 | Every result is forwarded, and only a final one replaces the recognised text. |
| VoiceService.RecognizerCompletionMirrored | src/lib/voice/service.ts:237-241 | Completion sets the text, reports `completed`, then hands the text to `onComplete`. |
| VoiceService.RecorderStateMirrored | src/lib/voice/service.ts:167-174 | A recorder state is first forwarded as an audio level. Only `recording` and `error` are mirrored, the error with its text or a generic one. |
| VoiceService.PcmChunkForwarded | src/lib/voice/service.ts:177-183 | While capturing, each sample buffer reaches an open recogniser as one frame whose payload reads back as the int16 conversion of the samples. |
| VoiceService.PcmIgnoredWhenNotCapturing | src/lib/voice/pcm-recorder.ts:84-94 | Outside a recording a sample buffer sends nothing and changes nothing. |
| VoiceService.ForwardPcmBuffer | src/lib/voice/service.ts:177-183 | One emitted PCM buffer reaches an open recogniser as exactly one audio frame. |
| VoiceService.QuietPcmStates | src/lib/voice/service.ts:170-174 | PCM states other than `recording` and `error` leave the facade's status and text alone. |
| VoiceService.StopKeepsStatus | src/lib/voice/service.ts:103-111 | `stop` never changes the facade's status or text. |
| VoiceService.CancelResets | src/lib/voice/service.ts:116-126 | `cancel` always ends idle with no text, reports `idle` last and leaves no socket held. |
| VoiceService.SendChunksOpen | src/lib/voice/service.ts:264-277 | On an open socket the slices go out as one audio frame each, in order, and nothing else changes. |
| VoiceService.StreamBufferOpen | src/lib/voice/service.ts:264-280 | Streaming a buffer on an open socket sends one frame per slice and then the final frame. |
| VoiceService.RecognizeAudioAwaits | src/lib/voice/service.ts:251-256 | Without a recogniser `recognizeAudio` does nothing. With one, it reports `recognizing`, connects the recogniser and waits for readiness holding the recording it was given. |
| VoiceService.RecordingAwaitsRecognizer | src/lib/voice/service.ts:208-211 | When the batch recording's engine stops, the facade waits for the recogniser holding that recording: the kept chunks joined, with their format and duration. |
| VoiceService.BatchStreamsWholeBuffer | src/lib/voice/service.ts:251-282 | A released batch recognition decodes the recording it holds and converts it to 16 kHz PCM. It streams that buffer as slices of at most 1280 bytes, one frame each, whose payloads together are the whole buffer, and then the end frame. |
| VoiceService.BatchConversionFailure | src/lib/voice/service.ts:251-282 | When the held recording cannot be decoded, the decoder's error is reported and no frame is sent. |
| VoiceService.DestroyReleasesEverything | src/lib/voice/service.ts:303-308 | `destroy` leaves no listener on the facade, either recorder or the recogniser. It releases the PCM recorder's device, drops the socket and keeps the capture units. |
| VoiceService.ApplyKeepsShape | src/lib/voice/service.ts:37-57 | No input adds, removes or swaps a capture unit, or changes the options. |
| VoiceService.RunKeepsMode | src/lib/voice/service.ts:37-57 | A facade built by the constructor keeps exactly the capture unit of its mode through any run of inputs. |
| VoiceService.RunKeepsShape | src/lib/voice/service.ts:37-57 | Any run of inputs keeps the capture units and the options. |
| VoiceTypes.Merge | src/lib/voice/recorder.ts:250-253 | A state update sets every field it carries to the carried value and leaves every other field as it was. |
| Pcm.Clamp | src/lib/voice/pcm-recorder.ts:164-171 | Clamping keeps values in [-1, 1] unchanged and saturates the rest to the nearer end. |
| Pcm.Truncate | src/lib/voice/pcm-recorder.ts:164-171 | Storing into an integer array rounds toward zero. |
| Pcm.TruncateMonotone | src/lib/voice/pcm-recorder.ts:164-171 | Truncation toward zero preserves order. |
| Pcm.SampleToInt16 | src/lib/voice/pcm-recorder.ts:164-171 | A sample becomes an int16 of its own sign; -1 and below give -32768, 1 and above give 32767, and 0 gives 0. |
| Pcm.SampleToInt16Monotone | src/lib/voice/pcm-recorder.ts:164-171 | Louder samples never convert to smaller values. |
| Pcm.SampleToInt16Error | src/lib/voice/pcm-recorder.ts:164-171 | The conversion is off by less than one step from the clamped sample times 32768 (negative) or 32767 (otherwise). |
| Pcm.FloatTo16BitPCM | src/lib/voice/pcm-recorder.ts:164-171 | The conversion keeps the length and converts sample by sample into the int16 range. |
| Pcm.Int16BytesRoundTrip | src/lib/voice/audio-converter.ts:40-49 | The two little-endian bytes of an int16 read back as the same value. |
| Pcm.ReadInt16sOfBuffer | src/lib/voice/service.ts:181 | Reading an `Int16Array`'s buffer back gives the samples: the byte layout loses nothing. |
| AudioLevel.Sum | src/lib/voice/pcm-recorder.ts:185-187 | The bin sum is at most 255 per bin. |
| AudioLevel.SumFull | src/lib/voice/pcm-recorder.ts:185-187 | The sum is maximal exactly when every bin is saturated. |
| AudioLevel.SumZero | src/lib/voice/pcm-recorder.ts:185-187 | The sum is zero exactly when every bin is silent. |
| AudioLevel.SumMonotone | src/lib/voice/pcm-recorder.ts:185-187 | A louder reading, bin by bin, never has a smaller sum. |
| AudioLevel.Level | src/lib/voice/pcm-recorder.ts:188-190 | The level always lies in [0, 100]. |
| AudioLevel.LevelExtremes | src/lib/voice/pcm-recorder.ts:188-190 | The level is 100 exactly when every bin is saturated, and 0 exactly when all are silent. |
| AudioLevel.LevelMonotone | src/lib/voice/pcm-recorder.ts:188-190 | A louder reading, bin by bin, never shows a lower level. |
| PcmRecorder.Start | src/lib/voice/pcm-recorder.ts:35-115 | `start` succeeds exactly when not recording and the microphone is granted. It then records and holds the device, and its duration is the time from the start to the first level reading. A second start throws and changes nothing. Any other failure ends in `error`, released, with the thrown message recorded. |
| PcmRecorder.Stop | src/lib/voice/pcm-recorder.ts:120-126 | `stop` turns a recording into `completed` and releases the device. In any other status it changes nothing and reports nothing. |
| PcmRecorder.Cancel | src/lib/voice/pcm-recorder.ts:131-135 | `cancel` leaves the initial state with the error text kept. It releases the device and reports at most that state. |
| PcmRecorder.AudioProcess | src/lib/voice/pcm-recorder.ts:84-94 | A sample buffer is delivered, converted, exactly while recording with a data listener, and the recorder is unchanged. |
| PcmRecorder.Destroy | src/lib/voice/pcm-recorder.ts:255-258 | `destroy` does what `cancel` does, with the same notifications, and leaves no listener behind. |
| PcmRecorder.ApplyValid | src/lib/voice/pcm-recorder.ts:35-135 | Every input keeps the recorder consistent: it captures only while its status is `recording`. |
| PcmRecorder.RunValid | src/lib/voice/pcm-recorder.ts:35-135 | Any run of inputs keeps the recorder consistent. |
| PcmRecorder.StartWhileRecording | src/lib/voice/pcm-recorder.ts:36-38 | A second start while recording throws and changes nothing. |
| PcmRecorder.StartFails | src/lib/voice/pcm-recorder.ts:108-114 | A start without the capability, or refused by the device, ends in `error` with the message. It reports the message, releases everything and rethrows the same message. |
| PcmRecorder.StartSucceeds | src/lib/voice/pcm-recorder.ts:35-107 | A granted start records with the measured level and holds the device. Its duration is the time between the start and the first level reading. It keeps an earlier error text. |
| PcmRecorder.AudioProcessOnlyWhileRecording | src/lib/voice/pcm-recorder.ts:84-94 | A sample buffer is emitted, converted, exactly while recording with a data listener, and the recorder is unchanged. |
| PcmRecorder.EmittedBufferShape | src/lib/voice/pcm-recorder.ts:84-94 | Every emitted buffer has one int16 value per input sample. |
| PcmRecorder.StopGuard | src/lib/voice/pcm-recorder.ts:120-126 | `stop` does nothing unless recording; otherwise it completes and releases the device. |
| PcmRecorder.CancelFromAnyState | src/lib/voice/pcm-recorder.ts:131-135 | `cancel` from any state ends idle with zero duration and level, releases the device and reports that state. |
| PcmRecorder.DestroyedIsSilentUntilSubscribed | src/lib/voice/pcm-recorder.ts:255-258 | A destroyed recorder has no listeners, and nothing it does afterwards reaches anyone until a listener is added. |
| MediaRecorder.ResolveOptions | src/lib/voice/recorder.ts:21-25 | Omitted options default to 16000 Hz, audio/webm and 60 s; given ones are kept. |
| MediaRecorder.SupportedMimeType | src/lib/voice/recorder.ts:275-290 | The chosen format is the first supported entry of the fixed list, else audio/webm. |
| MediaRecorder.FirstSupported | src/lib/voice/recorder.ts:282-289 | The loop from any position returns the first supported entry from there on, else the fallback. |
| MediaRecorder.New | src/lib/voice/recorder.ts:40-44 | A new recorder is in the initial state, with no chunks, no engine and no device. |
| MediaRecorder.Start | src/lib/voice/recorder.ts:56-139 | `start` succeeds exactly when the browser is supported, nothing is recording and the microphone is granted. It then records from an empty chunk list, and its duration is the time from the start to the first level reading. The two guards throw and change nothing. A refused device ends in `error`, released, with the thrown message recorded. |
| MediaRecorder.Stop | src/lib/voice/recorder.ts:144-151 | `stop` reports nothing and keeps the state and the chunks. While recording it asks a running engine to stop and ends the level monitor. |
| MediaRecorder.Cancel | src/lib/voice/recorder.ts:156-166 | `cancel` while recording drops the chunks, asks the engine to stop, releases everything and leaves the initial state with the error text kept. Otherwise it does nothing. |
| MediaRecorder.Destroy | src/lib/voice/recorder.ts:295-298 | `destroy` does what `cancel` does, with the same notifications, and leaves no listener behind. |
| MediaRecorder.StartGuards | src/lib/voice/recorder.ts:57-63 | Without support, or while recording, `start` throws with nothing changed. |
| MediaRecorder.StartSucceeds | src/lib/voice/recorder.ts:56-131 | A granted start empties the chunks and records with the preferred format. Its duration is the time between the start and the first level reading. |
| MediaRecorder.StartFails | src/lib/voice/recorder.ts:132-138 | A refused device ends in `error`, reports it, releases the device and rethrows. |
| MediaRecorder.ChunkAppended | src/lib/voice/recorder.ts:89-94 | Only non-empty chunks are kept, appended in arrival order. |
| MediaRecorder.StopCancelGuard | src/lib/voice/recorder.ts:144-166 | `stop` and `cancel` do nothing unless recording. |
| MediaRecorder.CancelWhileRecording | src/lib/voice/recorder.ts:156-166 | Cancelling a recording empties the chunks, releases everything and goes idle with zero duration and level. |
| MediaRecorder.TimerStopsOnlyRecording | src/lib/voice/recorder.ts:127-131 | The max-duration timer stops a recording that is still running and does nothing otherwise. |
| MediaRecorder.CompletedAudioIsChunks | src/lib/voice/recorder.ts:85-110 | While the engine runs or is stopping, starting from no chunks, the recorder completes and the audio it hands to `onComplete` is the concatenation of the chunks delivered before the engine stopped, in order. |
| MediaRecorder.StopCompletes | src/lib/voice/recorder.ts:96-110 | The engine stopping, running or already asked to stop, moves to `completed` and hands the kept chunks, joined, with the format and duration to `onComplete`. |
| MediaRecorder.EngineStopEvents | src/lib/voice/recorder.ts:96-110 | The engine stopping reports at most one state change and then, last, the completion with the joined chunks. |
| MediaRecorder.DeliveriesAccumulate | src/lib/voice/recorder.ts:89-94 | Delivering non-empty chunks to a running engine appends them and touches nothing else. |
| MediaRecorder.CancelThenEngineStopStillCompletes | src/lib/voice/recorder.ts:96-110 | A cancel does not prevent the engine's later stop event from reporting `completed`. The chunks cleared by the cancel are gone, so the completed audio holds exactly the chunks the engine delivers after the cancel, the last `dataavailable` of `stop()` among them. |
| MediaRecorder.DestroyedIsSilentUntilSubscribed | src/lib/voice/recorder.ts:295-298 | A destroyed recorder has no listeners, and nothing it does afterwards reaches anyone until a listener is added. This includes the completion its engine still reports on stopping. No input short of a subscription gives it a listener back. |
| MediaRecorder.StaysUnsubscribed | src/lib/voice/recorder.ts:295-298 | A recorder without listeners keeps none through any inputs short of a subscription, and delivers nothing meanwhile. |
| AudioConverter.Round | src/lib/voice/audio-converter.ts:64-66 | `Math.round` is within half a unit, with halves rounding up. |
| AudioConverter.IndexInBounds | src/lib/voice/audio-converter.ts:68-79 | Every output position reads an input sample that exists. |
| AudioConverter.SampleAt | src/lib/voice/audio-converter.ts:68-79 | An output sample lies between its two neighbouring inputs, or is the last input itself; the next input is read only when it exists. |
| AudioConverter.InterpolateBetween | src/lib/voice/audio-converter.ts:70-75 | Interpolating with a fraction in [0, 1) stays between the two values. |
| AudioConverter.Resampled | src/lib/voice/audio-converter.ts:55-82 | Equal rates return the input unchanged; otherwise the output has round(n / ratio) samples. |
| AudioConverter.Resample | src/lib/voice/audio-converter.ts:55-82 | The loop computes the resampled signal, and every output sample is bounded by the inputs it interpolates. |
| AudioConverter.ConvertToPcm | src/lib/voice/audio-converter.ts:10-50 | A decoding failure propagates. Otherwise the buffer holds two bytes per resampled sample and reads back as the int16 conversion. |
| AudioConverter.ConvertBlobToPcmChunk | src/lib/voice/audio-converter.ts:88-90 | The chunk conversion always targets 16 kHz, and 16 kHz audio is converted without resampling. |
| AudioConverter.SameRateIsNotResampled | src/lib/voice/audio-converter.ts:28-37 | Audio already at the target rate is converted sample by sample. |
| Base64.Encode | src/lib/voice/xunfei.ts:355-362 | The encoding has four characters per started group of three bytes, all from the alphabet or padding. |
| Base64.DecodeEncode | src/lib/voice/xunfei.ts:355-362 | Decoding inverts the encoding. |
| Base64.EncodeInjective | src/lib/voice/xunfei.ts:355-362 | Distinct byte sequences have distinct encodings. |
| Base64.Btoa | src/lib/voice/xunfei.ts:324 | `btoa` fails exactly on a character above U+00FF, and otherwise encodes the character codes. |
| Base64.BufferBase64 | src/app/api/voice/token/route.ts:38 | The server encodes the UTF-8 bytes of the text. |
| Base64.BinaryString | src/lib/voice/xunfei.ts:358-360 | The binary string has one character per byte, with that byte's code. |
| Base64.BtoaBinaryString | src/lib/voice/xunfei.ts:349 | `btoa` of a binary string never fails and is the encoding of its bytes. |
| Base64.Utf8OfAscii | src/app/api/voice/token/route.ts:38 | On ASCII text the UTF-8 bytes are the character codes. |
| SignedUrl.SignatureOriginLines | src/app/api/voice/token/route.ts:24-29 | The signature origin is exactly the host line, the date line and the request line. |
| SignedUrl.EndpointUrlQuery | src/app/api/voice/token/route.ts:41 | The URL's query splits into exactly the authorization, date and host parameters, carrying the encoded authorization, the encoded date and the host. |
| SignedUrl.ServerSign | src/app/api/voice/token/route.ts:32-41 | The signature decodes to the HMAC of the origin under the secret. The authorization decodes to the UTF-8 of its origin. The URL carries both encoded values, and the date is the one that was signed. |
| SignedUrl.ClientSign | src/lib/voice/xunfei.ts:310-330 | The client signer succeeds exactly when the authorization origin is Latin-1, and then signs the same origin the same way. |
| SignedUrl.AuthorizationOriginAscii | src/app/api/voice/token/route.ts:37 | The authorization origin is ASCII when the key and the signature are. |
| SignedUrl.ClientMatchesServer | src/lib/voice/xunfei.ts:316-327 | With an ASCII API key, the client and the server build the very same endpoint. |
| SignedUrl.ClientRejectsWideKey | src/lib/voice/xunfei.ts:323-324 | A key with a character above U+00FF makes the client signer fail. |
| SignedUrl.WebSocketUrl | src/lib/voice/xunfei.ts:310-345 | The recogniser's URL step fails with `DataError` when the platform refuses the secret's bytes as an HMAC key, and with `InvalidCharacterError` when `btoa` fails. Otherwise it yields a URL that starts with the endpoint and its authorization parameter. |
| SignedUrl.ConfiguredClientMatchesServer | src/lib/voice/xunfei.ts:310-327 | A recogniser holding an ASCII key and a secret the platform accepts reaches the endpoint the server route signs. |
| SignedUrl.AppIdOnlySigning | src/lib/voice/service.ts:72-74 | The facade's recogniser, given only its app id, signs with the API key `undefined` and an empty HMAC key. It gets a URL exactly when the platform accepts empty key data, and that URL is the one the server would sign for those values. |
| SignedUrl.EndpointUrlStart | src/lib/voice/xunfei.ts:327 | Every endpoint URL starts with the base and the authorization parameter. |
| TokenRoute.Get | src/app/api/voice/token/route.ts:16-46 | The route fails with 500 exactly when a credential is missing. Otherwise it answers 200 with the configured app id and the server-signed URL. |
| TokenRoute.CompleteConfigYieldsEndpoint | src/app/api/voice/token/route.ts:41-46 | A complete configuration yields an endpoint whose query carries the signed authorization and the signed date. |
| VoiceInput.PadStart2 | src/components/voice/VoiceInput.tsx:159 | Padding keeps the text at the end and fills up to two characters with zeros in front. |
| VoiceInput.FormatDuration | src/components/voice/VoiceInput.tsx:155-160 | A non-negative duration is displayed so that it reads back as the number of whole seconds elapsed: the seconds field is two digits below 60, and minutes times 60 plus seconds is floor(ms / 1000). |
| VoiceInput.ClockRoundTrip | src/components/voice/VoiceInput.tsx:156-159 | Any number of seconds, written as minutes and two-digit seconds, reads back as itself. |
| VoiceInput.FieldsRoundTrip | src/components/voice/VoiceInput.tsx:159 | Minutes and a seconds count below 60, written as `m:ss`, read back as their total. |
| VoiceInput.ProcessingStatuses | src/components/voice/VoiceInput.tsx:149-152 | The component is busy exactly while recording or recognising. The button shows `success` exactly while recording and `error` exactly on error. |
| VoiceInput.StatusText | src/components/voice/VoiceInput.tsx:163-176 | Every active status shows one of the fixed captions; a placeholder that is no caption shows exactly when idle. |
| VoiceInput.StatusTextDistinguishes | src/components/voice/VoiceInput.tsx:163-176 | The caption is the placeholder when idle and tells every status apart. |
| VoiceInput.ResultUpdatesText | src/components/voice/VoiceInput.tsx:79-93 | A final result becomes the confirmed text and clears the interim one. An interim result replaces only the interim text. The parent sees the result either way. |
| VoiceInput.OnEvent | src/components/voice/VoiceInput.tsx:74-110 | A notice never touches the timer, the duration or the props. Only a status notice changes the status, only a level notice the level and only a failure the error text, and at most one parent callback is made. |
| VoiceInput.CompletionConfirmsText | src/components/voice/VoiceInput.tsx:95-100 | Completion confirms the text, clears the interim text and calls the parent. |
| VoiceInput.StartAndCancelReset | src/components/voice/VoiceInput.tsx:137-147 | Start and cancel both clear the texts, the duration and the error. Cancel also stops the timer. Neither touches the status. |
| VoiceInput.StartRejectionShown | src/components/voice/VoiceInput.tsx:121-126 | A failed start shows the thrown message (or the fallback), sets `error` and reports the same message. |
| VoiceInput.ClearTimer | src/components/voice/VoiceInput.tsx:131-134 | Clearing stops exactly the referenced interval, keeps every other interval as it was and drops the reference. |
| VoiceInput.TimerDrivesDuration | src/components/voice/VoiceInput.tsx:116-135 | A running interval sets the duration to the time since it was created and changes nothing else. A cleared or unknown interval does nothing. `stop` clears exactly the referenced interval. |
| VoiceInput.ApplyKeepsTimers | src/components/voice/VoiceInput.tsx:116-147 | The reference always names a running interval. Intervals are never removed or moved, and a cleared one never runs again. A resolved start adds one running interval and refers to it. |
| VoiceInput.OrphanedIntervalKeepsRunning | src/components/voice/VoiceInput.tsx:116-135 | A start that resolves while an interval is still referenced replaces the reference without clearing the old interval. The next `stop` clears only the new one, and the orphaned interval keeps overwriting the duration. |
| VoiceInput.Unmount | src/components/voice/VoiceInput.tsx:50-58 | Unmounting stops the referenced interval, drops the reference and leaves every other interval as it was. |
| VoiceInput.OrphanOutlivesUnmount | src/components/voice/VoiceInput.tsx:50-58 | An interval orphaned by a second start keeps running after unmount, while the newer one stops. |
| VoiceInput.DisplayedTextIsLastWrite | src/components/voice/VoiceInput.tsx:60-147 | After any inputs, each of the confirmed text, the interim text and the error message is the value of the last input that wrote it, or its old value. |
| VoiceInput.InterimClearedAfterCommit | src/components/voice/VoiceInput.tsx:82-98 | After a final result or a completion, the interim text stays empty until the next interim result. |
| VoiceInput.RunTracks | src/components/voice/VoiceInput.tsx:60-147 | A field that only its writers change holds the last written value after any run. |
| MapUtils.TrimmedBefore | src/lib/map/map-utils.ts:13-14 | Cutting before a separator and trimming yields trimmed text made only of the input's characters. |
| MapUtils.BracketsKeepChars | src/lib/map/map-utils.ts:17 | Deleting bracketed spans only removes characters. |
| MapUtils.NoOpenerKept | src/lib/map/map-utils.ts:17 | Text without an opening bracket passes through unchanged. |
| MapUtils.BracketSpanDropped | src/lib/map/map-utils.ts:17 | A bracketed span ends at the first closing bracket of either style and is deleted with its brackets; the text around it is kept. |
| MapUtils.UnclosedOpenerKept | src/lib/map/map-utils.ts:17 | An opening bracket with no closing bracket after it is kept as text. |
| MapUtils.WordAt | src/lib/map/map-utils.ts:20 | The alternation matches the first listed word the text starts with, or none. |
| MapUtils.WordsKeepChars | src/lib/map/map-utils.ts:20 | Deleting the vague words only removes characters. |
| MapUtils.NoWordKept | src/lib/map/map-utils.ts:20 | Text in which no listed word occurs is left as it is. |
| MapUtils.WordDropped | src/lib/map/map-utils.ts:20 | A word at the front is deleted when the alternation matches it there. |
| MapUtils.SinglePassCanLeaveWord | src/lib/map/map-utils.ts:20 | A single pass can join the halves around a deleted word into a new occurrence. |
| MapUtils.CleanAddress | src/lib/map/map-utils.ts:11-23 | A cleaned address is trimmed, keeps only characters of the original and never contains '→'. |
| MapUtils.DestinationCity | src/lib/map/map-utils.ts:98-100 | The destination city exists exactly for a truthy destination, and is trimmed text made of its characters. |
| MapUtils.CityOf | src/lib/map/map-utils.ts:29-82 | The city is a listed city that the address starts with, and none exactly when no listed city does. |
| MapUtils.CitiesPrefixFree | src/lib/map/map-utils.ts:31-73 | No listed city is a prefix of a different one. |
| MapUtils.CityUnique | src/lib/map/map-utils.ts:75-79 | Any listed city an address starts with is the one found, so the list order does not matter. |
| MapUtils.Classify | src/lib/map/map-utils.ts:145-169 | A lodging word in the activity or description makes a hotel, checked first; otherwise a dining word makes a restaurant; everything else is an attraction. |
| MapUtils.HotelWinsOverDining | src/lib/map/map-utils.ts:145-169 | An activity mentioning both lodging and dining is a hotel. |
| MapUtils.SightseeingIsAttraction | src/lib/map/map-utils.ts:145-169 | Sightseeing mentions neither kind of word and is an attraction. |
| MapUtils.Picks | src/lib/map/map-utils.ts:102-113 | The processed locations are positions within the itinerary from the start point on. |
| MapUtils.PicksAreFirstOccurrences | src/lib/map/map-utils.ts:102-113 | Every processed location is the first occurrence of a fresh non-empty key, and they come in itinerary order. |
| MapUtils.PicksDistinct | src/lib/map/map-utils.ts:102-113 | No cleaned location is processed twice. |
| MapUtils.PicksComplete | src/lib/map/map-utils.ts:102-113 | Every fresh non-empty cleaned location is processed. |
| MapUtils.MarkerCandidatesDistinct | src/lib/map/map-utils.ts:102-113 | No cleaned location is looked up twice. |
| MapUtils.MarkerCandidatesFromFirstActivity | src/lib/map/map-utils.ts:102-141 | Every lookup has a non-empty address and comes from the first activity whose cleaned location is that address. |
| MapUtils.MarkerCandidatesCover | src/lib/map/map-utils.ts:102-113 | Every activity with a non-empty cleaned location is covered by a lookup. |
| MapUtils.LookupRule | src/lib/map/map-utils.ts:121-141 | The itinerary's coordinates are used exactly when both are numbers and not NaN. Otherwise the geocoder is asked, limited to the address's city, else to the destination's city. |
| MapUtils.Markers | src/lib/map/map-utils.ts:171-180 | There is at most one marker per lookup. |
| MapUtils.MarkersFromCandidates | src/lib/map/map-utils.ts:121-180 | Exactly the successful lookups become markers. Every marker sits at the coordinate its candidate's lookup found and keeps the candidate's address, name, type and description. Every candidate whose coordinates are given, or whose address the geocoder resolves, has its marker. |
| MapUtils.LocationMapDomain | src/lib/map/map-utils.ts:209-214 | The location map holds exactly the truthy marker addresses. |
| MapUtils.LocationMapLastWins | src/lib/map/map-utils.ts:209-214 | An address maps to the coordinates of the last marker carrying it. |
| MapUtils.DayPathLocated | src/lib/map/map-utils.ts:216-238 | Every stop of a day's path is a located activity with its marker's coordinates, and every located activity of the day is a stop. |
| MapUtils.RoutesExactlyForLocatedDays | src/lib/map/map-utils.ts:202-262 | Every route belongs to a day with at least two located stops, is six wide and carries that day's path; every such day has its route. |
| MapUtils.Routes | src/lib/map/map-utils.ts:202-262 | The routes of an itinerary are exactly those of its days with at least two stops located by the markers, each six wide and carrying that day's path. |
| MapUtils.RouteColor | src/lib/map/map-utils.ts:244-258 | A route colour is always one of the six palette colours, and day d >= 1 gets colour (d - 1) mod 6. |
| MapUtils.RouteColorCycles | src/lib/map/map-utils.ts:240-258 | Route colours repeat every six days from day 1; day 0 gets no colour under the remainder's sign rule. |
| MapUtils.MaxOf | src/lib/map/map-utils.ts:293-299 | The maximum is one of the values and bounds all of them. |
| MapUtils.MinOf | src/lib/map/map-utils.ts:293-299 | The minimum is one of the values and is bounded by all of them. |
| MapUtils.ZoomMonotone | src/lib/map/map-utils.ts:293-311 | A wider spread never zooms in further, and the zoom is one of 5, 7, 10, 12 or 14. |
| MapUtils.MapCenterPlacement | src/lib/map/map-utils.ts:267-311 | No markers centre on Beijing at zoom 12 and one marker centres on itself at zoom 15. Otherwise the centre is the exact mean longitude and latitude, which lies inside the bounding box. The zoom is the farther-out of the zooms the longitude span and the latitude span would each get, which is the zoom of the larger span. |
| MapUtils.MapCenter | src/lib/map/map-utils.ts:267-311 | The zoom is always between 5 and 15, and two or more markers are centred inside their bounding box. |
| MapUtils.ClusterZoomsIn | src/lib/map/map-utils.ts:293-311 | Markers all within half a degree of each other get the closest zoom, 14. |
| Validations.RegexTestFinds | src/lib/validations.ts:13-17 | A character-class regex test succeeds exactly when some character is in the class. |
| Validations.PasswordRule | src/lib/validations.ts:13-17 | A sign-up password is accepted exactly when it has at least 8 UTF-16 code units, an ASCII letter and an ASCII digit. |
| Validations.SignUpCanSignIn | src/lib/validations.ts:11-28 | Every accepted sign-up can sign in with the same e-mail and password. |
| Validations.ParseProfile | src/lib/validations.ts:30-39 | The profile schema returns the record exactly when every present field is valid. |
| Validations.EmptyProfileAccepted | src/lib/validations.ts:30-39 | Every field may be left out, and an empty avatar URL is accepted whatever the URL check says. |
| Validations.FormattedDateAccepted | src/lib/validations.ts:47-50 | Every `dddd-dd-dd` formatting of numbers passes the date check and reads back as the same numbers. |
| Validations.AcceptedDateFormatted | src/lib/validations.ts:47-50 | Every string the date check accepts is the formatting of its own numbers. |
| Validations.ParseCreateTrip | src/lib/validations.ts:45-55 | A trip is accepted exactly when destination, both dates and budget are present and every present field passes its check. The destination must have 1 to 255 UTF-16 code units and the dates must be `dddd-dd-dd`. The budget and the adults must be positive integers and the children a non-negative integer. The created trip carries the given values, with adults defaulting to 1 and children to 0. |
| Validations.CreateTripReparses | src/lib/validations.ts:45-55 | A created trip passes the schema again unchanged, so the defaults are themselves valid. |
| Validations.ParseUpdateTrip | src/lib/validations.ts:57 | The update schema returns the record exactly when every present field is valid; absent fields stay absent. |
| Validations.CreateTripIsUpdate | src/lib/validations.ts:45-57 | Whatever creates a trip is also a valid update, and the empty update is valid. |
| Validations.DatesNotOrdered | src/lib/validations.ts:47-50 | The dates are not compared: an end before the start, and impossible months, are accepted. |
| Validations.ParseCreateExpense | src/lib/validations.ts:63-78 | An expense is accepted exactly when it has a UUID trip, an amount and a category, and its fields pass the checks an update applies. Those checks are a positive amount, a currency of three UTF-16 code units, a listed category, a description of at most 500 code units, a URL receipt and a datetime timestamp. The created expense carries the given values, with the currency defaulting to CNY. |
| Validations.ParseUpdateExpense | src/lib/validations.ts:80-82 | The expense update accepts exactly when every present field is valid, drops the trip id unchecked and defaults nothing. |
| Validations.UpdateExpenseIgnoresTrip | src/lib/validations.ts:80-82 | The update never looks at the trip id, and every created expense is also a valid update. |
| Validations.CurrencyDefaultAccepted | src/lib/validations.ts:63-78 | The default currency is accepted, so leaving the currency out never fails an expense. |
| Validations.ParsePreferences | src/lib/validations.ts:88-105 | The preference schema accepts exactly records whose styles, level and transport are among their fixed values, and returns them unchanged. |
| Validations.PreferencesExamples | src/lib/validations.ts:88-105 | An empty style list and an empty record are accepted; an unlisted level or style is rejected. |
| Middleware.SomePrefixFinds | middleware.ts:13-16 | The prefix test succeeds exactly when the path starts with one of the listed paths. |
| Middleware.Authorized | middleware.ts:11-25 | The `authorized` callback refuses a request exactly when it carries no token and its path starts with one of the protected paths. Requests the matcher excludes never reach the callback. |
| Middleware.AuthorizedRule | middleware.ts:11-25 | A path under none of the protected prefixes is allowed; a protected one exactly when a token is present, whatever it holds. |
| Middleware.ProtectionExtends | middleware.ts:13-16 | Anything appended to a protected path stays protected. |
| Middleware.RawPrefixMatching | middleware.ts:13-24 | The prefix test is raw: `/tripsx` is guarded, `/trip` and the home page are not. |
| BudgetOverview.Render | src/components/expenses/BudgetOverview.tsx:11-30 | Loading shows the skeleton; without statistics nothing is rendered. |
| BudgetOverview.BandOf | src/components/expenses/BudgetOverview.tsx:41-53 | The band is red exactly from 100 %, yellow exactly from 80 % below 100 %, and green exactly below 80 %. |
| BudgetOverview.ColourBands | src/components/expenses/BudgetOverview.tsx:41-53 | Text and bar share one band: red from 100 %, yellow from 80 %, green below. |
| BudgetOverview.BandMonotone | src/components/expenses/BudgetOverview.tsx:41-53 | More usage never means a milder colour. |
| BudgetOverview.BarWidth | src/components/expenses/BudgetOverview.tsx:73 | The bar never exceeds its track and shows the usage exactly up to 100 %. |
| BudgetOverview.OverBudget | src/components/expenses/BudgetOverview.tsx:99-105 | Over budget holds exactly for a negative remainder, which is shown as its magnitude with the marker. |
| BudgetOverview.WarningsExclusive | src/components/expenses/BudgetOverview.tsx:118-137 | The near-exhaustion notice appears exactly when not over budget and in the yellow band, so the two notices never appear together. |
| ApiRequest.RequestText | src/app/api/voice/parse-trip/route.ts:19-26 | The request text is used exactly when it is a non-empty string. |
| ParseExpense.LastIndexOfChar | src/app/api/voice/parse-expense/route.ts:72-78 | The last occurrence of a character is found, and none exactly when it does not occur. |
| ParseExpense.BraceSpanFound | src/app/api/voice/parse-expense/route.ts:72-78 | A JSON span is found exactly when some '{' comes before some '}'. |
| ParseExpense.BraceSpan | src/app/api/voice/parse-expense/route.ts:72-78 | The span runs from the first '{' to the last '}': it starts and ends with a brace, no '{' precedes it and no '}' follows it. |
| ParseExpense.BraceSpanOfWrapped | src/app/api/voice/parse-expense/route.ts:72-78 | An object between text without braces is cut out exactly. |
| JsText.UnitPrefix | src/app/api/voice/parse-expense/route.ts:85 | `substring(0, n)`: a prefix of the text of at most `n` UTF-16 code units, and no longer one fits. |
| JsText.Utf16LengthBounds | src/lib/validations.ts:46 | A string has between one and two code units per character, and exactly one per character when it is BMP text. |
| JsText.UnitPrefixWhole | src/app/api/voice/parse-expense/route.ts:85 | A text of at most `n` code units is its own prefix. |
| JsText.BmpUnitPrefix | src/app/api/voice/parse-expense/route.ts:85 | On BMP text the prefix of `n` code units is the first `n` characters, or the whole of a shorter text. |
| ParseExpense.Prefix50 | src/app/api/voice/parse-expense/route.ts:85 | The fallback description is the longest prefix of the text within 50 UTF-16 code units: the whole text when it fits, otherwise one that the next character would push past 50. On BMP text that is the first 50 characters. |
| ParseExpense.Post | src/app/api/voice/parse-expense/route.ts:13-15 | A missing or non-string text gives 400, and a result always carries the request text. |
| ParseExpense.Result | src/app/api/voice/parse-expense/route.ts:81-99 | The currency is always CNY. A truthy amount, category, description and confidence pass through unchanged. A falsy amount is dropped and reported. An absent category becomes `other` and is reported, while an explicit `other` is not. The description and confidence fall back to the text prefix and 0.8. Only `amount` and `category` are ever reported missing. |
| ParseExpense.MissingFieldsOrdered | src/app/api/voice/parse-expense/route.ts:91-99 | The missing fields are an in-order selection from `amount`, `category`. |
| ParseExpense.WrappedReplyRead | src/app/api/voice/parse-expense/route.ts:72-89 | A reply whose object stands between brace-free text is read exactly, and the result carries the request text. |
| ParseTrip.UnfencedReplyWhole | src/app/api/voice/parse-trip/route.ts:74-75 | A reply without a fenced JSON block is parsed whole. |
| ParseTrip.FencedBody | src/app/api/voice/parse-trip/route.ts:74-75 | A fenced body is found only after a "```json" and comes trimmed; without one there is none. |
| ParseTrip.FencedBodyRead | src/app/api/voice/parse-trip/route.ts:74-75 | A fenced block after backtick-free text yields exactly its trimmed body, whatever follows the block. |
| ParseTrip.Post | src/app/api/voice/parse-trip/route.ts:15-26 | No session gives 401 and an unusable text gives 400; a result always carries the request text. |
| ParseTrip.GuardsIgnoreReply | src/app/api/voice/parse-trip/route.ts:15-26 | Both guards answer before the model reply is looked at. |
| ParseTrip.DatesSpanDays | src/app/api/voice/parse-trip/route.ts:93-104 | Dates exist exactly for a positive day count. They are the UTC dates of local midnight of tomorrow and of the last local day, and in a zone with a fixed offset they span that many days inclusive. |
| ParseTrip.EastOfUtcStartsToday | src/app/api/voice/parse-trip/route.ts:95-102 | On a server east of UTC, the trip meant to start tomorrow is dated from the request's own day, and its end date is one day early too. |
| ParseTrip.DaylightSavingShortensTrip | src/app/api/voice/parse-trip/route.ts:100-103 | When daylight saving moves local midnight across UTC midnight within the trip, a three-day trip is dated over two days. |
| ParseTrip.MissingFieldsRule | src/app/api/voice/parse-trip/route.ts:106-110 | Each required field is reported exactly when falsy, the list is left out when empty, and the confidence is 0.9 exactly then, else 0.7. |
| ParseTrip.NegativeDaysUnreported | src/app/api/voice/parse-trip/route.ts:106-110 | A negative day count yields no dates, yet dates are not reported missing. |
| ParseTrip.TravelDates | src/app/api/voice/parse-trip/route.ts:93-104 | Dates exist exactly for a positive day count. They are the UTC dates of local midnight of tomorrow and of the day `days - 1` later, and in a zone with a fixed offset they span `days` days inclusive. |
| ParseTrip.WithFamilyTag | src/app/api/voice/parse-trip/route.ts:115-117 | The tag is present afterwards, the earlier preferences stay in front, and the list is unchanged exactly when the tag was already there. |
| ParseTrip.Preferences | src/app/api/voice/parse-trip/route.ts:112-118 | Without children the given preferences, or none, are kept as they are; with children the family tag is added behind the given ones. |
| ParseTrip.FamilyTagAdded | src/app/api/voice/parse-trip/route.ts:112-118 | With children, the family tag is present and never duplicated, and no other preference changes. |
| ParseTrip.Draft | src/app/api/voice/parse-trip/route.ts:120-132 | Present values pass through: destination, budget, day count, adults, children and preferences. A falsy budget or day count is dropped. One adult, no children and no preferences are the defaults. Dates exist exactly for a positive day count, as the UTC dates of local midnight of tomorrow and of the last day. Children add the family tag and keep the given preferences in front of it. The request text is kept, a destination appears only when one was given, and the confidence is 0.9 exactly when nothing is missing. |
| ProfileRoute.Get | src/app/api/profile/route.ts:31-55 | GET answers 401 exactly without a session, and a found row is the session user's. |
| ProfileRoute.Patch | src/app/api/profile/route.ts:61-116 | PATCH answers 401 exactly without a session and 400 exactly for a body failing the schema. It writes exactly for a valid body whose update succeeds. |
| ProfileRoute.UpdateRecord | src/app/api/profile/route.ts:75-90 | The update record always holds the time stamp, plus exactly the columns of the fields that were sent. |
| ProfileRoute.AvatarStored | src/app/api/profile/route.ts:82-84 | An empty avatar URL is stored as null; any other is stored as sent. |
| ProfileRoute.RecordRoundTrip | src/app/api/profile/route.ts:75-90 | Reading the record back gives the profile that was sent: nothing is lost or invented. |
| ProfileRoute.WriteOnlyValidated | src/app/api/profile/route.ts:72-102 | A write happens only for a signed-in user whose body passed the schema, and it writes that body's record. |
| ProfileRoute.EmptyPatchStampsOnly | src/app/api/profile/route.ts:75-90 | An empty body is a valid update that writes only the time stamp. |

## Left out

- Sockets, Web Audio, `getUserMedia`, `MediaRecorder`, `requestAnimationFrame`
  and timers are not modelled as I/O. They appear as inputs (events) and
  effects (frames sent, sockets closed, notifications).
- `crypto.subtle`, Node's `crypto`, `encodeURIComponent`, `toUTCString`,
  `JSON.parse`, the browser's `decodeAudioData`, the geocoder and the e-mail,
  URL and UUID checks are function parameters. Only how their results are assembled is modelled.
- `async`/`await` is modelled as explicit phases. The facade's pending start and
  pending batch recognition each wait for one resolving input. Overlapping
  starts are left out, since the facade has no guard against them. So is the
  40 ms pause between streamed slices: streaming is one atomic step.
- `Xunfei.Start`: URL resolution is an abstract `Result`. What that step
  computes is modelled separately, as `SignedUrl.WebSocketUrl`. The facade's
  recogniser holds only the app id, so it signs with an absent key and secret
  (`SignedUrl.AppIdOnlySigning`). The realtime path never asks the token route
  for its server-signed URL.
- `Xunfei.Start`: the wait for `getWebSocketUrl` (xunfei.ts:59) is folded
  into the start and its outcome step. A `cancel` or a second `start` during
  that wait is not modelled. In the program the socket is not yet open then,
  so a second `start` passes the guard and begins another connection.
- `VoiceService.RejectedRecognizerReportedTwice`: the facade rethrows a start
  error after reporting it. The rethrow is not part of the model.
- Handlers of an already replaced socket are not modelled. Events reach only the
  socket the recogniser still holds, as a closing WebSocket delivers no
  messages.
- `MediaRecorder.Apply`: the recorder holds a single engine slot. A stop event
  from an engine that a cancel and a new start have since replaced is applied
  to the current recording. That matches the program's handler as far as it
  reads the recorder through `this`: the current chunks and start time. The
  program's old engine keeps running, though, and its handler's `cleanup()`
  releases the newer stream; the model does not express two live engines.
- `PcmRecorder.Start`, `MediaRecorder.Start`: the wait for `getUserMedia`
  (pcm-recorder.ts:52, recorder.ts:67) is one atomic step whose outcome is an
  input. A `stop`, `cancel` or second `start` during the permission prompt is
  not modelled. In the program the status is not yet `recording` then, so
  `stop` and `cancel` return early, a second `start` opens a second capture,
  and a grant that comes later still starts recording.
- `MediaRecorder.EngineStopEvents`: the wait for `blob.arrayBuffer()` in the
  engine's stop handler (recorder.ts:99) is folded into the stop event. The
  `completed` state, the completion and the cleanup happen in one step, with
  no input in between.
- IEEE-754 rounding is not modelled: audio samples, levels, resampling, budget
  percentages and map coordinates are reals. NaN appears only as the
  coordinate-usability check.
- Characters are Unicode scalar values, while JavaScript counts UTF-16 code
  units. `JsText.Utf16Length` restores the count for `length`, so the
  Validations bounds (`.min(8)`, `.min(2).max(50)`, `.max(100)`,
  `.min(1).max(255)`, `.length(3)`, `.max(500)`) count code units. The
  remaining string functions of `JsText` (`IndexOf`, `Includes`, `Trim`,
  `Split` and the others) index characters. On BMP text the two agree; past
  the BMP an index of the model is not the program's index.
- `ParseExpense.Prefix50`: a `substring(0, 50)` that cuts a surrogate pair
  leaves a lone high surrogate as the 50th code unit. A character cannot hold
  one, so the model's prefix stops before the pair and has 49 code units there.
- JavaScript `Date` and time zones: trip dates are integer day numbers read
  through `ParseTrip.Calendar`. The local day of the request is an input, and
  so is the time zone's map from a local day to the UTC date of its midnight.
- `ParseTrip.TravelDates`: "tomorrow" holds only at or west of UTC. The dates are
  the UTC dates of local midnights, so east of UTC the start date is the
  request's own day (`ParseTrip.EastOfUtcStartsToday`). Across a daylight
  saving change that moves midnight over UTC midnight, the span is one day
  short or long (`ParseTrip.DaylightSavingShortensTrip`). The span of `days`
  days is promised only for a zone with a fixed offset.
- The language-model calls, their prompts and the model client are left out.
  The reply text is an input.
- `ParseTrip.DatesSpanDays`: a non-integer day count is not modelled; days are
  integers.
- Zod's issue messages and the errors for ill-typed JSON members are not
  modelled. Request bodies are typed records whose fields are present or absent.
  The `preferences` member of a trip is not part of the trip schema model.
- `MapUtils.MarkersFromCandidates`: marker order and marker ids depend on the
  completion order of concurrent geocoding. The model states only which
  markers exist and what they carry.
- `MapUtils.Classify`: the `toLowerCase` before the keyword test is not
  modelled. Every keyword is a CJK word, and case mapping neither creates nor
  removes CJK characters, so the outcome is the same.
- The map SDK loader, the Supabase and NextAuth glue, the sign-up and password
  flows, and the other React pages and forms are not part of this model. So are
  static label tables and the waveform animation.
- `ProfileRoute.Get`: the row's contents are the database's; the model states
  only the guard and whose row is returned.
- `VoiceInput.Unmount`: the `destroy()` of the service in the unmount cleanup
  is `VoiceService.Destroy` and is not repeated in the widget's model. The
  state updates an orphaned interval makes after unmount are not modelled.
- The `VoiceInput` component's audio-level display, button markup and styling
  are not modelled.

=== FILE: api_request.dfy ===
/**
 * What the API routes read from a request before doing any work: the
 * session's user id and the `text` member of the JSON body. Also the result
 * of `JSON.parse` on a model's reply, which the routes treat alike.
 */
module ApiRequest {
  import opened Wrappers
  import JsText

  /** `session?.user?.id` is truthy. */
  predicate SignedIn(userId: Option<string>) {
    JsText.Present(userId)
  }

  /** The `text` member of a request body. */
  datatype TextField = NoText | TextValue(s: string) | NonStringValue

  /** `!text || typeof text !== 'string'` rejects the request; otherwise the text is used. */
  function RequestText(f: TextField): (r: Option<string>)
    ensures r.Some? <==> f.TextValue? && |f.s| > 0
    ensures r.Some? ==> r.value == f.s
  {
    match f
    case TextValue(s) => if s == "" then None else Some(s)
    case _ => None
  }

  /**
   * `JSON.parse` of a model's reply: a syntax error, the literal `null` (on
   * which the first member access throws), or a value whose members are read;
   * a non-object value reads as an object whose members are all absent.
   */
  datatype Parsed<T> = Unparsable | JsonNull | JsonValue(value: T)

  /** A JavaScript number read for truthiness: present and not zero. */
  predicate TruthyNumber(x: Option<real>) {
    x.Some? && x.value != 0.0
  }
}

=== FILE: audio_converter.dfy ===
/**
 * Conversion of recorded audio to 16 kHz mono 16-bit PCM (`AudioConverter`):
 * linear-interpolation resampling followed by the float-to-int16 conversion.
 * Decoding the container format is done by the browser and is an input here.
 */
module AudioConverter {
  import opened Wrappers
  import opened Base64
  import Pcm

  /** `Math.round`: halves round up. */
  function Round(x: real): (n: int)
    ensures x - 0.5 < n as real <= x + 0.5
  {
    (x + 0.5).Floor
  }

  /** Position `i` of the output in input coordinates. */
  function SourcePos(i: nat, ratio: real): real
    requires ratio > 0.0
  {
    i as real * ratio
  }

  /** The number of output samples: `Math.round(length / ratio)`. */
  function OutputLength(len: nat, ratio: real): int
    requires ratio > 0.0
  {
    Round(len as real / ratio)
  }

  /** Every output position reads an input sample that exists. */
  lemma IndexInBounds(i: nat, len: nat, ratio: real)
    requires ratio > 0.0 && i < OutputLength(len, ratio)
    ensures SourcePos(i, ratio).Floor < len
  {
    var q := len as real / ratio;
    assert (i + 1) as real <= q + 0.5;
    assert i as real <= q - 0.5;
    assert q * ratio == len as real;
    assert i as real * ratio <= (q - 0.5) * ratio;
    assert SourcePos(i, ratio) < len as real;
  }

  /** Output sample `i`: interpolated between the two neighbouring inputs, or the last input itself. */
  function SampleAt(input: seq<real>, ratio: real, i: nat): (v: real)
    requires ratio > 0.0 && i < OutputLength(|input|, ratio)
    ensures var index := SourcePos(i, ratio).Floor;
            0 <= index < |input|
            && (index + 1 < |input| ==> Between(v, input[index], input[index + 1]))
            && (index + 1 >= |input| ==> v == input[index])
  {
    IndexInBounds(i, |input|, ratio);
    var pos := SourcePos(i, ratio);
    var index := pos.Floor;
    var fraction := pos - index as real;
    if index + 1 < |input| then
      InterpolateBetween(input[index], input[index + 1], fraction);
      input[index] * (1.0 - fraction) + input[index + 1] * fraction
    else input[index]
  }

  predicate Between(v: real, a: real, b: real) {
    (a <= v <= b) || (b <= v <= a)
  }

  lemma InterpolateBetween(a: real, b: real, f: real)
    requires 0.0 <= f < 1.0
    ensures Between(a * (1.0 - f) + b * f, a, b)
  {
    var v := a * (1.0 - f) + b * f;
    assert v == a + (b - a) * f;
    if a <= b {
      MulNonNegative(b - a, f);
      MulNonNegative(b - a, 1.0 - f);
      assert (b - a) - (b - a) * f == (b - a) * (1.0 - f);
    } else {
      MulNonNegative(a - b, f);
      MulNonNegative(a - b, 1.0 - f);
      assert (a - b) - (a - b) * f == (a - b) * (1.0 - f);
    }
  }

  lemma MulNonNegative(x: real, y: real)
    requires x >= 0.0 && y >= 0.0
    ensures x * y >= 0.0
  {
  }

  /** The resampled signal, position by position. */
  function Resampled(input: seq<real>, inRate: real, outRate: real): (r: seq<real>)
    requires inRate > 0.0 && outRate > 0.0
    ensures inRate == outRate ==> r == input
    ensures inRate != outRate ==> |r| == OutputLength(|input|, inRate / outRate)
  {
    if inRate == outRate then input
    else
      var ratio := inRate / outRate;
      var n := OutputLength(|input|, ratio);
      if n <= 0 then []
      else seq(n, i requires 0 <= i < n => SampleAt(input, ratio, i))
  }

  /** `resample`: the loop that fills the output buffer. */
  method Resample(input: seq<real>, inRate: real, outRate: real) returns (output: seq<real>)
    requires inRate > 0.0 && outRate > 0.0
    ensures output == Resampled(input, inRate, outRate)
    ensures inRate != outRate ==>
              forall i :: 0 <= i < |output| ==>
                var index := SourcePos(i, inRate / outRate).Floor;
                0 <= index < |input| && (index + 1 < |input| ==> Between(output[i], input[index], input[index + 1]))
  {
    if inRate == outRate {
      return input;
    }
    var ratio := inRate / outRate;
    var n := OutputLength(|input|, ratio);
    var m := if n > 0 then n else 0;
    output := [];
    var i := 0;
    while i < m
      invariant 0 <= i <= m
      invariant |output| == i
      invariant forall k :: 0 <= k < i ==> output[k] == SampleAt(input, ratio, k)
    {
      IndexInBounds(i, |input|, ratio);
      var pos := i as real * ratio;
      var index := pos.Floor;
      var fraction := pos - index as real;
      var v: real;
      if index + 1 < |input| {
        v := input[index] * (1.0 - fraction) + input[index + 1] * fraction;
      } else {
        v := input[index];
      }
      output := output + [v];
      i := i + 1;
    }
    assert output == Resampled(input, inRate, outRate);
    forall k | 0 <= k < |output|
      ensures var index := SourcePos(k, ratio).Floor;
              0 <= index < |input| && (index + 1 < |input| ==> Between(output[k], input[index], input[index + 1]))
    {
      assert output[k] == SampleAt(input, ratio, k);
    }
  }

  /** A sample rate in Hz. */
  type Rate = r: real | r > 0.0 witness 16000.0

  /** The decoded audio: channel 0 and its sample rate. */
  datatype Decoded = Decoded(channel: seq<real>, sampleRate: Rate)

  /** The browser's `decodeAudioData` applied to a blob's bytes: the decoded audio, or the error it rejects with. */
  type Decoder = seq<Byte> -> Result<Decoded, string>

  /**
   * `convertToPCM`: resample to the target rate when it differs, convert to
   * int16 and return the little-endian buffer; a decoding failure propagates.
   */
  function ConvertToPcm(decoded: Result<Decoded, string>, targetSampleRate: Rate): (r: Result<seq<Byte>, string>)
    ensures decoded.Failure? ==> r == Failure(decoded.error)
    ensures decoded.Success? ==>
              && r.Success?
              && var samples := Resampled(decoded.value.channel, decoded.value.sampleRate, targetSampleRate);
                 |r.value| == 2 * |samples|
                 && Pcm.ReadInt16s(r.value) == Pcm.FloatTo16BitPCM(samples)
  {
    match decoded
    case Failure(e) => Failure(e)
    case Success(d) =>
      var samples := Resampled(d.channel, d.sampleRate, targetSampleRate);
      var pcm := Pcm.FloatTo16BitPCM(samples);
      Pcm.ReadInt16sOfBuffer(pcm);
      Success(Pcm.Int16ArrayBuffer(pcm))
  }

  /** `convertBlobToPCMChunk`: always 16 kHz, so 16 kHz audio passes without resampling. */
  function ConvertBlobToPcmChunk(decoded: Result<Decoded, string>): (r: Result<seq<Byte>, string>)
    ensures decoded.Failure? ==> r == Failure(decoded.error)
    ensures decoded.Success? ==>
              && r.Success? && |r.value| % 2 == 0
              && Pcm.ReadInt16s(r.value) == Pcm.FloatTo16BitPCM(Resampled(decoded.value.channel, decoded.value.sampleRate, 16000.0))
    ensures decoded.Success? && decoded.value.sampleRate == 16000.0 ==>
              r.Success? && |r.value| % 2 == 0 && Pcm.ReadInt16s(r.value) == Pcm.FloatTo16BitPCM(decoded.value.channel)
  {
    ConvertToPcm(decoded, 16000.0)
  }

  /** Audio already at the target rate is converted without resampling. */
  lemma SameRateIsNotResampled(channel: seq<real>, rate: Rate)
    ensures ConvertToPcm(Success(Decoded(channel, rate)), rate).Success?
    ensures Pcm.ReadInt16s(ConvertToPcm(Success(Decoded(channel, rate)), rate).value) == Pcm.FloatTo16BitPCM(channel)
  {
  }
}

=== FILE: audio_level.dfy ===
/**
 * The loudness both recorders report while recording: the mean of the
 * analyser's byte-valued frequency bins as a percentage of full scale.
 */
module AudioLevel {
  import opened Base64

  /** `fftSize` 256 gives 128 frequency bins. */
  const FftSize: nat := 256
  const FrequencyBinCount: nat := FftSize / 2

  /** One `getByteFrequencyData` reading. */
  type Spectrum = s: seq<Byte> | |s| == 128 witness seq(128, _ => 0)

  function Sum(bins: seq<Byte>): (total: nat)
    ensures total <= 255 * |bins|
  {
    if |bins| == 0 then 0 else Sum(bins[..|bins| - 1]) + bins[|bins| - 1]
  }

  /** The sum reaches its maximum exactly when every bin is saturated. */
  lemma {:induction false} SumFull(bins: seq<Byte>)
    ensures Sum(bins) == 255 * |bins| <==> forall i :: 0 <= i < |bins| ==> bins[i] == 255
  {
    if |bins| > 0 {
      var init := bins[..|bins| - 1];
      SumFull(init);
      if Sum(bins) == 255 * |bins| {
        assert Sum(init) == 255 * |init| && bins[|bins| - 1] == 255;
        forall i | 0 <= i < |bins| ensures bins[i] == 255 {
          if i < |init| { assert bins[i] == init[i]; }
        }
      }
    }
  }

  /** The sum is zero exactly when every bin is silent. */
  lemma {:induction false} SumZero(bins: seq<Byte>)
    ensures Sum(bins) == 0 <==> forall i :: 0 <= i < |bins| ==> bins[i] == 0
  {
    if |bins| > 0 {
      var init := bins[..|bins| - 1];
      SumZero(init);
      if Sum(bins) == 0 {
        forall i | 0 <= i < |bins| ensures bins[i] == 0 {
          if i < |init| { assert bins[i] == init[i]; }
        }
      }
    }
  }

  /** A louder reading, bin by bin, never has a smaller sum. */
  lemma {:induction false} SumMonotone(a: seq<Byte>, b: seq<Byte>)
    requires |a| == |b| && forall i :: 0 <= i < |a| ==> a[i] <= b[i]
    ensures Sum(a) <= Sum(b)
  {
    if |a| > 0 {
      SumMonotone(a[..|a| - 1], b[..|b| - 1]);
    }
  }

  /** `Math.min(100, (sum / bufferLength / 255) * 100)`. */
  function Level(bins: Spectrum): (level: real)
    ensures 0.0 <= level <= 100.0
  {
    var average := Sum(bins) as real / FrequencyBinCount as real;
    var scaled := average / 255.0 * 100.0;
    if scaled < 100.0 then scaled else 100.0
  }

  /** The level is 100 exactly when every bin is saturated, and 0 exactly when all are silent. */
  lemma LevelExtremes(bins: Spectrum)
    ensures Level(bins) == 100.0 <==> forall i :: 0 <= i < |bins| ==> bins[i] == 255
    ensures Level(bins) == 0.0 <==> forall i :: 0 <= i < |bins| ==> bins[i] == 0
  {
    SumFull(bins);
    SumZero(bins);
    var total := Sum(bins) as real;
    assert total / FrequencyBinCount as real / 255.0 * 100.0 == total / 326.4;
    assert total / 326.4 < 100.0 <==> Sum(bins) < 255 * |bins|;
  }

  lemma LevelMonotone(a: Spectrum, b: Spectrum)
    requires forall i :: 0 <= i < |a| ==> a[i] <= b[i]
    ensures Level(a) <= Level(b)
  {
    SumMonotone(a, b);
    var x, y := Sum(a) as real, Sum(b) as real;
    assert x / FrequencyBinCount as real / 255.0 * 100.0 == x / 326.4;
    assert y / FrequencyBinCount as real / 255.0 * 100.0 == y / 326.4;
    assert x / 326.4 <= y / 326.4;
  }
}

=== FILE: base64.dfy ===
/**
 * Base64 with the standard alphabet and `=` padding (section 4 of RFC 4648),
 * as produced by `btoa` and by `Buffer.toString('base64')`, together with the
 * decoder that inverts it and the byte encodings of text that feed it.
 */
module Base64 {
  import opened Wrappers

  type Byte = b: int | 0 <= b < 256

  /** The 6-bit value `v` as an alphabet character: A-Z, a-z, 0-9, '+', '/'. */
  function CharOf(v: nat): (c: char)
    requires v < 64
    ensures IsAlphabet(c)
  {
    if v < 26 then (('A' as int) + v) as char
    else if v < 52 then (('a' as int) + (v - 26)) as char
    else if v < 62 then (('0' as int) + (v - 52)) as char
    else if v == 62 then '+'
    else '/'
  }

  predicate IsAlphabet(c: char) {
    ('A' <= c <= 'Z') || ('a' <= c <= 'z') || ('0' <= c <= '9') || c == '+' || c == '/'
  }

  /** Inverse of `CharOf` on the alphabet. */
  function ValueOf(c: char): (v: nat)
    requires IsAlphabet(c)
    ensures v < 64
  {
    if 'A' <= c <= 'Z' then (c as int) - ('A' as int)
    else if 'a' <= c <= 'z' then (c as int) - ('a' as int) + 26
    else if '0' <= c <= '9' then (c as int) - ('0' as int) + 52
    else if c == '+' then 62
    else 63
  }

  lemma ValueOfCharOf(v: nat)
    requires v < 64
    ensures ValueOf(CharOf(v)) == v
  {
  }

  /** Characters that may appear in an encoding. */
  predicate IsEncodingChar(c: char) {
    IsAlphabet(c) || c == '='
  }

  /** One full 3-byte group as four characters. */
  function EncodeGroup(b0: Byte, b1: Byte, b2: Byte): (r: string)
    ensures |r| == 4 && forall i :: 0 <= i < 4 ==> IsAlphabet(r[i])
  {
    [CharOf(b0 / 4), CharOf((b0 % 4) * 16 + b1 / 16), CharOf((b1 % 16) * 4 + b2 / 64), CharOf(b2 % 64)]
  }

  /** Encoding of a byte sequence, padded to a multiple of four characters. */
  function Encode(bytes: seq<Byte>): (r: string)
    ensures |r| == 4 * ((|bytes| + 2) / 3)
    ensures forall i :: 0 <= i < |r| ==> IsEncodingChar(r[i])
    decreases |bytes|
  {
    if |bytes| == 0 then ""
    else if |bytes| == 1 then
      [CharOf(bytes[0] / 4), CharOf((bytes[0] % 4) * 16), '=', '=']
    else if |bytes| == 2 then
      [CharOf(bytes[0] / 4), CharOf((bytes[0] % 4) * 16 + bytes[1] / 16), CharOf((bytes[1] % 16) * 4), '=']
    else
      GroupCount(|bytes|);
      EncodeGroup(bytes[0], bytes[1], bytes[2]) + Encode(bytes[3..])
  }

  /** A leading full group adds one group of four characters. */
  lemma GroupCount(n: nat)
    requires n >= 3
    ensures 4 * ((n + 2) / 3) == 4 + 4 * ((n - 3 + 2) / 3)
  {
  }

  /** Decoding of four alphabet characters back into three bytes. */
  function DecodeGroup(c0: char, c1: char, c2: char, c3: char): seq<Byte>
    requires IsAlphabet(c0) && IsAlphabet(c1) && IsAlphabet(c2) && IsAlphabet(c3)
  {
    var v0, v1, v2, v3 := ValueOf(c0), ValueOf(c1), ValueOf(c2), ValueOf(c3);
    [v0 * 4 + v1 / 16, (v1 % 16) * 16 + v2 / 4, (v2 % 4) * 64 + v3]
  }

  /** Decoder accepting exactly the padded, canonical encodings; padding only in the last group. */
  function Decode(s: string): Option<seq<Byte>>
    decreases |s|
  {
    if |s| == 0 then Some([])
    else if |s| < 4 then None
    else if |s| == 4 && IsAlphabet(s[0]) && IsAlphabet(s[1]) && s[2] == '=' && s[3] == '=' then
      var v0, v1 := ValueOf(s[0]), ValueOf(s[1]);
      if v1 % 16 == 0 then Some([v0 * 4 + v1 / 16]) else None
    else if |s| == 4 && IsAlphabet(s[0]) && IsAlphabet(s[1]) && IsAlphabet(s[2]) && s[3] == '=' then
      var v0, v1, v2 := ValueOf(s[0]), ValueOf(s[1]), ValueOf(s[2]);
      if v2 % 4 == 0 then Some([v0 * 4 + v1 / 16, (v1 % 16) * 16 + v2 / 4]) else None
    else if IsAlphabet(s[0]) && IsAlphabet(s[1]) && IsAlphabet(s[2]) && IsAlphabet(s[3]) then
      match Decode(s[4..])
      case None => None
      case Some(rest) => Some(DecodeGroup(s[0], s[1], s[2], s[3]) + rest)
    else None
  }

  lemma GroupRoundTrip(b0: Byte, b1: Byte, b2: Byte)
    ensures var g := EncodeGroup(b0, b1, b2);
            DecodeGroup(g[0], g[1], g[2], g[3]) == [b0, b1, b2]
  {
    ValueOfCharOf(b0 / 4);
    ValueOfCharOf((b0 % 4) * 16 + b1 / 16);
    ValueOfCharOf((b1 % 16) * 4 + b2 / 64);
    ValueOfCharOf(b2 % 64);
  }

  lemma DecodeEncodeOne(b0: Byte)
    ensures Decode(Encode([b0])) == Some([b0])
  {
    ValueOfCharOf(b0 / 4);
    ValueOfCharOf((b0 % 4) * 16);
  }

  lemma DecodeEncodeTwo(b0: Byte, b1: Byte)
    ensures Decode(Encode([b0, b1])) == Some([b0, b1])
  {
    var v1 := (b0 % 4) * 16 + b1 / 16;
    var v2 := (b1 % 16) * 4;
    ValueOfCharOf(b0 / 4);
    ValueOfCharOf(v1);
    ValueOfCharOf(v2);
    assert v1 / 16 == b0 % 4 && v1 % 16 == b1 / 16;
    assert v2 / 4 == b1 % 16 && v2 % 4 == 0;
    var s := Encode([b0, b1]);
    assert s[2] != '=' && s[3] == '=';
  }

  lemma DecodeLeadingGroup(g: string, rest: string)
    requires |g| == 4 && forall i :: 0 <= i < 4 ==> IsAlphabet(g[i])
    ensures Decode(rest).Some? ==> Decode(g + rest) == Some(DecodeGroup(g[0], g[1], g[2], g[3]) + Decode(rest).value)
  {
    var s := g + rest;
    assert s[4..] == rest;
    assert s[0] == g[0] && s[1] == g[1] && s[2] == g[2] && s[3] == g[3];
  }

  /** Decoding inverts encoding: the encoding loses no information. */
  lemma {:induction false} DecodeEncode(bytes: seq<Byte>)
    ensures Decode(Encode(bytes)) == Some(bytes)
    decreases |bytes|
  {
    if |bytes| == 1 {
      DecodeEncodeShort(bytes);
    } else if |bytes| == 2 {
      DecodeEncodeShort(bytes);
    } else if |bytes| >= 3 {
      DecodeEncode(bytes[3..]);
      DecodeEncodeStep(bytes);
    }
  }

  lemma DecodeEncodeShort(bytes: seq<Byte>)
    requires |bytes| == 1 || |bytes| == 2
    ensures Decode(Encode(bytes)) == Some(bytes)
  {
    if |bytes| == 1 {
      assert bytes == [bytes[0]];
      DecodeEncodeOne(bytes[0]);
    } else {
      assert bytes == [bytes[0], bytes[1]];
      DecodeEncodeTwo(bytes[0], bytes[1]);
    }
  }

  /** A leading full group decodes back in front of the decoded rest. */
  lemma DecodeEncodeStep(bytes: seq<Byte>)
    requires |bytes| >= 3 && Decode(Encode(bytes[3..])) == Some(bytes[3..])
    ensures Decode(Encode(bytes)) == Some(bytes)
  {
    SplitThree(bytes);
    var g := EncodeGroup(bytes[0], bytes[1], bytes[2]);
    var rest := Encode(bytes[3..]);
    assert Encode(bytes) == g + rest;
    GroupRoundTrip(bytes[0], bytes[1], bytes[2]);
    DecodeLeadingGroup(g, rest);
  }

  lemma SplitThree(xs: seq<Byte>)
    requires |xs| >= 3
    ensures xs == [xs[0], xs[1], xs[2]] + xs[3..]
  {
  }

  /** Distinct byte sequences have distinct encodings. */
  lemma EncodeInjective(a: seq<Byte>, b: seq<Byte>)
    requires Encode(a) == Encode(b)
    ensures a == b
  {
    DecodeEncode(a);
    DecodeEncode(b);
  }

  /** A string all of whose characters fit in one byte (what `btoa` accepts). */
  predicate IsLatin1(s: string) {
    forall i :: 0 <= i < |s| ==> (s[i] as int) < 256
  }

  predicate IsAscii(s: string) {
    forall i :: 0 <= i < |s| ==> (s[i] as int) < 128
  }

  /** The character codes of a one-byte-per-character ("binary") string. */
  function Latin1Bytes(s: string): (r: seq<Byte>)
    requires IsLatin1(s)
    ensures |r| == |s|
    ensures forall i :: 0 <= i < |s| ==> r[i] == s[i] as int
  {
    seq(|s|, i requires 0 <= i < |s| => s[i] as int)
  }

  /** The UTF-8 encoding of one Unicode scalar value. */
  function Utf8Char(c: char): (r: seq<Byte>)
    ensures 1 <= |r| <= 4
    ensures (c as int) < 128 <==> |r| == 1
    ensures (c as int) < 128 ==> r == [c as int]
  {
    var n := c as int;
    if n < 0x80 then [n]
    else if n < 0x800 then [0xC0 + n / 64, 0x80 + n % 64]
    else if n < 0x10000 then [0xE0 + n / 4096, 0x80 + (n / 64) % 64, 0x80 + n % 64]
    else [0xF0 + n / 262144, 0x80 + (n / 4096) % 64, 0x80 + (n / 64) % 64, 0x80 + n % 64]
  }

  /** The UTF-8 encoding of a string (`Buffer.from(s)`). */
  function Utf8Bytes(s: string): (r: seq<Byte>)
    ensures |r| >= |s|
  {
    if |s| == 0 then [] else Utf8Bytes(s[..|s| - 1]) + Utf8Char(s[|s| - 1])
  }

  /** On ASCII text the UTF-8 bytes are the character codes. */
  lemma {:induction false} Utf8OfAscii(s: string)
    requires IsAscii(s)
    ensures IsLatin1(s) && Utf8Bytes(s) == Latin1Bytes(s)
  {
    if |s| > 0 {
      Utf8OfAscii(s[..|s| - 1]);
      assert Latin1Bytes(s) == Latin1Bytes(s[..|s| - 1]) + [s[|s| - 1] as int];
    }
  }

  /** `btoa`: throws (None) on a character above U+00FF. */
  function Btoa(s: string): (r: Option<string>)
    ensures r.Some? <==> IsLatin1(s)
    ensures r.Some? ==> Decode(r.value) == Some(Latin1Bytes(s))
  {
    if IsLatin1(s) then
      DecodeEncode(Latin1Bytes(s));
      Some(Encode(Latin1Bytes(s)))
    else None
  }

  /** `Buffer.from(s).toString('base64')`. */
  function BufferBase64(s: string): (r: string)
    ensures Decode(r) == Some(Utf8Bytes(s))
  {
    DecodeEncode(Utf8Bytes(s));
    Encode(Utf8Bytes(s))
  }

  /** `String.fromCharCode(...bytes)`: one character per byte. */
  function BinaryString(bytes: seq<Byte>): (s: string)
    ensures IsLatin1(s) && Latin1Bytes(s) == bytes
  {
    seq(|bytes|, i requires 0 <= i < |bytes| => bytes[i] as char)
  }

  /** `btoa` of a binary string is the encoding of its bytes. */
  lemma BtoaBinaryString(bytes: seq<Byte>)
    ensures Btoa(BinaryString(bytes)) == Some(Encode(bytes))
  {
  }
}

=== FILE: budget_overview.dfy ===
/**
 * The budget card (`BudgetOverview.tsx`): which view is rendered for the
 * expense statistics, its colour band, the progress-bar width and the
 * two warnings. Markup and number formatting are left to the view layer.
 */
module BudgetOverview {
  import opened Wrappers

  datatype Stats = Stats(
    totalBudget: real,
    totalSpent: real,
    remainingBudget: real,
    usagePercentage: real,
    expenseCount: int)

  /** The shared colour band of the usage figure and the progress bar. */
  datatype Band = Red | Yellow | Green

  datatype Card = Card(
    usageColor: string,       // the class of the percentage text
    progressColor: string,    // the class of the bar
    barWidth: real,           // percent of the track
    remainingShown: real,     // the remaining amount as displayed
    overspent: bool,          // the " (超支)" marker and the red remaining figure
    overWarning: bool,        // the over-budget notice
    nearWarning: bool)        // the nearly-exhausted notice

  datatype View = Skeleton | Nothing | Overview(card: Card)

  /** The colour band of a usage percentage: red from 100, yellow from 80, green below. */
  function BandOf(pct: real): (b: Band)
    ensures b == Red <==> pct >= 100.0
    ensures b == Yellow <==> 80.0 <= pct < 100.0
    ensures b == Green <==> pct < 80.0
  {
    if pct >= 100.0 then Red else if pct >= 80.0 then Yellow else Green
  }

  function TextClass(b: Band): string {
    match b
    case Red => "text-red-600"
    case Yellow => "text-yellow-600"
    case Green => "text-green-600"
  }

  function BarClass(b: Band): string {
    match b
    case Red => "bg-red-500"
    case Yellow => "bg-yellow-500"
    case Green => "bg-green-500"
  }

  function Abs(x: real): real {
    if x < 0.0 then -x else x
  }

  function Min(a: real, b: real): real {
    if a <= b then a else b
  }

  /** The component: a skeleton while loading, nothing without statistics, else the card. */
  function Render(stats: Option<Stats>, isLoading: bool): (v: View)
    ensures isLoading <==> v == Skeleton
    ensures v == Nothing <==> !isLoading && stats.None?
  {
    if isLoading then Skeleton
    else if stats.None? then Nothing
    else
      var s := stats.value;
      var over := s.remainingBudget < 0.0;
      var pct := s.usagePercentage;
      Overview(Card(
        TextClass(BandOf(pct)),
        BarClass(BandOf(pct)),
        Min(pct, 100.0),
        Abs(s.remainingBudget),
        over,
        over,
        !over && pct >= 80.0 && pct < 100.0))
  }

  /** Text and bar use one band: red from 100 %, yellow from 80 %, green below. */
  lemma ColourBands(s: Stats)
    ensures var c := Render(Some(s), false).card;
            && (s.usagePercentage >= 100.0 <==> c.usageColor == "text-red-600" && c.progressColor == "bg-red-500")
            && (80.0 <= s.usagePercentage < 100.0 <==> c.usageColor == "text-yellow-600" && c.progressColor == "bg-yellow-500")
            && (s.usagePercentage < 80.0 <==> c.usageColor == "text-green-600" && c.progressColor == "bg-green-500")
  {
  }

  /** The band is monotone: more usage never means a milder colour. */
  lemma BandMonotone(p: real, q: real)
    requires p <= q
    ensures BandOf(p) == Red ==> BandOf(q) == Red
    ensures BandOf(p) == Yellow ==> BandOf(q) != Green
  {
  }

  /** The bar never overflows its track and shows the usage exactly up to 100 %. */
  lemma BarWidth(s: Stats)
    ensures var w := Render(Some(s), false).card.barWidth;
            w <= 100.0 && w <= s.usagePercentage
            && (s.usagePercentage <= 100.0 ==> w == s.usagePercentage)
            && (s.usagePercentage >= 100.0 ==> w == 100.0)
  {
  }

  /** Over budget means a negative remainder, which is shown as its magnitude with the marker. */
  lemma OverBudget(s: Stats)
    ensures var c := Render(Some(s), false).card;
            && (c.overspent <==> s.remainingBudget < 0.0)
            && c.remainingShown >= 0.0
            && (c.remainingShown == s.remainingBudget || c.remainingShown == -s.remainingBudget)
            && (c.overWarning <==> c.overspent)
  {
  }

  /**
   * The near-exhaustion notice appears exactly when not over budget and the
   * usage is in the yellow band, so the two notices never appear together.
   */
  lemma WarningsExclusive(s: Stats)
    ensures var c := Render(Some(s), false).card;
            && !(c.overWarning && c.nearWarning)
            && (c.nearWarning <==> !c.overspent && BandOf(s.usagePercentage) == Yellow)
  {
  }
}

=== FILE: js_text.dfy ===
/**
 * The handful of JavaScript string operations the application relies on.
 * Strings are sequences of characters; for text in the Basic Multilingual
 * Plane (all the application's literals) a character is one UTF-16 code unit,
 * so lengths and indices agree with JavaScript's.
 */
module JsText {
  import opened Wrappers

  /** An optional string that is truthy: present and non-empty. */
  predicate Present(v: Option<string>) {
    v.Some? && v.value != ""
  }

  /** The characters `String.prototype.trim` removes; the same set is the regular-expression class `\s`. */
  predicate IsWhitespace(c: char) {
    || c == '\t' || c == '\n' || c == '\U{000B}' || c == '\U{000C}' || c == '\r' || c == ' '
    || c == '\U{00A0}' || c == '\U{1680}' || ('\U{2000}' <= c <= '\U{200A}')
    || c == '\U{2028}' || c == '\U{2029}' || c == '\U{202F}' || c == '\U{205F}'
    || c == '\U{3000}' || c == '\U{FEFF}'
  }

  /** The line terminators, which the regular-expression `.` does not match. */
  predicate IsLineTerminator(c: char) {
    c == '\n' || c == '\r' || c == '\U{2028}' || c == '\U{2029}'
  }

  predicate IsAsciiDigit(c: char) {
    '0' <= c <= '9'
  }

  predicate IsAsciiLetter(c: char) {
    ('A' <= c <= 'Z') || ('a' <= c <= 'z')
  }

  /** No leading and no trailing whitespace. */
  predicate Trimmed(s: string) {
    |s| == 0 || (!IsWhitespace(s[0]) && !IsWhitespace(s[|s| - 1]))
  }

  predicate AllWhitespace(s: string) {
    forall i :: 0 <= i < |s| ==> IsWhitespace(s[i])
  }

  /** `trimStart`: leading whitespace removed. */
  function TrimStart(s: string): string {
    if |s| > 0 && IsWhitespace(s[0]) then TrimStart(s[1..]) else s
  }

  /** `trimEnd`: trailing whitespace removed. */
  function TrimEnd(s: string): string {
    if |s| > 0 && IsWhitespace(s[|s| - 1]) then TrimEnd(s[..|s| - 1]) else s
  }

  /** `trimStart` keeps a suffix, and only whitespace goes. */
  lemma {:induction false} TrimStartShape(s: string)
    ensures |TrimStart(s)| <= |s| && TrimStart(s) == s[|s| - |TrimStart(s)|..]
    ensures AllWhitespace(s[..|s| - |TrimStart(s)|])
    ensures |TrimStart(s)| > 0 ==> !IsWhitespace(TrimStart(s)[0])
  {
    if |s| > 0 && IsWhitespace(s[0]) {
      var t := TrimStart(s[1..]);
      TrimStartShape(s[1..]);
      var n := |s| - |t|;
      assert t == s[n..] by {
        assert s[1..][n - 1..] == s[n..];
      }
      assert AllWhitespace(s[..n]) by {
        forall i | 0 <= i < n
          ensures IsWhitespace(s[..n][i])
        {
          if i > 0 {
            assert s[..n][i] == s[1..][..n - 1][i - 1];
          }
        }
      }
    }
  }

  /** `trimEnd` keeps a prefix, and only whitespace goes. */
  lemma {:induction false} TrimEndShape(s: string)
    ensures |TrimEnd(s)| <= |s| && TrimEnd(s) == s[..|TrimEnd(s)|]
    ensures AllWhitespace(s[|TrimEnd(s)|..])
    ensures |TrimEnd(s)| > 0 ==> !IsWhitespace(TrimEnd(s)[|TrimEnd(s)| - 1])
  {
    if |s| > 0 && IsWhitespace(s[|s| - 1]) {
      var t := TrimEnd(s[..|s| - 1]);
      TrimEndShape(s[..|s| - 1]);
      var n := |t|;
      assert t == s[..n] by {
        assert s[..|s| - 1][..n] == s[..n];
      }
      assert AllWhitespace(s[n..]) by {
        forall i | 0 <= i < |s| - n
          ensures IsWhitespace(s[n..][i])
        {
          if i < |s| - n - 1 {
            assert s[n..][i] == s[..|s| - 1][n..][i];
          }
        }
      }
    }
  }

  /** `String.prototype.trim`: the longest inner slice with whitespace removed from both ends. */
  function Trim(s: string): (r: string)
    ensures Trimmed(r)
    ensures exists k :: TrimmedAt(s, r, k)
  {
    var a := TrimStart(s);
    var r := TrimEnd(a);
    TrimStartShape(s);
    TrimEndShape(a);
    var k := |s| - |a|;
    assert s[k..][..|r|] == s[k..k + |r|];
    assert s[k + |r|..] == a[|r|..];
    assert TrimmedAt(s, r, k);
    r
  }

  /** `r` is the slice of `s` at `k` and everything around it is whitespace. */
  predicate TrimmedAt(s: string, r: string, k: int) {
    0 <= k && k + |r| <= |s| && r == s[k..k + |r|]
    && AllWhitespace(s[..k]) && AllWhitespace(s[k + |r|..])
  }

  /** `sub` occurs in `s` starting at index `k`. */
  predicate OccursAt(s: string, sub: string, k: int) {
    0 <= k && k + |sub| <= |s| && s[k..k + |sub|] == sub
  }

  /** `String.prototype.includes`. */
  predicate Includes(s: string, sub: string) {
    exists k | 0 <= k <= |s| :: OccursAt(s, sub, k)
  }

  /** `String.prototype.startsWith`. */
  predicate StartsWith(s: string, prefix: string) {
    |prefix| <= |s| && s[..|prefix|] == prefix
  }

  /** The first occurrence of `sub` at or after `from` (`String.prototype.indexOf`). */
  function IndexOfFrom(s: string, sub: string, from: nat): (r: Option<nat>)
    requires from <= |s|
    decreases |s| - from
    ensures r.Some? ==> from <= r.value && OccursAt(s, sub, r.value)
    ensures r.Some? ==> forall k :: from <= k < r.value ==> !OccursAt(s, sub, k)
    ensures r.None? ==> forall k :: from <= k ==> !OccursAt(s, sub, k)
  {
    if OccursAt(s, sub, from) then Some(from)
    else if from == |s| then None
    else IndexOfFrom(s, sub, from + 1)
  }

  function IndexOf(s: string, sub: string): (r: Option<nat>)
    ensures r.Some? ==> OccursAt(s, sub, r.value) && forall k :: 0 <= k < r.value ==> !OccursAt(s, sub, k)
    ensures r.None? <==> !Includes(s, sub)
  {
    IndexOfFrom(s, sub, 0)
  }

  /** `s.split(sep)[0]` for a non-empty separator: everything before the first occurrence. */
  function BeforeFirst(s: string, sep: string): (r: string)
    requires |sep| > 0
    ensures StartsWith(s, r)
    ensures !Includes(r, sep)
    ensures Includes(s, sep) ==> OccursAt(s, sep, |r|)
    ensures !Includes(s, sep) ==> r == s
  {
    match IndexOf(s, sep)
    case None => s
    case Some(k) =>
      var r := s[..k];
      assert !Includes(r, sep) by {
        forall j | OccursAt(r, sep, j) ensures false {
          assert s[j..j + |sep|] == r[j..j + |sep|];
          assert OccursAt(s, sep, j) && j < k;
        }
      }
      r
  }

  /** Every character of `x` also occurs in `y`. */
  predicate CharsFrom(x: string, y: string) {
    forall i :: 0 <= i < |x| ==> x[i] in y
  }

  function DigitChar(d: nat): (c: char)
    requires d < 10
    ensures IsAsciiDigit(c)
    ensures (c as int) - ('0' as int) == d
  {
    ['0', '1', '2', '3', '4', '5', '6', '7', '8', '9'][d]
  }

  /** Decimal rendering of a natural number (`Number.prototype.toString()`). */
  function NatToString(n: nat): (r: string)
    ensures |r| >= 1
    ensures forall i :: 0 <= i < |r| ==> IsAsciiDigit(r[i])
    ensures |r| > 1 ==> r[0] != '0'
    decreases n
  {
    if n < 10 then [DigitChar(n)] else NatToString(n / 10) + [DigitChar(n % 10)]
  }

  /** Reads back a string of decimal digits. */
  function ParseDigits(s: string): nat
    requires forall i :: 0 <= i < |s| ==> IsAsciiDigit(s[i])
  {
    if |s| == 0 then 0 else 10 * ParseDigits(s[..|s| - 1]) + DigitValue(s[|s| - 1])
  }

  function DigitValue(c: char): (d: nat)
    requires IsAsciiDigit(c)
    ensures d < 10
  {
    (c as int) - ('0' as int)
  }

  lemma {:induction false} ParseNatToString(n: nat)
    ensures ParseDigits(NatToString(n)) == n
    decreases n
  {
    if n >= 10 {
      var r := NatToString(n);
      assert r[..|r| - 1] == NatToString(n / 10);
      ParseNatToString(n / 10);
    }
  }

  /** Decimal rendering of an integer, with a leading minus for negatives. */
  function IntToString(n: int): (r: string)
    ensures n >= 0 ==> r == NatToString(n)
    ensures n < 0 ==> r == "-" + NatToString(-n)
  {
    if n >= 0 then NatToString(n) else "-" + NatToString(-n)
  }

  /**
   * The `%` operator on integral numbers: the remainder of division truncated
   * toward zero, so it takes the sign of the dividend.
   */
  function Rem(a: int, b: int): (r: int)
    requires b != 0
    ensures a >= 0 ==> r == a % b
    ensures a >= 0 ==> 0 <= r < (if b > 0 then b else -b)
    ensures a < 0 ==> -(if b > 0 then b else -b) < r <= 0
  {
    if a >= 0 then a % b else -((-a) % b)
  }

  /** The first position of character `c` (`String.prototype.indexOf` with a one-character argument). */
  function IndexOfChar(s: string, c: char): (r: Option<nat>)
    ensures r.Some? ==> r.value < |s| && s[r.value] == c && c !in s[..r.value]
    ensures r.None? <==> c !in s
  {
    if |s| == 0 then None
    else if s[0] == c then Some(0)
    else match IndexOfChar(s[1..], c)
      case None => None
      case Some(k) =>
        assert s[..k + 1] == [s[0]] + s[1..][..k];
        Some(k + 1)
  }

  /** `s.split(sep)` for a one-character separator: the pieces between separators, at least one. */
  function Split(s: string, sep: char): (parts: seq<string>)
    ensures |parts| >= 1
    ensures forall i :: 0 <= i < |parts| ==> sep !in parts[i]
    decreases |s|
  {
    match IndexOfChar(s, sep)
    case None => [s]
    case Some(k) => [s[..k]] + Split(s[k + 1..], sep)
  }

  /** `parts.join(sep)`. */
  function Join(parts: seq<string>, sep: char): string {
    if |parts| == 0 then ""
    else if |parts| == 1 then parts[0]
    else parts[0] + [sep] + Join(parts[1..], sep)
  }

  lemma IndexOfCharAfterPiece(p: string, sep: char, rest: string)
    requires sep !in p
    ensures IndexOfChar(p + [sep] + rest, sep) == Some(|p|)
  {
    var s := p + [sep] + rest;
    assert s[..|p|] == p;
    assert s[|p|] == sep;
  }

  /** Splitting undoes joining when no piece contains the separator. */
  lemma {:induction false} SplitJoin(parts: seq<string>, sep: char)
    requires |parts| >= 1
    requires forall i :: 0 <= i < |parts| ==> sep !in parts[i]
    ensures Split(Join(parts, sep), sep) == parts
    decreases |parts|
  {
    if |parts| == 1 {
      assert Join(parts, sep) == parts[0];
    } else {
      var rest := Join(parts[1..], sep);
      var s := parts[0] + [sep] + rest;
      assert Join(parts, sep) == s;
      assert Split(s, sep) == [parts[0]] + Split(rest, sep) by {
        IndexOfCharAfterPiece(parts[0], sep, rest);
        assert s[..|parts[0]|] == parts[0];
        assert s[|parts[0]| + 1..] == rest;
      }
      assert Split(rest, sep) == parts[1..] by {
        SplitJoin(parts[1..], sep);
      }
      assert parts == [parts[0]] + parts[1..];
    }
  }

  // ---------------------------------------------------------------------------
  // UTF-16 code units

  /**
   * The UTF-16 code units of a character: two for a supplementary character
   * (a surrogate pair), one for a character of the Basic Multilingual Plane.
   */
  function CodeUnits(c: char): (n: nat)
    ensures n == 1 || n == 2
    ensures n == 2 <==> c as int >= 0x10000
  {
    if c as int >= 0x10000 then 2 else 1
  }

  /** `String.prototype.length`: the number of UTF-16 code units. */
  function Utf16Length(s: string): nat {
    if s == [] then 0 else CodeUnits(s[0]) + Utf16Length(s[1..])
  }

  /** Every character lies in the Basic Multilingual Plane. */
  predicate IsBmp(s: string) {
    forall i :: 0 <= i < |s| ==> s[i] as int < 0x10000
  }

  /**
   * `s.substring(0, n)` for an `s` that it does not cut inside a surrogate
   * pair: the longest prefix of at most `n` code units.
   */
  function UnitPrefix(s: string, n: nat): (r: string)
    ensures StartsWith(s, r)
    ensures Utf16Length(r) <= n
    ensures |r| < |s| ==> Utf16Length(r) + CodeUnits(s[|r|]) > n
  {
    if s == [] || CodeUnits(s[0]) > n then []
    else
      var rest := UnitPrefix(s[1..], n - CodeUnits(s[0]));
      assert ([s[0]] + rest)[1..] == rest;
      [s[0]] + rest
  }

  /** A string has at least as many code units as characters, and exactly as many when it is BMP text. */
  lemma {:induction false} Utf16LengthBounds(s: string)
    ensures |s| <= Utf16Length(s) <= 2 * |s|
    ensures IsBmp(s) <==> Utf16Length(s) == |s|
  {
    if s != [] {
      Utf16LengthBounds(s[1..]);
      assert IsBmp(s) <==> s[0] as int < 0x10000 && IsBmp(s[1..]) by {
        forall i | 1 <= i < |s| ensures s[i] == s[1..][i - 1] { }
      }
    }
  }

  /** A string that fits in `n` code units is its own prefix. */
  lemma {:induction false} UnitPrefixWhole(s: string, n: nat)
    requires Utf16Length(s) <= n
    ensures UnitPrefix(s, n) == s
  {
    if s != [] {
      UnitPrefixWhole(s[1..], n - CodeUnits(s[0]));
      assert [s[0]] + s[1..] == s;
    }
  }

  /** On BMP text, the prefix of `n` code units is the prefix of `n` characters. */
  lemma {:induction false} BmpUnitPrefix(s: string, n: nat)
    requires IsBmp(s)
    ensures |UnitPrefix(s, n)| == if |s| < n then |s| else n
  {
    if s != [] && CodeUnits(s[0]) <= n {
      assert IsBmp(s[1..]) by {
        forall i | 0 <= i < |s| - 1 ensures s[1..][i] as int < 0x10000 { assert s[1..][i] == s[i + 1]; }
      }
      BmpUnitPrefix(s[1..], n - 1);
    }
  }
}

=== FILE: map_utils.dfy ===
/**
 * Map data preparation for a trip itinerary (`map-utils`): address cleaning,
 * the city-prefix lookup, which activities become marker candidates and how
 * each is located and classified, the per-day routes, and the initial map
 * centre and zoom.
 *
 * Geocoding is asynchronous and concurrent in the application; here it is a
 * function parameter, and markers are listed in the order their lookups are
 * issued.
 */
module MapUtils {
  import opened Wrappers
  import JsText

  // ---------------------------------------------------------------------------
  // Text helpers
  // ---------------------------------------------------------------------------

  lemma CharsFromTrans(x: string, y: string, z: string)
    requires JsText.CharsFrom(x, y) && JsText.CharsFrom(y, z)
    ensures JsText.CharsFrom(x, z)
  {
    forall i | 0 <= i < |x| ensures x[i] in z {
      var j :| 0 <= j < |y| && y[j] == x[i];
    }
  }

  lemma SliceCharsFrom(s: string, a: nat, b: nat)
    requires a <= b <= |s|
    ensures JsText.CharsFrom(s[a..b], s)
  {
    forall i | 0 <= i < b - a ensures s[a..b][i] in s {
      assert s[a..b][i] == s[a + i];
    }
  }

  lemma TrimCharsFrom(s: string)
    ensures JsText.CharsFrom(JsText.Trim(s), s)
  {
    var k :| JsText.TrimmedAt(s, JsText.Trim(s), k);
    SliceCharsFrom(s, k, k + |JsText.Trim(s)|);
  }

  /** `s.split(sep)[0].trim()`: the trimmed text before the first separator. */
  function TrimmedBefore(s: string, sep: string): (r: string)
    requires |sep| > 0
    ensures JsText.Trimmed(r) && JsText.CharsFrom(r, s)
    ensures !JsText.Includes(s, sep) ==> r == JsText.Trim(s)
  {
    var a := JsText.BeforeFirst(s, sep);
    SliceCharsFrom(s, 0, |a|);
    assert s[0..|a|] == a;
    TrimCharsFrom(a);
    CharsFromTrans(JsText.Trim(a), a, s);
    JsText.Trim(a)
  }

  // ---------------------------------------------------------------------------
  // Regular-expression deletions
  // ---------------------------------------------------------------------------

  predicate IsOpener(c: char) { c == '(' || c == '\U{FF08}' }
  predicate IsCloser(c: char) { c == ')' || c == '\U{FF09}' }

  /**
   * The first closing bracket at or after `from`, as the lazy `.*?` finds it:
   * the `.` does not cross a line terminator, so one before the closer ends the search.
   */
  function CloserFrom(s: string, from: nat): (r: Option<nat>)
    requires from <= |s|
    ensures r.Some? ==> from <= r.value < |s| && IsCloser(s[r.value])
    ensures r.Some? ==> forall k :: from <= k < r.value ==> !IsCloser(s[k]) && !JsText.IsLineTerminator(s[k])
    decreases |s| - from
  {
    if from == |s| then None
    else if IsCloser(s[from]) then Some(from)
    else if JsText.IsLineTerminator(s[from]) then None
    else CloserFrom(s, from + 1)
  }

  /** `replace(/[（(].*?[)）]/g, '')`: every bracketed span, scanning left to right, is deleted. */
  function RemoveBrackets(s: string): string
    decreases |s|
  {
    if |s| == 0 then ""
    else if IsOpener(s[0]) && CloserFrom(s, 1).Some? then RemoveBrackets(s[CloserFrom(s, 1).value + 1..])
    else [s[0]] + RemoveBrackets(s[1..])
  }

  /** Deleting bracketed spans only removes characters. */
  lemma {:induction false} BracketsKeepChars(s: string)
    ensures |RemoveBrackets(s)| <= |s| && JsText.CharsFrom(RemoveBrackets(s), s)
    decreases |s|
  {
    if |s| > 0 {
      if IsOpener(s[0]) && CloserFrom(s, 1).Some? {
        var j := CloserFrom(s, 1).value;
        BracketsKeepChars(s[j + 1..]);
        SliceCharsFrom(s, j + 1, |s|);
        CharsFromTrans(RemoveBrackets(s[j + 1..]), s[j + 1..], s);
      } else {
        var t := RemoveBrackets(s[1..]);
        BracketsKeepChars(s[1..]);
        SliceCharsFrom(s, 1, |s|);
        CharsFromTrans(t, s[1..], s);
        assert RemoveBrackets(s) == [s[0]] + t;
      }
    }
  }

  lemma {:induction false} CloserFound(s: string, from: nat, j: nat)
    requires from <= j < |s| && IsCloser(s[j])
    requires forall k :: from <= k < j ==> !IsCloser(s[k]) && !JsText.IsLineTerminator(s[k])
    ensures CloserFrom(s, from) == Some(j)
    decreases j - from
  {
    if from < j {
      CloserFound(s, from + 1, j);
    }
  }

  /** Text without opening brackets passes through unchanged. */
  lemma {:induction false} NoOpenerKept(p: string, x: string)
    requires forall i :: 0 <= i < |p| ==> !IsOpener(p[i])
    ensures RemoveBrackets(p + x) == p + RemoveBrackets(x)
    decreases |p|
  {
    if |p| > 0 {
      var s := p + x;
      assert s[0] == p[0] && !IsOpener(s[0]);
      assert RemoveBrackets(s) == [p[0]] + RemoveBrackets(s[1..]);
      assert s[1..] == p[1..] + x;
      NoOpenerKept(p[1..], x);
      assert p == [p[0]] + p[1..];
      assert [p[0]] + (p[1..] + RemoveBrackets(x)) == p + RemoveBrackets(x);
    } else {
      assert p + x == x;
    }
  }

  /**
   * A bracketed span closes at the first closing bracket (either style), and
   * it is deleted together with its brackets; the text around it is kept.
   */
  lemma BracketSpanDropped(p: string, open: char, inner: string, close: char, rest: string)
    requires forall i :: 0 <= i < |p| ==> !IsOpener(p[i])
    requires IsOpener(open) && IsCloser(close)
    requires forall i :: 0 <= i < |inner| ==> !IsCloser(inner[i]) && !JsText.IsLineTerminator(inner[i])
    ensures RemoveBrackets(p + [open] + inner + [close] + rest) == p + RemoveBrackets(rest)
  {
    var s := [open] + inner + [close] + rest;
    CloserFound(s, 1, |inner| + 1);
    assert s[|inner| + 2..] == rest;
    assert p + [open] + inner + [close] + rest == p + s;
    NoOpenerKept(p, s);
  }

  /** An opening bracket with no closing bracket after it is kept as text. */
  lemma UnclosedOpenerKept(open: char, inner: string)
    requires IsOpener(open)
    requires forall i :: 0 <= i < |inner| ==> !IsCloser(inner[i])
    ensures RemoveBrackets([open] + inner) == [open] + RemoveBrackets(inner)
  {
    var s := [open] + inner;
    assert s[1..] == inner;
    if CloserFrom(s, 1).Some? {
      assert false;
    }
  }

  /** The first word of the alternation that matches at the start of `s`. */
  function WordAt(s: string, words: seq<string>): (r: Option<string>)
    ensures r.Some? ==> r.value in words && JsText.StartsWith(s, r.value)
    ensures r.None? ==> forall w :: w in words ==> !JsText.StartsWith(s, w)
  {
    if |words| == 0 then None
    else if JsText.StartsWith(s, words[0]) then Some(words[0])
    else WordAt(s, words[1..])
  }

  predicate NonEmptyWords(words: seq<string>) {
    forall w :: w in words ==> |w| > 0
  }

  /**
   * `replace(/w1|w2|…/g, '')`: one left-to-right pass deleting each match;
   * the text left after a deletion is not scanned again.
   */
  function RemoveWords(s: string, words: seq<string>): string
    requires NonEmptyWords(words)
    decreases |s|
  {
    if |s| == 0 then ""
    else match WordAt(s, words)
      case Some(w) => RemoveWords(s[|w|..], words)
      case None => [s[0]] + RemoveWords(s[1..], words)
  }

  /** Deleting words only removes characters. */
  lemma {:induction false} WordsKeepChars(s: string, words: seq<string>)
    requires NonEmptyWords(words)
    ensures |RemoveWords(s, words)| <= |s| && JsText.CharsFrom(RemoveWords(s, words), s)
    decreases |s|
  {
    if |s| > 0 {
      match WordAt(s, words) {
        case Some(w) =>
          WordsKeepChars(s[|w|..], words);
          SliceCharsFrom(s, |w|, |s|);
          CharsFromTrans(RemoveWords(s[|w|..], words), s[|w|..], s);
        case None =>
          var t := RemoveWords(s[1..], words);
          WordsKeepChars(s[1..], words);
          SliceCharsFrom(s, 1, |s|);
          CharsFromTrans(t, s[1..], s);
          assert RemoveWords(s, words) == [s[0]] + t;
      }
    }
  }

  /** Text in which no word occurs is left as it is. */
  lemma {:induction false} NoWordKept(s: string, words: seq<string>)
    requires NonEmptyWords(words)
    requires forall w :: w in words ==> !JsText.Includes(s, w)
    ensures RemoveWords(s, words) == s
    decreases |s|
  {
    if |s| > 0 {
      forall w | w in words ensures !JsText.StartsWith(s, w) {
        if JsText.StartsWith(s, w) {
          assert JsText.OccursAt(s, w, 0);
        }
      }
      forall w | w in words ensures !JsText.Includes(s[1..], w) {
        if JsText.Includes(s[1..], w) {
          var k :| 0 <= k <= |s[1..]| && JsText.OccursAt(s[1..], w, k);
          assert s[1..][k..k + |w|] == s[k + 1..k + 1 + |w|];
          assert JsText.OccursAt(s, w, k + 1);
        }
      }
      NoWordKept(s[1..], words);
    }
  }

  /** A word at the front is deleted when it is the alternation's first match there. */
  lemma WordDropped(w: string, rest: string, words: seq<string>)
    requires NonEmptyWords(words)
    requires WordAt(w + rest, words) == Some(w)
    ensures RemoveWords(w + rest, words) == RemoveWords(rest, words)
  {
    assert (w + rest)[|w|..] == rest;
  }

  const FuzzyWords: seq<string> := ["附近", "周边", "一带"]

  /** The administrative suffixes stripped from a destination. */
  const AdminSuffixes: seq<string> := ["市", "省", "自治区", "特别行政区"]

  /**
   * One pass can join the halves around a deleted word into a new
   * occurrence: "附周边近" loses 周边 and leaves 附近.
   */
  lemma SinglePassCanLeaveWord()
    ensures RemoveWords("附周边近", FuzzyWords) == "附近"
  {
    FuzzyWordsNonEmpty();
    var s := "附周边近";
    assert s[..2] == "附周";
    assert s[..2] != "附近" && s[..2] != "周边" && s[..2] != "一带";
    assert WordAt(s, FuzzyWords).None?;
    var t := s[1..];
    assert t == "周边近";
    assert t[..2] == "周边";
    assert WordAt(t, FuzzyWords) == Some("周边");
    assert t[2..] == "近";
    assert WordAt("近", FuzzyWords).None?;
    assert RemoveWords("近", FuzzyWords) == "近" by {
      assert "近"[1..] == "";
    }
  }

  /**
   * `cleanAddress`: the text before the first '→', then before the first
   * '->', with bracketed spans and the vague words 附近/周边/一带 deleted,
   * trimmed after every step. The result is trimmed, keeps only characters
   * of the original and never contains the arrow '→'.
   */
  function CleanAddress(address: string): (r: string)
    ensures JsText.Trimmed(r)
    ensures JsText.CharsFrom(r, address)
    ensures '\U{2192}' !in r
  {
    var a := TrimmedBefore(address, "\U{2192}");
    var b := TrimmedBefore(a, "->");
    FuzzyWordsNonEmpty();
    var r := JsText.Trim(RemoveWords(JsText.Trim(RemoveBrackets(b)), FuzzyWords));
    CleaningKeepsChars(b);
    CharsFromTrans(r, b, a);
    ArrowFree(address);
    CharsFromTrans(r, a, address);
    r
  }

  lemma FuzzyWordsNonEmpty()
    ensures NonEmptyWords(FuzzyWords)
  {
    forall w | w in FuzzyWords
      ensures |w| > 0
    {
      var i :| 0 <= i < |FuzzyWords| && FuzzyWords[i] == w;
      assert |FuzzyWords[i]| == 2;
    }
  }

  /** The last two steps of `cleanAddress` only delete characters. */
  lemma CleaningKeepsChars(b: string)
    ensures JsText.CharsFrom(JsText.Trim(RemoveWords(JsText.Trim(RemoveBrackets(b)), FuzzyWords)), b)
  {
    FuzzyWordsNonEmpty();
    var c := JsText.Trim(RemoveBrackets(b));
    var r := JsText.Trim(RemoveWords(c, FuzzyWords));
    BracketsKeepChars(b);
    TrimCharsFrom(RemoveBrackets(b));
    CharsFromTrans(c, RemoveBrackets(b), b);
    WordsKeepChars(c, FuzzyWords);
    TrimCharsFrom(RemoveWords(c, FuzzyWords));
    CharsFromTrans(r, RemoveWords(c, FuzzyWords), c);
    CharsFromTrans(r, c, b);
  }

  lemma ArrowFree(address: string)
    ensures '\U{2192}' !in TrimmedBefore(address, "\U{2192}")
  {
    var a := JsText.BeforeFirst(address, "\U{2192}");
    assert '\U{2192}' !in a by {
      if '\U{2192}' in a {
        var k :| 0 <= k < |a| && a[k] == '\U{2192}';
        assert a[k..k + 1] == "\U{2192}";
        assert JsText.OccursAt(a, "\U{2192}", k);
      }
    }
    TrimCharsFrom(a);
  }

  /** The destination's city: the administrative suffixes deleted and the rest trimmed; absent when empty. */
  function DestinationCity(destination: Option<string>): (r: Option<string>)
    ensures r.Some? <==> JsText.Present(destination)
    ensures r.Some? ==> JsText.Trimmed(r.value) && JsText.CharsFrom(r.value, destination.value)
  {
    if JsText.Present(destination) then
      var s := RemoveWords(destination.value, AdminSuffixes);
      WordsKeepChars(destination.value, AdminSuffixes);
      TrimCharsFrom(s);
      CharsFromTrans(JsText.Trim(s), s, destination.value);
      Some(JsText.Trim(s))
    else None
  }

  // ---------------------------------------------------------------------------
  // extractCityFromAddress
  // ---------------------------------------------------------------------------

  const Cities: seq<string> := [
    "北京", "上海", "天津", "重庆", "广州", "深圳", "杭州", "南京", "苏州", "成都",
    "武汉", "西安", "厦门", "青岛", "大连", "沈阳", "哈尔滨", "长春", "郑州", "济南",
    "合肥", "南昌", "长沙", "福州", "石家庄", "太原", "呼和浩特", "兰州", "西宁", "银川",
    "乌鲁木齐", "昆明", "贵阳", "南宁", "海口", "三亚", "拉萨", "香港", "澳门", "台北"
  ]

  /** The first listed city that the address starts with (`extractCityFromAddress`). */
  function CityOf(address: string): (r: Option<string>)
    ensures r.Some? ==> r.value in Cities && JsText.StartsWith(address, r.value)
    ensures r.None? <==> forall c :: c in Cities ==> !JsText.StartsWith(address, c)
  {
    WordAt(address, Cities)
  }

  /** The position of a listed city, read off its first two characters. */
  function Slot(x: char, y: char): int {
    if x == '北' && y == '京' then 0
    else if x == '上' && y == '海' then 1
    else if x == '天' && y == '津' then 2
    else if x == '重' && y == '庆' then 3
    else if x == '广' && y == '州' then 4
    else if x == '深' && y == '圳' then 5
    else if x == '杭' && y == '州' then 6
    else if x == '南' && y == '京' then 7
    else if x == '苏' && y == '州' then 8
    else if x == '成' && y == '都' then 9
    else if x == '武' && y == '汉' then 10
    else if x == '西' && y == '安' then 11
    else if x == '厦' && y == '门' then 12
    else if x == '青' && y == '岛' then 13
    else if x == '大' && y == '连' then 14
    else if x == '沈' && y == '阳' then 15
    else if x == '哈' && y == '尔' then 16
    else if x == '长' && y == '春' then 17
    else if x == '郑' && y == '州' then 18
    else if x == '济' && y == '南' then 19
    else if x == '合' && y == '肥' then 20
    else if x == '南' && y == '昌' then 21
    else if x == '长' && y == '沙' then 22
    else if x == '福' && y == '州' then 23
    else if x == '石' && y == '家' then 24
    else if x == '太' && y == '原' then 25
    else if x == '呼' && y == '和' then 26
    else if x == '兰' && y == '州' then 27
    else if x == '西' && y == '宁' then 28
    else if x == '银' && y == '川' then 29
    else if x == '乌' && y == '鲁' then 30
    else if x == '昆' && y == '明' then 31
    else if x == '贵' && y == '阳' then 32
    else if x == '南' && y == '宁' then 33
    else if x == '海' && y == '口' then 34
    else if x == '三' && y == '亚' then 35
    else if x == '拉' && y == '萨' then 36
    else if x == '香' && y == '港' then 37
    else if x == '澳' && y == '门' then 38
    else if x == '台' && y == '北' then 39
    else -1
  }

  lemma CitySlots()
    ensures forall i :: 0 <= i < |Cities| ==> |Cities[i]| >= 2 && Slot(Cities[i][0], Cities[i][1]) == i
  {
    CitySlotsBetween(0, 10);
    CitySlotsBetween(10, 20);
    CitySlotsBetween(20, 30);
    CitySlotsBetween(30, 40);
  }

  lemma CitySlotsBetween(lo: nat, hi: nat)
    requires lo <= hi <= |Cities| && hi - lo <= 10
    ensures forall i :: lo <= i < hi ==> |Cities[i]| >= 2 && Slot(Cities[i][0], Cities[i][1]) == i
  {
  }

  /** No listed city is a prefix of a different one. */
  lemma CitiesPrefixFree(i: nat, j: nat)
    requires i < |Cities| && j < |Cities|
    requires JsText.StartsWith(Cities[j], Cities[i])
    ensures i == j
  {
    CitySlots();
    var a, b := Cities[i], Cities[j];
    assert b[0] == a[0] && b[1] == a[1] by {
      assert b[..|a|] == a;
      assert b[..|a|][0] == b[0] && b[..|a|][1] == b[1];
    }
    assert Slot(a[0], a[1]) == Slot(b[0], b[1]);
  }

  /** So at most one city matches an address, and the list order does not matter. */
  lemma CityUnique(address: string, c: string)
    requires c in Cities && JsText.StartsWith(address, c)
    ensures CityOf(address) == Some(c)
  {
    var r := CityOf(address).value;
    var i :| 0 <= i < |Cities| && Cities[i] == r;
    var j :| 0 <= j < |Cities| && Cities[j] == c;
    if |r| <= |c| {
      CommonPrefix(address, r, c);
      CitiesPrefixFree(i, j);
    } else {
      CommonPrefix(address, c, r);
      CitiesPrefixFree(j, i);
    }
  }

  /** Of two prefixes of one text, the shorter is a prefix of the longer. */
  lemma CommonPrefix(s: string, short: string, long: string)
    requires JsText.StartsWith(s, short) && JsText.StartsWith(s, long) && |short| <= |long|
    ensures JsText.StartsWith(long, short)
  {
    assert long[..|short|] == s[..|long|][..|short|] == s[..|short|];
  }

  // ---------------------------------------------------------------------------
  // extractMarkersFromItinerary: which activities are located, and how
  // ---------------------------------------------------------------------------

  datatype Coord = Coord(lng: real, lat: real)

  /** `activity.coordinates`: each component is a number other than NaN, or `None` for anything else. */
  datatype Coordinates = Coordinates(lng: Option<real>, lat: Option<real>)

  datatype Activity = Activity(
    location: Option<string>,
    activity: Option<string>,
    description: Option<string>,
    fullAddress: Option<string>,
    coordinates: Option<Coordinates>)

  /** An itinerary day; `activities` is `None` when the field is missing or not an array. */
  datatype Day = Day(day: int, activities: Option<seq<Activity>>)

  datatype MarkerType = Hotel | Restaurant | Attraction

  /** Where a location's coordinates come from. */
  datatype Lookup =
    | Given(coord: Coord)                          // the itinerary's own coordinates
    | Geocode(address: string, city: Option<string>) // the geocoder, limited to a city when one is known

  /** One location whose lookup is issued, with everything its marker will carry. */
  datatype Candidate = Candidate(
    day: int,
    address: string,
    lookup: Lookup,
    kind: MarkerType,
    name: string,
    description: Option<string>)

  /** An activity together with the number of the day it belongs to. */
  datatype Visit = Visit(day: int, activity: Activity)

  /** Every activity of every day whose `activities` is an array, in itinerary order. */
  function Visits(itinerary: seq<Day>): (r: seq<Visit>)
    decreases |itinerary|
  {
    if |itinerary| == 0 then []
    else
      var d := itinerary[0];
      var here := if d.activities.Some? then seq(|d.activities.value|, i requires 0 <= i < |d.activities.value| => Visit(d.day, d.activities.value[i])) else [];
      here + Visits(itinerary[1..])
  }

  const HotelActivityWords: seq<string> := ["住宿", "酒店", "入住"]
  const HotelDescriptionWords: seq<string> := ["酒店", "宾馆"]
  const DiningActivityWords: seq<string> := ["午餐", "晚餐", "早餐", "用餐", "餐厅"]
  const DiningDescriptionWords: seq<string> := ["餐厅", "美食"]

  predicate MentionsAny(text: string, words: seq<string>) {
    exists w :: w in words && JsText.Includes(text, w)
  }

  /**
   * The marker type, from the activity text and description (each defaulting
   * to the empty string). A lodging word in either makes a hotel, checked
   * first; then a dining word makes a restaurant; everything else is an
   * attraction. So an activity mentioning both is a hotel.
   */
  function Classify(activity: Option<string>, description: Option<string>): (t: MarkerType)
    ensures var act, desc := activity.GetOr(""), description.GetOr("");
            var hotel := MentionsAny(act, HotelActivityWords) || MentionsAny(desc, HotelDescriptionWords);
            var dining := MentionsAny(act, DiningActivityWords) || MentionsAny(desc, DiningDescriptionWords);
            && (t == Hotel <==> hotel)
            && (t == Restaurant <==> !hotel && dining)
            && (t == Attraction <==> !hotel && !dining)
  {
    var act, desc := activity.GetOr(""), description.GetOr("");
    if MentionsAny(act, HotelActivityWords) || MentionsAny(desc, HotelDescriptionWords) then Hotel
    else if MentionsAny(act, DiningActivityWords) || MentionsAny(desc, DiningDescriptionWords) then Restaurant
    else Attraction
  }

  /** A hotel dinner is a hotel: lodging words win over dining words. */
  lemma HotelWinsOverDining()
    ensures Classify(Some("酒店晚餐"), None) == Hotel
  {
    assert "酒店" in HotelActivityWords;
    assert JsText.OccursAt("酒店晚餐", "酒店", 0);
  }

  /** Sightseeing mentions neither kind of word and is an attraction. */
  lemma SightseeingIsAttraction()
    ensures Classify(Some("游览外滩"), None) == Attraction
  {
    MentionsNone("游览外滩", HotelActivityWords);
    MentionsNone("游览外滩", DiningActivityWords);
    MentionsNone("", HotelDescriptionWords);
    MentionsNone("", DiningDescriptionWords);
  }

  /** Two-character words none of whose first characters occur in the text are not mentioned. */
  lemma MentionsNone(s: string, words: seq<string>)
    requires forall j :: 0 <= j < |words| ==> |words[j]| == 2 && forall i :: 0 <= i < |s| ==> s[i] != words[j][0]
    ensures !MentionsAny(s, words)
  {
    forall w | w in words ensures !JsText.Includes(s, w) {
      var j :| 0 <= j < |words| && words[j] == w;
      forall k | 0 <= k <= |s| ensures !JsText.OccursAt(s, w, k) {
        if k + 2 <= |s| {
          assert s[k..k + 2][0] == s[k];
        }
      }
    }
  }

  /** Both components are usable numbers. */
  predicate UsableCoordinates(c: Option<Coordinates>) {
    c.Some? && c.value.lng.Some? && c.value.lat.Some?
  }

  /** The text passed to the geocoder: the full address when there is one, else the cleaned location. */
  function GeocodeAddress(a: Activity, location: string): string {
    if JsText.Present(a.fullAddress) then a.fullAddress.value else location
  }

  /** The candidate built for an activity whose cleaned location is `location`. */
  function CandidateOf(v: Visit, location: string, destinationCity: Option<string>): Candidate {
    var a := v.activity;
    var lookup :=
      if UsableCoordinates(a.coordinates) then Given(Coord(a.coordinates.value.lng.value, a.coordinates.value.lat.value))
      else
        var address := GeocodeAddress(a, location);
        Geocode(address, if CityOf(address).Some? then CityOf(address) else destinationCity);
    Candidate(v.day, location, lookup, Classify(a.activity, a.description),
              if JsText.Present(a.activity) then a.activity.value else location, a.description)
  }

  /** The cleaned location of a visit; the empty string when it has no truthy location. */
  function LocationKey(v: Visit): string {
    ActivityKey(v.activity)
  }

  function LocationKeys(visits: seq<Visit>): (keys: seq<string>)
    ensures |keys| == |visits| && forall i :: 0 <= i < |visits| ==> keys[i] == LocationKey(visits[i])
  {
    seq(|visits|, i requires 0 <= i < |visits| => LocationKey(visits[i]))
  }

  /**
   * The positions from `from` on whose key is non-empty and not yet `seen`,
   * each key taken at its first position: the `processedLocations` filter.
   */
  function Picks(keys: seq<string>, from: nat, seen: set<string>): (r: seq<nat>)
    requires from <= |keys|
    ensures forall i :: 0 <= i < |r| ==> from <= r[i] < |keys|
    decreases |keys| - from
  {
    if from == |keys| then []
    else if keys[from] != "" && keys[from] !in seen then [from] + Picks(keys, from + 1, seen + {keys[from]})
    else Picks(keys, from + 1, seen)
  }

  /** Position `p` holds the first occurrence from `from` on of a fresh, non-empty key. */
  predicate FirstFresh(keys: seq<string>, from: nat, seen: set<string>, p: nat) {
    from <= p < |keys| && keys[p] != "" && keys[p] !in seen
    && forall j :: from <= j < p ==> keys[j] != keys[p]
  }

  /** Every pick is the first occurrence of a fresh key, and picks ascend. */
  lemma {:induction false} PicksAreFirstOccurrences(keys: seq<string>, from: nat, seen: set<string>)
    requires from <= |keys|
    ensures forall i :: 0 <= i < |Picks(keys, from, seen)| ==> FirstFresh(keys, from, seen, Picks(keys, from, seen)[i])
    ensures forall i, j :: 0 <= i < j < |Picks(keys, from, seen)| ==> Picks(keys, from, seen)[i] < Picks(keys, from, seen)[j]
    decreases |keys| - from
  {
    if from < |keys| {
      var r := Picks(keys, from, seen);
      var isNew := keys[from] != "" && keys[from] !in seen;
      var seen' := if isNew then seen + {keys[from]} else seen;
      var tail := Picks(keys, from + 1, seen');
      PicksAreFirstOccurrences(keys, from + 1, seen');
      forall i | 0 <= i < |tail| ensures FirstFresh(keys, from, seen, tail[i]) {
        FirstFreshStep(keys, from, seen, seen', tail[i]);
      }
      if isNew {
        assert r == [from] + tail;
        forall i | 0 <= i < |r| ensures FirstFresh(keys, from, seen, r[i]) {
          if i > 0 {
            assert r[i] == tail[i - 1];
          }
        }
        forall i, j | 0 <= i < j < |r| ensures r[i] < r[j] {
          assert r[j] == tail[j - 1] && from + 1 <= tail[j - 1];
          if i > 0 {
            assert r[i] == tail[i - 1];
          }
        }
      } else {
        assert r == tail;
      }
    }
  }

  lemma FirstFreshStep(keys: seq<string>, from: nat, seen: set<string>, seen': set<string>, p: nat)
    requires from < |keys| && FirstFresh(keys, from + 1, seen', p)
    requires seen <= seen' && (keys[from] == "" || keys[from] in seen')
    ensures FirstFresh(keys, from, seen, p)
  {
  }

  /** No key is picked twice. */
  lemma PicksDistinct(keys: seq<string>, from: nat, seen: set<string>)
    requires from <= |keys|
    ensures var r := Picks(keys, from, seen);
            forall i, j :: 0 <= i < j < |r| ==> keys[r[i]] != keys[r[j]]
  {
    PicksAreFirstOccurrences(keys, from, seen);
  }

  /** Every fresh, non-empty key from `from` on is picked. */
  lemma {:induction false} PicksComplete(keys: seq<string>, from: nat, seen: set<string>, k: nat)
    requires from <= k < |keys| && keys[k] != "" && keys[k] !in seen
    ensures exists i :: 0 <= i < |Picks(keys, from, seen)| && keys[Picks(keys, from, seen)[i]] == keys[k]
    decreases |keys| - from
  {
    var r := Picks(keys, from, seen);
    if keys[from] != "" && keys[from] !in seen {
      var seen' := seen + {keys[from]};
      var tail := Picks(keys, from + 1, seen');
      assert r == [from] + tail;
      if keys[k] == keys[from] {
        assert keys[r[0]] == keys[k];
      } else {
        PicksComplete(keys, from + 1, seen', k);
        var i :| 0 <= i < |tail| && keys[tail[i]] == keys[k];
        assert r[i + 1] == tail[i];
      }
    } else {
      assert k != from;
      PicksComplete(keys, from + 1, seen, k);
    }
  }

  /** The lookups `extractMarkersFromItinerary` issues, in order. */
  function MarkerCandidates(itinerary: seq<Day>, destination: Option<string>): seq<Candidate> {
    var visits := Visits(itinerary);
    var keys := LocationKeys(visits);
    var picks := Picks(keys, 0, {});
    seq(|picks|, i requires 0 <= i < |picks| => CandidateOf(visits[picks[i]], keys[picks[i]], DestinationCity(destination)))
  }

  /** Candidate `i` is the one built from the visit at pick `i`. */
  lemma CandidateAtPick(itinerary: seq<Day>, destination: Option<string>, i: nat)
    requires i < |MarkerCandidates(itinerary, destination)|
    ensures var keys := LocationKeys(Visits(itinerary));
            var p := Picks(keys, 0, {})[i];
            && |MarkerCandidates(itinerary, destination)| == |Picks(keys, 0, {})|
            && MarkerCandidates(itinerary, destination)[i] == CandidateOf(Visits(itinerary)[p], keys[p], DestinationCity(destination))
            && MarkerCandidates(itinerary, destination)[i].address == keys[p]
  {
  }

  /** No cleaned location is looked up twice. */
  lemma MarkerCandidatesDistinct(itinerary: seq<Day>, destination: Option<string>)
    ensures forall i, j :: 0 <= i < j < |MarkerCandidates(itinerary, destination)| ==>
              MarkerCandidates(itinerary, destination)[i].address != MarkerCandidates(itinerary, destination)[j].address
  {
    var keys := LocationKeys(Visits(itinerary));
    var r := MarkerCandidates(itinerary, destination);
    PicksDistinct(keys, 0, {});
    forall i, j | 0 <= i < j < |r| ensures r[i].address != r[j].address {
      CandidateAtPick(itinerary, destination, i);
      CandidateAtPick(itinerary, destination, j);
    }
  }

  /**
   * Every candidate has a non-empty address and is built from the first
   * activity of the itinerary whose cleaned location is that address.
   */
  lemma MarkerCandidatesFromFirstActivity(itinerary: seq<Day>, destination: Option<string>, i: nat)
    requires i < |MarkerCandidates(itinerary, destination)|
    ensures var c := MarkerCandidates(itinerary, destination)[i];
            c.address != "" &&
            exists k :: 0 <= k < |Visits(itinerary)|
              && LocationKey(Visits(itinerary)[k]) == c.address
              && c == CandidateOf(Visits(itinerary)[k], c.address, DestinationCity(destination))
              && forall j :: 0 <= j < k ==> LocationKey(Visits(itinerary)[j]) != c.address
  {
    var keys := LocationKeys(Visits(itinerary));
    PicksAreFirstOccurrences(keys, 0, {});
    CandidateAtPick(itinerary, destination, i);
    var k := Picks(keys, 0, {})[i];
    assert FirstFresh(keys, 0, {}, k);
  }

  /** Every activity whose cleaned location is non-empty is covered by a candidate. */
  lemma MarkerCandidatesCover(itinerary: seq<Day>, destination: Option<string>, k: nat)
    requires k < |Visits(itinerary)| && LocationKey(Visits(itinerary)[k]) != ""
    ensures exists i :: 0 <= i < |MarkerCandidates(itinerary, destination)|
              && MarkerCandidates(itinerary, destination)[i].address == LocationKey(Visits(itinerary)[k])
  {
    var keys := LocationKeys(Visits(itinerary));
    PicksComplete(keys, 0, {}, k);
    var i :| 0 <= i < |Picks(keys, 0, {})| && keys[Picks(keys, 0, {})[i]] == keys[k];
    CandidateAtPick(itinerary, destination, i);
  }

  /**
   * The lookup rule: the itinerary's coordinates when both are usable;
   * otherwise the geocoder, limited to the city the address starts with,
   * else to the destination's city.
   */
  lemma LookupRule(v: Visit, location: string, dc: Option<string>)
    ensures var c := CandidateOf(v, location, dc);
            && (c.lookup.Given? <==> UsableCoordinates(v.activity.coordinates))
            && (c.lookup.Given? ==> c.lookup.coord == Coord(v.activity.coordinates.value.lng.value, v.activity.coordinates.value.lat.value))
            && (c.lookup.Geocode? ==>
                  && c.lookup.address == GeocodeAddress(v.activity, location)
                  && c.lookup.city == (if CityOf(c.lookup.address).Some? then CityOf(c.lookup.address) else dc))
            && c.address == location
  {
  }

  /** A placed marker; its identifier depends on completion order and is left out. */
  datatype Marker = Marker(name: string, coord: Coord, address: Option<string>, kind: MarkerType, description: Option<string>, labelText: string)

  /** What a candidate's lookup finds: the given coordinate, or what the geocoder returns. */
  function Found(c: Candidate, geocode: (string, Option<string>) -> Option<Coord>): Option<Coord> {
    match c.lookup
    case Given(p) => Some(p)
    case Geocode(address, city) => geocode(address, city)
  }

  /** The marker placed for a candidate at the coordinate its lookup found. */
  function MarkerAt(c: Candidate, p: Coord): Marker {
    Marker(c.name, p, Some(c.address), c.kind, c.description, c.name)
  }

  /** The markers for the lookups that found coordinates, in issue order. */
  function Markers(candidates: seq<Candidate>, geocode: (string, Option<string>) -> Option<Coord>): (r: seq<Marker>)
    ensures |r| <= |candidates|
    decreases |candidates|
  {
    if |candidates| == 0 then []
    else
      var c := candidates[0];
      var found := Found(c, geocode);
      var rest := Markers(candidates[1..], geocode);
      if found.Some? then [MarkerAt(c, found.value)] + rest else rest
  }

  /**
   * Exactly the successful lookups become markers: every marker is placed for
   * a candidate at the coordinate its lookup found, keeping its address, name,
   * type and description, and every candidate whose lookup finds a coordinate
   * (given, or returned by the geocoder) has its marker.
   */
  lemma {:induction false} MarkersFromCandidates(candidates: seq<Candidate>, geocode: (string, Option<string>) -> Option<Coord>)
    ensures forall m :: m in Markers(candidates, geocode) ==>
              exists c :: c in candidates && Found(c, geocode) == Some(m.coord) && m == MarkerAt(c, m.coord)
    ensures forall c :: c in candidates && Found(c, geocode).Some? ==>
              MarkerAt(c, Found(c, geocode).value) in Markers(candidates, geocode)
    ensures forall c :: c in candidates && c.lookup.Given? ==>
              MarkerAt(c, c.lookup.coord) in Markers(candidates, geocode)
    ensures forall c :: c in candidates && c.lookup.Geocode? && geocode(c.lookup.address, c.lookup.city).Some? ==>
              MarkerAt(c, geocode(c.lookup.address, c.lookup.city).value) in Markers(candidates, geocode)
    decreases |candidates|
  {
    if |candidates| > 0 {
      MarkersFromCandidates(candidates[1..], geocode);
      forall c | c in candidates[1..] ensures c in candidates { }
    }
  }

  // ---------------------------------------------------------------------------
  // extractRoutesFromItinerary
  // ---------------------------------------------------------------------------

  /** The marker coordinates by address: markers with a truthy address, a later marker overriding an earlier one. */
  function LocationMap(markers: seq<Marker>): map<string, Coord>
    decreases |markers|
  {
    if |markers| == 0 then map[]
    else
      var m := LocationMap(markers[..|markers| - 1]);
      var last := markers[|markers| - 1];
      if JsText.Present(last.address) then m[last.address.value := last.coord] else m
  }

  /** The map holds exactly the truthy marker addresses. */
  lemma {:induction false} LocationMapDomain(markers: seq<Marker>, a: string)
    ensures a in LocationMap(markers) <==> a != "" && Some(a) in AddressesOf(markers)
    decreases |markers|
  {
    if |markers| > 0 {
      LocationMapDomain(markers[..|markers| - 1], a);
      assert AddressesOf(markers) == AddressesOf(markers[..|markers| - 1]) + [markers[|markers| - 1].address];
    }
  }

  function AddressesOf(markers: seq<Marker>): (r: seq<Option<string>>)
    ensures |r| == |markers| && forall i :: 0 <= i < |markers| ==> r[i] == markers[i].address
  {
    seq(|markers|, i requires 0 <= i < |markers| => markers[i].address)
  }

  /** An address maps to the coordinates of the last marker carrying it. */
  lemma {:induction false} LocationMapLastWins(markers: seq<Marker>, k: nat)
    requires k < |markers| && JsText.Present(markers[k].address)
    requires forall j :: k < j < |markers| ==> markers[j].address != markers[k].address
    ensures markers[k].address.value in LocationMap(markers)
    ensures LocationMap(markers)[markers[k].address.value] == markers[k].coord
    decreases |markers|
  {
    var n := |markers|;
    if k < n - 1 {
      var prefix := markers[..n - 1];
      assert prefix[k] == markers[k];
      LocationMapLastWins(prefix, k);
    }
  }

  /** A point of a day's route. */
  datatype Point = Point(name: string, coord: Coord, address: string)

  /** The cleaned location of an activity; the empty string when it has no truthy location. */
  function ActivityKey(a: Activity): string {
    if JsText.Present(a.location) then CleanAddress(a.location.value) else ""
  }

  /** The stop name of an activity: its title, else its cleaned location. */
  function StopName(a: Activity): string {
    if JsText.Present(a.activity) then a.activity.value else ActivityKey(a)
  }

  function ActivityKeys(activities: seq<Activity>): (keys: seq<string>)
    ensures |keys| == |activities| && forall i :: 0 <= i < |activities| ==> keys[i] == ActivityKey(activities[i])
  {
    seq(|activities|, i requires 0 <= i < |activities| => ActivityKey(activities[i]))
  }

  function StopNames(activities: seq<Activity>): (names: seq<string>)
    ensures |names| == |activities| && forall i :: 0 <= i < |activities| ==> names[i] == StopName(activities[i])
  {
    seq(|activities|, i requires 0 <= i < |activities| => StopName(activities[i]))
  }

  /** The stops whose key is non-empty and has a marker, in order, with the marker's coordinates. */
  function KeyedPath(names: seq<string>, keys: seq<string>, locations: map<string, Coord>): seq<Point>
    requires |names| == |keys|
    decreases |keys|
  {
    if |keys| == 0 then []
    else
      var rest := KeyedPath(names[1..], keys[1..], locations);
      if keys[0] != "" && keys[0] in locations then
        [Point(names[0], locations[keys[0]], keys[0])] + rest
      else rest
  }

  /** The day's activities whose cleaned location has a marker, in order, with the marker's coordinates. */
  function DayPath(activities: seq<Activity>, locations: map<string, Coord>): seq<Point> {
    KeyedPath(StopNames(activities), ActivityKeys(activities), locations)
  }

  lemma {:induction false} KeyedPathLocated(names: seq<string>, keys: seq<string>, locations: map<string, Coord>)
    requires |names| == |keys|
    ensures |KeyedPath(names, keys, locations)| <= |keys|
    ensures forall i :: 0 <= i < |KeyedPath(names, keys, locations)| ==>
              KeyedPath(names, keys, locations)[i].address != ""
              && KeyedPath(names, keys, locations)[i].address in locations
              && locations[KeyedPath(names, keys, locations)[i].address] == KeyedPath(names, keys, locations)[i].coord
    ensures forall k :: 0 <= k < |keys| && keys[k] != "" && keys[k] in locations ==>
              exists i :: 0 <= i < |KeyedPath(names, keys, locations)| && KeyedPath(names, keys, locations)[i].address == keys[k]
    decreases |keys|
  {
    if |keys| > 0 {
      var path := KeyedPath(names, keys, locations);
      var rest := KeyedPath(names[1..], keys[1..], locations);
      KeyedPathLocated(names[1..], keys[1..], locations);
      var d := if keys[0] != "" && keys[0] in locations then 1 else 0;
      assert |path| == |rest| + d;
      forall i | d <= i < |path|
        ensures path[i] == rest[i - d]
      {
        if d == 1 {
          assert path == [Point(names[0], locations[keys[0]], keys[0])] + rest;
        }
      }
      forall k | 0 <= k < |keys| && keys[k] != "" && keys[k] in locations
        ensures exists i :: 0 <= i < |path| && path[i].address == keys[k]
      {
        if k == 0 {
          assert path[0].address == keys[0];
        } else {
          assert keys[k] == keys[1..][k - 1];
          var i :| 0 <= i < |rest| && rest[i].address == keys[k];
          assert path[i + d] == rest[i];
        }
      }
    }
  }

  /**
   * Every stop of a day's path is a located activity with the coordinates
   * its marker has, and every located activity of the day is a stop.
   */
  lemma DayPathLocated(activities: seq<Activity>, locations: map<string, Coord>)
    ensures |DayPath(activities, locations)| <= |activities|
    ensures forall i :: 0 <= i < |DayPath(activities, locations)| ==>
              DayPath(activities, locations)[i].address != ""
              && DayPath(activities, locations)[i].address in locations
              && locations[DayPath(activities, locations)[i].address] == DayPath(activities, locations)[i].coord
    ensures forall k :: 0 <= k < |activities| && ActivityKey(activities[k]) != "" && ActivityKey(activities[k]) in locations ==>
              exists i :: 0 <= i < |DayPath(activities, locations)| && DayPath(activities, locations)[i].address == ActivityKey(activities[k])
  {
    var keys := ActivityKeys(activities);
    KeyedPathLocated(StopNames(activities), keys, locations);
  }

  const Palette: seq<string> := ["#1890ff", "#52c41a", "#fa8c16", "#722ed1", "#eb2f96", "#13c2c2"]

  /** `colors[(day - 1) % colors.length]`, with JavaScript's `%`; a negative index reads `undefined`. */
  function RouteColor(day: int): (c: Option<string>)
    ensures c.Some? ==> c.value in Palette
    ensures day >= 1 ==> c == Some(Palette[(day - 1) % 6])
  {
    var k := JsText.Rem(day - 1, |Palette|);
    if k >= 0 then Some(Palette[k]) else None
  }

  datatype Route = Route(id: string, name: string, path: seq<Point>, color: Option<string>, width: int)

  function RouteOf(day: int, path: seq<Point>): Route {
    Route("route-day-" + JsText.IntToString(day), "第" + JsText.IntToString(day) + "天路线", path, RouteColor(day), 6)
  }

  /** The route of each day with at least two located stops, in day order. */
  function RoutesFrom(days: seq<Day>, locations: map<string, Coord>): seq<Route>
    decreases |days|
  {
    if |days| == 0 then []
    else
      var d := days[0];
      var rest := RoutesFrom(days[1..], locations);
      if d.activities.Some? && |DayPath(d.activities.value, locations)| > 1 then
        [RouteOf(d.day, DayPath(d.activities.value, locations))] + rest
      else rest
  }

  /** `extractRoutesFromItinerary`. */
  function Routes(itinerary: seq<Day>, markers: seq<Marker>): (rs: seq<Route>)
    ensures var locations := LocationMap(markers);
            forall r :: r in rs ==>
              |r.path| >= 2 && r.width == 6 &&
              exists k :: 0 <= k < |itinerary| && HasRoute(itinerary[k], locations)
                && r == RouteOf(itinerary[k].day, DayPath(itinerary[k].activities.value, locations))
    ensures var locations := LocationMap(markers);
            forall k :: 0 <= k < |itinerary| && HasRoute(itinerary[k], locations) ==>
              RouteOf(itinerary[k].day, DayPath(itinerary[k].activities.value, locations)) in rs
  {
    RoutesExactlyForLocatedDays(itinerary, LocationMap(markers));
    RoutesFrom(itinerary, LocationMap(markers))
  }

  /** A day has a route exactly when at least two of its stops are located. */
  predicate HasRoute(d: Day, locations: map<string, Coord>) {
    d.activities.Some? && |DayPath(d.activities.value, locations)| > 1
  }

  /**
   * Every route belongs to a day with at least two located stops, is six
   * wide and carries that day's path; every such day has its route.
   */
  lemma {:induction false} RoutesExactlyForLocatedDays(days: seq<Day>, locations: map<string, Coord>)
    ensures forall r :: r in RoutesFrom(days, locations) ==>
              |r.path| >= 2 && r.width == 6 &&
              exists k :: 0 <= k < |days| && HasRoute(days[k], locations)
                && r == RouteOf(days[k].day, DayPath(days[k].activities.value, locations))
    ensures forall k :: 0 <= k < |days| && HasRoute(days[k], locations) ==>
              RouteOf(days[k].day, DayPath(days[k].activities.value, locations)) in RoutesFrom(days, locations)
    decreases |days|
  {
    if |days| > 0 {
      RoutesExactlyForLocatedDays(days[1..], locations);
      var rest := RoutesFrom(days[1..], locations);
      forall r | r in RoutesFrom(days, locations)
        ensures exists k :: 0 <= k < |days| && HasRoute(days[k], locations)
                  && r == RouteOf(days[k].day, DayPath(days[k].activities.value, locations))
      {
        if r in rest {
          var k :| 0 <= k < |days[1..]| && HasRoute(days[1..][k], locations)
                   && r == RouteOf(days[1..][k].day, DayPath(days[1..][k].activities.value, locations));
          assert days[k + 1] == days[1..][k];
        } else {
          assert HasRoute(days[0], locations);
        }
      }
      forall k | 0 <= k < |days| && HasRoute(days[k], locations)
        ensures RouteOf(days[k].day, DayPath(days[k].activities.value, locations)) in RoutesFrom(days, locations)
      {
        if k > 0 {
          assert days[k] == days[1..][k - 1];
        }
      }
    }
  }

  /**
   * Route colours cycle through the six-colour palette from day 1; day 0
   * and most negative day numbers index before the palette and get no colour.
   */
  lemma RouteColorCycles(day: int)
    ensures day >= 1 ==> RouteColor(day + 6) == RouteColor(day)
    ensures RouteColor(0) == None
  {
    assert JsText.Rem(-1, 6) == -1;
  }

  // ---------------------------------------------------------------------------
  // calculateMapCenter
  // ---------------------------------------------------------------------------

  datatype Camera = Camera(center: Coord, zoom: int)

  const Beijing: Coord := Coord(116.397428, 39.90923)

  function Sum(xs: seq<real>): real
    decreases |xs|
  {
    if |xs| == 0 then 0.0 else xs[0] + Sum(xs[1..])
  }

  /** `Math.max(...xs)` for a non-empty list. */
  function MaxOf(xs: seq<real>): (m: real)
    requires |xs| > 0
    ensures m in xs && forall i :: 0 <= i < |xs| ==> xs[i] <= m
    decreases |xs|
  {
    if |xs| == 1 then xs[0]
    else
      var t := MaxOf(xs[1..]);
      if xs[0] >= t then xs[0] else t
  }

  /** `Math.min(...xs)` for a non-empty list. */
  function MinOf(xs: seq<real>): (m: real)
    requires |xs| > 0
    ensures m in xs && forall i :: 0 <= i < |xs| ==> m <= xs[i]
    decreases |xs|
  {
    if |xs| == 1 then xs[0]
    else
      var t := MinOf(xs[1..]);
      if xs[0] <= t then xs[0] else t
  }

  function Lngs(markers: seq<Marker>): (r: seq<real>)
    ensures |r| == |markers| && forall i :: 0 <= i < |markers| ==> r[i] == markers[i].coord.lng
  {
    seq(|markers|, i requires 0 <= i < |markers| => markers[i].coord.lng)
  }

  function Lats(markers: seq<Marker>): (r: seq<real>)
    ensures |r| == |markers| && forall i :: 0 <= i < |markers| ==> r[i] == markers[i].coord.lat
  {
    seq(|markers|, i requires 0 <= i < |markers| => markers[i].coord.lat)
  }

  /** The distance between the largest and the smallest value. */
  function Spread(xs: seq<real>): real
    requires |xs| > 0
  {
    MaxOf(xs) - MinOf(xs)
  }

  /** The zoom level for the larger of the two coordinate spans. */
  function Zoom(span: real): int {
    if span > 10.0 then 5
    else if span > 5.0 then 7
    else if span > 1.0 then 10
    else if span > 0.5 then 12
    else 14
  }

  /**
   * `calculateMapCenter`. Two or more markers are centred inside their
   * bounding box; the zoom level is always between 5 and 15.
   */
  function MapCenter(markers: seq<Marker>): (cam: Camera)
    ensures 5 <= cam.zoom <= 15
    ensures |markers| >= 2 ==>
              && MinOf(Lngs(markers)) <= cam.center.lng <= MaxOf(Lngs(markers))
              && MinOf(Lats(markers)) <= cam.center.lat <= MaxOf(Lats(markers))
  {
    if |markers| == 0 then Camera(Beijing, 12)
    else if |markers| == 1 then Camera(markers[0].coord, 15)
    else
      var lngs, lats := Lngs(markers), Lats(markers);
      var lngSpan, latSpan := Spread(lngs), Spread(lats);
      Camera(Coord(Mean(lngs), Mean(lats)), Zoom(if lngSpan >= latSpan then lngSpan else latSpan))
  }

  /** The arithmetic mean of a non-empty list, which lies between its extremes. */
  function Mean(xs: seq<real>): (m: real)
    requires |xs| > 0
    ensures m == Sum(xs) / |xs| as real
    ensures MinOf(xs) <= m <= MaxOf(xs)
  {
    MeanBetween(xs);
    Sum(xs) / |xs| as real
  }

  /** A wider spread never zooms in further, and the level is one of the five bands. */
  lemma ZoomMonotone(a: real, b: real)
    requires a <= b
    ensures Zoom(b) <= Zoom(a)
    ensures Zoom(a) in {5, 7, 10, 12, 14}
  {
  }

  lemma {:induction false} SumAtLeast(xs: seq<real>, lo: real)
    requires forall i :: 0 <= i < |xs| ==> lo <= xs[i]
    ensures |xs| as real * lo <= Sum(xs)
    decreases |xs|
  {
    if |xs| > 0 {
      SumAtLeast(xs[1..], lo);
    }
  }

  lemma {:induction false} SumAtMost(xs: seq<real>, hi: real)
    requires forall i :: 0 <= i < |xs| ==> xs[i] <= hi
    ensures Sum(xs) <= |xs| as real * hi
    decreases |xs|
  {
    if |xs| > 0 {
      SumAtMost(xs[1..], hi);
    }
  }

  /** The mean of values bounded below is bounded below. */
  lemma MeanAtLeast(xs: seq<real>, lo: real)
    requires |xs| > 0 && forall i :: 0 <= i < |xs| ==> lo <= xs[i]
    ensures lo <= Sum(xs) / |xs| as real
  {
    SumAtLeast(xs, lo);
    DivideLower(Sum(xs), |xs| as real, lo);
  }

  /** The mean of values bounded above is bounded above. */
  lemma MeanAtMost(xs: seq<real>, hi: real)
    requires |xs| > 0 && forall i :: 0 <= i < |xs| ==> xs[i] <= hi
    ensures Sum(xs) / |xs| as real <= hi
  {
    SumAtMost(xs, hi);
    DivideUpper(Sum(xs), |xs| as real, hi);
  }

  lemma MeanBetween(xs: seq<real>)
    requires |xs| > 0
    ensures MinOf(xs) <= Sum(xs) / |xs| as real <= MaxOf(xs)
  {
    MeanAtLeast(xs, MinOf(xs));
    MeanAtMost(xs, MaxOf(xs));
  }

  lemma DivideLower(s: real, n: real, lo: real)
    requires n > 0.0 && n * lo <= s
    ensures lo <= s / n
  {
  }

  lemma DivideUpper(s: real, n: real, hi: real)
    requires n > 0.0 && s <= n * hi
    ensures s / n <= hi
  {
  }

  /**
   * No markers centre on Beijing at zoom 12 and one marker centres on itself
   * at zoom 15; otherwise the centre is the mean position and the zoom is
   * that of the wider of the two spans: the farther-out of the zooms the two
   * spans would get on their own.
   */
  lemma MapCenterPlacement(markers: seq<Marker>)
    ensures |markers| == 0 ==> MapCenter(markers) == Camera(Beijing, 12)
    ensures |markers| == 1 ==> MapCenter(markers) == Camera(markers[0].coord, 15)
    ensures |markers| >= 2 ==>
              var n := |markers| as real;
              MapCenter(markers).center == Coord(Sum(Lngs(markers)) / n, Sum(Lats(markers)) / n)
    ensures |markers| >= 2 ==>
              var z, zLng, zLat := MapCenter(markers).zoom, Zoom(Spread(Lngs(markers))), Zoom(Spread(Lats(markers)));
              z <= zLng && z <= zLat && (z == zLng || z == zLat)
  {
    if |markers| >= 2 {
      var a, b := Spread(Lngs(markers)), Spread(Lats(markers));
      if a >= b { ZoomMonotone(b, a); } else { ZoomMonotone(a, b); }
    }
  }

  /** Markers that all sit within half a degree of each other get the closest zoom. */
  lemma ClusterZoomsIn(markers: seq<Marker>)
    requires |markers| >= 2
    requires forall i, j :: 0 <= i < |markers| && 0 <= j < |markers| ==>
               markers[i].coord.lng - markers[j].coord.lng <= 0.5 && markers[i].coord.lat - markers[j].coord.lat <= 0.5
    ensures MapCenter(markers).zoom == 14
  {
    ClusterSpreads(markers);
    MapCenterZoom(markers);
  }

  /** The zoom of two or more markers is that of the wider of the two spans. */
  lemma MapCenterZoom(markers: seq<Marker>)
    requires |markers| >= 2
    ensures var a, b := Spread(Lngs(markers)), Spread(Lats(markers));
            MapCenter(markers).zoom == Zoom(if a >= b then a else b)
  {
  }

  lemma ClusterSpreads(markers: seq<Marker>)
    requires |markers| >= 2
    requires forall i, j :: 0 <= i < |markers| && 0 <= j < |markers| ==>
               markers[i].coord.lng - markers[j].coord.lng <= 0.5 && markers[i].coord.lat - markers[j].coord.lat <= 0.5
    ensures Spread(Lngs(markers)) <= 0.5 && Spread(Lats(markers)) <= 0.5
  {
    var lngs, lats := Lngs(markers), Lats(markers);
    forall i, j | 0 <= i < |lngs| && 0 <= j < |lngs|
      ensures lngs[i] - lngs[j] <= 0.5 && lats[i] - lats[j] <= 0.5
    {
    }
    SpreadAtMost(lngs, 0.5);
    SpreadAtMost(lats, 0.5);
  }

  /** Values pairwise within `w` of each other span at most `w`. */
  lemma SpreadAtMost(xs: seq<real>, w: real)
    requires |xs| > 0
    requires forall i, j :: 0 <= i < |xs| && 0 <= j < |xs| ==> xs[i] - xs[j] <= w
    ensures Spread(xs) <= w
  {
    var a :| 0 <= a < |xs| && xs[a] == MaxOf(xs);
    var b :| 0 <= b < |xs| && xs[b] == MinOf(xs);
    assert xs[a] - xs[b] <= w;
  }
}

=== FILE: media_recorder.dfy ===
/**
 * The compressed-audio capture unit used for batch recognition (`VoiceRecorder`,
 * built on the browser's MediaRecorder).
 *
 * The browser recorder is an engine that keeps delivering `dataavailable`,
 * `stop` and `error` events to the handlers installed by `start` until it has
 * stopped, whether or not the wrapper still holds it. The wrapper's state and
 * the engine's are modelled together so that the ordering of those callbacks
 * relative to `stop` and `cancel` is explicit.
 */
module MediaRecorder {
  import opened Wrappers
  import opened VoiceTypes
  import opened Base64
  import AudioLevel

  /** The constructor's options after defaults. */
  datatype Options = Options(sampleRate: int, mimeType: string, maxDuration: int)

  datatype OptionOverrides = OptionOverrides(sampleRate: Option<int>, mimeType: Option<string>, maxDuration: Option<int>)

  function ResolveOptions(o: OptionOverrides): (r: Options)
    ensures o.sampleRate.None? ==> r.sampleRate == 16000
    ensures o.mimeType.None? ==> r.mimeType == "audio/webm"
    ensures o.maxDuration.None? ==> r.maxDuration == 60000
    ensures o.sampleRate.Some? ==> r.sampleRate == o.sampleRate.value
    ensures o.mimeType.Some? ==> r.mimeType == o.mimeType.value
    ensures o.maxDuration.Some? ==> r.maxDuration == o.maxDuration.value
  {
    Options(o.sampleRate.GetOr(16000), o.mimeType.GetOr("audio/webm"), o.maxDuration.GetOr(60000))
  }

  /** The candidate container formats, most preferred first. */
  const MimeCandidates: seq<string> := ["audio/webm;codecs=opus", "audio/webm", "audio/ogg;codecs=opus", "audio/mp4"]

  /** `getSupportedMimeType`: the first candidate the browser supports, else "audio/webm". */
  function SupportedMimeType(isTypeSupported: string -> bool): (m: string)
    ensures m in MimeCandidates
    ensures (exists k :: 0 <= k < |MimeCandidates| && isTypeSupported(MimeCandidates[k])) ==>
              isTypeSupported(m)
              && forall k :: 0 <= k < |MimeCandidates| && MimeCandidates[k] != m && isTypeSupported(MimeCandidates[k]) ==>
                   exists j :: 0 <= j < k && MimeCandidates[j] == m
    ensures (forall k :: 0 <= k < |MimeCandidates| ==> !isTypeSupported(MimeCandidates[k])) ==> m == "audio/webm"
  {
    FirstSupported(MimeCandidates, 0, isTypeSupported)
  }

  /** The loop of `getSupportedMimeType` from position `from`. */
  function FirstSupported(types: seq<string>, from: nat, isTypeSupported: string -> bool): (m: string)
    requires from <= |types| && "audio/webm" in types
    ensures m in types
    ensures (exists k :: from <= k < |types| && isTypeSupported(types[k])) ==>
              exists j :: from <= j < |types| && types[j] == m && isTypeSupported(m)
                          && forall k :: from <= k < j ==> !isTypeSupported(types[k])
    ensures (forall k :: from <= k < |types| ==> !isTypeSupported(types[k])) ==> m == "audio/webm"
    decreases |types| - from
  {
    if from == |types| then "audio/webm"
    else if isTypeSupported(types[from]) then types[from]
    else FirstSupported(types, from + 1, isTypeSupported)
  }

  /** A recorded blob; its size is the number of bytes. */
  datatype Blob = Blob(bytes: seq<Byte>)

  /** The audio handed to `onComplete`: one blob of all chunks, and the elapsed time. */
  datatype AudioData = AudioData(blob: Blob, mimeType: string, duration: int)

  /** The browser engine: recording, stopping (its final events still pending) or finished. */
  datatype Engine = Inactive | Active | Stopping

  datatype Listener = OnStateChange | OnDataAvailable | OnComplete | OnError

  datatype Event =
    | StateChanged(state: RecorderState)
    | ChunkAvailable(chunk: Blob)
    | CompletedWith(audio: AudioData)
    | ErrorRaised(message: string)

  function ListenerFor(e: Event): Listener {
    match e
    case StateChanged(_) => OnStateChange
    case ChunkAvailable(_) => OnDataAvailable
    case CompletedWith(_) => OnComplete
    case ErrorRaised(_) => OnError
  }

  /**
   * `held` is true while the wrapper holds the stream, the analyser and the
   * engine (between a successful start and the next cleanup); `monitoring`
   * while the level monitor is scheduled.
   */
  datatype Recorder = Recorder(
    options: Options,
    state: RecorderState,
    chunks: seq<Blob>,
    mimeType: string,
    startTime: int,
    engine: Engine,
    held: bool,
    monitoring: bool,
    listeners: set<Listener>)

  function New(o: OptionOverrides): (rec: Recorder)
    ensures rec.state == InitialRecorderState && rec.chunks == [] && rec.engine == Inactive && !rec.held
  {
    Recorder(ResolveOptions(o), InitialRecorderState, [], "audio/webm", 0, Inactive, false, false, {})
  }

  datatype Step = Step(rec: Recorder, events: seq<Event>)

  function Emit(rec: Recorder, e: Event): seq<Event> {
    if ListenerFor(e) in rec.listeners then [e] else []
  }

  function UpdateState(rec: Recorder, p: StatePatch): Step {
    var r := rec.(state := Merge(rec.state, p));
    Step(r, Emit(r, StateChanged(r.state)))
  }

  /** `cleanup`: releases the stream, the analyser and the engine reference; the engine itself runs on. */
  function Cleanup(rec: Recorder): Recorder {
    rec.(held := false)
  }

  /** The browser environment `start` sees. */
  datatype Environment = Environment(
    supported: bool,                    // `navigator.mediaDevices.getUserMedia` exists
    device: Result<int, string>,        // the start time once the microphone is granted, or the error thrown
    isTypeSupported: string -> bool,
    firstReading: AudioLevel.Spectrum,  // the level reading taken synchronously at start
    readAt: int)                        // the clock reading taken with it, after the start time

  const UnsupportedMessage: string := "当前浏览器不支持录音功能"
  const AlreadyRecording: string := "录音已在进行中"

  datatype StartStep = StartStep(rec: Recorder, events: seq<Event>, thrown: Option<string>)

  /**
   * `start`: it succeeds exactly when the browser is supported, nothing is
   * recording and the device is granted; then it records from an empty chunk
   * list. A refused device leaves it in `error`, released, with the rethrown
   * message recorded; the two guards throw and change nothing.
   */
  function Start(rec: Recorder, env: Environment): (r: StartStep)
    ensures r.thrown.None? <==> env.supported && rec.state.status != Recording && env.device.Success?
    ensures !env.supported || rec.state.status == Recording ==> r.rec == rec && r.events == []
    ensures r.thrown.None? ==>
              && r.rec.chunks == [] && r.rec.engine == Active && r.rec.held && r.rec.monitoring
              && r.rec.state.status == Recording && r.rec.startTime == env.device.value
              && r.rec.state.duration == env.readAt - env.device.value
    ensures env.supported && rec.state.status != Recording && env.device.Failure? ==>
              r.rec.state.status == Error && !r.rec.held && r.rec.state.error == r.thrown
    ensures r.rec.listeners == rec.listeners
  {
    if !env.supported then StartStep(rec, [], Some(UnsupportedMessage))
    else if rec.state.status == Recording then StartStep(rec, [], Some(AlreadyRecording))
    else match env.device
      case Failure(msg) =>
        var s := UpdateState(rec, StatePatch(Some(Error), None, None, Some(msg)));
        StartStep(Cleanup(s.rec), s.events + Emit(s.rec, ErrorRaised(msg)), Some(msg))
      case Success(now) =>
        var r := rec.(mimeType := SupportedMimeType(env.isTypeSupported), chunks := [], startTime := now,
                      engine := Active, held := true, monitoring := true);
        var s1 := UpdateState(r, StatePatch(Some(Recording), Some(0), None, None));
        var s2 := LevelUpdate(s1.rec, env.firstReading, env.readAt);
        StartStep(s2.rec, s1.events + s2.events, None)
  }

  function LevelUpdate(rec: Recorder, reading: AudioLevel.Spectrum, now: int): Step {
    var s1 := UpdateState(rec, StatePatch(None, None, Some(AudioLevel.Level(reading)), None));
    var s2 := UpdateState(s1.rec, StatePatch(None, Some(now - rec.startTime), None, None));
    Step(s2.rec, s1.events + s2.events)
  }

  /** `stop`: only while recording; asks the engine to stop and ends monitoring. The status changes later, on the engine's `stop` event. */
  function Stop(rec: Recorder): (r: Step)
    ensures r.events == [] && r.rec.state == rec.state && r.rec.chunks == rec.chunks && r.rec.held == rec.held
    ensures rec.state.status != Recording ==> r.rec == rec
    ensures rec.state.status == Recording ==>
              !r.rec.monitoring && (rec.held && rec.engine == Active ==> r.rec.engine == Stopping)
  {
    if rec.state.status != Recording then Step(rec, [])
    else
      var engine := if rec.held && rec.engine == Active then Stopping else rec.engine;
      Step(rec.(engine := engine, monitoring := false), [])
  }

  /** `cancel`: only while recording; drops the chunks, asks the engine to stop, goes idle and releases. */
  function Cancel(rec: Recorder): (r: Step)
    ensures rec.state.status != Recording ==> r.rec == rec && r.events == []
    ensures rec.state.status == Recording ==>
              && r.rec.chunks == [] && !r.rec.held && !r.rec.monitoring
              && r.rec.state == InitialRecorderState.(error := rec.state.error)
              && (rec.held && rec.engine == Active ==> r.rec.engine == Stopping)
    ensures r.rec.listeners == rec.listeners
  {
    if rec.state.status != Recording then Step(rec, [])
    else
      var engine := if rec.held && rec.engine == Active then Stopping else rec.engine;
      var s := UpdateState(rec.(chunks := [], engine := engine, monitoring := false),
                           StatePatch(Some(Idle), Some(0), Some(0.0), None));
      Step(Cleanup(s.rec), s.events)
  }

  /** `destroy`: cancels, then forgets every listener. */
  function Destroy(rec: Recorder): (r: Step)
    ensures r.rec == Cancel(rec).rec.(listeners := {}) && r.events == Cancel(rec).events
    ensures rec.state.status == Recording ==> r.rec.state.status == Idle && !r.rec.held
  {
    var s := Cancel(rec);
    Step(s.rec.(listeners := {}), s.events)
  }

  /** Concatenation of the recorded chunks into one blob. */
  function Concat(chunks: seq<Blob>): seq<Byte> {
    if |chunks| == 0 then [] else Concat(chunks[..|chunks| - 1]) + chunks[|chunks| - 1].bytes
  }

  /** Inputs from the browser and the caller. */
  datatype Input =
    | DoStart(env: Environment)
    | DoStop
    | DoCancel
    | DoDestroy
    | DataAvailable(chunk: Blob)     // the engine's `dataavailable`
    | EngineStopped(now: int)        // the engine's `stop`
    | EngineError(detail: string)    // the engine's `error`, rendered as text
    | Reading(reading: AudioLevel.Spectrum, now: int)
    | MaxDurationElapsed             // the timer armed by a start
    | Subscribe(l: Listener)
    | Unsubscribe(l: Listener)

  function Apply(rec: Recorder, i: Input): Step {
    match i
    case DoStart(env) => var s := Start(rec, env); Step(s.rec, s.events)
    case DoStop => Stop(rec)
    case DoCancel => Cancel(rec)
    case DoDestroy => Destroy(rec)
    case DataAvailable(chunk) =>
      if rec.engine == Inactive || |chunk.bytes| == 0 then Step(rec, [])
      else
        var r := rec.(chunks := rec.chunks + [chunk]);
        Step(r, Emit(r, ChunkAvailable(chunk)))
    case EngineStopped(now) =>
      if rec.engine == Inactive then Step(rec, [])
      else
        var duration := now - rec.startTime;
        var audio := AudioData(Blob(Concat(rec.chunks)), rec.mimeType, duration);
        var s := UpdateState(rec.(engine := Inactive), StatePatch(Some(Completed), Some(duration), None, None));
        Step(Cleanup(s.rec), s.events + Emit(s.rec, CompletedWith(audio)))
    case EngineError(detail) =>
      if rec.engine == Inactive then Step(rec, [])
      else
        var msg := "录音错误: " + detail;
        var s := UpdateState(rec.(engine := Inactive), StatePatch(Some(Error), None, None, Some(msg)));
        Step(Cleanup(s.rec), s.events + Emit(s.rec, ErrorRaised(msg)))
    case Reading(b, now) =>
      if !rec.monitoring || rec.state.status != Recording then Step(rec, [])
      else LevelUpdate(rec, b, now)
    case MaxDurationElapsed =>
      if rec.state.status == Recording then Stop(rec) else Step(rec, [])
    case Subscribe(l) => Step(rec.(listeners := rec.listeners + {l}), [])
    case Unsubscribe(l) => Step(rec.(listeners := rec.listeners - {l}), [])
  }

  function Run(rec: Recorder, inputs: seq<Input>): Step
    decreases |inputs|
  {
    if |inputs| == 0 then Step(rec, [])
    else
      var s := Apply(rec, inputs[0]);
      var t := Run(s.rec, inputs[1..]);
      Step(t.rec, s.events + t.events)
  }

  /** Unsupported browsers and a running recording make `start` throw with nothing changed. */
  lemma StartGuards(rec: Recorder, env: Environment)
    requires !env.supported || rec.state.status == Recording
    ensures var s := Start(rec, env);
            && s.rec == rec && s.events == []
            && s.thrown == Some(if !env.supported then UnsupportedMessage else AlreadyRecording)
  {
  }

  /** A granted start empties the chunk list and records from zero with the preferred container format. */
  lemma StartSucceeds(rec: Recorder, env: Environment)
    requires env.supported && rec.state.status != Recording && env.device.Success?
    ensures var s := Start(rec, env);
            && s.thrown.None? && s.rec.chunks == [] && s.rec.engine == Active && s.rec.held
            && s.rec.state.status == Recording && s.rec.state.duration == env.readAt - env.device.value
            && s.rec.mimeType == SupportedMimeType(env.isTypeSupported)
  {
  }

  /** A refused device ends in `error`, reports it, releases and rethrows. */
  lemma StartFails(rec: Recorder, env: Environment)
    requires env.supported && rec.state.status != Recording && env.device.Failure?
    ensures var s := Start(rec, env);
            && s.thrown == Some(env.device.error)
            && s.rec.state.status == Error && s.rec.state.error == Some(env.device.error) && !s.rec.held
            && (OnError in rec.listeners <==> ErrorRaised(env.device.error) in s.events)
  {
  }

  /** Only non-empty chunks are kept, appended in arrival order. */
  lemma ChunkAppended(rec: Recorder, chunk: Blob)
    requires rec.engine != Inactive
    ensures var s := Apply(rec, DataAvailable(chunk));
            s.rec.chunks == if |chunk.bytes| > 0 then rec.chunks + [chunk] else rec.chunks
  {
  }

  /** `stop` and `cancel` do nothing unless recording. */
  lemma StopCancelGuard(rec: Recorder)
    requires rec.state.status != Recording
    ensures Stop(rec) == Step(rec, []) && Cancel(rec) == Step(rec, [])
  {
  }

  /** `cancel` while recording empties the chunks and goes idle with zero duration and level. */
  lemma CancelWhileRecording(rec: Recorder)
    requires rec.state.status == Recording
    ensures var r := Cancel(rec).rec;
            && r.chunks == [] && !r.held && !r.monitoring
            && r.state == RecorderState(Idle, 0, 0.0, rec.state.error)
  {
  }

  /** The max-duration timer stops only a recording that is still running. */
  lemma TimerStopsOnlyRecording(rec: Recorder)
    ensures rec.state.status == Recording ==> Apply(rec, MaxDurationElapsed) == Stop(rec)
    ensures rec.state.status != Recording ==> Apply(rec, MaxDurationElapsed) == Step(rec, [])
  {
  }

  /** The completed audio is all chunks kept since the start, in order. */
  lemma {:induction false} ConcatAppend(chunks: seq<Blob>, c: Blob)
    ensures Concat(chunks + [c]) == Concat(chunks) + c.bytes
  {
    assert (chunks + [c])[..|chunks|] == chunks;
  }

  /**
   * While the engine runs or is stopping, the chunks delivered before it stops are exactly
   * what `onComplete` receives: the blob is the concatenation of the non-empty
   * chunks in arrival order.
   */
  lemma {:induction false} CompletedAudioIsChunks(rec: Recorder, chunks: seq<Blob>, now: int)
    requires rec.engine != Inactive && rec.chunks == [] && OnComplete in rec.listeners
    requires forall k :: 0 <= k < |chunks| ==> |chunks[k].bytes| > 0
    ensures var s := Run(rec, Deliveries(chunks) + [EngineStopped(now)]);
            && s.rec.state.status == Completed
            && CompletedWith(AudioData(Blob(Concat(chunks)), rec.mimeType, now - rec.startTime)) in s.events
  {
    DeliveriesAccumulate(rec, chunks);
    var mid := Run(rec, Deliveries(chunks));
    RunAppend(rec, Deliveries(chunks), [EngineStopped(now)]);
    assert mid.rec == rec.(chunks := chunks);
    var last := Apply(mid.rec, EngineStopped(now));
    assert Run(mid.rec, [EngineStopped(now)]).events == last.events;
    StopCompletes(mid.rec, now);
  }

  /** The engine stopping while not yet inactive hands the kept chunks, joined, to `onComplete`, and completes. */
  lemma StopCompletes(r: Recorder, now: int)
    requires r.engine != Inactive && OnComplete in r.listeners
    ensures Apply(r, EngineStopped(now)).rec.state.status == Completed
    ensures CompletedWith(AudioData(Blob(Concat(r.chunks)), r.mimeType, now - r.startTime)) in Apply(r, EngineStopped(now)).events
  {
    var audio := AudioData(Blob(Concat(r.chunks)), r.mimeType, now - r.startTime);
    var upd := UpdateState(r.(engine := Inactive), StatePatch(Some(Completed), Some(now - r.startTime), None, None));
    assert Apply(r, EngineStopped(now)).events == upd.events + Emit(upd.rec, CompletedWith(audio));
  }

  /** The engine's stop notifies at most state changes and then, last, the completion with the joined chunks. */
  lemma EngineStopEvents(r: Recorder, now: int)
    requires r.engine != Inactive && OnComplete in r.listeners
    ensures var evs := Apply(r, EngineStopped(now)).events;
            var done := CompletedWith(AudioData(Blob(Concat(r.chunks)), r.mimeType, now - r.startTime));
            evs == [done] || (|evs| == 2 && evs[0].StateChanged? && evs[1] == done)
  {
    var audio := AudioData(Blob(Concat(r.chunks)), r.mimeType, now - r.startTime);
    var upd := UpdateState(r.(engine := Inactive), StatePatch(Some(Completed), Some(now - r.startTime), None, None));
    assert Apply(r, EngineStopped(now)).events == upd.events + [CompletedWith(audio)];
  }

  function Deliveries(chunks: seq<Blob>): (inputs: seq<Input>)
    ensures |inputs| == |chunks|
    ensures forall k :: 0 <= k < |chunks| ==> inputs[k] == DataAvailable(chunks[k])
  {
    if |chunks| == 0 then [] else Deliveries(chunks[..|chunks| - 1]) + [DataAvailable(chunks[|chunks| - 1])]
  }

  lemma {:induction false} RunAppend(rec: Recorder, a: seq<Input>, b: seq<Input>)
    ensures Run(rec, a + b).rec == Run(Run(rec, a).rec, b).rec
    ensures Run(rec, a + b).events == Run(rec, a).events + Run(Run(rec, a).rec, b).events
    decreases |a|
  {
    if |a| > 0 {
      assert (a + b)[0] == a[0] && (a + b)[1..] == a[1..] + b;
      RunAppend(Apply(rec, a[0]).rec, a[1..], b);
    } else {
      assert a + b == b;
    }
  }

  /** Delivering non-empty chunks to a running engine accumulates them and touches nothing else. */
  lemma {:induction false} DeliveriesAccumulate(rec: Recorder, chunks: seq<Blob>)
    requires rec.engine != Inactive
    requires forall k :: 0 <= k < |chunks| ==> |chunks[k].bytes| > 0
    ensures Run(rec, Deliveries(chunks)).rec == rec.(chunks := rec.chunks + chunks)
    decreases |chunks|
  {
    if |chunks| > 0 {
      var init := chunks[..|chunks| - 1];
      var c := chunks[|chunks| - 1];
      DeliveriesAccumulate(rec, init);
      assert Deliveries(chunks) == Deliveries(init) + [DataAvailable(c)];
      RunAppend(rec, Deliveries(init), [DataAvailable(c)]);
      assert rec.chunks + init + [c] == rec.chunks + chunks;
    } else {
      assert rec.chunks + chunks == rec.chunks;
    }
  }

  /**
   * `cancel` does not suppress completion. `stop()` still makes the engine
   * deliver its last chunks and then stop, and that stop reports `completed`
   * and calls `onComplete` with exactly the chunks that arrived after the
   * cancel.
   */
  lemma {:induction false} CancelThenEngineStopStillCompletes(rec: Recorder, late: seq<Blob>, now: int)
    requires rec.state.status == Recording && rec.held && rec.engine == Active
    requires OnComplete in rec.listeners
    requires forall k :: 0 <= k < |late| ==> |late[k].bytes| > 0
    ensures var c := Cancel(rec).rec;
            var s := Run(c, Deliveries(late) + [EngineStopped(now)]);
            && c.state.status == Idle
            && s.rec.state.status == Completed
            && CompletedWith(AudioData(Blob(Concat(late)), rec.mimeType, now - rec.startTime)) in s.events
  {
    var c := Cancel(rec).rec;
    assert c.engine == Stopping && c.chunks == [] && c.listeners == rec.listeners;
    assert c.mimeType == rec.mimeType && c.startTime == rec.startTime;
    CompletedAudioIsChunks(c, late, now);
  }

  /**
   * After `destroy` nothing reaches anyone until a listener is added again,
   * not even the completion the engine still reports when it stops.
   */
  lemma DestroyedIsSilentUntilSubscribed(rec: Recorder, inputs: seq<Input>)
    requires forall k :: 0 <= k < |inputs| ==> !inputs[k].Subscribe?
    ensures Destroy(rec).rec.listeners == {}
    ensures Run(Destroy(rec).rec, inputs).events == []
    ensures Run(Destroy(rec).rec, inputs).rec.listeners == {}
  {
    StaysUnsubscribed(Destroy(rec).rec, inputs);
  }

  /**
   * With no listeners, inputs short of a subscription keep the recorder
   * without listeners, so nothing they cause, the engine's late stop events
   * included, is delivered.
   */
  lemma {:induction false} StaysUnsubscribed(rec: Recorder, inputs: seq<Input>)
    requires rec.listeners == {}
    requires forall k :: 0 <= k < |inputs| ==> !inputs[k].Subscribe?
    ensures Run(rec, inputs).rec.listeners == {}
    ensures Run(rec, inputs).events == []
    decreases |inputs|
  {
    if |inputs| > 0 {
      var s := Apply(rec, inputs[0]);
      assert s.rec.listeners == {} && s.events == [];
      StaysUnsubscribed(s.rec, inputs[1..]);
    }
  }
}

=== FILE: middleware.dfy ===
/**
 * The route guard (`middleware.ts`): the `authorized` callback that decides,
 * from the request path and the session token, whether a page may be shown.
 */
module Middleware {
  import opened Wrappers
  import JsText

  const ProtectedPaths: seq<string> := ["/trips", "/profile", "/expenses"]

  /** `paths.some(p => pathname.startsWith(p))`, scanning left to right. */
  function SomePrefix(paths: seq<string>, pathname: string): bool
    decreases |paths|
  {
    |paths| > 0 && (JsText.StartsWith(pathname, paths[0]) || SomePrefix(paths[1..], pathname))
  }

  /**
   * `!!token`: a decoded token is an object, hence truthy whenever present.
   * A request is refused exactly when it has no token and its path starts
   * with one of the protected paths.
   */
  function Authorized<T>(pathname: string, token: Option<T>): (ok: bool)
    ensures !ok <==> token.None? && exists i :: 0 <= i < |ProtectedPaths| && JsText.StartsWith(pathname, ProtectedPaths[i])
  {
    SomePrefixFinds(ProtectedPaths, pathname);
    if SomePrefix(ProtectedPaths, pathname) then token.Some? else true
  }

  /** Protection is a plain string-prefix test against one of the listed paths. */
  lemma {:induction false} SomePrefixFinds(paths: seq<string>, pathname: string)
    ensures SomePrefix(paths, pathname) <==> exists i :: 0 <= i < |paths| && JsText.StartsWith(pathname, paths[i])
    decreases |paths|
  {
    if |paths| > 0 {
      SomePrefixFinds(paths[1..], pathname);
      if exists i :: 0 <= i < |paths| && JsText.StartsWith(pathname, paths[i]) {
        var i :| 0 <= i < |paths| && JsText.StartsWith(pathname, paths[i]);
        if i > 0 {
          assert JsText.StartsWith(pathname, paths[1..][i - 1]);
        }
      }
      if exists i :: 0 <= i < |paths[1..]| && JsText.StartsWith(pathname, paths[1..][i]) {
        var i :| 0 <= i < |paths[1..]| && JsText.StartsWith(pathname, paths[1..][i]);
        assert JsText.StartsWith(pathname, paths[i + 1]);
      }
    }
  }

  predicate Protected(pathname: string) {
    || JsText.StartsWith(pathname, "/trips")
    || JsText.StartsWith(pathname, "/profile")
    || JsText.StartsWith(pathname, "/expenses")
  }

  /**
   * A path under none of the three prefixes is always allowed; a protected one
   * exactly when a token is present, whatever the token holds.
   */
  lemma AuthorizedRule<T>(pathname: string, token: Option<T>)
    ensures Authorized(pathname, token) <==> !Protected(pathname) || token.Some?
  {
    SomePrefixFinds(ProtectedPaths, pathname);
    if Protected(pathname) {
      if JsText.StartsWith(pathname, "/trips") {
        assert JsText.StartsWith(pathname, ProtectedPaths[0]);
      } else if JsText.StartsWith(pathname, "/profile") {
        assert JsText.StartsWith(pathname, ProtectedPaths[1]);
      } else {
        assert JsText.StartsWith(pathname, ProtectedPaths[2]);
      }
    }
  }

  /** Anything appended to a protected path stays protected. */
  lemma ProtectionExtends(pathname: string, suffix: string)
    requires Protected(pathname)
    ensures Protected(pathname + suffix)
  {
    var s := pathname + suffix;
    if JsText.StartsWith(pathname, "/trips") {
      assert s[..6] == pathname[..6];
    } else if JsText.StartsWith(pathname, "/profile") {
      assert s[..8] == pathname[..8];
    } else {
      assert s[..9] == pathname[..9];
    }
  }

  /** The prefix test is raw: `/tripsx` is guarded, `/trip` and the home page are not. */
  lemma RawPrefixMatching<T>()
    ensures !Authorized<T>("/tripsx", None)
    ensures !Authorized<T>("/profile/edit", None)
    ensures Authorized<T>("/trip", None)
    ensures Authorized<T>("/", None)
  {
    assert JsText.StartsWith("/tripsx", "/trips");
    assert JsText.StartsWith("/profile/edit", "/profile");
    AuthorizedRule<T>("/trip", None);
    assert !JsText.StartsWith("/trip", "/trips");
    assert !JsText.StartsWith("/trip", "/profile");
    assert !JsText.StartsWith("/trip", "/expenses");
  }
}

=== FILE: parse_expense.dfy ===
/**
 * The expense parsing route (`/api/voice/parse-expense`): the guard on the
 * request text, the extraction of the JSON object from the model's reply and
 * the defaults and missing-field report of the result. The model call itself
 * is an input: its reply, and `JSON.parse` as a function.
 */
module ParseExpense {
  import opened Wrappers
  import JsText
  import opened ApiRequest

  /** The members of the parsed reply the route reads. */
  datatype Reply = Reply(
    amount: Option<real>,
    category: Option<string>,
    description: Option<string>,
    confidence: Option<real>)

  datatype ExpenseResult = ExpenseResult(
    amount: Option<real>,
    currency: string,
    category: string,
    description: string,
    rawText: string,
    confidence: real,
    missingFields: seq<string>)

  datatype Response =
    | BadRequest                 // 400: no usable text
    | ServerError                // 500: empty reply, no JSON object, or a parse failure
    | Ok(result: ExpenseResult)  // 200

  /** The last position of `c` in `s` (`String.prototype.lastIndexOf`). */
  function LastIndexOfChar(s: string, c: char): (r: Option<nat>)
    ensures r.Some? ==> r.value < |s| && s[r.value] == c && c !in s[r.value + 1..]
    ensures r.None? <==> c !in s
    decreases |s|
  {
    if |s| == 0 then None
    else if s[|s| - 1] == c then Some(|s| - 1)
    else
      var r := LastIndexOfChar(s[..|s| - 1], c);
      assert s == s[..|s| - 1] + [s[|s| - 1]];
      if r.Some? then
        assert s[r.value + 1..] == s[..|s| - 1][r.value + 1..] + [s[|s| - 1]];
        r
      else r
  }

  /**
   * The match of `/\{[\s\S]*\}/`: from the first '{' through the last '}'
   * after it, or nothing when no '}' follows the first '{'. The span starts
   * and ends with a brace, and no '{' precedes it and no '}' follows it.
   */
  function BraceSpan(s: string): (r: Option<string>)
    ensures r.Some? ==>
              var v := r.value;
              && |v| >= 2 && v[0] == '{' && v[|v| - 1] == '}'
              && exists i :: && 0 <= i && i + |v| <= |s| && v == s[i..i + |v|]
                             && '{' !in s[..i] && '}' !in s[i + |v|..]
  {
    match JsText.IndexOfChar(s, '{')
    case None => None
    case Some(i) =>
      match LastIndexOfChar(s, '}')
      case None => None
      case Some(j) =>
        if j > i then
          var v := s[i..j + 1];
          assert i + |v| == j + 1;
          Some(v)
        else None
  }

  /** There is a span exactly when some '{' comes before some '}'. */
  lemma BraceSpanFound(s: string)
    ensures BraceSpan(s).Some? <==> exists i, j :: 0 <= i < j < |s| && s[i] == '{' && s[j] == '}'
  {
    match JsText.IndexOfChar(s, '{')
    case None =>
      assert forall a :: 0 <= a < |s| ==> s[a] != '{';
    case Some(i) =>
      match LastIndexOfChar(s, '}')
      case None =>
        assert forall b :: 0 <= b < |s| ==> s[b] != '}';
      case Some(j) =>
        if j <= i {
          assert forall a :: 0 <= a < i ==> s[a] == s[..i][a];
          assert forall b :: j < b < |s| ==> s[b] == s[j + 1..][b - j - 1];
        }
  }

  /** Text around the object that has no '{' before it and no '}' after it is cut away exactly. */
  lemma BraceSpanOfWrapped(pre: string, body: string, post: string)
    requires '{' !in pre && '}' !in post
    requires |body| >= 2 && body[0] == '{' && body[|body| - 1] == '}'
    ensures BraceSpan(pre + body + post) == Some(body)
  {
    var s := pre + body + post;
    var i := |pre|;
    var j := |pre| + |body| - 1;
    assert s[..i] == pre;
    assert s[i] == '{';
    assert JsText.IndexOfChar(s, '{') == Some(i);
    assert s[j] == '}';
    assert s[j + 1..] == post;
    var r := LastIndexOfChar(s, '}');
    assert r.Some?;
    assert forall k :: r.value < k < |s| ==> s[k] == s[r.value + 1..][k - r.value - 1];
    assert forall k :: j < k < |s| ==> s[k] == post[k - j - 1];
    assert r.value == j;
    assert s[i..j + 1] == body;
  }

  /**
   * `text.substring(0, 50)`: the longest prefix of at most 50 UTF-16 code
   * units, which is the first 50 characters of BMP text.
   */
  function Prefix50(text: string): (r: string)
    ensures JsText.StartsWith(text, r) && JsText.Utf16Length(r) <= 50
    ensures |r| < |text| ==> JsText.Utf16Length(r) + JsText.CodeUnits(text[|r|]) > 50
    ensures JsText.Utf16Length(text) <= 50 ==> r == text
    ensures JsText.IsBmp(text) ==> |r| == if |text| < 50 then |text| else 50
  {
    var r := JsText.UnitPrefix(text, 50);
    assert JsText.Utf16Length(text) <= 50 ==> r == text by {
      if JsText.Utf16Length(text) <= 50 { JsText.UnitPrefixWhole(text, 50); }
    }
    assert JsText.IsBmp(text) ==> |r| == if |text| < 50 then |text| else 50 by {
      if JsText.IsBmp(text) { JsText.BmpUnitPrefix(text, 50); }
    }
    r
  }

  /**
   * The result object: present values pass through, absent ones take their
   * defaults, then the two missing-field checks in order. The currency is always CNY; a falsy amount is dropped and
   * reported; an absent category becomes `other` and is reported, while an
   * explicit `other` is not; the description falls back to the first 50
   * characters of the text, the confidence to 0.8.
   */
  function Result(text: string, p: Reply): (r: ExpenseResult)
    ensures r.currency == "CNY" && r.rawText == text
    ensures r.amount.None? <==> !TruthyNumber(p.amount)
    ensures r.amount.Some? ==> r.amount == p.amount
    ensures "amount" in r.missingFields <==> !TruthyNumber(p.amount)
    ensures "category" in r.missingFields <==> !JsText.Present(p.category)
    ensures p.category == Some("other") ==> r.category == "other" && "category" !in r.missingFields
    ensures !JsText.Present(p.category) ==> r.category == "other"
    ensures !JsText.Present(p.description) ==> r.description == Prefix50(text)
    ensures !TruthyNumber(p.confidence) ==> r.confidence == 0.8
    ensures JsText.Present(p.category) ==> r.category == p.category.value
    ensures JsText.Present(p.description) ==> r.description == p.description.value
    ensures TruthyNumber(p.confidence) ==> r.confidence == p.confidence.value
    ensures forall k :: 0 <= k < |r.missingFields| ==> r.missingFields[k] in {"amount", "category"}
  {
    var category := if JsText.Present(p.category) then p.category.value else "other";
    var r := ExpenseResult(
      if TruthyNumber(p.amount) then p.amount else None,
      "CNY",
      category,
      if JsText.Present(p.description) then p.description.value else Prefix50(text),
      text,
      if TruthyNumber(p.confidence) then p.confidence.value else 0.8,
      []);
    var m1 := if r.amount.None? then ["amount"] else [];
    var m2 := if (r.category == "" || r.category == "other") && !JsText.Present(p.category) then ["category"] else [];
    r.(missingFields := m1 + m2)
  }

  /** The route: text guard, empty reply, brace extraction, parse, result. */
  function Post(text: TextField, reply: Option<string>, parse: string -> Parsed<Reply>): (r: Response)
    ensures RequestText(text).None? ==> r == BadRequest
    ensures r.Ok? ==> r.result.rawText == text.s && RequestText(text) == Some(text.s)
  {
    match RequestText(text)
    case None => BadRequest
    case Some(t) =>
      if !JsText.Present(reply) then ServerError
      else
        match BraceSpan(reply.value)
        case None => ServerError
        case Some(json) =>
          match parse(json)
          case Unparsable => ServerError
          case JsonNull => ServerError
          case JsonValue(p) => Ok(Result(t, p))
  }

  /** The missing fields are always an in-order selection of `amount`, then `category`. */
  lemma MissingFieldsOrdered(text: string, p: Reply)
    ensures Result(text, p).missingFields in [[], ["amount"], ["category"], ["amount", "category"]]
  {
    var m := Result(text, p).missingFields;
    var a: seq<string> := if TruthyNumber(p.amount) then [] else ["amount"];
    var c: seq<string> := if JsText.Present(p.category) then [] else ["category"];
    assert m == a + c;
    if a == [] {
      assert a + c == c;
    } else if c == [] {
      assert a + c == a;
    } else {
      assert a + c == ["amount", "category"];
    }
  }

  /**
   * A reply whose object stands between text without braces is read exactly,
   * and the result carries the text it was asked about.
   */
  lemma WrappedReplyRead(text: string, pre: string, body: string, post: string, parse: string -> Parsed<Reply>)
    requires |text| > 0
    requires '{' !in pre && '}' !in post
    requires |body| >= 2 && body[0] == '{' && body[|body| - 1] == '}'
    requires parse(body).JsonValue?
    ensures Post(TextValue(text), Some(pre + body + post), parse) == Ok(Result(text, parse(body).value))
  {
    BraceSpanOfWrapped(pre, body, post);
  }
}

=== FILE: parse_trip.dfy ===
/**
 * The trip parsing route (`/api/voice/parse-trip`): the session and text
 * guards, the choice of the JSON text inside the model's reply, and the
 * normalisation of the parsed reply into a trip draft. Dates are day
 * numbers read through a `Calendar`, and the model's reply and `JSON.parse`
 * are inputs.
 */
module ParseTrip {
  import opened Wrappers
  import JsText
  import opened ApiRequest

  /** The members of the parsed reply the route reads. */
  datatype Reply = Reply(
    destination: Option<string>,
    days: Option<int>,
    totalBudget: Option<real>,
    numAdults: Option<real>,
    numChildren: Option<real>,
    preferences: Option<seq<string>>)

  datatype TripDraft = TripDraft(
    destination: Option<string>,
    startDay: Option<int>,
    endDay: Option<int>,
    days: Option<int>,
    totalBudget: Option<real>,
    numAdults: real,
    numChildren: real,
    preferences: seq<string>,
    rawText: string,
    confidence: real,
    missingFields: Option<seq<string>>)

  datatype Response =
    | Unauthorized          // 401
    | BadRequest            // 400
    | ServerError           // 500: the reply does not parse, or parses to null
    | Ok(result: TripDraft) // 200

  // ---------------------------------------------------------------------------
  // The JSON text of the reply

  const Fence: string := "```json"
  const CloseFence: string := "```"

  /**
   * The capture of `/```json\s*([\s\S]*?)\s*```/`: after the first "```json",
   * up to the first "```" that follows it, without surrounding whitespace.
   * Only the first "```json" matters, since a later one has fewer closing
   * fences after it. A body is found only after a "```json" and comes
   * trimmed.
   */
  function FencedBody(s: string): (r: Option<string>)
    ensures r.Some? ==> JsText.Includes(s, Fence) && JsText.Trimmed(r.value)
    ensures !JsText.Includes(s, Fence) ==> r.None?
  {
    match JsText.IndexOf(s, Fence)
    case None => None
    case Some(i) =>
      match JsText.IndexOfFrom(s, CloseFence, i + |Fence|)
      case None => None
      case Some(q) => Some(JsText.Trim(s[i + |Fence|..q]))
  }

  /** `jsonMatch ? jsonMatch[1] : responseText`. */
  function JsonSource(s: string): string {
    match FencedBody(s)
    case Some(body) => body
    case None => s
  }

  lemma TrimNewlines(body: string)
    requires JsText.Trimmed(body)
    ensures JsText.Trim(['\n'] + body + ['\n']) == body
  {
    var x := ['\n'] + body + ['\n'];
    assert x[1..] == body + ['\n'];
    if |body| > 0 {
      assert (body + ['\n'])[0] == body[0];
      assert (body + ['\n'])[..|body|] == body;
    } else {
      assert x[1..][1..] == [];
    }
  }

  /** A reply without any "```json" is parsed whole. */
  lemma UnfencedReplyWhole(s: string)
    requires !JsText.Includes(s, Fence)
    ensures JsonSource(s) == s
  {
  }

  /** The first "```json" of a text whose beginning has no backtick is where that beginning ends. */
  lemma FirstFence(pre: string, rest: string)
    requires '`' !in pre
    ensures JsText.IndexOf(pre + Fence + rest, Fence) == Some(|pre|)
  {
    var s := pre + Fence + rest;
    var i := |pre|;
    assert s[i..i + 7] == Fence;
    forall k | 0 <= k < i
      ensures !JsText.OccursAt(s, Fence, k)
    {
      assert s[k] == pre[k];
      if k + 7 <= |s| {
        assert s[k..k + 7][0] == s[k];
      }
    }
    assert JsText.OccursAt(s, Fence, i);
  }

  /** The first "```" from a point onwards, when what lies between has no backtick. */
  lemma FirstClose(head: string, mid: string, post: string)
    requires '`' !in mid
    ensures var s := head + mid + CloseFence + post;
            |head| <= |s| && JsText.IndexOfFrom(s, CloseFence, |head|) == Some(|head| + |mid|)
  {
    var s := head + mid + CloseFence + post;
    var q := |head| + |mid|;
    assert s[q..q + 3] == CloseFence;
    forall k | |head| <= k < q
      ensures !JsText.OccursAt(s, CloseFence, k)
    {
      assert s[k] == mid[k - |head|];
      assert s[k..k + 3][0] == s[k];
    }
    assert JsText.OccursAt(s, CloseFence, q);
  }

  /**
   * A fenced block after text without backticks yields exactly its body,
   * whatever follows the block.
   */
  lemma FencedBodyRead(pre: string, body: string, post: string)
    requires '`' !in pre && '`' !in body && JsText.Trimmed(body)
    ensures JsonSource(pre + Fence + "\n" + body + "\n" + CloseFence + post) == body
  {
    var mid := ['\n'] + body + ['\n'];
    var s := pre + Fence + mid + CloseFence + post;
    assert pre + Fence + "\n" + body + "\n" + CloseFence + post == s;
    var n := |pre| + |Fence|;
    assert JsText.IndexOf(s, Fence) == Some(|pre|) by {
      assert s == pre + Fence + (mid + CloseFence + post);
      FirstFence(pre, mid + CloseFence + post);
    }
    FenceCloseAt(s, pre, mid, post, n);
    FenceSlice(s, pre, mid, post, n);
    FencedBodyAt(s, |pre|, n, mid);
    TrimNewlines(body);
  }

  /** The closing fence after a backtick-free block that starts at `n`. */
  lemma FenceCloseAt(s: string, pre: string, mid: string, post: string, n: nat)
    requires s == pre + Fence + mid + CloseFence + post
    requires '`' !in mid && n == |pre| + |Fence|
    ensures n + |mid| <= |s| && JsText.IndexOfFrom(s, CloseFence, n) == Some(n + |mid|)
  {
    FirstClose(pre + Fence, mid, post);
  }

  lemma FenceSlice(s: string, pre: string, mid: string, post: string, n: nat)
    requires s == pre + Fence + mid + CloseFence + post
    requires n == |pre| + |Fence|
    ensures n + |mid| <= |s| && s[n..n + |mid|] == mid
  {
    forall k | 0 <= k < |mid|
      ensures s[n + k] == mid[k]
    {
    }
  }

  lemma FencedBodyAt(s: string, i: nat, n: nat, mid: string)
    requires n == i + |Fence| && n + |mid| <= |s| && s[n..n + |mid|] == mid
    requires JsText.IndexOf(s, Fence) == Some(i) && JsText.IndexOfFrom(s, CloseFence, n) == Some(n + |mid|)
    ensures JsonSource(s) == JsText.Trim(mid)
  {
    assert FencedBody(s) == Some(JsText.Trim(mid));
  }

  // ---------------------------------------------------------------------------
  // Normalisation

  const FamilyTag: string := "亲子"

  /** `parsed.days` read for truthiness. */
  predicate TruthyDays(days: Option<int>) {
    days.Some? && days.value != 0
  }

  /**
   * The server's calendar at the request. `today` is the local calendar day.
   * `utcDay(n)` is the UTC calendar day in which local midnight of local day
   * `n` falls: the date `toISOString().split('T')[0]` reads off that midnight.
   * It depends on the server's time zone: `n` west of UTC, `n - 1` east of it,
   * and a shift between the two where daylight saving moves midnight across
   * UTC midnight.
   */
  datatype Calendar = Calendar(today: int, utcDay: int -> int)

  /** A zone whose local midnight sits at one fixed UTC offset all year. */
  ghost predicate FixedZone(cal: Calendar) {
    forall n :: cal.utcDay(n) == n + cal.utcDay(0)
  }

  /**
   * The travel dates when `days > 0`: the dates of local midnight of tomorrow
   * and of the last day, `days - 1` local days later.
   */
  function TravelDates(days: Option<int>, cal: Calendar): (r: Option<(int, int)>)
    ensures r.Some? <==> days.Some? && days.value > 0
    ensures r.Some? ==> r.value.0 == cal.utcDay(cal.today + 1) && r.value.1 == cal.utcDay(cal.today + days.value)
    ensures r.Some? && FixedZone(cal) ==> r.value.1 - r.value.0 + 1 == days.value
  {
    if days.Some? && days.value > 0 then
      var start := cal.today + 1;
      Some((cal.utcDay(start), cal.utcDay(start + days.value - 1)))
    else None
  }

  /** The family tag appended unless already there. */
  function WithFamilyTag(prefs: seq<string>): (r: seq<string>)
    ensures FamilyTag in r && prefs <= r
    ensures FamilyTag in prefs <==> r == prefs
  {
    if FamilyTag in prefs then prefs else prefs + [FamilyTag]
  }

  /** The preferences: the given ones, or none, with the family tag when children come along. */
  function Preferences(p: Reply): (r: seq<string>)
    ensures !(p.numChildren.Some? && p.numChildren.value > 0.0) ==> r == p.preferences.GetOr([])
    ensures p.numChildren.Some? && p.numChildren.value > 0.0 ==> FamilyTag in r && p.preferences.GetOr([]) <= r
  {
    if p.numChildren.Some? && p.numChildren.value > 0.0 then WithFamilyTag(p.preferences.GetOr([]))
    else p.preferences.GetOr([])
  }

  function MissingFields(p: Reply, dates: Option<(int, int)>): seq<string> {
    (if JsText.Present(p.destination) then [] else ["destination"])
    + (if !TruthyDays(p.days) && dates.None? then ["dates"] else [])
    + (if TruthyNumber(p.totalBudget) then [] else ["totalBudget"])
  }

  /**
   * The draft built from the parsed reply. Present values pass through; the defaults are one adult, no children
   * and no preferences, and the request text is kept. Children add the family tag to the preferences, and the
   * confidence is high exactly when nothing is missing.
   */
  function Draft(text: string, p: Reply, cal: Calendar): (d: TripDraft)
    ensures d.rawText == text
    ensures !TruthyNumber(p.numAdults) ==> d.numAdults == 1.0
    ensures TruthyNumber(p.numAdults) ==> d.numAdults == p.numAdults.value
    ensures !TruthyNumber(p.numChildren) ==> d.numChildren == 0.0
    ensures p.preferences.None? && !(p.numChildren.Some? && p.numChildren.value > 0.0) ==> d.preferences == []
    ensures d.destination.Some? ==> d.destination == p.destination && |d.destination.value| > 0
    ensures JsText.Present(p.destination) ==> d.destination == p.destination
    ensures TruthyNumber(p.totalBudget) ==> d.totalBudget == p.totalBudget
    ensures !TruthyNumber(p.totalBudget) ==> d.totalBudget.None?
    ensures TruthyDays(p.days) ==> d.days == p.days
    ensures !TruthyDays(p.days) ==> d.days.None?
    ensures d.startDay.Some? <==> p.days.Some? && p.days.value > 0
    ensures d.startDay.Some? ==> d.startDay == Some(cal.utcDay(cal.today + 1)) && d.endDay == Some(cal.utcDay(cal.today + p.days.value))
    ensures TruthyNumber(p.numChildren) ==> d.numChildren == p.numChildren.value
    ensures p.preferences.Some? && !(p.numChildren.Some? && p.numChildren.value > 0.0) ==> d.preferences == p.preferences.value
    ensures p.numChildren.Some? && p.numChildren.value > 0.0 ==>
              FamilyTag in d.preferences && p.preferences.GetOr([]) <= d.preferences
    ensures d.missingFields.None? <==> d.confidence == 0.9
  {
    var dates := TravelDates(p.days, cal);
    var missing := MissingFields(p, dates);
    var prefs := Preferences(p);
    TripDraft(
      if JsText.Present(p.destination) then p.destination else None,
      if dates.Some? then Some(dates.value.0) else None,
      if dates.Some? then Some(dates.value.1) else None,
      if TruthyDays(p.days) then p.days else None,
      if TruthyNumber(p.totalBudget) then p.totalBudget else None,
      if TruthyNumber(p.numAdults) then p.numAdults.value else 1.0,
      if TruthyNumber(p.numChildren) then p.numChildren.value else 0.0,
      prefs,
      text,
      if |missing| == 0 then 0.9 else 0.7,
      if |missing| > 0 then Some(missing) else None)
  }

  /** The route: session, text, model reply, JSON text, parse, draft. */
  function Post(userId: Option<string>, text: TextField, reply: Option<string>, parse: string -> Parsed<Reply>, cal: Calendar): (r: Response)
    ensures !SignedIn(userId) ==> r == Unauthorized
    ensures SignedIn(userId) && RequestText(text).None? ==> r == BadRequest
    ensures r.Ok? ==> RequestText(text) == Some(r.result.rawText)
  {
    if !SignedIn(userId) then Unauthorized
    else
      match RequestText(text)
      case None => BadRequest
      case Some(t) =>
        var responseText := if JsText.Present(reply) then reply.value else "";
        match parse(JsonSource(responseText))
        case Unparsable => ServerError
        case JsonNull => ServerError
        case JsonValue(p) => Ok(Draft(t, p, cal))
  }

  // ---------------------------------------------------------------------------
  // Properties

  /** Both guards answer before the reply is looked at. */
  lemma GuardsIgnoreReply(userId: Option<string>, text: TextField, reply1: Option<string>, reply2: Option<string>,
                          parse1: string -> Parsed<Reply>, parse2: string -> Parsed<Reply>, cal1: Calendar, cal2: Calendar)
    requires !SignedIn(userId) || RequestText(text).None?
    ensures Post(userId, text, reply1, parse1, cal1) == Post(userId, text, reply2, parse2, cal2)
  {
  }

  /**
   * Dates exist exactly for a positive day count. They are the dates of local
   * midnight of tomorrow and of the last day, and in a zone with a fixed
   * offset they span that many days inclusive.
   */
  lemma DatesSpanDays(text: string, p: Reply, cal: Calendar)
    ensures var d := Draft(text, p, cal);
            && (d.startDay.Some? <==> p.days.Some? && p.days.value > 0)
            && d.startDay.Some? == d.endDay.Some?
            && (d.startDay.Some? ==> d.startDay.value == cal.utcDay(cal.today + 1)
                                     && d.endDay.value == cal.utcDay(cal.today + p.days.value))
            && (d.startDay.Some? && FixedZone(cal) ==> d.endDay.value - d.startDay.value + 1 == p.days.value)
  {
  }

  /**
   * East of UTC, local midnight falls on the previous UTC day, so the trip
   * "from tomorrow" is dated from the request's own day.
   */
  lemma EastOfUtcStartsToday(text: string, p: Reply, today: int)
    requires p.days.Some? && p.days.value > 0
    ensures var d := Draft(text, p, Calendar(today, n => n - 1));
            d.startDay == Some(today) && d.endDay == Some(today + p.days.value - 1)
  {
  }

  /**
   * Where daylight saving moves local midnight across UTC midnight after
   * tomorrow (as London's spring change from GMT to BST does), a three-day trip
   * is dated over two days.
   */
  lemma DaylightSavingShortensTrip(text: string, today: int)
    ensures var cal := Calendar(today, n => if n <= today + 1 then n else n - 1);
            var d := Draft(text, Reply(Some("北京"), Some(3), Some(5000.0), None, None, None), cal);
            d.startDay == Some(today + 1) && d.endDay == Some(today + 2)
            && d.endDay.value - d.startDay.value + 1 == 2
  {
  }

  /**
   * Each required field is reported exactly when its value is falsy, the list
   * is left out when empty, and the confidence is 0.9 exactly then.
   */
  lemma MissingFieldsRule(text: string, p: Reply, cal: Calendar)
    ensures var d := Draft(text, p, cal);
            && (d.missingFields.Some? ==> |d.missingFields.value| > 0)
            && (d.missingFields.None? <==> d.confidence == 0.9)
            && (d.confidence == 0.9 || d.confidence == 0.7)
            && (d.missingFields.None? <==> JsText.Present(p.destination) && TruthyDays(p.days) && TruthyNumber(p.totalBudget))
            && (d.missingFields.Some? ==>
                  && ("destination" in d.missingFields.value <==> !JsText.Present(p.destination))
                  && ("dates" in d.missingFields.value <==> !TruthyDays(p.days))
                  && ("totalBudget" in d.missingFields.value <==> !TruthyNumber(p.totalBudget)))
  {
    var m := MissingFields(p, TravelDates(p.days, cal));
    var a: seq<string> := if JsText.Present(p.destination) then [] else ["destination"];
    var b: seq<string> := if !TruthyDays(p.days) then ["dates"] else [];
    var c: seq<string> := if TruthyNumber(p.totalBudget) then [] else ["totalBudget"];
    assert m == a + b + c;
    assert "destination" in m <==> "destination" in a;
    assert "dates" in m <==> "dates" in b;
    assert "totalBudget" in m <==> "totalBudget" in c;
  }

  /**
   * A negative day count is truthy, so it is not reported missing although it
   * yields no dates: the draft then has neither dates nor a missing-field list.
   */
  lemma NegativeDaysUnreported(text: string, cal: Calendar)
    ensures var d := Draft(text, Reply(Some("北京"), Some(-3), Some(5000.0), None, None, None), cal);
            d.startDay.None? && d.endDay.None? && d.missingFields.None? && d.confidence == 0.9
  {
  }

  /**
   * With children, the family tag is present exactly once more than zero times:
   * appended at the end when absent, never duplicated, and nothing else changes.
   */
  lemma FamilyTagAdded(text: string, p: Reply, cal: Calendar)
    requires p.numChildren.Some? && p.numChildren.value > 0.0
    ensures var prefs := Draft(text, p, cal).preferences;
            var given := p.preferences.GetOr([]);
            && FamilyTag in prefs
            && multiset(prefs)[FamilyTag] == (if FamilyTag in given then multiset(given)[FamilyTag] else 1)
            && (forall t :: t != FamilyTag ==> multiset(prefs)[t] == multiset(given)[t])
            && prefs[..|given|] == given
  {
    var given := p.preferences.GetOr([]);
    if FamilyTag !in given {
      assert (given + [FamilyTag])[..|given|] == given;
      assert multiset(given)[FamilyTag] == 0;
    }
  }
}

=== FILE: pcm.dfy ===
/**
 * Linear 16-bit PCM: the float-to-int16 sample conversion shared by the
 * PCM recorder and the audio converter, and the little-endian byte layout
 * of an `Int16Array` buffer that is sent to the recogniser.
 */
module Pcm {
  import opened Base64

  const Int16Min: int := -32768
  const Int16Max: int := 32767

  predicate IsInt16(v: int) {
    Int16Min <= v <= Int16Max
  }

  /** One element of an `Int16Array`. */
  type Int16 = v: int | -32768 <= v <= 32767

  /** `Math.max(-1, Math.min(1, x))`. */
  function Clamp(x: real): (s: real)
    ensures -1.0 <= s <= 1.0
    ensures -1.0 <= x <= 1.0 ==> s == x
    ensures x < -1.0 ==> s == -1.0
    ensures x > 1.0 ==> s == 1.0
  {
    if x < -1.0 then -1.0 else if x > 1.0 then 1.0 else x
  }

  /** Storing a number into an integer typed array drops its fraction (rounds toward zero). */
  function Truncate(x: real): (n: int)
    ensures x >= 0.0 ==> n as real <= x < n as real + 1.0
    ensures x < 0.0 ==> n as real - 1.0 < x <= n as real
  {
    if x >= 0.0 then x.Floor else -((-x).Floor)
  }

  lemma TruncateMonotone(x: real, y: real)
    requires x <= y
    ensures Truncate(x) <= Truncate(y)
  {
  }

  /**
   * One sample: clamp to [-1, 1], then scale negatives by 0x8000 and the
   * rest by 0x7FFF, so both ends of the int16 range are reached without overflow.
   */
  function SampleToInt16(x: real): (v: int)
    ensures IsInt16(v)
    ensures x <= -1.0 ==> v == Int16Min
    ensures x >= 1.0 ==> v == Int16Max
    ensures x == 0.0 ==> v == 0
    ensures x < 0.0 ==> v <= 0
    ensures x >= 0.0 ==> v >= 0
  {
    var s := Clamp(x);
    if s < 0.0 then Truncate(s * 32768.0) else Truncate(s * 32767.0)
  }

  /** The conversion preserves the order of samples (louder stays louder). */
  lemma SampleToInt16Monotone(x: real, y: real)
    requires x <= y
    ensures SampleToInt16(x) <= SampleToInt16(y)
  {
    var sx, sy := Clamp(x), Clamp(y);
    assert sx <= sy;
    if sx < 0.0 && sy < 0.0 {
      TruncateMonotone(sx * 32768.0, sy * 32768.0);
    } else if sx >= 0.0 && sy >= 0.0 {
      TruncateMonotone(sx * 32767.0, sy * 32767.0);
    }
  }

  /** The conversion loses less than one quantisation step. */
  lemma SampleToInt16Error(x: real)
    ensures var s := Clamp(x);
            var k := if s < 0.0 then 32768.0 else 32767.0;
            -1.0 < s * k - SampleToInt16(x) as real < 1.0
  {
  }

  /** `floatTo16BitPCM` / the conversion loop of `convertToPCM`. */
  function FloatTo16BitPCM(samples: seq<real>): (r: seq<int>)
    ensures |r| == |samples|
    ensures forall i :: 0 <= i < |r| ==> r[i] == SampleToInt16(samples[i]) && IsInt16(r[i])
  {
    seq(|samples|, i requires 0 <= i < |samples| => SampleToInt16(samples[i]))
  }

  /** Two's-complement little-endian layout of one int16 sample. */
  function Int16Bytes(v: int): (r: seq<Byte>)
    requires IsInt16(v)
    ensures |r| == 2
  {
    var u := if v < 0 then v + 65536 else v;
    [u % 256, u / 256]
  }

  function BytesToInt16(lo: Byte, hi: Byte): (v: int)
    ensures IsInt16(v)
  {
    var u := hi * 256 + lo;
    if u >= 32768 then u - 65536 else u
  }

  lemma Int16BytesRoundTrip(v: int)
    requires IsInt16(v)
    ensures var b := Int16Bytes(v); BytesToInt16(b[0], b[1]) == v
  {
  }

  /** The bytes of an `Int16Array`'s buffer. */
  function Int16ArrayBuffer(samples: seq<int>): (r: seq<Byte>)
    requires forall i :: 0 <= i < |samples| ==> IsInt16(samples[i])
    ensures |r| == 2 * |samples|
  {
    if |samples| == 0 then [] else Int16ArrayBuffer(samples[..|samples| - 1]) + Int16Bytes(samples[|samples| - 1])
  }

  /** Reads an even-length byte buffer back as int16 samples. */
  function ReadInt16s(bytes: seq<Byte>): (r: seq<int>)
    requires |bytes| % 2 == 0
    ensures |r| == |bytes| / 2
  {
    if |bytes| == 0 then [] else ReadInt16s(bytes[..|bytes| - 2]) + [BytesToInt16(bytes[|bytes| - 2], bytes[|bytes| - 1])]
  }

  /** The byte layout is lossless: reading the buffer back yields the samples. */
  lemma {:induction false} ReadInt16sOfBuffer(samples: seq<int>)
    requires forall i :: 0 <= i < |samples| ==> IsInt16(samples[i])
    ensures ReadInt16s(Int16ArrayBuffer(samples)) == samples
  {
    if |samples| > 0 {
      var init := samples[..|samples| - 1];
      var last := samples[|samples| - 1];
      var b := Int16ArrayBuffer(samples);
      assert b[..|b| - 2] == Int16ArrayBuffer(init);
      ReadInt16sOfBuffer(init);
      Int16BytesRoundTrip(last);
      assert samples == init + [last];
    }
  }
}

=== FILE: pcm_recorder.dfy ===
/**
 * The raw-PCM capture unit used for real-time recognition (`PCMRecorder`).
 *
 * Capture starts from a device outcome supplied by the environment; while
 * resources are held the audio graph delivers sample buffers and the level
 * monitor delivers spectrum readings. Every operation is a pure step that
 * returns the notifications delivered to registered listeners, in order.
 */
module PcmRecorder {
  import opened Wrappers
  import opened VoiceTypes
  import Pcm
  import AudioLevel

  datatype Listener = OnStateChange | OnDataAvailable | OnError

  datatype Event =
    | StateChanged(state: RecorderState)
    | DataAvailable(pcm: seq<Pcm.Int16>)
    | ErrorRaised(message: string)

  function ListenerFor(e: Event): Listener {
    match e
    case StateChanged(_) => OnStateChange
    case DataAvailable(_) => OnDataAvailable
    case ErrorRaised(_) => OnError
  }

  /**
   * `capturing` is true while the stream, audio context and processor node are
   * held (between a successful start and the next cleanup).
   */
  datatype Recorder = Recorder(state: RecorderState, capturing: bool, startTime: int, listeners: set<Listener>)

  const Fresh: Recorder := Recorder(InitialRecorderState, false, 0, {})

  datatype Step = Step(rec: Recorder, events: seq<Event>)

  /** What asking for the microphone yields. */
  datatype Capture =
    | Granted(now: int, firstReading: AudioLevel.Spectrum, readAt: int)
      // `now` is the start time; the first level reading, taken synchronously, is at the later clock reading `readAt`
    | Unsupported(insecureHttp: bool)                       // no `mediaDevices.getUserMedia`
    | Denied(message: string)                               // `getUserMedia` or graph set-up threw

  const AlreadyRecording: string := "录音已在进行中"

  /** The capability message, with advice that depends on whether the page is served over plain HTTP. */
  function UnsupportedMessage(insecureHttp: bool): string {
    "您的浏览器不支持录音功能。"
    + (if insecureHttp
       then " 请使用 HTTPS 协议访问，或在浏览器地址栏输入 chrome://flags/#unsafely-treat-insecure-origin-as-secure 添加您的域名为安全来源。"
       else " 请使用最新版本的 Chrome、Firefox 或 Safari 浏览器。")
  }

  function Emit(rec: Recorder, e: Event): (evs: seq<Event>)
    ensures evs == if ListenerFor(e) in rec.listeners then [e] else []
  {
    if ListenerFor(e) in rec.listeners then [e] else []
  }

  /** `updateState`: merge, then notify with the merged state. */
  function UpdateState(rec: Recorder, p: StatePatch): Step {
    var r := rec.(state := Merge(rec.state, p));
    Step(r, Emit(r, StateChanged(r.state)))
  }

  /** A level reading: first the level, then the elapsed time, each notified. */
  function LevelUpdate(rec: Recorder, reading: AudioLevel.Spectrum, now: int): Step {
    var s1 := UpdateState(rec, StatePatch(None, None, Some(AudioLevel.Level(reading)), None));
    var s2 := UpdateState(s1.rec, StatePatch(None, Some(now - rec.startTime), None, None));
    Step(s2.rec, s1.events + s2.events)
  }

  datatype StartStep = StartStep(rec: Recorder, events: seq<Event>, thrown: Option<string>)

  /**
   * `start`: it succeeds exactly when not already recording and the device is
   * granted, and then it records and holds the device; a failure from the
   * device leaves it in `error`, released, with the rethrown message recorded.
   */
  function Start(rec: Recorder, c: Capture): (r: StartStep)
    ensures r.thrown.None? <==> rec.state.status != Recording && c.Granted?
    ensures rec.state.status == Recording ==> r.rec == rec && r.events == [] && r.thrown == Some(AlreadyRecording)
    ensures r.thrown.None? ==>
              && r.rec.capturing && r.rec.startTime == c.now && r.rec.state.status == Recording
              && r.rec.state.duration == c.readAt - c.now
    ensures rec.state.status != Recording && r.thrown.Some? ==>
              r.rec.state.status == Error && !r.rec.capturing && r.rec.state.error == r.thrown
    ensures r.rec.listeners == rec.listeners
  {
    if rec.state.status == Recording then StartStep(rec, [], Some(AlreadyRecording))
    else match c
      case Granted(now, reading, readAt) =>
        var s1 := UpdateState(rec.(capturing := true, startTime := now), StatusPatch(Recording));
        var s2 := LevelUpdate(s1.rec, reading, readAt);
        StartStep(s2.rec, s1.events + s2.events, None)
      case Unsupported(http) => StartFailure(rec, UnsupportedMessage(http))
      case Denied(msg) => StartFailure(rec, msg)
  }

  /** The `catch` of `start`: error state with the message, `onError`, release, rethrow. */
  function StartFailure(rec: Recorder, msg: string): StartStep {
    var s1 := UpdateState(rec, StatePatch(Some(Error), None, None, Some(msg)));
    StartStep(s1.rec.(capturing := false), s1.events + Emit(s1.rec, ErrorRaised(msg)), Some(msg))
  }

  /** `stop`: only while recording; completes and releases. */
  function Stop(rec: Recorder): (r: Step)
    ensures r.rec.state.status == (if rec.state.status == Recording then Completed else rec.state.status)
    ensures !r.rec.capturing || rec.state.status != Recording
    ensures rec.state.status != Recording ==> r.rec == rec && r.events == []
    ensures r.rec.state.duration == rec.state.duration && r.rec.listeners == rec.listeners
  {
    if rec.state.status != Recording then Step(rec, [])
    else
      var s := UpdateState(rec, StatusPatch(Completed));
      Step(s.rec.(capturing := false), s.events)
  }

  /** `cancel`: unconditionally idle with zero duration and level, and released. */
  function Cancel(rec: Recorder): (r: Step)
    ensures r.rec.state == InitialRecorderState.(error := rec.state.error)
    ensures !r.rec.capturing && r.rec.listeners == rec.listeners
    ensures |r.events| <= 1 && forall e :: e in r.events ==> e == StateChanged(r.rec.state)
  {
    var s := UpdateState(rec, StatePatch(Some(Idle), Some(0), Some(0.0), None));
    Step(s.rec.(capturing := false), s.events)
  }

  /** `destroy`: cancels, then forgets every listener, so later activity reaches no one. */
  function Destroy(rec: Recorder): (r: Step)
    ensures r.rec == Cancel(rec).rec.(listeners := {}) && r.events == Cancel(rec).events
    ensures !r.rec.capturing && r.rec.state.status == Idle
  {
    var s := Cancel(rec);
    Step(s.rec.(listeners := {}), s.events)
  }

  /** `onaudioprocess`: converts and emits a buffer only while the status is `recording`. */
  function AudioProcess(rec: Recorder, samples: seq<real>): (r: Step)
    ensures r.rec == rec
    ensures forall e :: e in r.events ==> e == DataAvailable(Pcm.FloatTo16BitPCM(samples))
    ensures r.events != [] <==> rec.capturing && rec.state.status == Recording && OnDataAvailable in rec.listeners
  {
    if !rec.capturing || rec.state.status != Recording then Step(rec, [])
    else Step(rec, Emit(rec, DataAvailable(Pcm.FloatTo16BitPCM(samples))))
  }

  /** One animation-frame tick of the level monitor, which stops once the status leaves `recording`. */
  function Tick(rec: Recorder, reading: AudioLevel.Spectrum, now: int): Step {
    if !rec.capturing || rec.state.status != Recording then Step(rec, [])
    else LevelUpdate(rec, reading, now)
  }

  /** Everything that can happen to a recorder. */
  datatype Input =
    | DoStart(c: Capture)
    | DoStop
    | DoCancel
    | DoDestroy
    | Samples(samples: seq<real>)
    | Reading(reading: AudioLevel.Spectrum, now: int)
    | Subscribe(l: Listener)
    | Unsubscribe(l: Listener)

  function Apply(rec: Recorder, i: Input): Step {
    match i
    case DoStart(c) => var s := Start(rec, c); Step(s.rec, s.events)
    case DoStop => Stop(rec)
    case DoCancel => Cancel(rec)
    case DoDestroy => Destroy(rec)
    case Samples(xs) => AudioProcess(rec, xs)
    case Reading(b, now) => Tick(rec, b, now)
    case Subscribe(l) => Step(rec.(listeners := rec.listeners + {l}), [])
    case Unsubscribe(l) => Step(rec.(listeners := rec.listeners - {l}), [])
  }

  function Run(rec: Recorder, inputs: seq<Input>): Step
    decreases |inputs|
  {
    if |inputs| == 0 then Step(rec, [])
    else
      var s := Apply(rec, inputs[0]);
      var t := Run(s.rec, inputs[1..]);
      Step(t.rec, s.events + t.events)
  }

  /** Resources are held only while recording. */
  predicate Valid(rec: Recorder) {
    rec.capturing ==> rec.state.status == Recording
  }

  lemma ApplyValid(rec: Recorder, i: Input)
    requires Valid(rec)
    ensures Valid(Apply(rec, i).rec)
  {
  }

  lemma {:induction false} RunValid(rec: Recorder, inputs: seq<Input>)
    requires Valid(rec)
    ensures Valid(Run(rec, inputs).rec)
    decreases |inputs|
  {
    if |inputs| > 0 {
      ApplyValid(rec, inputs[0]);
      RunValid(Apply(rec, inputs[0]).rec, inputs[1..]);
    }
  }

  /** A second `start` while recording throws and changes nothing. */
  lemma StartWhileRecording(rec: Recorder, c: Capture)
    requires rec.state.status == Recording
    ensures Start(rec, c) == StartStep(rec, [], Some(AlreadyRecording))
  {
  }

  /**
   * A start that fails (no capability, or the device refused) ends in `error`
   * with the message recorded, reports it to `onError`, releases everything
   * and rethrows the same message.
   */
  lemma StartFails(rec: Recorder, c: Capture)
    requires rec.state.status != Recording && !c.Granted?
    ensures var s := Start(rec, c);
            var msg := if c.Unsupported? then UnsupportedMessage(c.insecureHttp) else c.message;
            && s.thrown == Some(msg)
            && s.rec.state.status == Error && s.rec.state.error == Some(msg) && !s.rec.capturing
            && s.rec.state.duration == rec.state.duration
            && (OnError in rec.listeners <==> ErrorRaised(msg) in s.events)
  {
  }

  /**
   * A granted start records, holds the resources, and keeps the error text of
   * an earlier failure (the update merges rather than replaces).
   */
  lemma StartSucceeds(rec: Recorder, now: int, reading: AudioLevel.Spectrum, readAt: int)
    requires rec.state.status != Recording
    ensures var s := Start(rec, Granted(now, reading, readAt));
            && s.thrown.None? && s.rec.capturing && s.rec.startTime == now
            && s.rec.state == RecorderState(Recording, readAt - now, AudioLevel.Level(reading), rec.state.error)
  {
  }

  /** A buffer is emitted only while recording, converted sample by sample, and nothing else changes. */
  lemma AudioProcessOnlyWhileRecording(rec: Recorder, samples: seq<real>)
    ensures var s := AudioProcess(rec, samples);
            && s.rec == rec
            && (s.events != [] <==> rec.capturing && rec.state.status == Recording && OnDataAvailable in rec.listeners)
            && (s.events != [] ==> s.events == [DataAvailable(Pcm.FloatTo16BitPCM(samples))])
  {
  }

  /** Every emitted buffer has one int16 value per input sample. */
  lemma EmittedBufferShape(rec: Recorder, samples: seq<real>)
    ensures forall e :: e in AudioProcess(rec, samples).events ==>
              e.DataAvailable? && |e.pcm| == |samples| && forall k :: 0 <= k < |e.pcm| ==> Pcm.IsInt16(e.pcm[k])
  {
  }

  /** `stop` does nothing unless recording; otherwise it completes and releases. */
  lemma StopGuard(rec: Recorder)
    ensures rec.state.status != Recording ==> Stop(rec) == Step(rec, [])
    ensures rec.state.status == Recording ==>
              Stop(rec).rec == rec.(state := rec.state.(status := Completed), capturing := false)
  {
  }

  /** `cancel` works from every state: idle, zero duration and level, released; the error text stays. */
  lemma CancelFromAnyState(rec: Recorder)
    ensures Cancel(rec).rec == rec.(state := RecorderState(Idle, 0, 0.0, rec.state.error), capturing := false)
    ensures OnStateChange in rec.listeners ==> Cancel(rec).events == [StateChanged(RecorderState(Idle, 0, 0.0, rec.state.error))]
  {
  }

  /**
   * After `destroy` nothing is delivered to anyone until a listener is added
   * again: the destroyed recorder has no listeners and every later input short
   * of a subscription reaches no one.
   */
  lemma DestroyedIsSilentUntilSubscribed(rec: Recorder, inputs: seq<Input>)
    requires forall k :: 0 <= k < |inputs| ==> !inputs[k].Subscribe?
    ensures Destroy(rec).rec.listeners == {}
    ensures Run(Destroy(rec).rec, inputs).events == []
  {
    SilentWithoutListeners(Destroy(rec).rec, inputs);
  }

  /** With no listeners, no input short of a subscription delivers anything. */
  lemma {:induction false} SilentWithoutListeners(rec: Recorder, inputs: seq<Input>)
    requires rec.listeners == {}
    requires forall k :: 0 <= k < |inputs| ==> !inputs[k].Subscribe?
    ensures Run(rec, inputs).events == []
    decreases |inputs|
  {
    if |inputs| > 0 {
      var s := Apply(rec, inputs[0]);
      assert s.rec.listeners == {} && s.events == [];
      SilentWithoutListeners(s.rec, inputs[1..]);
    }
  }
}

=== FILE: profile_route.dfy ===
/**
 * The profile route (`/api/profile`): reading the signed-in user's row, and
 * the partial update that validates the body and writes only the fields it
 * holds, with an empty avatar URL stored as null. The database is an input:
 * whether its query fails.
 */
module ProfileRoute {
  import opened Wrappers
  import opened ApiRequest
  import opened Validations

  /** A column value of the `users` row. */
  datatype Column = Text(s: string) | Null | Number(x: real)

  /** The object handed to `.update(...)`: column name to value. */
  type Record = map<string, Column>

  datatype GetResponse =
    | GetUnauthorized   // 401
    | GetFailed         // 500: the query reported an error
    | Found(id: string) // 200: the row whose id is the session's user id

  /** GET: the session guard, then the row of that user. */
  function Get(userId: Option<string>, queryFails: bool): (r: GetResponse)
    ensures r == GetUnauthorized <==> !SignedIn(userId)
    ensures r.Found? ==> Some(r.id) == userId && !queryFails
  {
    if !SignedIn(userId) then GetUnauthorized
    else if queryFails then GetFailed
    else Found(userId.value)
  }

  /**
   * The update record: the time stamp always, and exactly the columns of the
   * fields that were sent.
   */
  function UpdateRecord(p: Profile, now: string): (r: Record)
    ensures r.Keys <= {"updated_at", "display_name", "avatar_url", "default_budget", "default_city"}
    ensures "updated_at" in r && r["updated_at"] == Text(now)
    ensures "display_name" in r <==> p.displayName.Some?
    ensures "avatar_url" in r <==> p.avatarUrl.Some?
    ensures "default_budget" in r <==> p.defaultBudget.Some?
    ensures "default_city" in r <==> p.defaultCity.Some?
  {
    var r0 := map["updated_at" := Text(now)];
    var r1 := if p.displayName.Some? then r0["display_name" := Text(p.displayName.value)] else r0;
    var r2 := if p.avatarUrl.Some? then r1["avatar_url" := if p.avatarUrl.value == "" then Null else Text(p.avatarUrl.value)] else r1;
    var r3 := if p.defaultBudget.Some? then r2["default_budget" := Number(p.defaultBudget.value)] else r2;
    if p.defaultCity.Some? then r3["default_city" := Text(p.defaultCity.value)] else r3
  }

  /** The profile fields a stored record sets; a null avatar reads back as the empty URL. */
  function FromRecord(r: Record): Profile {
    Profile(
      if "display_name" in r && r["display_name"].Text? then Some(r["display_name"].s) else None,
      if "avatar_url" in r then (match r["avatar_url"] case Text(s) => Some(s) case _ => Some("")) else None,
      if "default_budget" in r && r["default_budget"].Number? then Some(r["default_budget"].x) else None,
      if "default_city" in r && r["default_city"].Text? then Some(r["default_city"].s) else None)
  }

  datatype PatchResponse =
    | PatchUnauthorized          // 401
    | Invalid                    // 400: the body failed the schema
    | PatchFailed(tried: bool)   // 500: an unreadable body, or the update reported an error
    | Updated(write: Record)     // 200

  /**
   * PATCH: the session guard, then the body (`None` when it is not JSON),
   * the schema, and the update of the given fields.
   */
  function Patch(userId: Option<string>, body: Option<Profile>, f: Formats, now: string, updateFails: bool): (r: PatchResponse)
    ensures r == PatchUnauthorized <==> !SignedIn(userId)
    ensures r == Invalid <==> SignedIn(userId) && body.Some? && !ProfileAccepted(body.value, f)
    ensures r.Updated? <==> SignedIn(userId) && body.Some? && ProfileAccepted(body.value, f) && !updateFails
    ensures r.PatchFailed? && r.tried ==> body.Some? && ProfileAccepted(body.value, f)
  {
    if !SignedIn(userId) then PatchUnauthorized
    else if body.None? then PatchFailed(false)
    else match ParseProfile(body.value, f)
      case None => Invalid
      case Some(p) =>
        if updateFails then PatchFailed(true) else Updated(UpdateRecord(p, now))
  }

  /** An empty avatar URL clears the column; any other one is stored as sent. */
  lemma AvatarStored(p: Profile, now: string)
    requires p.avatarUrl.Some?
    ensures var r := UpdateRecord(p, now);
            && "avatar_url" in r
            && (r["avatar_url"] == Null <==> p.avatarUrl.value == "")
            && (p.avatarUrl.value != "" ==> r["avatar_url"] == Text(p.avatarUrl.value))
  {
  }

  /** Reading the record back gives the profile that was sent: nothing is lost or invented. */
  lemma RecordRoundTrip(p: Profile, now: string)
    ensures FromRecord(UpdateRecord(p, now)) == p
  {
  }

  /** A write happens only for a signed-in user whose body passed the schema, and it is that body's record. */
  lemma WriteOnlyValidated(userId: Option<string>, body: Option<Profile>, f: Formats, now: string, updateFails: bool)
    ensures var r := Patch(userId, body, f, now, updateFails);
            r.Updated? ==> && SignedIn(userId) && body.Some? && ProfileAccepted(body.value, f)
                           && r.write == UpdateRecord(body.value, now)
                           && FromRecord(r.write) == body.value
  {
    RecordRoundTrip(if body.Some? then body.value else Profile(None, None, None, None), now);
  }

  /** An empty body is a valid update that touches only the time stamp. */
  lemma EmptyPatchStampsOnly(userId: string, f: Formats, now: string)
    requires userId != ""
    ensures Patch(Some(userId), Some(Profile(None, None, None, None)), f, now, false) == Updated(map["updated_at" := Text(now)])
  {
  }
}

=== FILE: signed_url.dfy ===
/**
 * The signed WebSocket endpoint of the recognition service: the signature
 * origin, the authorization header and the URL, as assembled by the server
 * route and by the client recogniser.
 *
 * HMAC-SHA256 (RFC 2104 with SHA-256), percent-encoding (`encodeURIComponent`,
 * section 2.1 of RFC 3986) and the date string (`toUTCString`, the IMF-fixdate
 * of section 7.1.1.1 of RFC 7231) are not modelled: the first two are
 * parameters and the date is an input. Base64 is the concrete encoder.
 */
module SignedUrl {
  import opened Wrappers
  import opened Base64
  import JsText

  const Host: string := "iat-api.xfyun.cn"
  const Path: string := "/v2/iat"

  /** HMAC-SHA256 over the UTF-8 bytes of key and message, giving the 32-byte digest. */
  type Hmac = (seq<Byte>, seq<Byte>) -> seq<Byte>

  /** `encodeURIComponent`. */
  type UriEncoder = string -> string

  /** The signed lines: host, date and request line. */
  function OriginLines(date: string): seq<string> {
    ["host: " + Host, "date: " + date, "GET " + Path + " HTTP/1.1"]
  }

  /** The text that is signed: the three lines joined by newlines. */
  function SignatureOrigin(date: string): string {
    JsText.Join(OriginLines(date), '\n')
  }

  lemma NotInConcat(c: char, a: string, b: string)
    requires c !in a && c !in b
    ensures c !in a + b
  {
  }

  lemma OriginLinesSingle(date: string)
    requires '\n' !in date
    ensures forall i :: 0 <= i < |OriginLines(date)| ==> '\n' !in OriginLines(date)[i]
  {
    NotInConcat('\n', "date: ", date);
    assert '\n' !in "host: " + Host && '\n' !in "GET " + Path + " HTTP/1.1";
  }

  /** Splitting the origin at newlines gives back the host, date and request lines. */
  lemma SignatureOriginLines(date: string)
    requires '\n' !in date
    ensures JsText.Split(SignatureOrigin(date), '\n') == OriginLines(date)
  {
    OriginLinesSingle(date);
    JsText.SplitJoin(OriginLines(date), '\n');
  }

  /** The `Authorization` origin naming the key, the algorithm, the signed headers and the signature. */
  function AuthorizationOrigin(apiKey: string, signature: string): string {
    "api_key=\"" + apiKey + "\", algorithm=\"hmac-sha256\", " + "headers=\"host date request-line\", "
    + "signature=\"" + signature + "\""
  }

  /** The query parameters of the endpoint, in order. */
  function QueryParams(encodedAuthorization: string, encodedDate: string): seq<string> {
    ["authorization=" + encodedAuthorization, "date=" + encodedDate, "host=" + Host]
  }

  const EndpointBase: string := "wss://" + Host + Path

  /** The endpoint URL: scheme, host and path, then the query parameters joined by '&'. */
  function EndpointUrl(encodedAuthorization: string, encodedDate: string): string {
    EndpointBase + "?" + JsText.Join(QueryParams(encodedAuthorization, encodedDate), '&')
  }

  /** The query string of a URL: everything after the first '?', if any. */
  function Query(url: string): Option<string> {
    match JsText.IndexOfChar(url, '?')
    case None => None
    case Some(k) => Some(url[k + 1..])
  }

  lemma QueryParamsSingle(encodedAuthorization: string, encodedDate: string)
    requires '&' !in encodedAuthorization && '&' !in encodedDate
    ensures var ps := QueryParams(encodedAuthorization, encodedDate);
            forall i :: 0 <= i < |ps| ==> '&' !in ps[i]
  {
    NotInConcat('&', "authorization=", encodedAuthorization);
    NotInConcat('&', "date=", encodedDate);
    assert '&' !in "host=" + Host;
  }

  lemma QueryOfEndpoint(query: string)
    ensures Query(EndpointBase + "?" + query) == Some(query)
  {
    assert '?' !in EndpointBase by {
      NotInConcat('?', "wss://", Host);
      NotInConcat('?', "wss://" + Host, Path);
    }
    JsText.IndexOfCharAfterPiece(EndpointBase, '?', query);
    var url := EndpointBase + "?" + query;
    assert url[|EndpointBase| + 1..] == query;
  }

  /**
   * Reading the URL back: the query splits into exactly the three parameters,
   * whose values are the encoded authorization, the encoded date and the host,
   * as long as the encoder never emits '&' (which `encodeURIComponent` escapes).
   */
  lemma EndpointUrlQuery(encodedAuthorization: string, encodedDate: string)
    requires '&' !in encodedAuthorization && '&' !in encodedDate
    ensures Query(EndpointUrl(encodedAuthorization, encodedDate)).Some?
    ensures JsText.Split(Query(EndpointUrl(encodedAuthorization, encodedDate)).value, '&')
            == QueryParams(encodedAuthorization, encodedDate)
  {
    var ps := QueryParams(encodedAuthorization, encodedDate);
    QueryOfEndpoint(JsText.Join(ps, '&'));
    QueryParamsSingle(encodedAuthorization, encodedDate);
    JsText.SplitJoin(ps, '&');
  }

  /** The parts of a signed endpoint, kept for stating what they are. */
  datatype Signed = Signed(signature: string, authorization: string, url: string)

  /**
   * The server route's assembly: the signature is the base64 digest, the
   * authorization is the base64 of the UTF-8 bytes of its origin, and both the
   * authorization and the signed date are percent-encoded into the URL.
   */
  function ServerSign(apiKey: string, apiSecret: string, date: string, hmac: Hmac, enc: UriEncoder): (s: Signed)
    ensures Decode(s.signature) == Some(hmac(Utf8Bytes(apiSecret), Utf8Bytes(SignatureOrigin(date))))
    ensures Decode(s.authorization) == Some(Utf8Bytes(AuthorizationOrigin(apiKey, s.signature)))
    ensures s.url == EndpointUrl(enc(s.authorization), enc(date))
  {
    var digest := hmac(Utf8Bytes(apiSecret), Utf8Bytes(SignatureOrigin(date)));
    DecodeEncode(digest);
    var signature := Encode(digest);
    var authorization := BufferBase64(AuthorizationOrigin(apiKey, signature));
    Signed(signature, authorization, EndpointUrl(enc(authorization), enc(date)))
  }

  /**
   * The client recogniser's assembly (`getWebSocketUrl`): the digest goes
   * through a binary string and `btoa`, and so does the authorization origin,
   * which makes it fail when the API key holds a character above U+00FF.
   */
  function ClientSign(apiKey: string, apiSecret: string, date: string, hmac: Hmac, enc: UriEncoder): (r: Result<Signed, string>)
    ensures r.Success? <==> IsLatin1(AuthorizationOrigin(apiKey, Encode(hmac(Utf8Bytes(apiSecret), Utf8Bytes(SignatureOrigin(date))))))
    ensures r.Success? ==>
              && Decode(r.value.signature) == Some(hmac(Utf8Bytes(apiSecret), Utf8Bytes(SignatureOrigin(date))))
              && IsLatin1(AuthorizationOrigin(apiKey, r.value.signature))
              && Decode(r.value.authorization) == Some(Latin1Bytes(AuthorizationOrigin(apiKey, r.value.signature)))
              && r.value.url == EndpointUrl(enc(r.value.authorization), enc(date))
  {
    var digest := hmac(Utf8Bytes(apiSecret), Utf8Bytes(SignatureOrigin(date)));
    BtoaBinaryString(digest);
    DecodeEncode(digest);
    var signature := Btoa(BinaryString(digest)).value;
    assert signature == Encode(digest);
    var origin := AuthorizationOrigin(apiKey, signature);
    var encoded := Btoa(origin);
    if encoded.None? then Failure("InvalidCharacterError")
    else
      var authorization := encoded.value;
      Success(Signed(signature, authorization, EndpointUrl(enc(authorization), enc(date))))
  }

  /** Characters a base64 encoding consists of are ASCII. */
  lemma EncodingIsAscii(s: string)
    requires forall i :: 0 <= i < |s| ==> IsEncodingChar(s[i])
    ensures IsAscii(s)
  {
  }

  lemma AsciiConcat(a: string, b: string)
    requires IsAscii(a) && IsAscii(b)
    ensures IsAscii(a + b)
  {
  }

  /** An authorization origin is ASCII when the key and the signature are. */
  lemma AuthorizationOriginAscii(apiKey: string, signature: string)
    requires IsAscii(apiKey) && IsAscii(signature)
    ensures IsAscii(AuthorizationOrigin(apiKey, signature))
  {
    var a := "api_key=\"";
    var b := "\", algorithm=\"hmac-sha256\", ";
    var c := "headers=\"host date request-line\", ";
    var d := "signature=\"";
    var e := "\"";
    assert IsAscii(a) && IsAscii(b) && IsAscii(c) && IsAscii(d) && IsAscii(e);
    AsciiConcat(a, apiKey);
    AsciiConcat(a + apiKey, b);
    AsciiConcat(a + apiKey + b, c);
    AsciiConcat(a + apiKey + b + c, d);
    AsciiConcat(a + apiKey + b + c + d, signature);
    AsciiConcat(a + apiKey + b + c + d + signature, e);
  }

  /** With an ASCII API key, the client and the server build the very same endpoint. */
  lemma ClientMatchesServer(apiKey: string, apiSecret: string, date: string, hmac: Hmac, enc: UriEncoder)
    requires IsAscii(apiKey)
    ensures ClientSign(apiKey, apiSecret, date, hmac, enc) == Success(ServerSign(apiKey, apiSecret, date, hmac, enc))
  {
    var digest := hmac(Utf8Bytes(apiSecret), Utf8Bytes(SignatureOrigin(date)));
    var signature := Encode(digest);
    EncodingIsAscii(signature);
    var origin := AuthorizationOrigin(apiKey, signature);
    AuthorizationOriginAscii(apiKey, signature);
    Utf8OfAscii(origin);
    BtoaBinaryString(digest);
  }

  /** A key with a character above U+00FF makes the client fail where the server succeeds. */
  lemma ClientRejectsWideKey(apiKey: string, apiSecret: string, date: string, hmac: Hmac, enc: UriEncoder)
    requires !IsLatin1(apiKey)
    ensures ClientSign(apiKey, apiSecret, date, hmac, enc).Failure?
  {
    var signature := Encode(hmac(Utf8Bytes(apiSecret), Utf8Bytes(SignatureOrigin(date))));
    var origin := AuthorizationOrigin(apiKey, signature);
    var i :| 0 <= i < |apiKey| && (apiKey[i] as int) >= 256;
    assert origin[|"api_key=\""| + i] == apiKey[i];
  }

  // ---------------------------------------------------------------------------
  // The recogniser's own configuration

  /** The recogniser's configuration; key and secret are optional members. */
  datatype ClientConfig = ClientConfig(appId: string, apiKey: Option<string>, apiSecret: Option<string>)

  /** A value written into a template literal: an absent one reads `undefined`. */
  function TemplateText(v: Option<string>): string {
    if v.Some? then v.value else "undefined"
  }

  /** What `TextEncoder.encode` encodes: an absent argument takes its default, the empty string. */
  function EncoderInput(v: Option<string>): string {
    v.GetOr("")
  }

  /** An endpoint URL begins with the base and the authorization parameter. */
  lemma EndpointUrlStart(encodedAuthorization: string, encodedDate: string)
    ensures JsText.StartsWith(EndpointUrl(encodedAuthorization, encodedDate), EndpointBase + "?authorization=")
  {
    var ps := QueryParams(encodedAuthorization, encodedDate);
    var tail := ['&'] + JsText.Join(ps[1..], '&');
    assert JsText.Join(ps, '&') == ps[0] + tail;
    var head := EndpointBase + "?authorization=";
    assert EndpointUrl(encodedAuthorization, encodedDate) == head + (encodedAuthorization + tail);
  }

  /**
   * `getWebSocketUrl` on the recogniser's configuration. The secret's bytes
   * first go through `importKey`, which stands for the platform's acceptance
   * of raw HMAC key data; a refusal rejects the whole call.
   */
  function WebSocketUrl(cfg: ClientConfig, date: string, importKey: seq<Byte> -> bool, hmac: Hmac, enc: UriEncoder)
    : (r: Result<string, string>)
    ensures r.Success? ==> importKey(Utf8Bytes(EncoderInput(cfg.apiSecret)))
    ensures r.Success? ==> JsText.StartsWith(r.value, EndpointBase + "?authorization=")
    ensures r.Failure? ==> r.error == "DataError" || r.error == "InvalidCharacterError"
  {
    if !importKey(Utf8Bytes(EncoderInput(cfg.apiSecret))) then Failure("DataError")
    else
      match ClientSign(TemplateText(cfg.apiKey), EncoderInput(cfg.apiSecret), date, hmac, enc)
      case Failure(e) => Failure(e)
      case Success(signed) =>
        EndpointUrlStart(enc(signed.authorization), enc(date));
        Success(signed.url)
  }

  /**
   * A recogniser configured with its key and an ASCII API key reaches the
   * endpoint the server route signs, whenever the platform accepts the key.
   */
  lemma ConfiguredClientMatchesServer(appId: string, apiKey: string, apiSecret: string, date: string,
                                      importKey: seq<Byte> -> bool, hmac: Hmac, enc: UriEncoder)
    requires IsAscii(apiKey) && importKey(Utf8Bytes(apiSecret))
    ensures WebSocketUrl(ClientConfig(appId, Some(apiKey), Some(apiSecret)), date, importKey, hmac, enc)
            == Success(ServerSign(apiKey, apiSecret, date, hmac, enc).url)
  {
    ClientMatchesServer(apiKey, apiSecret, date, hmac, enc);
  }

  /**
   * A recogniser given only its app id signs with the API key `undefined` and
   * an empty HMAC key: it starts exactly when the platform accepts empty key
   * data, and then reaches the endpoint the server would sign for those values.
   */
  lemma AppIdOnlySigning(appId: string, date: string, importKey: seq<Byte> -> bool, hmac: Hmac, enc: UriEncoder)
    ensures var r := WebSocketUrl(ClientConfig(appId, None, None), date, importKey, hmac, enc);
            && (r.Success? <==> importKey([]))
            && (r.Success? ==> r.value == ServerSign("undefined", "", date, hmac, enc).url)
  {
    assert Utf8Bytes("") == [];
    assert IsAscii("undefined");
    ClientMatchesServer("undefined", "", date, hmac, enc);
  }
}

/** `GET /api/voice/token`: hands the client a signed endpoint and the application id. */
module TokenRoute {
  import opened Wrappers
  import SignedUrl
  import JsText

  /** The three configuration variables; absent and empty are alike (falsy). */
  datatype Env = Env(appId: Option<string>, apiKey: Option<string>, apiSecret: Option<string>)

  datatype Body =
    | Endpoint(url: string, appId: string)
    | ErrorBody(error: string)

  datatype Response = Response(status: int, body: Body)

  const ConfigError: string := "科大讯飞 API 配置不完整"

  function Get(env: Env, date: string, hmac: SignedUrl.Hmac, enc: SignedUrl.UriEncoder): (resp: Response)
    ensures !(JsText.Present(env.appId) && JsText.Present(env.apiKey) && JsText.Present(env.apiSecret)) <==>
              resp == Response(500, ErrorBody(ConfigError))
    ensures resp.body.Endpoint? ==>
              && resp.status == 200
              && JsText.Present(env.appId) && resp.body.appId == env.appId.value
              && resp.body.url == SignedUrl.ServerSign(env.apiKey.value, env.apiSecret.value, date, hmac, enc).url
  {
    if !(JsText.Present(env.appId) && JsText.Present(env.apiKey) && JsText.Present(env.apiSecret)) then
      Response(500, ErrorBody(ConfigError))
    else
      var signed := SignedUrl.ServerSign(env.apiKey.value, env.apiSecret.value, date, hmac, enc);
      Response(200, Endpoint(signed.url, env.appId.value))
  }

  /** A complete configuration yields an endpoint whose query carries the signed authorization and the signed date. */
  lemma CompleteConfigYieldsEndpoint(env: Env, date: string, hmac: SignedUrl.Hmac, enc: SignedUrl.UriEncoder)
    requires JsText.Present(env.appId) && JsText.Present(env.apiKey) && JsText.Present(env.apiSecret)
    requires forall t :: '&' !in enc(t)
    ensures var resp := Get(env, date, hmac, enc);
            var signed := SignedUrl.ServerSign(env.apiKey.value, env.apiSecret.value, date, hmac, enc);
            && resp.body.Endpoint?
            && SignedUrl.Query(resp.body.url).Some?
            && JsText.Split(SignedUrl.Query(resp.body.url).value, '&')
               == SignedUrl.QueryParams(enc(signed.authorization), enc(date))
  {
    var signed := SignedUrl.ServerSign(env.apiKey.value, env.apiSecret.value, date, hmac, enc);
    SignedUrl.EndpointUrlQuery(enc(signed.authorization), enc(date));
  }
}

=== FILE: validations.dfy ===
/**
 * The form schemas (`validations.ts`): what each zod schema accepts, and the
 * record it yields with its defaults filled in. Inputs are records whose
 * fields already have the schema's JavaScript type; an absent key is `None`.
 * The format checks zod performs with its own patterns (e-mail, URL, UUID,
 * ISO date-time) are parameters. Length bounds count UTF-16 code units, as
 * JavaScript's `length` does.
 */
module Validations {
  import opened Wrappers
  import JsText

  /** zod's built-in string formats, taken as given. */
  datatype Formats = Formats(
    isEmail: string -> bool,
    isUrl: string -> bool,
    isUuid: string -> bool,
    isDatetime: string -> bool)

  // ---------------------------------------------------------------------------
  // Numbers and strings

  /** `Number.isInteger` on a finite number. */
  predicate IsInteger(x: real) {
    x.Floor as real == x
  }

  /** `z.number().int().positive()`. */
  predicate PositiveInteger(x: real) {
    IsInteger(x) && x > 0.0
  }

  /** `z.number().int().min(0)`. */
  predicate NonNegativeInteger(x: real) {
    IsInteger(x) && x >= 0.0
  }

  /** An optional field: absent, or present and satisfying `ok`. */
  predicate Optional<T>(v: Option<T>, ok: T -> bool) {
    v.None? || ok(v.value)
  }

  /**
   * `RegExp.prototype.test` for a one-character class: scans from the left
   * for a character of the class.
   */
  function RegexTest(s: string, inClass: char -> bool): bool
    decreases |s|
  {
    |s| > 0 && (inClass(s[0]) || RegexTest(s[1..], inClass))
  }

  lemma {:induction false} RegexTestFinds(s: string, inClass: char -> bool)
    ensures RegexTest(s, inClass) <==> exists i :: 0 <= i < |s| && inClass(s[i])
    decreases |s|
  {
    if |s| > 0 {
      RegexTestFinds(s[1..], inClass);
      if inClass(s[0]) {
        assert inClass(s[0]);
      } else if exists i :: 0 <= i < |s| && inClass(s[i]) {
        var i :| 0 <= i < |s| && inClass(s[i]);
        assert i > 0 && inClass(s[1..][i - 1]);
      }
      if exists i :: 0 <= i < |s[1..]| && inClass(s[1..][i]) {
        var i :| 0 <= i < |s[1..]| && inClass(s[1..][i]);
        assert inClass(s[i + 1]);
      }
    }
  }

  predicate IsLetter(c: char) {
    JsText.IsAsciiLetter(c)
  }

  predicate IsDigit(c: char) {
    JsText.IsAsciiDigit(c)
  }

  // ---------------------------------------------------------------------------
  // Auth schemas

  /** The sign-up password: at least 8 UTF-16 code units, matching `/[A-Za-z]/` and `/[0-9]/`. */
  predicate PasswordAccepted(p: string) {
    JsText.Utf16Length(p) >= 8 && RegexTest(p, IsLetter) && RegexTest(p, IsDigit)
  }

  /** A sign-up password is accepted exactly when it is long enough and holds a letter and a digit. */
  lemma PasswordRule(p: string)
    ensures PasswordAccepted(p) <==>
              && JsText.Utf16Length(p) >= 8
              && (exists i :: 0 <= i < |p| && JsText.IsAsciiLetter(p[i]))
              && (exists j :: 0 <= j < |p| && JsText.IsAsciiDigit(p[j]))
  {
    RegexTestFinds(p, IsLetter);
    RegexTestFinds(p, IsDigit);
  }

  /** A display name, in sign-up and in the profile: 2 to 50 UTF-16 code units. */
  predicate DisplayNameAccepted(n: string) {
    2 <= JsText.Utf16Length(n) <= 50
  }

  datatype SignUp = SignUp(email: string, password: string, displayName: Option<string>)

  predicate SignUpAccepted(x: SignUp, f: Formats) {
    f.isEmail(x.email) && PasswordAccepted(x.password) && Optional(x.displayName, DisplayNameAccepted)
  }

  datatype SignIn = SignIn(email: string, password: string)

  /** Signing in asks only for a non-empty password. */
  predicate SignInAccepted(x: SignIn, f: Formats) {
    f.isEmail(x.email) && JsText.Utf16Length(x.password) >= 1
  }

  /** Every account that could sign up can sign in with the same e-mail and password. */
  lemma SignUpCanSignIn(x: SignUp, f: Formats)
    requires SignUpAccepted(x, f)
    ensures SignInAccepted(SignIn(x.email, x.password), f)
  {
  }

  datatype Profile = Profile(
    displayName: Option<string>,
    avatarUrl: Option<string>,
    defaultBudget: Option<real>,
    defaultCity: Option<string>)

  predicate CityAccepted(c: string) {
    JsText.Utf16Length(c) <= 100
  }

  /** `avatarUrl`: absent, a URL, or (through the `or`) exactly the empty string. */
  predicate AvatarAccepted(a: Option<string>, f: Formats) {
    a.None? || f.isUrl(a.value) || a.value == ""
  }

  predicate ProfileAccepted(x: Profile, f: Formats) {
    && Optional(x.displayName, DisplayNameAccepted)
    && AvatarAccepted(x.avatarUrl, f)
    && Optional(x.defaultBudget, PositiveInteger)
    && Optional(x.defaultCity, CityAccepted)
  }

  /** `updateProfileSchema.parse`: the record itself, or a validation failure. */
  function ParseProfile(x: Profile, f: Formats): (r: Option<Profile>)
    ensures r.Some? <==> ProfileAccepted(x, f)
    ensures r.Some? ==> r.value == x
  {
    if ProfileAccepted(x, f) then Some(x) else None
  }

  /** Every field may be left out; an empty avatar is accepted whatever the URL check says. */
  lemma EmptyProfileAccepted(f: Formats)
    ensures ParseProfile(Profile(None, None, None, None), f) == Some(Profile(None, None, None, None))
    ensures ParseProfile(Profile(None, Some(""), None, None), f).Some?
  {
  }

  // ---------------------------------------------------------------------------
  // Dates: `^\d{4}-\d{2}-\d{2}$`

  /** Exactly four digits, a dash, two digits, a dash and two digits; no calendar check. */
  predicate DateShaped(s: string) {
    && |s| == 10
    && s[4] == '-' && s[7] == '-'
    && forall i :: 0 <= i < 10 && i != 4 && i != 7 ==> JsText.IsAsciiDigit(s[i])
  }

  function Pow10(w: nat): (p: nat)
    ensures p >= 1
  {
    if w == 0 then 1 else 10 * Pow10(w - 1)
  }

  /** `n` written with exactly `w` digits, zero-padded on the left. */
  function Fixed(n: nat, w: nat): (r: string)
    ensures |r| == w
    ensures forall i :: 0 <= i < |r| ==> JsText.IsAsciiDigit(r[i])
  {
    if w == 0 then "" else Fixed(n / 10, w - 1) + [JsText.DigitChar(n % 10)]
  }

  lemma {:induction false} ParseFixed(n: nat, w: nat)
    requires n < Pow10(w)
    ensures JsText.ParseDigits(Fixed(n, w)) == n
  {
    if w > 0 {
      var r := Fixed(n, w);
      assert r[..w - 1] == Fixed(n / 10, w - 1);
      ParseFixed(n / 10, w - 1);
    }
  }

  lemma DigitCharValue(c: char)
    requires JsText.IsAsciiDigit(c)
    ensures JsText.DigitChar(JsText.DigitValue(c)) == c
  {
  }

  lemma {:induction false} FixedParse(s: string)
    requires forall i :: 0 <= i < |s| ==> JsText.IsAsciiDigit(s[i])
    ensures Fixed(JsText.ParseDigits(s), |s|) == s
    decreases |s|
  {
    if |s| > 0 {
      var init := s[..|s| - 1];
      var n := JsText.ParseDigits(s);
      FixedParse(init);
      DigitCharValue(s[|s| - 1]);
      assert n / 10 == JsText.ParseDigits(init) && n % 10 == JsText.DigitValue(s[|s| - 1]);
      assert s == init + [s[|s| - 1]];
    }
  }

  /** The `YYYY-MM-DD` text of a date (the shape `toISOString` gives before its `T`). */
  function FormatDate(y: nat, m: nat, d: nat): (s: string)
    requires y < 10000 && m < 100 && d < 100
  {
    Fixed(y, 4) + "-" + Fixed(m, 2) + "-" + Fixed(d, 2)
  }

  /** The three numbers of a date-shaped string. */
  function DateFields(s: string): (nat, nat, nat)
    requires DateShaped(s)
  {
    (JsText.ParseDigits(s[..4]), JsText.ParseDigits(s[5..7]), JsText.ParseDigits(s[8..]))
  }

  /** Every formatted date passes the date check and reads back as the same numbers. */
  lemma FormattedDateAccepted(y: nat, m: nat, d: nat)
    requires y < 10000 && m < 100 && d < 100
    ensures DateShaped(FormatDate(y, m, d))
    ensures DateFields(FormatDate(y, m, d)) == (y, m, d)
  {
    var s := FormatDate(y, m, d);
    assert s[..4] == Fixed(y, 4) && s[5..7] == Fixed(m, 2) && s[8..] == Fixed(d, 2);
    assert Pow10(4) == 10000 && Pow10(2) == 100;
    ParseFixed(y, 4);
    ParseFixed(m, 2);
    ParseFixed(d, 2);
  }

  /** Every string the date check accepts is the formatting of its own numbers. */
  lemma AcceptedDateFormatted(s: string)
    requires DateShaped(s)
    ensures var (y, m, d) := DateFields(s);
            y < 10000 && m < 100 && d < 100 && FormatDate(y, m, d) == s
  {
    var a, b, c := s[..4], s[5..7], s[8..];
    FixedParse(a);
    FixedParse(b);
    FixedParse(c);
    assert Pow10(4) == 10000 && Pow10(2) == 100;
    FixedBound(a);
    FixedBound(b);
    FixedBound(c);
    assert s == a + "-" + b + "-" + c;
  }

  lemma {:induction false} FixedBound(s: string)
    requires forall i :: 0 <= i < |s| ==> JsText.IsAsciiDigit(s[i])
    ensures JsText.ParseDigits(s) < Pow10(|s|)
    decreases |s|
  {
    if |s| > 0 {
      FixedBound(s[..|s| - 1]);
    }
  }

  // ---------------------------------------------------------------------------
  // Trip schemas

  /** A trip form; `preferences` accepts any record and is not carried. */
  datatype TripFields = TripFields(
    destination: Option<string>,
    startDate: Option<string>,
    endDate: Option<string>,
    totalBudget: Option<real>,
    numAdults: Option<real>,
    numChildren: Option<real>)

  /** A created trip, with the party size filled in. */
  datatype Trip = Trip(
    destination: string,
    startDate: string,
    endDate: string,
    totalBudget: real,
    numAdults: real,
    numChildren: real)

  predicate DestinationAccepted(s: string) {
    1 <= JsText.Utf16Length(s) <= 255
  }

  /**
   * `createTripSchema.parse`: required fields present and valid; adults default to 1 and children to 0.
   * A form is accepted exactly when its four required fields are present and
   * every field present passes its own check, since both defaults pass theirs.
   */
  function ParseCreateTrip(x: TripFields): (r: Option<Trip>)
    ensures r.Some? <==> && x.destination.Some? && x.startDate.Some? && x.endDate.Some? && x.totalBudget.Some?
                         && TripUpdateAccepted(x)
    ensures r.Some? ==> && Some(r.value.destination) == x.destination
                        && Some(r.value.startDate) == x.startDate && Some(r.value.endDate) == x.endDate
                        && Some(r.value.totalBudget) == x.totalBudget
    ensures r.Some? ==> r.value.numAdults == x.numAdults.GetOr(1.0) && r.value.numChildren == x.numChildren.GetOr(0.0)
  {
    if && x.destination.Some? && DestinationAccepted(x.destination.value)
       && x.startDate.Some? && DateShaped(x.startDate.value)
       && x.endDate.Some? && DateShaped(x.endDate.value)
       && x.totalBudget.Some? && PositiveInteger(x.totalBudget.value)
       && PositiveInteger(x.numAdults.GetOr(1.0))
       && NonNegativeInteger(x.numChildren.GetOr(0.0))
    then Some(Trip(x.destination.value, x.startDate.value, x.endDate.value, x.totalBudget.value,
                   x.numAdults.GetOr(1.0), x.numChildren.GetOr(0.0)))
    else None
  }

  function TripAsFields(t: Trip): TripFields {
    TripFields(Some(t.destination), Some(t.startDate), Some(t.endDate), Some(t.totalBudget),
               Some(t.numAdults), Some(t.numChildren))
  }

  /**
   * A created trip passes the schema again unchanged: the defaults themselves
   * are valid, and which fields are required and what they accept is exactly as listed.
   */
  lemma CreateTripReparses(x: TripFields)
    requires ParseCreateTrip(x).Some?
    ensures ParseCreateTrip(TripAsFields(ParseCreateTrip(x).value)) == ParseCreateTrip(x)
  {
  }

  /** The checks on the individual fields, with nothing required and no default. */
  predicate TripUpdateAccepted(x: TripFields) {
    && Optional(x.destination, DestinationAccepted)
    && Optional(x.startDate, DateShaped)
    && Optional(x.endDate, DateShaped)
    && Optional(x.totalBudget, PositiveInteger)
    && Optional(x.numAdults, PositiveInteger)
    && Optional(x.numChildren, NonNegativeInteger)
  }

  /** `updateTripSchema.parse` (`partial()`): an absent field stays absent, defaults included. */
  function ParseUpdateTrip(x: TripFields): (r: Option<TripFields>)
    ensures r.Some? <==> TripUpdateAccepted(x)
    ensures r.Some? ==> r.value == x
  {
    if TripUpdateAccepted(x) then Some(x) else None
  }

  /** Whatever creates a trip is also a valid update; the empty update is valid. */
  lemma CreateTripIsUpdate(x: TripFields)
    ensures ParseCreateTrip(x).Some? ==> ParseUpdateTrip(x) == Some(x)
    ensures ParseUpdateTrip(TripFields(None, None, None, None, None, None)).Some?
  {
  }

  /** Neither date check compares the two dates: an end before the start is accepted. */
  lemma DatesNotOrdered()
    ensures ParseCreateTrip(TripFields(Some("X"), Some("2025-02-01"), Some("2025-01-31"), Some(1.0), None, None)).Some?
    ensures ParseCreateTrip(TripFields(Some("X"), Some("2025-13-45"), Some("2025-13-45"), Some(1.0), None, None)).Some?
  {
    assert DateShaped("2025-02-01") && DateShaped("2025-01-31") && DateShaped("2025-13-45");
    assert (1.0).Floor == 1;
  }

  // ---------------------------------------------------------------------------
  // Expense schemas

  const Categories: seq<string> := ["transport", "accommodation", "food", "tickets", "shopping", "other"]

  const DefaultCurrency: string := "CNY"

  datatype ExpenseFields = ExpenseFields(
    tripId: Option<string>,
    amount: Option<real>,
    currency: Option<string>,
    category: Option<string>,
    description: Option<string>,
    receiptUrl: Option<string>,
    recordedAt: Option<string>)

  datatype Expense = Expense(
    tripId: string,
    amount: real,
    currency: string,
    category: string,
    description: Option<string>,
    receiptUrl: Option<string>,
    recordedAt: Option<string>)

  /** An expense update: every field of an expense but the trip. */
  datatype ExpenseUpdate = ExpenseUpdate(
    amount: Option<real>,
    currency: Option<string>,
    category: Option<string>,
    description: Option<string>,
    receiptUrl: Option<string>,
    recordedAt: Option<string>)

  predicate AmountAccepted(a: real) {
    a > 0.0
  }

  predicate CurrencyAccepted(c: string) {
    JsText.Utf16Length(c) == 3
  }

  predicate CategoryAccepted(c: string) {
    c in Categories
  }

  predicate DescriptionAccepted(d: string) {
    JsText.Utf16Length(d) <= 500
  }

  /** The optional fields common to creating and updating an expense. */
  predicate ExpenseExtrasAccepted(description: Option<string>, receiptUrl: Option<string>, recordedAt: Option<string>, f: Formats) {
    Optional(description, DescriptionAccepted) && Optional(receiptUrl, f.isUrl) && Optional(recordedAt, f.isDatetime)
  }

  /**
   * `createExpenseSchema.parse`: the currency defaults to CNY. An expense is
   * accepted exactly when it names a trip by UUID, has an amount and a
   * category, and its other fields pass the checks an update applies, since the
   * default currency passes the currency check.
   */
  function ParseCreateExpense(x: ExpenseFields, f: Formats): (r: Option<Expense>)
    ensures r.Some? <==> && x.tripId.Some? && f.isUuid(x.tripId.value) && x.amount.Some? && x.category.Some?
                         && ParseUpdateExpense(x, f).Some?
    ensures r.Some? ==> && Some(r.value.tripId) == x.tripId && f.isUuid(r.value.tripId)
                        && Some(r.value.amount) == x.amount && r.value.amount > 0.0
                        && r.value.currency == x.currency.GetOr(DefaultCurrency) && JsText.Utf16Length(r.value.currency) == 3
                        && Some(r.value.category) == x.category && r.value.category in Categories
    ensures r.Some? ==> && r.value.description == x.description && r.value.receiptUrl == x.receiptUrl
                        && r.value.recordedAt == x.recordedAt
  {
    if && x.tripId.Some? && f.isUuid(x.tripId.value)
       && x.amount.Some? && AmountAccepted(x.amount.value)
       && CurrencyAccepted(x.currency.GetOr(DefaultCurrency))
       && x.category.Some? && CategoryAccepted(x.category.value)
       && ExpenseExtrasAccepted(x.description, x.receiptUrl, x.recordedAt, f)
    then Some(Expense(x.tripId.value, x.amount.value, x.currency.GetOr(DefaultCurrency), x.category.value,
                      x.description, x.receiptUrl, x.recordedAt))
    else None
  }

  /**
   * `updateExpenseSchema.parse` (`partial().omit({tripId})`): the trip key is
   * stripped unchecked, every other field is optional and none is defaulted.
   */
  function ParseUpdateExpense(x: ExpenseFields, f: Formats): (r: Option<ExpenseUpdate>)
    ensures r.Some? <==> && Optional(x.amount, AmountAccepted) && Optional(x.currency, CurrencyAccepted)
                         && Optional(x.category, CategoryAccepted)
                         && ExpenseExtrasAccepted(x.description, x.receiptUrl, x.recordedAt, f)
    ensures r.Some? ==> r.value == ExpenseUpdate(x.amount, x.currency, x.category, x.description, x.receiptUrl, x.recordedAt)
  {
    if && Optional(x.amount, AmountAccepted) && Optional(x.currency, CurrencyAccepted)
       && Optional(x.category, CategoryAccepted)
       && ExpenseExtrasAccepted(x.description, x.receiptUrl, x.recordedAt, f)
    then Some(ExpenseUpdate(x.amount, x.currency, x.category, x.description, x.receiptUrl, x.recordedAt))
    else None
  }

  /** The update never looks at the trip id, and every created expense is also a valid update. */
  lemma UpdateExpenseIgnoresTrip(x: ExpenseFields, tripId: Option<string>, f: Formats)
    ensures ParseUpdateExpense(x.(tripId := tripId), f) == ParseUpdateExpense(x, f)
    ensures ParseCreateExpense(x, f).Some? ==> ParseUpdateExpense(x, f).Some?
  {
  }

  /** The default currency is itself accepted, so leaving the currency out never fails an expense. */
  lemma CurrencyDefaultAccepted(x: ExpenseFields, f: Formats)
    requires x.currency.None?
    ensures ParseCreateExpense(x, f).Some? <==> ParseCreateExpense(x.(currency := Some(DefaultCurrency)), f).Some?
  {
  }

  // ---------------------------------------------------------------------------
  // User preferences

  const TravelStyles: seq<string> := ["adventure", "relaxation", "culture", "food", "nature", "shopping"]
  const AccommodationLevels: seq<string> := ["budget", "comfort", "luxury"]
  const TransportPreferences: seq<string> := ["public", "taxi", "rental_car", "mixed"]

  datatype Preferences = Preferences(
    travelStyle: Option<seq<string>>,
    accommodationLevel: Option<string>,
    transportPreference: Option<string>)

  predicate StylesAccepted(styles: seq<string>) {
    forall i :: 0 <= i < |styles| ==> styles[i] in TravelStyles
  }

  predicate PreferencesAccepted(x: Preferences) {
    && Optional(x.travelStyle, StylesAccepted)
    && (x.accommodationLevel.None? || x.accommodationLevel.value in AccommodationLevels)
    && (x.transportPreference.None? || x.transportPreference.value in TransportPreferences)
  }

  /**
   * `userPreferencesSchema.parse`: every field optional; each listed style,
   * the level and the transport must be one of their fixed values.
   */
  function ParsePreferences(x: Preferences): (r: Option<Preferences>)
    ensures r.Some? <==>
              && (x.travelStyle.Some? ==> forall i :: 0 <= i < |x.travelStyle.value| ==>
                    x.travelStyle.value[i] in {"adventure", "relaxation", "culture", "food", "nature", "shopping"})
              && (x.accommodationLevel.Some? ==> x.accommodationLevel.value in {"budget", "comfort", "luxury"})
              && (x.transportPreference.Some? ==> x.transportPreference.value in {"public", "taxi", "rental_car", "mixed"})
    ensures r.Some? ==> r.value == x
  {
    if PreferencesAccepted(x) then Some(x) else None
  }

  /** An empty style list and an empty record are accepted; an unlisted level is not. */
  lemma PreferencesExamples()
    ensures ParsePreferences(Preferences(Some([]), None, None)).Some?
    ensures ParsePreferences(Preferences(None, None, None)).Some?
    ensures ParsePreferences(Preferences(None, Some("deluxe"), None)).None?
    ensures ParsePreferences(Preferences(Some(["food", "beach"]), None, None)).None?
  {
    assert "beach" !in TravelStyles;
    assert ["food", "beach"][1] == "beach";
  }
}

=== FILE: voice_input.dfy ===
/**
 * The display logic of the voice input widget (`VoiceInput`): the elapsed-time
 * formatter, the status caption, and how the widget's own text state follows
 * the notifications of the voice service and the user's presses.
 *
 * Rendering is left out; the widget state is a record and every handler is a
 * pure step that also returns the calls made to the parent's callbacks.
 */
module VoiceInput {
  import opened Wrappers
  import opened VoiceTypes
  import JsText
  import VoiceService

  // ---------------------------------------------------------------------------
  // formatDuration
  // ---------------------------------------------------------------------------

  /** `padStart(2, '0')`. */
  function PadStart2(s: string): (r: string)
    ensures |r| == if |s| >= 2 then |s| else 2
    ensures r[|r| - |s|..] == s
    ensures forall i :: 0 <= i < |r| - |s| ==> r[i] == '0'
  {
    if |s| >= 2 then s else seq(2 - |s|, _ => '0') + s
  }

  /**
   * `formatDuration`: whole seconds by flooring, minutes by flooring again,
   * the remaining seconds by `%`, shown as `m:ss`. For a non-negative
   * duration the display reads back as the number of whole seconds elapsed.
   */
  function FormatDuration(ms: real): (s: string)
    ensures ms >= 0.0 ==> ParseDuration(s) == Some((ms / 1000.0).Floor)
  {
    var seconds := (ms / 1000.0).Floor;
    if seconds >= 0 then
      ClockRoundTrip(seconds);
      Clock(seconds)
    else
      Clock(seconds)
  }

  /** Whole seconds as `m:ss`, with JavaScript's flooring division and `%`. */
  function Clock(seconds: int): string {
    var minutes := seconds / 60;  // a positive divisor: Dafny's division is the floor
    var remaining := JsText.Rem(seconds, 60);
    JsText.IntToString(minutes) + ":" + PadStart2(JsText.IntToString(remaining))
  }

  /** A non-empty run of decimal digits. */
  predicate Digits(s: string) {
    |s| >= 1 && forall i :: 0 <= i < |s| ==> JsText.IsAsciiDigit(s[i])
  }

  /**
   * Reads a clock string back as whole seconds: digits, a colon, then exactly
   * two digits worth less than 60; anything else is refused.
   */
  function ParseDuration(s: string): Option<int> {
    ClockFields(JsText.Split(s, ':'))
  }

  /** The value of the colon-separated fields of a clock string, if they are well formed. */
  function ClockFields(parts: seq<string>): Option<int> {
    if |parts| == 2 && Digits(parts[0]) && Digits(parts[1]) && |parts[1]| == 2
       && JsText.ParseDigits(parts[1]) < 60
    then Some(JsText.ParseDigits(parts[0]) * 60 + JsText.ParseDigits(parts[1]))
    else None
  }

  /** A number below 100 padded to two places reads back as itself. */
  lemma TwoDigitField(r: nat)
    requires r < 100
    ensures var f := PadStart2(JsText.NatToString(r));
            |f| == 2 && Digits(f) && JsText.ParseDigits(f) == r
  {
    var n := JsText.NatToString(r);
    var f := PadStart2(n);
    if r < 10 {
      assert n == [JsText.DigitChar(r)];
      assert f == ['0'] + n;
      assert f[..1] == ['0'] && f[1] == JsText.DigitChar(r);
      assert JsText.ParseDigits(f[..1]) == 0 by {
        assert f[..1][..0] == [];
      }
    } else {
      var q := r / 10;
      assert q < 10;
      assert n == JsText.NatToString(q) + [JsText.DigitChar(r % 10)];
      assert JsText.NatToString(q) == [JsText.DigitChar(q)];
      assert |n| == 2 && f == n;
      JsText.ParseNatToString(r);
    }
  }

  lemma ClockRoundTrip(seconds: nat)
    ensures ParseDuration(Clock(seconds)) == Some(seconds)
  {
    var m, r := seconds / 60, seconds % 60;
    var text := JsText.NatToString(m) + [':'] + PadStart2(JsText.NatToString(r));
    assert Clock(seconds) == text by {
      assert JsText.Rem(seconds, 60) == r;
    }
    MinutesAndSeconds(seconds);
    FieldsRoundTrip(m, r, seconds);
  }

  lemma MinutesAndSeconds(seconds: nat)
    ensures (seconds / 60) * 60 + seconds % 60 == seconds && seconds % 60 < 60
  {
  }

  /** Minutes and a seconds count below 60, written as `m:ss`, read back as their total. */
  lemma FieldsRoundTrip(m: nat, r: nat, total: int)
    requires r < 60 && total == m * 60 + r
    ensures ParseDuration(JsText.NatToString(m) + [':'] + PadStart2(JsText.NatToString(r))) == Some(total)
  {
    var a := JsText.NatToString(m);
    var b := PadStart2(JsText.NatToString(r));
    assert Digits(a) && JsText.ParseDigits(a) == m by {
      JsText.ParseNatToString(m);
    }
    assert Digits(b) && |b| == 2 && JsText.ParseDigits(b) == r by {
      TwoDigitField(r);
    }
    assert ParseDuration(a + [':'] + b) == ClockFields([a, b]) by {
      SplitTwo(a, b);
    }
    ParseFields(a, b, m, r, total);
  }

  /** A digit field and a two-digit field below 60 read as their clock value. */
  lemma ParseFields(a: string, b: string, m: nat, r: nat, total: int)
    requires Digits(a) && Digits(b) && |b| == 2 && r < 60 && total == m * 60 + r
    requires JsText.ParseDigits(a) == m && JsText.ParseDigits(b) == r
    ensures ClockFields([a, b]) == Some(total)
  {
  }

  /** A clock string splits at its one colon. */
  lemma SplitTwo(a: string, b: string)
    requires Digits(a) && Digits(b)
    ensures JsText.Split(a + [':'] + b, ':') == [a, b]
  {
    assert JsText.Join([a, b], ':') == a + [':'] + b by {
      assert [a, b][1..] == [b];
    }
    assert ':' !in a by {
      forall i | 0 <= i < |a| ensures a[i] != ':' {
        assert JsText.IsAsciiDigit(a[i]);
      }
    }
    assert ':' !in b by {
      forall i | 0 <= i < |b| ensures b[i] != ':' {
        assert JsText.IsAsciiDigit(b[i]);
      }
    }
    JsText.SplitJoin([a, b], ':');
  }

  // ---------------------------------------------------------------------------
  // Status caption and flags
  // ---------------------------------------------------------------------------

  const DefaultPlaceholder: string := "点击麦克风开始语音输入..."

  /** `isProcessing`. */
  predicate IsProcessing(status: VoiceStatus) {
    status == Recording || status == Recognizing
  }

  /** The fixed captions of the active statuses. */
  const Captions: set<string> := {"正在录音...", "识别中...", "识别完成", "识别失败"}

  /**
   * `getStatusText`: a caption per active status, the placeholder otherwise.
   * A placeholder that is no caption shows exactly when idle.
   */
  function StatusText(status: VoiceStatus, placeholder: string): (t: string)
    ensures status != Idle ==> t in Captions
    ensures placeholder !in Captions ==> (t == placeholder <==> status == Idle)
  {
    match status
    case Recording => "正在录音..."
    case Recognizing => "识别中..."
    case Completed => "识别完成"
    case Error => "识别失败"
    case Idle => placeholder
  }

  /** `getButtonVariant`: an error shows as such first, then recording. */
  function ButtonVariant(status: VoiceStatus): string {
    if status == Error then "error" else if status == Recording then "success" else "primary"
  }

  /** The processing flag is set exactly for the two in-progress statuses. */
  lemma ProcessingStatuses(status: VoiceStatus)
    ensures IsProcessing(status) <==> status in {Recording, Recognizing}
    ensures IsProcessing(status) ==> ButtonVariant(status) != "error"
    ensures ButtonVariant(status) == "success" <==> status == Recording
    ensures ButtonVariant(status) == "error" <==> status == Error
  {
  }

  /**
   * The caption is the placeholder when idle, and otherwise tells every
   * status apart, provided the placeholder is none of the fixed captions.
   */
  lemma StatusTextDistinguishes(s1: VoiceStatus, s2: VoiceStatus, placeholder: string)
    requires placeholder !in Captions
    ensures StatusText(Idle, placeholder) == placeholder
    ensures StatusText(s1, placeholder) == StatusText(s2, placeholder) <==> s1 == s2
  {
  }

  // ---------------------------------------------------------------------------
  // Widget state
  // ---------------------------------------------------------------------------

  /** The optional callbacks the parent supplied. */
  datatype Prop = OnResultProp | OnCompleteProp | OnErrorProp

  /** A call made to one of the parent's callbacks. */
  datatype Call =
    | ResultCalled(result: RecognitionResult)
    | CompleteCalled(text: string)
    | ErrorCalled(message: string)

  /** A duration interval, by the clock reading at which it was created; it runs until cleared. */
  datatype Interval = Interval(start: int, running: bool)

  /**
   * The widget's state. `intervals` holds every duration interval ever
   * created, in creation order (its position is its identity), and `timerRef`
   * the one the component still refers to, whose only one it can clear.
   */
  datatype View = View(
    props: set<Prop>,
    status: VoiceStatus,
    audioLevel: real,
    recognizedText: string,
    intermediateText: string,
    errorMessage: string,
    duration: int,
    intervals: seq<Interval>,
    timerRef: Option<nat>)

  function InitialView(props: set<Prop>): View {
    View(props, Idle, 0.0, "", "", "", 0, [], None)
  }

  datatype Step = Step(view: View, calls: seq<Call>)

  /** What the widget reacts to. */
  datatype Input =
    | StartPressed                           // the synchronous resets at the head of `startRecording`
    | Notified(e: VoiceService.Event)        // a listener registered on the service fires
    | StartResolved(now: int)                // `service.start()` resolved: a new duration interval starts
    | StartRejected(message: Option<string>) // it threw; `None` when the thrown value is not an `Error`
    | TimerFired(id: nat, now: int)          // interval `id` (in creation order) ticks
    | StopPressed
    | CancelPressed

  const StartFailedFallback: string := "启动失败"

  function StartFailureMessage(message: Option<string>): string {
    message.GetOr(StartFailedFallback)
  }

  function CallIf(v: View, p: Prop, c: Call): seq<Call> {
    if p in v.props then [c] else []
  }

  /**
   * The listeners the widget registers on the service. A notice never
   * touches the timer, the duration or the props, and only a status notice
   * changes the status.
   */
  function OnEvent(v: View, e: VoiceService.Event): (st: Step)
    ensures st.view.props == v.props && st.view.duration == v.duration
    ensures st.view.intervals == v.intervals && st.view.timerRef == v.timerRef
    ensures st.view.status == (if e.StatusChanged? then e.status else v.status)
    ensures st.view.audioLevel == (if e.AudioLevelChanged? then e.level else v.audioLevel)
    ensures st.view.errorMessage == (if e.Failed? then e.message else v.errorMessage)
    ensures |st.calls| <= 1
  {
    match e
    case StatusChanged(s) => Step(v.(status := s), [])
    case ResultReady(r) =>
      var w := if r.isFinal then v.(recognizedText := r.text, intermediateText := "")
               else v.(intermediateText := r.text);
      Step(w, CallIf(w, OnResultProp, ResultCalled(r)))
    case CompletedWith(t) =>
      Step(v.(recognizedText := t, intermediateText := ""), CallIf(v, OnCompleteProp, CompleteCalled(t)))
    case Failed(m) => Step(v.(errorMessage := m), CallIf(v, OnErrorProp, ErrorCalled(m)))
    case AudioLevelChanged(l) => Step(v.(audioLevel := l), [])
  }

  /** `clearInterval` on the referenced interval, if any, and the reference dropped. */
  function ClearTimer(v: View): (w: View)
    ensures w.timerRef.None? && |w.intervals| == |v.intervals|
    ensures forall k :: 0 <= k < |v.intervals| ==>
              w.intervals[k] == v.intervals[k].(running := v.intervals[k].running && v.timerRef != Some(k))
    ensures w == v.(intervals := w.intervals, timerRef := None)
  {
    match v.timerRef
    case Some(k) =>
      if k < |v.intervals| then v.(intervals := v.intervals[k := v.intervals[k].(running := false)], timerRef := None)
      else v.(timerRef := None)
    case None => v
  }

  function Apply(v: View, i: Input): Step {
    match i
    case StartPressed =>
      Step(v.(errorMessage := "", recognizedText := "", intermediateText := "", duration := 0), [])
    case Notified(e) => OnEvent(v, e)
    case StartResolved(now) => Step(v.(intervals := v.intervals + [Interval(now, true)], timerRef := Some(|v.intervals|)), [])
    case StartRejected(m) =>
      var msg := StartFailureMessage(m);
      Step(v.(errorMessage := msg, status := Error), CallIf(v, OnErrorProp, ErrorCalled(msg)))
    case TimerFired(id, now) =>
      if id < |v.intervals| && v.intervals[id].running then Step(v.(duration := now - v.intervals[id].start), [])
      else Step(v, [])
    case StopPressed => Step(ClearTimer(v), [])
    case CancelPressed =>
      Step(ClearTimer(v).(recognizedText := "", intermediateText := "", duration := 0, errorMessage := ""), [])
  }

  /** The inputs in order, folded from the left. */
  function Run(v: View, inputs: seq<Input>): Step
    decreases |inputs|
  {
    if |inputs| == 0 then Step(v, [])
    else
      var s := Run(v, inputs[..|inputs| - 1]);
      var t := Apply(s.view, inputs[|inputs| - 1]);
      Step(t.view, s.calls + t.calls)
  }

  /**
   * A final result becomes the confirmed text and clears the interim text; an
   * interim result replaces only the interim text. Either way the parent's
   * `onResult` sees the result, and nothing else in the widget changes.
   */
  lemma ResultUpdatesText(v: View, r: RecognitionResult)
    ensures var s := Apply(v, Notified(VoiceService.ResultReady(r)));
            && (r.isFinal ==> s.view == v.(recognizedText := r.text, intermediateText := ""))
            && (!r.isFinal ==> s.view == v.(intermediateText := r.text))
            && s.calls == (if OnResultProp in v.props then [ResultCalled(r)] else [])
  {
  }

  /** Completion confirms the text and clears the interim text. */
  lemma CompletionConfirmsText(v: View, t: string)
    ensures var s := Apply(v, Notified(VoiceService.CompletedWith(t)));
            && s.view == v.(recognizedText := t, intermediateText := "")
            && s.calls == (if OnCompleteProp in v.props then [CompleteCalled(t)] else [])
  {
  }

  /**
   * Starting and cancelling both reset the confirmed and interim texts, the
   * duration and the error message; cancelling also stops the timer, and
   * neither touches the status (that comes from the service).
   */
  lemma StartAndCancelReset(v: View)
    ensures var w := Apply(v, StartPressed).view;
            w.recognizedText == "" && w.intermediateText == "" && w.duration == 0 && w.errorMessage == ""
            && w.status == v.status && w.intervals == v.intervals && w.timerRef == v.timerRef
    ensures var w := Apply(v, CancelPressed).view;
            w.recognizedText == "" && w.intermediateText == "" && w.duration == 0 && w.errorMessage == ""
            && w.status == v.status && w.timerRef.None?
  {
  }

  /**
   * A start that throws shows the thrown message, or the fallback text for a
   * non-error value, sets the error status, and reports the same message.
   */
  lemma StartRejectionShown(v: View, m: Option<string>)
    ensures var s := Apply(v, StartRejected(m));
            && s.view.status == Error
            && (m.Some? ==> s.view.errorMessage == m.value)
            && (m.None? ==> s.view.errorMessage == StartFailedFallback)
            && (OnErrorProp in v.props <==> s.calls == [ErrorCalled(s.view.errorMessage)])
  {
  }

  /**
   * A running interval shows the time since it was created and changes nothing
   * else; a cleared or unknown one does nothing. `stop` clears exactly the
   * referenced interval and drops the reference.
   */
  lemma TimerDrivesDuration(v: View, id: nat, now: int)
    ensures id < |v.intervals| && v.intervals[id].running ==>
              Apply(v, TimerFired(id, now)).view == v.(duration := now - v.intervals[id].start)
    ensures !(id < |v.intervals| && v.intervals[id].running) ==> Apply(v, TimerFired(id, now)).view == v
    ensures var w := Apply(v, StopPressed).view;
            && w.timerRef.None? && |w.intervals| == |v.intervals|
            && forall k :: 0 <= k < |v.intervals| ==>
                 w.intervals[k].running == (v.intervals[k].running && v.timerRef != Some(k))
  {
  }

  /** The reference, when set, names an interval that is still running. */
  predicate TimersConsistent(v: View) {
    v.timerRef.Some? ==> v.timerRef.value < |v.intervals| && v.intervals[v.timerRef.value].running
  }

  /**
   * Every input keeps the reference consistent; intervals are never removed,
   * their start times never change, and a cleared interval never runs again.
   * A resolved start adds one running interval and refers to it.
   */
  lemma ApplyKeepsTimers(v: View, i: Input)
    requires TimersConsistent(v)
    ensures var w := Apply(v, i).view;
            && TimersConsistent(w)
            && |v.intervals| <= |w.intervals|
            && (forall k :: 0 <= k < |v.intervals| ==> w.intervals[k].start == v.intervals[k].start)
            && (forall k :: 0 <= k < |v.intervals| && !v.intervals[k].running ==> !w.intervals[k].running)
    ensures i.StartResolved? ==>
              var w := Apply(v, i).view;
              w.intervals == v.intervals + [Interval(i.now, true)] && w.timerRef == Some(|v.intervals|)
  {
  }

  /**
   * A start that resolves while an interval is still referenced (a new
   * recording after a completion or an error, with no stop in between)
   * replaces the reference without clearing the old interval. A later `stop`
   * then clears only the new one, and the orphaned interval keeps overwriting
   * the duration with the time since the earlier start.
   */
  lemma OrphanedIntervalKeepsRunning(v: View, t: int, now: int)
    requires TimersConsistent(v) && v.timerRef.Some?
    ensures var k := v.timerRef.value;
            var w := Apply(Apply(v, StartResolved(t)).view, StopPressed).view;
            && w.timerRef.None? && k < |w.intervals| && w.intervals[k].running
            && Apply(w, TimerFired(k, now)).view.duration == now - v.intervals[k].start
  {
  }

  /**
   * The unmount cleanup of the component, as far as the widget's own state
   * goes: it clears the referenced interval. Destroying the service it also
   * does is `VoiceService.Destroy`.
   */
  function Unmount(v: View): (w: View)
    ensures w.timerRef.None? && |w.intervals| == |v.intervals|
    ensures forall k :: 0 <= k < |v.intervals| && v.timerRef != Some(k) ==> w.intervals[k] == v.intervals[k]
    ensures v.timerRef.Some? && v.timerRef.value < |v.intervals| ==>
              w.intervals[v.timerRef.value] == v.intervals[v.timerRef.value].(running := false)
  {
    ClearTimer(v)
  }

  /**
   * An interval orphaned by a second start outlives the component: unmounting
   * clears only the newer interval, and the orphan still runs.
   */
  lemma OrphanOutlivesUnmount(v: View, t: int)
    requires TimersConsistent(v) && v.timerRef.Some?
    ensures var u := Apply(v, StartResolved(t)).view;
            var k := v.timerRef.value;
            && TimersConsistent(u)
            && var w := Unmount(u);
               k < |w.intervals| && w.intervals[k].running && !w.intervals[|v.intervals|].running
  {
  }

  // ---------------------------------------------------------------------------
  // Which input last wrote a text field
  // ---------------------------------------------------------------------------

  /** The value an input writes to the confirmed text, if it writes one. */
  function ConfirmedBy(i: Input): Option<string> {
    match i
    case StartPressed => Some("")
    case CancelPressed => Some("")
    case Notified(e) =>
      (match e
       case ResultReady(r) => if r.isFinal then Some(r.text) else None
       case CompletedWith(t) => Some(t)
       case _ => None)
    case _ => None
  }

  /** The value an input writes to the interim text, if it writes one. */
  function InterimBy(i: Input): Option<string> {
    match i
    case StartPressed => Some("")
    case CancelPressed => Some("")
    case Notified(e) =>
      (match e
       case ResultReady(r) => if r.isFinal then Some("") else Some(r.text)
       case CompletedWith(_) => Some("")
       case _ => None)
    case _ => None
  }

  /** The value an input writes to the error message, if it writes one. */
  function ErrorBy(i: Input): Option<string> {
    match i
    case StartPressed => Some("")
    case CancelPressed => Some("")
    case StartRejected(m) => Some(StartFailureMessage(m))
    case Notified(e) => if e.Failed? then Some(e.message) else None
    case _ => None
  }

  /** The value written by the last input that writes one. */
  function LastWritten(writes: Input -> Option<string>, inputs: seq<Input>): Option<string>
    decreases |inputs|
  {
    if |inputs| == 0 then None
    else match writes(inputs[|inputs| - 1])
      case Some(t) => Some(t)
      case None => LastWritten(writes, inputs[..|inputs| - 1])
  }

  function Confirmed(v: View): string { v.recognizedText }
  function Interim(v: View): string { v.intermediateText }
  function ErrorShown(v: View): string { v.errorMessage }

  /** `field` changes only by the writes that `writes` names. */
  ghost predicate Tracks(field: View -> string, writes: Input -> Option<string>) {
    forall v: View, i: Input {:trigger Apply(v, i)} :: field(Apply(v, i).view) == writes(i).GetOr(field(v))
  }

  lemma ConfirmedTracked()
    ensures Tracks(Confirmed, ConfirmedBy)
  {
    forall v: View, i: Input
      ensures Confirmed(Apply(v, i).view) == ConfirmedBy(i).GetOr(Confirmed(v))
    {
      if i.Notified? {
        match i.e
        case ResultReady(r) =>
        case _ =>
      }
    }
  }

  lemma InterimTracked()
    ensures Tracks(Interim, InterimBy)
  {
    forall v: View, i: Input
      ensures Interim(Apply(v, i).view) == InterimBy(i).GetOr(Interim(v))
    {
      if i.Notified? {
        match i.e
        case ResultReady(r) =>
        case _ =>
      }
    }
  }

  lemma ErrorTracked()
    ensures Tracks(ErrorShown, ErrorBy)
  {
    forall v: View, i: Input
      ensures ErrorShown(Apply(v, i).view) == ErrorBy(i).GetOr(ErrorShown(v))
    {
      if i.Notified? {
        match i.e
        case Failed(m) =>
        case _ =>
      }
    }
  }

  lemma {:induction false} RunTracks(field: View -> string, writes: Input -> Option<string>, v: View, inputs: seq<Input>)
    requires Tracks(field, writes)
    ensures field(Run(v, inputs).view) == LastWritten(writes, inputs).GetOr(field(v))
    decreases |inputs|
  {
    if |inputs| > 0 {
      var prefix := inputs[..|inputs| - 1];
      RunTracks(field, writes, v, prefix);
      var s := Run(v, prefix);
      assert field(Apply(s.view, inputs[|inputs| - 1]).view) == writes(inputs[|inputs| - 1]).GetOr(field(s.view));
    }
  }

  /**
   * After any sequence of inputs, the confirmed text, the interim text and the
   * error message are each the value written by the last input that writes
   * that field (or unchanged if none did).
   */
  lemma DisplayedTextIsLastWrite(v: View, inputs: seq<Input>)
    ensures Run(v, inputs).view.recognizedText == LastWritten(ConfirmedBy, inputs).GetOr(v.recognizedText)
    ensures Run(v, inputs).view.intermediateText == LastWritten(InterimBy, inputs).GetOr(v.intermediateText)
    ensures Run(v, inputs).view.errorMessage == LastWritten(ErrorBy, inputs).GetOr(v.errorMessage)
  {
    ConfirmedTracked();
    InterimTracked();
    ErrorTracked();
    RunTracks(Confirmed, ConfirmedBy, v, inputs);
    RunTracks(Interim, InterimBy, v, inputs);
    RunTracks(ErrorShown, ErrorBy, v, inputs);
  }

  /** Once a final result or completion arrives, the interim text stays empty until an interim result. */
  lemma {:induction false} InterimClearedAfterCommit(v: View, inputs: seq<Input>, k: nat)
    requires k < |inputs|
    requires inputs[k].Notified? && (inputs[k].e.CompletedWith? || (inputs[k].e.ResultReady? && inputs[k].e.result.isFinal))
    requires forall j :: k < j < |inputs| ==> !(inputs[j].Notified? && inputs[j].e.ResultReady? && !inputs[j].e.result.isFinal)
    ensures Run(v, inputs).view.intermediateText == ""
    decreases |inputs|
  {
    DisplayedTextIsLastWrite(v, inputs);
    LastWrittenInterimEmpty(inputs, k);
  }

  lemma {:induction false} LastWrittenInterimEmpty(inputs: seq<Input>, k: nat)
    requires k < |inputs| && InterimBy(inputs[k]) == Some("")
    requires forall j :: k < j < |inputs| ==> !(inputs[j].Notified? && inputs[j].e.ResultReady? && !inputs[j].e.result.isFinal)
    ensures LastWritten(InterimBy, inputs) == Some("")
    decreases |inputs|
  {
    var last := inputs[|inputs| - 1];
    if k < |inputs| - 1 && InterimBy(last).None? {
      LastWrittenInterimEmpty(inputs[..|inputs| - 1], k);
    }
  }
}

=== FILE: voice_service.dfy ===
/**
 * The voice recognition facade (`VoiceRecognitionService`).
 *
 * It owns one capture unit, chosen by mode at construction (the PCM recorder
 * for real-time recognition, the media recorder otherwise), creates a
 * recogniser on every start, and mirrors what those components report into its
 * own status, text and notifications. Every component notification is routed
 * synchronously to the facade handler that the source installs for it.
 *
 * The two `await`s of the source are explicit phases: a start (or a batch
 * recognition) that waits for the recogniser's readiness is released by the
 * `ResolveReady` effect and continued by a later input.
 */
module VoiceService {
  import opened Wrappers
  import opened VoiceTypes
  import opened Base64
  import JsText
  import Pcm
  import Xunfei
  import PcmRecorder
  import MediaRecorder
  import AudioConverter
  import AudioLevel

  // ---------------------------------------------------------------------------
  // Options and construction

  datatype Options = Options(realtime: bool, maxDuration: int, autoStart: bool)

  datatype OptionOverrides = OptionOverrides(realtime: Option<bool>, maxDuration: Option<int>, autoStart: Option<bool>)

  const NoOptions: OptionOverrides := OptionOverrides(None, None, None)

  /** Defaults: real-time, 60 s, auto-start; a given option wins. */
  function ResolveOptions(o: OptionOverrides): Options {
    Options(o.realtime.GetOr(true), o.maxDuration.GetOr(60000), o.autoStart.GetOr(true))
  }

  datatype Listener = OnStatusChange | OnResult | OnComplete | OnError | OnAudioLevel

  datatype Event =
    | StatusChanged(status: VoiceStatus)
    | ResultReady(result: RecognitionResult)
    | CompletedWith(text: string)
    | Failed(message: string)
    | AudioLevelChanged(level: real)

  function ListenerFor(e: Event): Listener {
    match e
    case StatusChanged(_) => OnStatusChange
    case ResultReady(_) => OnResult
    case CompletedWith(_) => OnComplete
    case Failed(_) => OnError
    case AudioLevelChanged(_) => OnAudioLevel
  }

  /** What the facade does that is visible outside it, in order. */
  datatype Output =
    | Emitted(event: Event)          // delivered to the facade's own listener
    | Wire(effect: Xunfei.Effect)    // a socket-level effect of the recogniser (never a notification)
    | RecorderStarted                // the capture unit's `start` was invoked

  /** Which continuation of an `async` method is suspended on the recogniser's readiness. */
  datatype Phase =
    | Settled
    | AwaitingRecognizer             // `start` awaits `recognizer.start()`
    | RecognizerReady                // ... and may now start the capture unit
    | AwaitingRecognizerForAudio(audio: MediaRecorder.AudioData)   // `recognizeAudio(audio)` awaits `recognizer.start()`
    | RecognizerReadyForAudio(audio: MediaRecorder.AudioData)      // ... and may now convert and stream that audio

  datatype Service = Service(
    options: Options,
    pcm: Option<PcmRecorder.Recorder>,
    media: Option<MediaRecorder.Recorder>,
    recognizer: Option<Xunfei.Recognizer>,
    status: VoiceStatus,
    recognizedText: string,
    phase: Phase,
    listeners: set<Listener>)

  datatype Step = Step(svc: Service, outputs: seq<Output>)

  /** The handlers the facade installs on each component. */
  const PcmListeners: set<PcmRecorder.Listener> :=
    {PcmRecorder.OnStateChange, PcmRecorder.OnDataAvailable, PcmRecorder.OnError}
  const MediaListeners: set<MediaRecorder.Listener> :=
    {MediaRecorder.OnStateChange, MediaRecorder.OnComplete, MediaRecorder.OnError}
  const RecognizerListeners: set<Xunfei.Listener> :=
    {Xunfei.OnStatusChange, Xunfei.OnResult, Xunfei.OnComplete, Xunfei.OnError}

  /** The constructor: the capture unit follows the mode; the media recorder gets the maximum duration. */
  function New(o: OptionOverrides): Service {
    var opts := ResolveOptions(o);
    if opts.realtime then
      Service(opts, Some(PcmRecorder.Fresh.(listeners := PcmListeners)), None, None, Idle, "", Settled, {})
    else
      var media := MediaRecorder.New(MediaRecorder.OptionOverrides(None, None, Some(opts.maxDuration)));
      Service(opts, None, Some(media.(listeners := MediaListeners)), None, Idle, "", Settled, {})
  }

  // ---------------------------------------------------------------------------
  // The facade's own notifications

  function Emit(svc: Service, e: Event): seq<Output> {
    if ListenerFor(e) in svc.listeners then [Emitted(e)] else []
  }

  function UpdateStatus(svc: Service, s: VoiceStatus): Step {
    Step(svc.(status := s), Emit(svc, StatusChanged(s)))
  }

  /** `handleError`: `error`, then `onError`; nothing is released. */
  function HandleError(svc: Service, message: string): Step {
    var s := UpdateStatus(svc, Error);
    Step(s.svc, s.outputs + Emit(s.svc, Failed(message)))
  }

  // ---------------------------------------------------------------------------
  // Routing of recogniser effects

  /** The facade's recogniser handlers: only `recognizing` is mirrored; results and completion carry the text. */
  function OnRecognizerEvent(svc: Service, e: Xunfei.Event): Step {
    match e
    case StatusChanged(s) =>
      if s == Recognizing then UpdateStatus(svc, Recognizing) else Step(svc, [])
    case ResultReady(r) =>
      var svc1 := if r.isFinal then svc.(recognizedText := r.text) else svc;
      Step(svc1, Emit(svc1, ResultReady(r)))
    case CompletedWith(t) =>
      var s := UpdateStatus(svc.(recognizedText := t), Completed);
      Step(s.svc, s.outputs + Emit(s.svc, CompletedWith(t)))
    case Failed(m) => HandleError(svc, m)
    case ReadyEvent => Step(svc, [])
  }

  /** Readiness releases whichever continuation is waiting for it. */
  function Release(p: Phase): Phase {
    match p
    case AwaitingRecognizer => RecognizerReady
    case AwaitingRecognizerForAudio(audio) => RecognizerReadyForAudio(audio)
    case _ => p
  }

  function RouteEffect(svc: Service, eff: Xunfei.Effect): Step {
    match eff
    case Notify(e) => OnRecognizerEvent(svc, e)
    case ResolveReady => Step(svc.(phase := Release(svc.phase)), [Wire(eff)])
    case _ => Step(svc, [Wire(eff)])
  }

  function RouteRecognizer(svc: Service, effs: seq<Xunfei.Effect>): Step
    decreases |effs|
  {
    if |effs| == 0 then Step(svc, [])
    else
      var s := RouteEffect(svc, effs[0]);
      var t := RouteRecognizer(s.svc, effs[1..]);
      Step(t.svc, s.outputs + t.outputs)
  }

  /** Installs the recogniser after one of its operations and routes what it did. */
  function WithRecognizer(svc: Service, st: Xunfei.Step): Step {
    RouteRecognizer(svc.(recognizer := Some(st.r)), st.effects)
  }

  // ---------------------------------------------------------------------------
  // Routing of capture-unit notifications

  /** The text of a recorder failure: the recorded message, or a generic one when it is absent or empty. */
  function RecorderErrorText(error: Option<string>): (text: string)
    ensures text != ""
    ensures JsText.Present(error) ==> text == error.value
  {
    if JsText.Present(error) then error.value else "录音错误"
  }

  /** Both recorders' `onStateChange` handler: forward the level, mirror `recording` and `error`. */
  function OnRecorderState(svc: Service, st: RecorderState): Step {
    var level := Emit(svc, AudioLevelChanged(st.audioLevel));
    if st.status == Recording then
      var s := UpdateStatus(svc, Recording);
      Step(s.svc, level + s.outputs)
    else if st.status == Error then
      var s := HandleError(svc, RecorderErrorText(st.error));
      Step(s.svc, level + s.outputs)
    else Step(svc, level)
  }

  function OnPcmEvent(svc: Service, e: PcmRecorder.Event): Step {
    match e
    case StateChanged(st) => OnRecorderState(svc, st)
    case DataAvailable(pcm) =>
      if svc.recognizer.Some? then WithRecognizer(svc, Xunfei.Send(svc.recognizer.value, Pcm.Int16ArrayBuffer(pcm)))
      else Step(svc, [])
    case ErrorRaised(m) => HandleError(svc, m)
  }

  function OnPcmEvents(svc: Service, evs: seq<PcmRecorder.Event>): Step
    decreases |evs|
  {
    if |evs| == 0 then Step(svc, [])
    else
      var s := OnPcmEvent(svc, evs[0]);
      var t := OnPcmEvents(s.svc, evs[1..]);
      Step(t.svc, s.outputs + t.outputs)
  }

  /** The media recorder's handlers; a completed recording is recognised as a whole. */
  function OnMediaEvent(svc: Service, e: MediaRecorder.Event, endpoint: Result<string, string>): Step {
    match e
    case StateChanged(st) => OnRecorderState(svc, st)
    case ChunkAvailable(_) => Step(svc, [])
    case CompletedWith(audio) => RecognizeAudio(svc, audio, endpoint)
    case ErrorRaised(m) => HandleError(svc, m)
  }

  /**
   * The endpoint handed along with the notices of the media recorder's `stop`,
   * `cancel` and `destroy`. None of those notices is a completion, and only a
   * completion consults the endpoint, so this value is never read.
   */
  const NoEndpoint: Result<string, string> := Failure("")

  function OnMediaEvents(svc: Service, evs: seq<MediaRecorder.Event>, endpoint: Result<string, string>): Step
    decreases |evs|
  {
    if |evs| == 0 then Step(svc, [])
    else
      var s := OnMediaEvent(svc, evs[0], endpoint);
      var t := OnMediaEvents(s.svc, evs[1..], endpoint);
      Step(t.svc, s.outputs + t.outputs)
  }

  /** The catch of an `await recognizer.start()`: a rejection is reported (after the recogniser's own report). */
  function AfterRecognizerStart(svc: Service, st: Xunfei.StartStep, waiting: Phase): Step {
    var s := WithRecognizer(svc, Xunfei.Step(st.r, st.effects));
    match st.outcome
    case AwaitingReady => Step(s.svc.(phase := waiting), s.outputs)
    case StartFailed(m) =>
      var e := HandleError(s.svc, m);
      Step(e.svc, s.outputs + e.outputs)
    case AlreadyRunning =>
      var e := HandleError(s.svc, Xunfei.AlreadyRunningMessage);
      Step(e.svc, s.outputs + e.outputs)
  }

  /** `recognizeAudio`, up to its wait for the recogniser; the recording is kept for the continuation. */
  function RecognizeAudio(svc: Service, audio: MediaRecorder.AudioData, endpoint: Result<string, string>): Step {
    if svc.recognizer.None? then Step(svc, [])
    else
      var s1 := UpdateStatus(svc, Recognizing);
      var s2 := AfterRecognizerStart(s1.svc, Xunfei.Start(svc.recognizer.value, endpoint), AwaitingRecognizerForAudio(audio));
      Step(s2.svc, s1.outputs + s2.outputs)
  }

  // ---------------------------------------------------------------------------
  // start / stop / cancel / destroy

  /** What a start sees: the configured application id, the endpoint the recogniser resolves, and the devices. */
  datatype StartEnv = StartEnv(
    appId: Option<string>,
    endpoint: Result<string, string>,
    capture: PcmRecorder.Capture,
    device: MediaRecorder.Environment)

  const AppIdMissing: string := "科大讯飞 APP_ID 未配置，请检查环境变量"

  /** The second half of `start`: the capture unit of the mode, then `recording`; a throw is reported. */
  function StartRecorder(svc: Service, env: StartEnv): Step {
    if svc.options.realtime && svc.pcm.Some? then
      var st := PcmRecorder.Start(svc.pcm.value, env.capture);
      var s1 := OnPcmEvents(svc.(pcm := Some(st.rec)), st.events);
      var s2 := if st.thrown.Some? then HandleError(s1.svc, st.thrown.value) else UpdateStatus(s1.svc, Recording);
      Step(s2.svc, [RecorderStarted] + s1.outputs + s2.outputs)
    else if svc.media.Some? then
      var st := MediaRecorder.Start(svc.media.value, env.device);
      var s1 := OnMediaEvents(svc.(media := Some(st.rec)), st.events, env.endpoint);
      var s2 := if st.thrown.Some? then HandleError(s1.svc, st.thrown.value) else UpdateStatus(s1.svc, Recording);
      Step(s2.svc, [RecorderStarted] + s1.outputs + s2.outputs)
    else UpdateStatus(svc, Recording)
  }

  /**
   * `start`: a missing application id is reported before anything else; a new
   * recogniser is created with the facade's handlers; in real-time auto-start
   * mode the start suspends until the recogniser is ready, otherwise the
   * capture unit starts at once.
   */
  function Start(svc: Service, env: StartEnv): Step {
    if !JsText.Present(env.appId) then HandleError(svc, AppIdMissing)
    else
      var r := Xunfei.New(env.appId.value, Xunfei.NoOverrides).(listeners := RecognizerListeners);
      var svc1 := svc.(recognizer := Some(r));
      if svc.options.realtime && svc.options.autoStart then
        AfterRecognizerStart(svc1, Xunfei.Start(r, env.endpoint), AwaitingRecognizer)
      else StartRecorder(svc1, env)
  }

  /** The continuation of `start` once the recogniser is ready. */
  function ContinueStart(svc: Service, env: StartEnv): Step {
    if svc.phase != RecognizerReady then Step(svc, [])
    else StartRecorder(svc.(phase := Settled), env)
  }

  /** `stop`: stops whichever recorder exists and ends the recognition; the facade status is left as it is. */
  function Stop(svc: Service): Step {
    var s1 := if svc.pcm.Some? then
                var st := PcmRecorder.Stop(svc.pcm.value);
                OnPcmEvents(svc.(pcm := Some(st.rec)), st.events)
              else Step(svc, []);
    var s2 := if s1.svc.media.Some? then
                var st := MediaRecorder.Stop(s1.svc.media.value);
                OnMediaEvents(s1.svc.(media := Some(st.rec)), st.events, NoEndpoint)
              else Step(s1.svc, []);
    var s3 := if s2.svc.recognizer.Some? then WithRecognizer(s2.svc, Xunfei.End(s2.svc.recognizer.value))
              else Step(s2.svc, []);
    Step(s3.svc, s1.outputs + s2.outputs + s3.outputs)
  }

  /** `cancel`: cancels every component, clears the text and reports `idle`. */
  function Cancel(svc: Service): Step {
    var s1 := if svc.pcm.Some? then
                var st := PcmRecorder.Cancel(svc.pcm.value);
                OnPcmEvents(svc.(pcm := Some(st.rec)), st.events)
              else Step(svc, []);
    var s2 := if s1.svc.media.Some? then
                var st := MediaRecorder.Cancel(s1.svc.media.value);
                OnMediaEvents(s1.svc.(media := Some(st.rec)), st.events, NoEndpoint)
              else Step(s1.svc, []);
    var s3 := if s2.svc.recognizer.Some? then WithRecognizer(s2.svc, Xunfei.Cancel(s2.svc.recognizer.value))
              else Step(s2.svc, []);
    var s4 := UpdateStatus(s3.svc.(recognizedText := ""), Idle);
    Step(s4.svc, s1.outputs + s2.outputs + s3.outputs + s4.outputs)
  }

  /** `destroy`: destroys the components in the source's order, then forgets every facade listener. */
  function Destroy(svc: Service): Step {
    var s1 := if svc.media.Some? then
                var st := MediaRecorder.Destroy(svc.media.value);
                OnMediaEvents(svc.(media := Some(st.rec)), st.events, NoEndpoint)
              else Step(svc, []);
    var s2 := if s1.svc.pcm.Some? then
                var st := PcmRecorder.Destroy(s1.svc.pcm.value);
                OnPcmEvents(s1.svc.(pcm := Some(st.rec)), st.events)
              else Step(s1.svc, []);
    var s3 := if s2.svc.recognizer.Some? then WithRecognizer(s2.svc, Xunfei.Destroy(s2.svc.recognizer.value))
              else Step(s2.svc, []);
    Step(s3.svc.(listeners := {}), s1.outputs + s2.outputs + s3.outputs)
  }

  // ---------------------------------------------------------------------------
  // Batch streaming: 1280-byte slices of the converted buffer

  const ChunkSize: nat := 1280

  function Min(a: int, b: int): int {
    if a <= b then a else b
  }

  /** The buffer cut into consecutive slices of `ChunkSize` bytes, the last one possibly shorter. */
  function Slices(buf: seq<Byte>): seq<seq<Byte>>
    decreases |buf|
  {
    if |buf| == 0 then []
    else if |buf| <= ChunkSize then [buf]
    else [buf[..ChunkSize]] + Slices(buf[ChunkSize..])
  }

  function Flatten(chunks: seq<seq<Byte>>): seq<Byte>
    decreases |chunks|
  {
    if |chunks| == 0 then [] else chunks[0] + Flatten(chunks[1..])
  }

  /**
   * The slices partition the buffer: together they are the buffer, none is
   * empty or longer than 1280 bytes, all but the last are full, and there are
   * `ceil(n / 1280)` of them.
   */
  lemma {:induction false} SlicesPartition(buf: seq<Byte>)
    ensures Flatten(Slices(buf)) == buf
    ensures |Slices(buf)| == (|buf| + ChunkSize - 1) / ChunkSize
    ensures forall k :: 0 <= k < |Slices(buf)| ==> 0 < |Slices(buf)[k]| <= ChunkSize
    ensures forall k :: 0 <= k < |Slices(buf)| - 1 ==> |Slices(buf)[k]| == ChunkSize
    decreases |buf|
  {
    if |buf| > ChunkSize {
      var rest := buf[ChunkSize..];
      SlicesPartition(rest);
      assert Slices(buf)[1..] == Slices(rest);
      assert buf == buf[..ChunkSize] + rest;
      forall k | 0 <= k < |Slices(buf)|
        ensures 0 < |Slices(buf)[k]| <= ChunkSize
      {
        if k > 0 {
          assert Slices(buf)[k] == Slices(rest)[k - 1];
        }
      }
      forall k | 0 <= k < |Slices(buf)| - 1
        ensures |Slices(buf)[k]| == ChunkSize
      {
        if k > 0 {
          assert Slices(buf)[k] == Slices(rest)[k - 1];
        }
      }
    }
  }

  /** The first slice of what is left at offset `i`, and what follows it. */
  lemma SlicesFrom(buf: seq<Byte>, i: nat)
    requires i < |buf|
    ensures Slices(buf[i..]) == [buf[i..Min(i + ChunkSize, |buf|)]] + Slices(buf[Min(i + ChunkSize, |buf|)..])
  {
    var end := Min(i + ChunkSize, |buf|);
    if |buf| - i <= ChunkSize {
      assert buf[i..] == buf[i..end];
      assert buf[end..] == [];
    } else {
      assert buf[i..][..ChunkSize] == buf[i..end];
      assert buf[i..][ChunkSize..] == buf[end..];
    }
  }

  /** The loop of `recognizeAudio` that cuts `[i, min(i + 1280, n))` for `i = 0, 1280, 2560, …`. */
  method SliceBuffer(buf: seq<Byte>) returns (chunks: seq<seq<Byte>>)
    ensures chunks == Slices(buf)
    ensures Flatten(chunks) == buf
    ensures |chunks| == (|buf| + ChunkSize - 1) / ChunkSize
  {
    chunks := [];
    var i := 0;
    while i < |buf|
      invariant 0 <= i
      invariant chunks + Slices(buf[Min(i, |buf|)..]) == Slices(buf)
      decreases |buf| - i
    {
      SlicesFrom(buf, i);
      var chunk := buf[i..Min(i + ChunkSize, |buf|)];
      chunks := chunks + [chunk];
      i := i + ChunkSize;
    }
    assert buf[Min(i, |buf|)..] == [];
    SlicesPartition(buf);
  }

  /** Each slice sent through the recogniser, in order. */
  function SendChunks(svc: Service, chunks: seq<seq<Byte>>): Step
    decreases |chunks|
  {
    if |chunks| == 0 || svc.recognizer.None? then Step(svc, [])
    else
      var s := WithRecognizer(svc, Xunfei.Send(svc.recognizer.value, chunks[0]));
      var t := SendChunks(s.svc, chunks[1..]);
      Step(t.svc, s.outputs + t.outputs)
  }

  /** The frame a slice becomes on an open socket; its payload decodes back to the slice. */
  function AudioFrameOf(chunk: seq<Byte>): (o: Output)
    ensures o.Wire? && o.effect.SendFrame? && o.effect.frame.AudioFrame? && o.effect.frame.data.status == 1
    ensures Decode(o.effect.frame.data.audio) == Some(chunk)
  {
    DecodeEncode(chunk);
    Wire(Xunfei.SendFrame(Xunfei.AudioFrame(Xunfei.OutData(1, Xunfei.AudioFormat, "raw", Encode(chunk)))))
  }

  function AudioFrames(chunks: seq<seq<Byte>>): seq<Output>
    decreases |chunks|
  {
    if |chunks| == 0 then [] else [AudioFrameOf(chunks[0])] + AudioFrames(chunks[1..])
  }

  const EndFrame: Output := Wire(Xunfei.SendFrame(Xunfei.AudioFrame(Xunfei.OutData(2, Xunfei.AudioFormat, "raw", ""))))

  /** The rest of `recognizeAudio`: convert to 16 kHz PCM, send every slice, then end; a conversion failure is reported. */
  function StreamAudio(svc: Service, decoded: Result<AudioConverter.Decoded, string>): Step {
    match AudioConverter.ConvertToPcm(decoded, 16000.0)
    case Failure(m) => HandleError(svc, m)
    case Success(pcm) => StreamBuffer(svc, pcm)
  }

  /** Sends every slice of the buffer, then the final frame. */
  function StreamBuffer(svc: Service, pcm: seq<Byte>): Step {
    var s1 := SendChunks(svc, Slices(pcm));
    var s2 := if s1.svc.recognizer.Some? then WithRecognizer(s1.svc, Xunfei.End(s1.svc.recognizer.value))
              else Step(s1.svc, []);
    Step(s2.svc, s1.outputs + s2.outputs)
  }

  /** The continuation of `recognizeAudio` once the recogniser is ready: the kept recording is decoded and streamed. */
  function ContinueRecognition(svc: Service, decode: AudioConverter.Decoder): Step {
    if !svc.phase.RecognizerReadyForAudio? then Step(svc, [])
    else StreamAudio(svc.(phase := Settled), decode(svc.phase.audio.blob.bytes))
  }

  // ---------------------------------------------------------------------------
  // Inputs

  datatype Input =
    | DoStart(env: StartEnv)
    | Resume(env: StartEnv)                          // `start` continues after readiness
    | DoStop
    | DoCancel
    | DoDestroy
    | Socket(ev: Xunfei.SocketEvent)
    | PcmSamples(samples: seq<real>)                 // the audio graph's `onaudioprocess`
    | PcmReading(reading: AudioLevel.Spectrum, now: int)   // the PCM recorder's level monitor
    | MediaEngine(i: MediaRecorder.Input, endpoint: Result<string, string>)
    | ResumeRecognition(decode: AudioConverter.Decoder)   // `recognizeAudio` continues after readiness
    | Subscribe(l: Listener)
    | Unsubscribe(l: Listener)

  /** Inputs the media engine and its timers produce (the caller's commands go through the facade). */
  predicate FromMediaEngine(i: MediaRecorder.Input) {
    i.DataAvailable? || i.EngineStopped? || i.EngineError? || i.Reading? || i.MaxDurationElapsed?
  }

  function Apply(svc: Service, i: Input): Step {
    match i
    case DoStart(env) => Start(svc, env)
    case Resume(env) => ContinueStart(svc, env)
    case DoStop => Stop(svc)
    case DoCancel => Cancel(svc)
    case DoDestroy => Destroy(svc)
    case Socket(ev) =>
      if svc.recognizer.Some? then WithRecognizer(svc, Xunfei.Deliver(svc.recognizer.value, ev)) else Step(svc, [])
    case PcmSamples(xs) =>
      if svc.pcm.Some? then
        var st := PcmRecorder.AudioProcess(svc.pcm.value, xs);
        OnPcmEvents(svc.(pcm := Some(st.rec)), st.events)
      else Step(svc, [])
    case PcmReading(reading, now) =>
      if svc.pcm.Some? then
        var st := PcmRecorder.Tick(svc.pcm.value, reading, now);
        OnPcmEvents(svc.(pcm := Some(st.rec)), st.events)
      else Step(svc, [])
    case MediaEngine(mi, endpoint) =>
      if svc.media.Some? && FromMediaEngine(mi) then
        var st := MediaRecorder.Apply(svc.media.value, mi);
        OnMediaEvents(svc.(media := Some(st.rec)), st.events, endpoint)
      else Step(svc, [])
    case ResumeRecognition(decode) => ContinueRecognition(svc, decode)
    case Subscribe(l) => Step(svc.(listeners := svc.listeners + {l}), [])
    case Unsubscribe(l) => Step(svc.(listeners := svc.listeners - {l}), [])
  }

  // ---------------------------------------------------------------------------
  // Properties: construction

  /** The mode decides the capture unit; the defaults are real-time, 60 s and auto-start. */
  lemma ModeSelection(o: OptionOverrides)
    ensures New(NoOptions).options == Options(true, 60000, true)
    ensures New(o).pcm.Some? <==> o.realtime != Some(false)
    ensures New(o).media.Some? <==> o.realtime == Some(false)
    ensures New(o).media.Some? ==> New(o).media.value.options.maxDuration == o.maxDuration.GetOr(60000)
    ensures New(o).status == Idle && New(o).recognizer.None? && New(o).listeners == {} && New(o).phase == Settled
  {
  }

  // ---------------------------------------------------------------------------
  // Properties: routing keeps what it does not own

  /** One routed recogniser effect touches only status, text and phase, and the phase only on readiness. */
  lemma RouteEffectKeeps(svc: Service, eff: Xunfei.Effect)
    ensures var s := RouteEffect(svc, eff);
            && s.svc.pcm == svc.pcm && s.svc.media == svc.media && s.svc.recognizer == svc.recognizer
            && s.svc.listeners == svc.listeners && s.svc.options == svc.options
            && s.svc.phase == (if eff == Xunfei.ResolveReady then Release(svc.phase) else svc.phase)
            && RecorderStarted !in s.outputs
  {
  }

  /** Recogniser routing touches only status, text and phase; the phase moves only on readiness. */
  lemma {:induction false} RouteRecognizerKeeps(svc: Service, effs: seq<Xunfei.Effect>)
    ensures var s := RouteRecognizer(svc, effs);
            && s.svc.pcm == svc.pcm && s.svc.media == svc.media && s.svc.recognizer == svc.recognizer
            && s.svc.listeners == svc.listeners && s.svc.options == svc.options
            && s.svc.phase == (if Xunfei.ResolveReady in effs then Release(svc.phase) else svc.phase)
            && RecorderStarted !in s.outputs
    decreases |effs|
  {
    if |effs| > 0 {
      var s := RouteEffect(svc, effs[0]);
      RouteEffectKeeps(svc, effs[0]);
      RouteRecognizerKeeps(s.svc, effs[1..]);
      assert effs == [effs[0]] + effs[1..];
      assert Release(Release(svc.phase)) == Release(svc.phase);
    }
  }

  /** Effects that only talk to the socket. */
  predicate IsTransport(eff: Xunfei.Effect) {
    eff.SendFrame? || eff.CloseSocket? || eff.Connect?
  }

  function Wires(effs: seq<Xunfei.Effect>): seq<Output>
    decreases |effs|
  {
    if |effs| == 0 then [] else [Wire(effs[0])] + Wires(effs[1..])
  }

  /** Socket traffic passes through unchanged and leaves the facade as it is. */
  lemma {:induction false} RouteTransport(svc: Service, effs: seq<Xunfei.Effect>)
    requires forall k :: 0 <= k < |effs| ==> IsTransport(effs[k])
    ensures RouteRecognizer(svc, effs) == Step(svc, Wires(effs))
    decreases |effs|
  {
    if |effs| > 0 {
      assert forall k :: 0 <= k < |effs[1..]| ==> IsTransport(effs[1..][k]);
      RouteTransport(svc, effs[1..]);
    }
  }

  /** A buffer forwarded to an open recogniser becomes exactly one audio frame, and nothing else changes. */
  lemma ForwardToOpenRecognizer(svc: Service, bytes: seq<Byte>)
    requires svc.recognizer.Some? && svc.recognizer.value.ws == Some(Xunfei.Open)
    ensures WithRecognizer(svc, Xunfei.Send(svc.recognizer.value, bytes)) == Step(svc, [AudioFrameOf(bytes)])
  {
    var sent := Xunfei.Send(svc.recognizer.value, bytes);
    assert sent.effects == [Xunfei.SendFrame(Xunfei.AudioFrame(Xunfei.OutData(1, Xunfei.AudioFormat, "raw", Encode(bytes))))];
    assert svc.(recognizer := Some(sent.r)) == svc;
    RouteTransport(svc, sent.effects);
  }

  /** A PCM notification never replaces a capture unit, releases a continuation or moves the socket. */
  lemma OnPcmEventKeeps(svc: Service, e: PcmRecorder.Event)
    ensures var s := OnPcmEvent(svc, e);
            && s.svc.pcm == svc.pcm && s.svc.media == svc.media && s.svc.phase == svc.phase
            && s.svc.listeners == svc.listeners && s.svc.options == svc.options
            && s.svc.recognizer.Some? == svc.recognizer.Some?
            && (svc.recognizer.Some? ==> s.svc.recognizer.value.ws == svc.recognizer.value.ws)
  {
    if e.DataAvailable? && svc.recognizer.Some? {
      var st := Xunfei.Send(svc.recognizer.value, Pcm.Int16ArrayBuffer(e.pcm));
      RouteRecognizerKeeps(svc.(recognizer := Some(st.r)), st.effects);
    }
  }

  lemma {:induction false} OnPcmEventsKeeps(svc: Service, evs: seq<PcmRecorder.Event>)
    ensures var s := OnPcmEvents(svc, evs);
            && s.svc.pcm == svc.pcm && s.svc.media == svc.media && s.svc.phase == svc.phase
            && s.svc.listeners == svc.listeners && s.svc.options == svc.options
            && s.svc.recognizer.Some? == svc.recognizer.Some?
            && (svc.recognizer.Some? ==> s.svc.recognizer.value.ws == svc.recognizer.value.ws)
    decreases |evs|
  {
    if |evs| > 0 {
      OnPcmEventKeeps(svc, evs[0]);
      OnPcmEventsKeeps(OnPcmEvent(svc, evs[0]).svc, evs[1..]);
    }
  }

  /** State and error notifications of a recorder touch only the facade's status. */
  lemma {:induction false} MediaStateEventsKeep(svc: Service, evs: seq<MediaRecorder.Event>, endpoint: Result<string, string>)
    requires forall k :: 0 <= k < |evs| ==> evs[k].StateChanged? || evs[k].ErrorRaised?
    ensures var s := OnMediaEvents(svc, evs, endpoint);
            s.svc == svc.(status := s.svc.status) && RecorderStarted !in s.outputs
    decreases |evs|
  {
    if |evs| > 0 {
      var s := OnMediaEvent(svc, evs[0], endpoint);
      MediaStateEventKeeps(svc, evs[0], endpoint);
      assert forall k :: 0 <= k < |evs[1..]| ==> evs[1..][k].StateChanged? || evs[1..][k].ErrorRaised?;
      MediaStateEventsKeep(s.svc, evs[1..], endpoint);
    }
  }

  lemma MediaStateEventKeeps(svc: Service, e: MediaRecorder.Event, endpoint: Result<string, string>)
    requires e.StateChanged? || e.ErrorRaised?
    ensures var s := OnMediaEvent(svc, e, endpoint);
            s.svc == svc.(status := s.svc.status) && RecorderStarted !in s.outputs
  {
  }

  /** A media start notifies only state changes and errors. */
  lemma MediaStartEvents(rec: MediaRecorder.Recorder, env: MediaRecorder.Environment)
    ensures var evs := MediaRecorder.Start(rec, env).events;
            forall k :: 0 <= k < |evs| ==> evs[k].StateChanged? || evs[k].ErrorRaised?
  {
  }

  // ---------------------------------------------------------------------------
  // Properties: start

  /** Without an application id the start fails first: `error`, then `onError`, and nothing is created or started. */
  lemma MissingAppId(svc: Service, env: StartEnv)
    requires !JsText.Present(env.appId)
    ensures Start(svc, env) == Step(svc.(status := Error), Emit(svc, StatusChanged(Error)) + Emit(svc, Failed(AppIdMissing)))
  {
  }

  /**
   * In real-time auto-start mode the start connects the recogniser and stops
   * there: the capture unit is not started, and the start waits for readiness.
   */
  lemma RealtimeStartAwaitsRecognizer(svc: Service, env: StartEnv)
    requires JsText.Present(env.appId) && svc.options.realtime && svc.options.autoStart && env.endpoint.Success?
    ensures var s := Start(svc, env);
            && s.svc.phase == AwaitingRecognizer && s.svc.status == Recognizing
            && s.svc.pcm == svc.pcm && s.svc.media == svc.media
            && s.svc.recognizer.Some? && s.svc.recognizer.value.appId == env.appId.value
            && s.svc.recognizer.value.ws == Some(Xunfei.Connecting) && s.svc.recognizer.value.readyPending
            && s.outputs == Emit(svc, StatusChanged(Recognizing)) + [Wire(Xunfei.Connect(env.endpoint.value))]
            && RecorderStarted !in s.outputs
  {
    var r := Xunfei.New(env.appId.value, Xunfei.NoOverrides).(listeners := RecognizerListeners);
    var st := Xunfei.Start(r, env.endpoint);
    var e := st.effects;
    assert e == [Xunfei.Notify(Xunfei.StatusChanged(Recognizing)), Xunfei.Connect(env.endpoint.value)];
    var svc1 := svc.(recognizer := Some(st.r));
    var a := RouteEffect(svc1, e[0]);
    assert a == UpdateStatus(svc1, Recognizing);
    assert e[1..] == [Xunfei.Connect(env.endpoint.value)];
    RouteTransport(a.svc, e[1..]);
    assert Wires(e[1..]) == [Wire(Xunfei.Connect(env.endpoint.value))];
  }

  /**
   * The suspended start is released exactly when the recogniser resolves its
   * readiness, and that resolution directly follows the opening frame.
   */
  lemma ReadinessReleasesStart(svc: Service, ev: Xunfei.SocketEvent)
    requires svc.recognizer.Some? && svc.phase == AwaitingRecognizer
    ensures var d := Xunfei.Deliver(svc.recognizer.value, ev);
            var s := Apply(svc, Socket(ev));
            && (s.svc.phase == RecognizerReady <==> Xunfei.ResolveReady in d.effects)
            && (s.svc.phase != RecognizerReady ==> s.svc.phase == AwaitingRecognizer)
            && Xunfei.ReadyFollowsOpening(d.effects)
            && s.svc.pcm == svc.pcm && s.svc.media == svc.media && RecorderStarted !in s.outputs
  {
    var d := Xunfei.Deliver(svc.recognizer.value, ev);
    RouteRecognizerKeeps(svc.(recognizer := Some(d.r)), d.effects);
    Xunfei.DeliverReadiness(svc.recognizer.value, ev);
  }

  /** The continuation of a start runs only once released, starts the capture unit first, and runs once. */
  lemma ContinueStartOnlyWhenReleased(svc: Service, env: StartEnv)
    ensures svc.phase != RecognizerReady ==> ContinueStart(svc, env) == Step(svc, [])
    ensures svc.phase == RecognizerReady ==> ContinueStart(svc, env).svc.phase == Settled
    ensures svc.phase == RecognizerReady && ((svc.options.realtime && svc.pcm.Some?) || svc.media.Some?) ==>
              |ContinueStart(svc, env).outputs| > 0 && ContinueStart(svc, env).outputs[0] == RecorderStarted
  {
    if svc.phase == RecognizerReady {
      var svc1 := svc.(phase := Settled);
      if svc1.options.realtime && svc1.pcm.Some? {
        var st := PcmRecorder.Start(svc1.pcm.value, env.capture);
        OnPcmEventsKeeps(svc1.(pcm := Some(st.rec)), st.events);
      } else if svc1.media.Some? {
        var st := MediaRecorder.Start(svc1.media.value, env.device);
        MediaStartEvents(svc1.media.value, env.device);
        MediaStateEventsKeep(svc1.(media := Some(st.rec)), st.events, env.endpoint);
        var s1 := OnMediaEvents(svc1.(media := Some(st.rec)), st.events, env.endpoint);
        var s2 := if st.thrown.Some? then HandleError(s1.svc, st.thrown.value) else UpdateStatus(s1.svc, Recording);
        assert StartRecorder(svc1, env) == Step(s2.svc, [RecorderStarted] + s1.outputs + s2.outputs);
      }
    }
  }

  /** A released real-time start that is granted the microphone starts capturing and reports `recording` last. */
  lemma RealtimeStartCompletes(svc: Service, env: StartEnv)
    requires svc.phase == RecognizerReady && svc.options.realtime && svc.pcm.Some?
    requires svc.pcm.value.state.status != Recording && env.capture.Granted?
    ensures var s := ContinueStart(svc, env);
            && s.svc.status == Recording && s.svc.phase == Settled
            && s.svc.pcm.Some? && s.svc.pcm.value.capturing
            && s.outputs[0] == RecorderStarted
            && (OnStatusChange in svc.listeners ==>
                  |s.outputs| > 1 && s.outputs[|s.outputs| - 1] == Emitted(StatusChanged(Recording)))
  {
    var svc1 := svc.(phase := Settled);
    var st := PcmRecorder.Start(svc1.pcm.value, env.capture);
    OnPcmEventsKeeps(svc1.(pcm := Some(st.rec)), st.events);
  }

  /**
   * A recogniser that cannot obtain its endpoint is reported twice: once by the
   * recogniser's own error handler and once by the facade's `catch`.
   */
  lemma RejectedRecognizerReportedTwice(svc: Service, env: StartEnv)
    requires JsText.Present(env.appId) && svc.options.realtime && svc.options.autoStart && env.endpoint.Failure?
    requires OnError in svc.listeners && OnStatusChange !in svc.listeners
    ensures var s := Start(svc, env);
            && s.svc.status == Error && s.svc.phase == svc.phase
            && s.outputs == [Emitted(Failed(env.endpoint.error)), Emitted(Failed(env.endpoint.error))]
  {
    var r := Xunfei.New(env.appId.value, Xunfei.NoOverrides).(listeners := RecognizerListeners);
    var st := Xunfei.Start(r, env.endpoint);
    var m := env.endpoint.error;
    var e := st.effects;
    assert e == [Xunfei.Notify(Xunfei.StatusChanged(Recognizing)), Xunfei.Notify(Xunfei.StatusChanged(Error)),
                 Xunfei.Notify(Xunfei.Failed(m))];
    var svc1 := svc.(recognizer := Some(st.r));
    var a := RouteEffect(svc1, e[0]);
    var b := RouteEffect(a.svc, e[1]);
    var c := RouteEffect(b.svc, e[2]);
    assert a.outputs == [] && b.outputs == [] && c.outputs == [Emitted(Failed(m))];
    assert e[1..][1..][1..] == [];
    assert RouteRecognizer(c.svc, e[1..][1..][1..]) == Step(c.svc, []);
    assert RouteRecognizer(b.svc, e[1..][1..]) == Step(c.svc, c.outputs);
    assert RouteRecognizer(a.svc, e[1..]) == Step(c.svc, c.outputs);
    assert RouteRecognizer(svc1, e) == Step(c.svc, c.outputs);
  }

  // ---------------------------------------------------------------------------
  // Properties: mirroring

  /** Of the recogniser's statuses only `recognizing` is mirrored. */
  lemma RecognizerStatusMirrored(svc: Service, st: VoiceStatus)
    ensures OnRecognizerEvent(svc, Xunfei.StatusChanged(st)).svc
            == (if st == Recognizing then svc.(status := Recognizing) else svc)
  {
  }

  /** A result is forwarded; only a final one replaces the recognised text. */
  lemma RecognizerResultMirrored(svc: Service, r: RecognitionResult)
    ensures var s := OnRecognizerEvent(svc, Xunfei.ResultReady(r));
            && s.svc.recognizedText == (if r.isFinal then r.text else svc.recognizedText)
            && s.svc.status == svc.status
            && (OnResult in svc.listeners <==> s.outputs == [Emitted(ResultReady(r))])
  {
  }

  /** Completion sets the text, reports `completed`, then hands the text to `onComplete`. */
  lemma RecognizerCompletionMirrored(svc: Service, t: string)
    requires OnStatusChange in svc.listeners && OnComplete in svc.listeners
    ensures var s := OnRecognizerEvent(svc, Xunfei.CompletedWith(t));
            && s.svc.recognizedText == t && s.svc.status == Completed
            && s.outputs == [Emitted(StatusChanged(Completed)), Emitted(CompletedWith(t))]
  {
  }

  /**
   * A recorder state is forwarded as an audio level first; `recording` and
   * `error` are mirrored (the error with its text or a generic one), every
   * other status is not.
   */
  lemma RecorderStateMirrored(svc: Service, st: RecorderState)
    ensures var s := OnRecorderState(svc, st);
            && s.svc.status == (if st.status == Recording || st.status == Error then st.status else svc.status)
            && s.svc.recognizedText == svc.recognizedText && s.svc.recognizer == svc.recognizer
            && (OnAudioLevel in svc.listeners ==> s.outputs[0] == Emitted(AudioLevelChanged(st.audioLevel)))
            && (st.status == Error && OnError in svc.listeners ==>
                  s.outputs[|s.outputs| - 1] == Emitted(Failed(RecorderErrorText(st.error))))
  {
  }

  /**
   * While capturing, each sample buffer reaches an open recogniser as one audio
   * frame whose payload decodes to the int16 conversion of the samples.
   */
  lemma PcmChunkForwarded(svc: Service, samples: seq<real>)
    requires svc.pcm.Some? && PcmRecorder.OnDataAvailable in svc.pcm.value.listeners
    requires svc.pcm.value.capturing && svc.pcm.value.state.status == Recording
    requires svc.recognizer.Some? && svc.recognizer.value.ws == Some(Xunfei.Open)
    ensures Pcm.ReadInt16s(Pcm.Int16ArrayBuffer(Pcm.FloatTo16BitPCM(samples))) == Pcm.FloatTo16BitPCM(samples)
    ensures Apply(svc, PcmSamples(samples)) == Step(svc, [AudioFrameOf(Pcm.Int16ArrayBuffer(Pcm.FloatTo16BitPCM(samples)))])
  {
    var p := svc.pcm.value;
    var pcm := Pcm.FloatTo16BitPCM(samples);
    Pcm.ReadInt16sOfBuffer(pcm);
    assert PcmRecorder.AudioProcess(p, samples) == PcmRecorder.Step(p, [PcmRecorder.DataAvailable(pcm)]);
    assert svc.(pcm := Some(p)) == svc;
    ApplyPcmSamples(svc, samples);
    ForwardPcmBuffer(svc, pcm);
  }

  /** A sample buffer goes through the recorder, and what it emits goes through the facade. */
  lemma ApplyPcmSamples(svc: Service, samples: seq<real>)
    requires svc.pcm.Some?
    ensures Apply(svc, PcmSamples(samples))
            == OnPcmEvents(svc.(pcm := Some(PcmRecorder.AudioProcess(svc.pcm.value, samples).rec)),
                           PcmRecorder.AudioProcess(svc.pcm.value, samples).events)
  {
  }

  /** Outside a recording nothing is sent and nothing changes. */
  lemma PcmIgnoredWhenNotCapturing(svc: Service, samples: seq<real>)
    requires svc.pcm.Some? && !(svc.pcm.value.capturing && svc.pcm.value.state.status == Recording)
    ensures Apply(svc, PcmSamples(samples)) == Step(svc, [])
  {
    assert svc.(pcm := Some(svc.pcm.value)) == svc;
  }

  /** One emitted PCM buffer reaches an open recogniser as one audio frame. */
  lemma ForwardPcmBuffer(svc: Service, pcm: seq<Pcm.Int16>)
    requires svc.recognizer.Some? && svc.recognizer.value.ws == Some(Xunfei.Open)
    ensures OnPcmEvents(svc, [PcmRecorder.DataAvailable(pcm)]) == Step(svc, [AudioFrameOf(Pcm.Int16ArrayBuffer(pcm))])
  {
    var bytes := Pcm.Int16ArrayBuffer(pcm);
    ForwardToOpenRecognizer(svc, bytes);
    assert OnPcmEvent(svc, PcmRecorder.DataAvailable(pcm)) == Step(svc, [AudioFrameOf(bytes)]);
    assert [PcmRecorder.DataAvailable(pcm)][1..] == [];
  }

  // ---------------------------------------------------------------------------
  // Properties: stop and cancel

  /** State notifications of a status other than `recording` or `error` leave the facade's status and text alone. */
  lemma {:induction false} QuietPcmStates(svc: Service, evs: seq<PcmRecorder.Event>)
    requires forall k :: 0 <= k < |evs| ==>
               evs[k].StateChanged? && evs[k].state.status != Recording && evs[k].state.status != Error
    ensures OnPcmEvents(svc, evs).svc == svc
    decreases |evs|
  {
    if |evs| > 0 {
      assert forall k :: 0 <= k < |evs[1..]| ==> evs[1..][k] == evs[k + 1];
      QuietPcmStates(svc, evs[1..]);
    }
  }

  /** `stop` never changes the facade's status or text; completion is reported later by the components. */
  lemma StopKeepsStatus(svc: Service)
    ensures Stop(svc).svc.status == svc.status
    ensures Stop(svc).svc.recognizedText == svc.recognizedText
  {
    if svc.pcm.Some? {
      var st := PcmRecorder.Stop(svc.pcm.value);
      QuietPcmStates(svc.(pcm := Some(st.rec)), st.events);
    }
    var s1 := if svc.pcm.Some? then
                var st := PcmRecorder.Stop(svc.pcm.value);
                OnPcmEvents(svc.(pcm := Some(st.rec)), st.events)
              else Step(svc, []);
    var s2 := if s1.svc.media.Some? then
                var st := MediaRecorder.Stop(s1.svc.media.value);
                OnMediaEvents(s1.svc.(media := Some(st.rec)), st.events, NoEndpoint)
              else Step(s1.svc, []);
    if s2.svc.recognizer.Some? {
      var e := Xunfei.End(s2.svc.recognizer.value);
      RouteTransport(s2.svc.(recognizer := Some(e.r)), e.effects);
    }
  }

  /** `cancel` always ends idle with no text, reporting `idle` last, and leaves no socket held. */
  lemma CancelResets(svc: Service)
    ensures var s := Cancel(svc);
            && s.svc.status == Idle && s.svc.recognizedText == ""
            && (OnStatusChange in svc.listeners ==>
                  |s.outputs| > 0 && s.outputs[|s.outputs| - 1] == Emitted(StatusChanged(Idle)))
            && (svc.recognizer.Some? ==> s.svc.recognizer.Some? && s.svc.recognizer.value.ws.None?)
  {
    if svc.pcm.Some? {
      var st := PcmRecorder.Cancel(svc.pcm.value);
      OnPcmEventsKeeps(svc.(pcm := Some(st.rec)), st.events);
    }
    var s1 := if svc.pcm.Some? then
                var st := PcmRecorder.Cancel(svc.pcm.value);
                OnPcmEvents(svc.(pcm := Some(st.rec)), st.events)
              else Step(svc, []);
    if s1.svc.media.Some? {
      var st := MediaRecorder.Cancel(s1.svc.media.value);
      MediaStateEventsKeep(s1.svc.(media := Some(st.rec)), st.events, NoEndpoint);
    }
    var s2 := if s1.svc.media.Some? then
                var st := MediaRecorder.Cancel(s1.svc.media.value);
                OnMediaEvents(s1.svc.(media := Some(st.rec)), st.events, NoEndpoint)
              else Step(s1.svc, []);
    if s2.svc.recognizer.Some? {
      var c := Xunfei.Cancel(s2.svc.recognizer.value);
      RouteRecognizerKeeps(s2.svc.(recognizer := Some(c.r)), c.effects);
    }
  }

  // ---------------------------------------------------------------------------
  // Properties: batch streaming

  /** On an open socket, sending the slices yields one audio frame per slice, in order, and changes nothing. */
  lemma {:induction false} SendChunksOpen(svc: Service, chunks: seq<seq<Byte>>)
    requires svc.recognizer.Some? && svc.recognizer.value.ws == Some(Xunfei.Open)
    ensures SendChunks(svc, chunks) == Step(svc, AudioFrames(chunks))
    decreases |chunks|
  {
    if |chunks| > 0 {
      ForwardToOpenRecognizer(svc, chunks[0]);
      SendChunksOpen(svc, chunks[1..]);
    }
  }

  /** Frame `k` is the frame of slice `k`. */
  lemma {:induction false} AudioFramesCarry(chunks: seq<seq<Byte>>)
    ensures |AudioFrames(chunks)| == |chunks|
    ensures forall k :: 0 <= k < |chunks| ==> AudioFrames(chunks)[k] == AudioFrameOf(chunks[k])
    decreases |chunks|
  {
    if |chunks| > 0 {
      AudioFramesCarry(chunks[1..]);
      forall k | 0 <= k < |chunks|
        ensures AudioFrames(chunks)[k] == AudioFrameOf(chunks[k])
      {
        if k > 0 {
          assert AudioFrames(chunks)[k] == AudioFrames(chunks[1..])[k - 1];
        }
      }
    }
  }

  /** Streaming a buffer on an open socket: one frame per slice, then the final frame. */
  lemma StreamBufferOpen(svc: Service, pcm: seq<Byte>)
    requires svc.recognizer.Some? && svc.recognizer.value.ws == Some(Xunfei.Open)
    ensures StreamBuffer(svc, pcm) == Step(svc, AudioFrames(Slices(pcm)) + [EndFrame])
  {
    SendChunksOpen(svc, Slices(pcm));
    var e := Xunfei.End(svc.recognizer.value);
    assert svc.(recognizer := Some(e.r)) == svc;
    RouteTransport(svc, e.effects);
    assert Wires(e.effects) == [EndFrame];
  }

  /**
   * A released batch recognition on an open socket streams the converted
   * buffer as consecutive slices of at most 1280 bytes, one frame each, whose
   * payloads together are the whole buffer, then sends the final frame.
   */
  lemma BatchStreamsWholeBuffer(svc: Service, audio: MediaRecorder.AudioData, decode: AudioConverter.Decoder)
    requires svc.phase == RecognizerReadyForAudio(audio) && decode(audio.blob.bytes).Success?
    requires svc.recognizer.Some? && svc.recognizer.value.ws == Some(Xunfei.Open)
    ensures AudioConverter.ConvertToPcm(decode(audio.blob.bytes), 16000.0).Success?
    ensures var pcm := AudioConverter.ConvertToPcm(decode(audio.blob.bytes), 16000.0).value;
            var chunks := Slices(pcm);
            var s := ContinueRecognition(svc, decode);
            && s.svc == svc.(phase := Settled)
            && |s.outputs| == |chunks| + 1 && s.outputs[|chunks|] == EndFrame
            && (forall k :: 0 <= k < |chunks| ==> s.outputs[k] == AudioFrameOf(chunks[k]))
            && Flatten(chunks) == pcm
            && (forall k :: 0 <= k < |chunks| ==> 0 < |chunks[k]| <= ChunkSize)
  {
    var pcm := AudioConverter.ConvertToPcm(decode(audio.blob.bytes), 16000.0).value;
    var svc1 := svc.(phase := Settled);
    assert ContinueRecognition(svc, decode) == StreamBuffer(svc1, pcm);
    StreamBufferOpen(svc1, pcm);
    SlicesPartition(pcm);
    FramesThenEnd(Slices(pcm));
  }

  /** Before the final frame, frame `k` is the frame of slice `k`. */
  lemma FramesThenEnd(chunks: seq<seq<Byte>>)
    ensures |AudioFrames(chunks) + [EndFrame]| == |chunks| + 1
    ensures (AudioFrames(chunks) + [EndFrame])[|chunks|] == EndFrame
    ensures forall k :: 0 <= k < |chunks| ==> (AudioFrames(chunks) + [EndFrame])[k] == AudioFrameOf(chunks[k])
  {
    AudioFramesCarry(chunks);
  }

  /** A conversion failure is reported and nothing is sent. */
  lemma BatchConversionFailure(svc: Service, audio: MediaRecorder.AudioData, decode: AudioConverter.Decoder)
    requires svc.phase == RecognizerReadyForAudio(audio) && decode(audio.blob.bytes).Failure?
    ensures ContinueRecognition(svc, decode) == HandleError(svc.(phase := Settled), decode(audio.blob.bytes).error)
  {
  }

  /**
   * `recognizeAudio` without a recogniser does nothing; with one that is not
   * open and an endpoint, it reports `recognizing`, connects the recogniser and
   * suspends holding the recording it was given.
   */
  lemma RecognizeAudioAwaits(svc: Service, audio: MediaRecorder.AudioData, endpoint: Result<string, string>)
    ensures svc.recognizer.None? ==> RecognizeAudio(svc, audio, endpoint) == Step(svc, [])
    ensures svc.recognizer.Some? && svc.recognizer.value.ws != Some(Xunfei.Open) && endpoint.Success? ==>
              var s := RecognizeAudio(svc, audio, endpoint);
              && s.svc.phase == AwaitingRecognizerForAudio(audio) && s.svc.status == Recognizing
              && s.svc.pcm == svc.pcm && s.svc.media == svc.media
              && s.svc.recognizer.Some? && s.svc.recognizer.value.ws == Some(Xunfei.Connecting)
              && s.svc.recognizer.value.readyPending
              && |s.outputs| > 0 && s.outputs[|s.outputs| - 1] == Wire(Xunfei.Connect(endpoint.value))
  {
    if svc.recognizer.Some? && svc.recognizer.value.ws != Some(Xunfei.Open) && endpoint.Success? {
      var r := svc.recognizer.value;
      var s1 := UpdateStatus(svc, Recognizing);
      var st := Xunfei.Start(r, endpoint);
      var e := st.effects;
      var svc1 := s1.svc.(recognizer := Some(st.r));
      var last := [Xunfei.Connect(endpoint.value)];
      RouteTransport(svc1, last);
      assert Wires(last) == [Wire(Xunfei.Connect(endpoint.value))];
      if Xunfei.OnStatusChange in r.listeners {
        assert e == [Xunfei.Notify(Xunfei.StatusChanged(Recognizing))] + last;
        var a := RouteEffect(svc1, e[0]);
        assert a == UpdateStatus(svc1, Recognizing);
        assert e[1..] == last;
        RouteTransport(a.svc, last);
      } else {
        assert e == last;
      }
    }
  }

  /**
   * A batch recording that ends hands exactly its kept chunks, joined, to the
   * recognition: once the engine stops, the facade waits for the recogniser
   * holding that recording, which is what the continuation decodes and streams.
   */
  lemma RecordingAwaitsRecognizer(svc: Service, now: int, endpoint: Result<string, string>)
    requires svc.media.Some? && svc.media.value.engine != MediaRecorder.Inactive
    requires MediaRecorder.OnComplete in svc.media.value.listeners
    requires svc.recognizer.Some? && svc.recognizer.value.ws != Some(Xunfei.Open) && endpoint.Success?
    ensures var m := svc.media.value;
            var s := Apply(svc, MediaEngine(MediaRecorder.EngineStopped(now), endpoint));
            && s.svc.phase == AwaitingRecognizerForAudio(
                 MediaRecorder.AudioData(MediaRecorder.Blob(MediaRecorder.Concat(m.chunks)), m.mimeType, now - m.startTime))
            && s.svc.status == Recognizing
  {
    var m := svc.media.value;
    var audio := MediaRecorder.AudioData(MediaRecorder.Blob(MediaRecorder.Concat(m.chunks)), m.mimeType, now - m.startTime);
    var st := MediaRecorder.Apply(m, MediaRecorder.EngineStopped(now));
    MediaRecorder.EngineStopEvents(m, now);
    ApplyMediaEngine(svc, MediaRecorder.EngineStopped(now), endpoint);
    CompletionAwaitsRecognizer(svc.(media := Some(st.rec)), st.events, audio, endpoint);
  }

  /** A completion, possibly after one state change, leaves the facade waiting for the recogniser with that recording. */
  lemma CompletionAwaitsRecognizer(svc: Service, evs: seq<MediaRecorder.Event>, audio: MediaRecorder.AudioData,
                                   endpoint: Result<string, string>)
    requires evs == [MediaRecorder.CompletedWith(audio)] || (|evs| == 2 && evs[0].StateChanged? && evs[1] == MediaRecorder.CompletedWith(audio))
    requires svc.recognizer.Some? && svc.recognizer.value.ws != Some(Xunfei.Open) && endpoint.Success?
    ensures OnMediaEvents(svc, evs, endpoint).svc.phase == AwaitingRecognizerForAudio(audio)
    ensures OnMediaEvents(svc, evs, endpoint).svc.status == Recognizing
  {
    var done := [MediaRecorder.CompletedWith(audio)];
    assert done[1..] == [];
    if |evs| == 2 {
      var a := OnMediaEvent(svc, evs[0], endpoint);
      MediaStateEventKeeps(svc, evs[0], endpoint);
      assert evs[1..] == done;
      assert OnMediaEvents(svc, evs, endpoint).svc == OnMediaEvents(a.svc, done, endpoint).svc;
      RecognizeAudioAwaits(a.svc, audio, endpoint);
    } else {
      RecognizeAudioAwaits(svc, audio, endpoint);
    }
  }

  /** An engine notification is handled by the media recorder and its notifications are routed. */
  lemma ApplyMediaEngine(svc: Service, mi: MediaRecorder.Input, endpoint: Result<string, string>)
    requires svc.media.Some? && FromMediaEngine(mi)
    ensures var st := MediaRecorder.Apply(svc.media.value, mi);
            Apply(svc, MediaEngine(mi, endpoint)) == OnMediaEvents(svc.(media := Some(st.rec)), st.events, endpoint)
  {
  }

  /**
   * `destroy` leaves nothing subscribed: the facade, both recorders and the
   * recogniser forget their listeners, the PCM recorder lets go of the device,
   * the socket is dropped, and the capture units themselves are kept.
   */
  lemma DestroyReleasesEverything(svc: Service)
    ensures var s := Destroy(svc);
            && s.svc.listeners == {} && s.svc.options == svc.options
            && s.svc.pcm.Some? == svc.pcm.Some? && s.svc.media.Some? == svc.media.Some?
            && (s.svc.pcm.Some? ==> s.svc.pcm.value.listeners == {} && !s.svc.pcm.value.capturing)
            && (s.svc.media.Some? ==> s.svc.media.value.listeners == {})
            && (svc.recognizer.Some? ==>
                  s.svc.recognizer.Some? && s.svc.recognizer.value.listeners == {} && s.svc.recognizer.value.ws.None?)
  {
    var s1 := if svc.media.Some? then
                var st := MediaRecorder.Destroy(svc.media.value);
                OnMediaEvents(svc.(media := Some(st.rec)), st.events, NoEndpoint)
              else Step(svc, []);
    if svc.media.Some? {
      var st := MediaRecorder.Destroy(svc.media.value);
      assert forall k :: 0 <= k < |st.events| ==> st.events[k].StateChanged?;
      MediaStateEventsKeep(svc.(media := Some(st.rec)), st.events, NoEndpoint);
    }
    var s2 := if s1.svc.pcm.Some? then
                var st := PcmRecorder.Destroy(s1.svc.pcm.value);
                OnPcmEvents(s1.svc.(pcm := Some(st.rec)), st.events)
              else Step(s1.svc, []);
    if s1.svc.pcm.Some? {
      var st := PcmRecorder.Destroy(s1.svc.pcm.value);
      OnPcmEventsKeeps(s1.svc.(pcm := Some(st.rec)), st.events);
    }
    if s2.svc.recognizer.Some? {
      var d := Xunfei.Destroy(s2.svc.recognizer.value);
      RouteRecognizerKeeps(s2.svc.(recognizer := Some(d.r)), d.effects);
    }
  }

  // ---------------------------------------------------------------------------
  // Properties: the capture unit of the mode is kept for the facade's lifetime

  function Run(svc: Service, inputs: seq<Input>): Step
    decreases |inputs|
  {
    if |inputs| == 0 then Step(svc, [])
    else
      var s := Apply(svc, inputs[0]);
      var t := Run(s.svc, inputs[1..]);
      Step(t.svc, s.outputs + t.outputs)
  }

  /** The real-time facade has only the PCM recorder, the batch facade only the media recorder. */
  predicate ModeConsistent(svc: Service) {
    && (svc.options.realtime ==> svc.pcm.Some? && svc.media.None?)
    && (!svc.options.realtime ==> svc.media.Some? && svc.pcm.None?)
  }

  /** Which capture units exist, and the options. */
  predicate SameShape(a: Service, b: Service) {
    a.options == b.options && a.pcm.Some? == b.pcm.Some? && a.media.Some? == b.media.Some?
  }

  lemma UpdateKeepsShape(svc: Service, s: VoiceStatus, m: string)
    ensures SameShape(UpdateStatus(svc, s).svc, svc) && SameShape(HandleError(svc, m).svc, svc)
  {
  }

  lemma WithRecognizerKeepsShape(svc: Service, st: Xunfei.Step)
    ensures SameShape(WithRecognizer(svc, st).svc, svc)
  {
    RouteRecognizerKeeps(svc.(recognizer := Some(st.r)), st.effects);
  }

  lemma AfterRecognizerStartKeepsShape(svc: Service, st: Xunfei.StartStep, waiting: Phase)
    ensures SameShape(AfterRecognizerStart(svc, st, waiting).svc, svc)
  {
    WithRecognizerKeepsShape(svc, Xunfei.Step(st.r, st.effects));
  }

  lemma OnMediaEventKeepsShape(svc: Service, e: MediaRecorder.Event, endpoint: Result<string, string>)
    ensures SameShape(OnMediaEvent(svc, e, endpoint).svc, svc)
  {
    if e.CompletedWith? && svc.recognizer.Some? {
      var s1 := UpdateStatus(svc, Recognizing);
      AfterRecognizerStartKeepsShape(s1.svc, Xunfei.Start(svc.recognizer.value, endpoint), AwaitingRecognizerForAudio(e.audio));
    }
  }

  lemma {:induction false} OnMediaEventsKeepShape(svc: Service, evs: seq<MediaRecorder.Event>, endpoint: Result<string, string>)
    ensures SameShape(OnMediaEvents(svc, evs, endpoint).svc, svc)
    decreases |evs|
  {
    if |evs| > 0 {
      OnMediaEventKeepsShape(svc, evs[0], endpoint);
      OnMediaEventsKeepShape(OnMediaEvent(svc, evs[0], endpoint).svc, evs[1..], endpoint);
    }
  }

  lemma StartRecorderKeepsShape(svc: Service, env: StartEnv)
    ensures SameShape(StartRecorder(svc, env).svc, svc)
  {
    if svc.options.realtime && svc.pcm.Some? {
      var st := PcmRecorder.Start(svc.pcm.value, env.capture);
      OnPcmEventsKeeps(svc.(pcm := Some(st.rec)), st.events);
    } else if svc.media.Some? {
      var st := MediaRecorder.Start(svc.media.value, env.device);
      OnMediaEventsKeepShape(svc.(media := Some(st.rec)), st.events, env.endpoint);
    }
  }

  lemma PcmStageKeepsShape(svc: Service, st: PcmRecorder.Step)
    requires svc.pcm.Some?
    ensures SameShape(OnPcmEvents(svc.(pcm := Some(st.rec)), st.events).svc, svc)
  {
    OnPcmEventsKeeps(svc.(pcm := Some(st.rec)), st.events);
  }

  lemma MediaStageKeepsShape(svc: Service, st: MediaRecorder.Step, endpoint: Result<string, string>)
    requires svc.media.Some?
    ensures SameShape(OnMediaEvents(svc.(media := Some(st.rec)), st.events, endpoint).svc, svc)
  {
    OnMediaEventsKeepShape(svc.(media := Some(st.rec)), st.events, endpoint);
  }

  lemma StopKeepsShape(svc: Service)
    ensures SameShape(Stop(svc).svc, svc)
  {
    var s1 := if svc.pcm.Some? then
                var st := PcmRecorder.Stop(svc.pcm.value);
                OnPcmEvents(svc.(pcm := Some(st.rec)), st.events)
              else Step(svc, []);
    assert SameShape(s1.svc, svc) by {
      if svc.pcm.Some? {
        PcmStageKeepsShape(svc, PcmRecorder.Stop(svc.pcm.value));
      }
    }
    var s2 := if s1.svc.media.Some? then
                var st := MediaRecorder.Stop(s1.svc.media.value);
                OnMediaEvents(s1.svc.(media := Some(st.rec)), st.events, NoEndpoint)
              else Step(s1.svc, []);
    assert SameShape(s2.svc, s1.svc) by {
      if s1.svc.media.Some? {
        MediaStageKeepsShape(s1.svc, MediaRecorder.Stop(s1.svc.media.value), NoEndpoint);
      }
    }
    if s2.svc.recognizer.Some? {
      WithRecognizerKeepsShape(s2.svc, Xunfei.End(s2.svc.recognizer.value));
    }
  }

  lemma CancelKeepsShape(svc: Service)
    ensures SameShape(Cancel(svc).svc, svc)
  {
    var s1 := if svc.pcm.Some? then
                var st := PcmRecorder.Cancel(svc.pcm.value);
                OnPcmEvents(svc.(pcm := Some(st.rec)), st.events)
              else Step(svc, []);
    assert SameShape(s1.svc, svc) by {
      if svc.pcm.Some? {
        PcmStageKeepsShape(svc, PcmRecorder.Cancel(svc.pcm.value));
      }
    }
    var s2 := if s1.svc.media.Some? then
                var st := MediaRecorder.Cancel(s1.svc.media.value);
                OnMediaEvents(s1.svc.(media := Some(st.rec)), st.events, NoEndpoint)
              else Step(s1.svc, []);
    assert SameShape(s2.svc, s1.svc) by {
      if s1.svc.media.Some? {
        MediaStageKeepsShape(s1.svc, MediaRecorder.Cancel(s1.svc.media.value), NoEndpoint);
      }
    }
    if s2.svc.recognizer.Some? {
      WithRecognizerKeepsShape(s2.svc, Xunfei.Cancel(s2.svc.recognizer.value));
    }
  }

  /** `destroy` goes media first, then PCM, then the recogniser. */
  lemma DestroyKeepsShape(svc: Service)
    ensures SameShape(Destroy(svc).svc, svc)
  {
    var s1 := if svc.media.Some? then
                var st := MediaRecorder.Destroy(svc.media.value);
                OnMediaEvents(svc.(media := Some(st.rec)), st.events, NoEndpoint)
              else Step(svc, []);
    assert SameShape(s1.svc, svc) by {
      if svc.media.Some? {
        MediaStageKeepsShape(svc, MediaRecorder.Destroy(svc.media.value), NoEndpoint);
      }
    }
    var s2 := if s1.svc.pcm.Some? then
                var st := PcmRecorder.Destroy(s1.svc.pcm.value);
                OnPcmEvents(s1.svc.(pcm := Some(st.rec)), st.events)
              else Step(s1.svc, []);
    assert SameShape(s2.svc, s1.svc) by {
      if s1.svc.pcm.Some? {
        PcmStageKeepsShape(s1.svc, PcmRecorder.Destroy(s1.svc.pcm.value));
      }
    }
    if s2.svc.recognizer.Some? {
      WithRecognizerKeepsShape(s2.svc, Xunfei.Destroy(s2.svc.recognizer.value));
    }
  }

  /** No input adds, removes or swaps a capture unit, or changes the options. */
  lemma ApplyKeepsShape(svc: Service, i: Input)
    ensures SameShape(Apply(svc, i).svc, svc)
  {
    match i {
      case DoStart(env) => StartKeepsShape(svc, env);
      case Resume(env) => ContinueStartKeepsShape(svc, env);
      case DoStop => StopKeepsShape(svc);
      case DoCancel => CancelKeepsShape(svc);
      case DoDestroy => DestroyKeepsShape(svc);
      case Socket(ev) =>
        if svc.recognizer.Some? {
          WithRecognizerKeepsShape(svc, Xunfei.Deliver(svc.recognizer.value, ev));
        }
      case PcmSamples(xs) =>
        if svc.pcm.Some? {
          var st := PcmRecorder.AudioProcess(svc.pcm.value, xs);
          OnPcmEventsKeeps(svc.(pcm := Some(st.rec)), st.events);
        }
      case PcmReading(reading, now) =>
        if svc.pcm.Some? {
          var st := PcmRecorder.Tick(svc.pcm.value, reading, now);
          OnPcmEventsKeeps(svc.(pcm := Some(st.rec)), st.events);
        }
      case MediaEngine(mi, endpoint) =>
        if svc.media.Some? && FromMediaEngine(mi) {
          var st := MediaRecorder.Apply(svc.media.value, mi);
          OnMediaEventsKeepShape(svc.(media := Some(st.rec)), st.events, endpoint);
        }
      case ResumeRecognition(decode) => ContinueRecognitionKeepsShape(svc, decode);
      case Subscribe(l) =>
      case Unsubscribe(l) =>
    }
  }

  lemma StartKeepsShape(svc: Service, env: StartEnv)
    ensures SameShape(Start(svc, env).svc, svc)
  {
    if JsText.Present(env.appId) {
      var r := Xunfei.New(env.appId.value, Xunfei.NoOverrides).(listeners := RecognizerListeners);
      var svc1 := svc.(recognizer := Some(r));
      AfterRecognizerStartKeepsShape(svc1, Xunfei.Start(r, env.endpoint), AwaitingRecognizer);
      StartRecorderKeepsShape(svc1, env);
    }
  }

  lemma ContinueStartKeepsShape(svc: Service, env: StartEnv)
    ensures SameShape(ContinueStart(svc, env).svc, svc)
  {
    StartRecorderKeepsShape(svc.(phase := Settled), env);
  }

  lemma ContinueRecognitionKeepsShape(svc: Service, decode: AudioConverter.Decoder)
    ensures SameShape(ContinueRecognition(svc, decode).svc, svc)
  {
    if svc.phase.RecognizerReadyForAudio? {
      var svc1 := svc.(phase := Settled);
      match AudioConverter.ConvertToPcm(decode(svc.phase.audio.blob.bytes), 16000.0) {
        case Failure(m) =>
        case Success(pcm) => StreamBufferKeepsShape(svc1, pcm);
      }
    }
  }

  lemma StreamBufferKeepsShape(svc: Service, pcm: seq<Byte>)
    ensures SameShape(StreamBuffer(svc, pcm).svc, svc)
  {
    SendChunksKeepShape(svc, Slices(pcm));
    var s1 := SendChunks(svc, Slices(pcm));
    if s1.svc.recognizer.Some? {
      WithRecognizerKeepsShape(s1.svc, Xunfei.End(s1.svc.recognizer.value));
    }
  }

  lemma {:induction false} SendChunksKeepShape(svc: Service, chunks: seq<seq<Byte>>)
    ensures SameShape(SendChunks(svc, chunks).svc, svc)
    decreases |chunks|
  {
    if |chunks| > 0 && svc.recognizer.Some? {
      var sent := Xunfei.Send(svc.recognizer.value, chunks[0]);
      WithRecognizerKeepsShape(svc, sent);
      SendChunksKeepShape(WithRecognizer(svc, sent).svc, chunks[1..]);
    }
  }

  /** A facade built by the constructor keeps exactly the capture unit of its mode through any run of inputs. */
  lemma {:induction false} RunKeepsMode(o: OptionOverrides, inputs: seq<Input>)
    ensures ModeConsistent(New(o))
    ensures ModeConsistent(Run(New(o), inputs).svc)
  {
    RunKeepsShape(New(o), inputs);
  }

  lemma {:induction false} RunKeepsShape(svc: Service, inputs: seq<Input>)
    ensures SameShape(Run(svc, inputs).svc, svc)
    decreases |inputs|
  {
    if |inputs| > 0 {
      ApplyKeepsShape(svc, inputs[0]);
      RunKeepsShape(Apply(svc, inputs[0]).svc, inputs[1..]);
    }
  }
}

=== FILE: voice_types.dfy ===
/** Types shared by the voice pipeline (src/types/voice.ts). */
module VoiceTypes {
  import opened Wrappers

  /** The single status every voice component reports. */
  datatype VoiceStatus = Idle | Recording | Recognizing | Completed | Error

  /** One recognition result: the text so far and whether the session has ended. */
  datatype RecognitionResult = RecognitionResult(text: string, isFinal: bool, confidence: Option<real>)

  /** The observable state of either recorder. */
  datatype RecorderState = RecorderState(status: VoiceStatus, duration: int, audioLevel: real, error: Option<string>)

  const InitialRecorderState: RecorderState := RecorderState(Idle, 0, 0.0, None)

  /** A partial state update; absent fields are left as they are. */
  datatype StatePatch = StatePatch(
    status: Option<VoiceStatus>, duration: Option<int>, audioLevel: Option<real>, error: Option<string>)

  /** `{ ...state, ...update }`. */
  function Merge(s: RecorderState, p: StatePatch): (r: RecorderState)
    ensures p.status.None? ==> r.status == s.status
    ensures p.duration.None? ==> r.duration == s.duration
    ensures p.audioLevel.None? ==> r.audioLevel == s.audioLevel
    ensures p.error.None? ==> r.error == s.error
    ensures p.status.Some? ==> r.status == p.status.value
    ensures p.duration.Some? ==> r.duration == p.duration.value
    ensures p.audioLevel.Some? ==> r.audioLevel == p.audioLevel.value
    ensures p.error.Some? ==> r.error == p.error
  {
    RecorderState(p.status.GetOr(s.status), p.duration.GetOr(s.duration),
                  p.audioLevel.GetOr(s.audioLevel), if p.error.Some? then p.error else s.error)
  }

  function StatusPatch(st: VoiceStatus): StatePatch {
    StatePatch(Some(st), None, None, None)
  }
}

=== FILE: wrappers.dfy ===
/** Failure-compatible wrappers shared by every module of the model. */
module Wrappers {

  /** A value that may be absent (JavaScript `undefined` / `null`). */
  datatype Option<+T> = None | Some(value: T) {

    predicate IsFailure() {
      None?
    }

    function PropagateFailure<U>(): Option<U>
      requires None?
    {
      None
    }

    function Extract(): T
      requires Some?
    {
      value
    }

    /** Returns the carried value, or `default` when absent. */
    function GetOr(default: T): T {
      match this
      case Some(v) => v
      case None => default
    }
  }

  /** Either a value or an error message (a thrown exception or an error response). */
  datatype Result<+R, +E> = Success(value: R) | Failure(error: E) {

    predicate IsFailure() {
      Failure?
    }

    function PropagateFailure<U>(): Result<U, E>
      requires Failure?
    {
      Failure(error)
    }

    function Extract(): R
      requires Success?
    {
      value
    }
  }
}

=== FILE: xunfei.dfy ===
/**
 * The streaming recogniser session (`XunfeiRecognizer`): a state machine over
 * the voice status, the held socket and the accumulated result text.
 *
 * Every operation is a pure step from a recogniser to its successor and the
 * ordered list of effects it performs: listener notifications, frames sent on
 * the socket, closing the socket, opening a connection, and resolving the
 * one-shot readiness promise that `start` awaits.
 */
module Xunfei {
  import opened Wrappers
  import opened VoiceTypes
  import JsText
  import Base64

  // ---------------------------------------------------------------------------
  // Configuration

  /** Recognition parameters after defaults are applied. */
  datatype Params = Params(language: string, domain: string, audioEncoding: string, sampleRate: string, ptt: int)

  /** The caller's partial parameters; `None` means "use the default". */
  datatype ParamOverrides = ParamOverrides(
    language: Option<string>, domain: Option<string>, audioEncoding: Option<string>,
    sampleRate: Option<string>, ptt: Option<int>)

  const NoOverrides: ParamOverrides := ParamOverrides(None, None, None, None, None)

  /** The constructor's defaults, each overridden by a supplied field. */
  function ResolveParams(o: ParamOverrides): Params {
    Params(o.language.GetOr("zh_cn"), o.domain.GetOr("iat"), o.audioEncoding.GetOr("raw"),
           o.sampleRate.GetOr("16000"), o.ptt.GetOr(1))
  }

  lemma DefaultParams()
    ensures ResolveParams(NoOverrides) == Params("zh_cn", "iat", "raw", "16000", 1)
  {
  }

  /** A supplied parameter wins; an omitted one keeps its default. */
  lemma OverrideOneField(lang: string)
    ensures var p := ResolveParams(NoOverrides.(language := Some(lang)));
            p == ResolveParams(NoOverrides).(language := lang)
  {
  }

  // ---------------------------------------------------------------------------
  // Wire frames

  /** One recognised word; `w` may be absent, which string concatenation renders as "undefined". */
  datatype Word = Word(w: Option<string>)

  /** A word-list entry; `cw` is `None` when it is absent or not an array. */
  datatype WordEntry = WordEntry(cw: Option<seq<Word>>)

  /** `result`, whose `ws` is `None` when absent or not an array. */
  datatype AsrResult = AsrResult(ws: Option<seq<WordEntry>>)

  datatype FrameData = FrameData(status: int, result: Option<AsrResult>, confidence: Option<real>)

  /** One parsed inbound frame. */
  datatype Response = Response(code: int, message: string, data: Option<FrameData>)

  /** The `data` part shared by all outbound frames. */
  datatype OutData = OutData(status: int, format: string, encoding: string, audio: string)

  datatype Business = Business(language: string, domain: string, accent: string, vadEos: int, dwa: string, ptt: int)

  /** Outbound frames: audio frames carry only `data`; the opening frame also carries `common` and `business`. */
  datatype OutFrame =
    | AudioFrame(data: OutData)
    | OpeningFrame(appId: string, business: Business, data: OutData)

  const AudioFormat: string := "audio/L16;rate=16000"
  const VadEos: int := 5000

  // ---------------------------------------------------------------------------
  // State and effects

  datatype Listener = OnStatusChange | OnResult | OnError | OnComplete | OnReady

  const AllListeners: set<Listener> := {OnStatusChange, OnResult, OnError, OnComplete, OnReady}

  datatype Event =
    | StatusChanged(status: VoiceStatus)
    | ResultReady(result: RecognitionResult)
    | Failed(message: string)
    | CompletedWith(text: string)
    | ReadyEvent

  function ListenerFor(e: Event): Listener {
    match e
    case StatusChanged(_) => OnStatusChange
    case ResultReady(_) => OnResult
    case Failed(_) => OnError
    case CompletedWith(_) => OnComplete
    case ReadyEvent => OnReady
  }

  /** `readyState` of the held socket; a socket that reached CLOSED is no longer held. */
  datatype ReadyState = Connecting | Open | Closing

  datatype Effect =
    | Notify(event: Event)
    | SendFrame(frame: OutFrame)
    | CloseSocket
    | Connect(url: string)
    | ResolveReady

  datatype Recognizer = Recognizer(
    appId: string,
    params: Params,
    ws: Option<ReadyState>,
    resultText: string,
    status: VoiceStatus,
    readyPending: bool,          // `resolveConnection` is set
    listeners: set<Listener>)

  /** A recogniser after one operation, with the effects performed, in order. */
  datatype Step = Step(r: Recognizer, effects: seq<Effect>)

  function New(appId: string, overrides: ParamOverrides): (r: Recognizer)
    ensures r.status == Idle && r.ws.None? && r.resultText == "" && !r.readyPending
    ensures r.params == ResolveParams(overrides) && r.listeners == {}
  {
    Recognizer(appId, ResolveParams(overrides), None, "", Idle, false, {})
  }

  function On(r: Recognizer, l: Listener): Recognizer {
    r.(listeners := r.listeners + {l})
  }

  function Off(r: Recognizer, l: Listener): Recognizer {
    r.(listeners := r.listeners - {l})
  }

  /** A notification reaches its listener only if one is registered. */
  function Emit(r: Recognizer, e: Event): (effs: seq<Effect>)
    ensures ListenerFor(e) in r.listeners ==> effs == [Notify(e)]
    ensures ListenerFor(e) !in r.listeners ==> effs == []
  {
    if ListenerFor(e) in r.listeners then [Notify(e)] else []
  }

  function UpdateStatus(r: Recognizer, s: VoiceStatus): Step {
    Step(r.(status := s), Emit(r, StatusChanged(s)))
  }

  /** Releases the socket, closing it first if it is open. */
  function Cleanup(r: Recognizer): (st: Step)
    ensures st.r == r.(ws := None)
    ensures st.effects == (if r.ws == Some(Open) then [CloseSocket] else [])
  {
    match r.ws
    case None => Step(r, [])
    case Some(rs) => Step(r.(ws := None), if rs == Open then [CloseSocket] else [])
  }

  function HandleError(r: Recognizer, message: string): (st: Step)
    ensures st.r == r.(status := Error, ws := None)
    ensures st.effects == Emit(r, StatusChanged(Error)) + Emit(r, Failed(message))
                          + (if r.ws == Some(Open) then [CloseSocket] else [])
  {
    var s1 := UpdateStatus(r, Error);
    var s2 := Cleanup(s1.r);
    Step(s2.r, s1.effects + Emit(r, Failed(message)) + s2.effects)
  }

  // ---------------------------------------------------------------------------
  // Inbound frames

  function WordText(wd: Word): string {
    match wd.w
    case Some(t) => t
    case None => "undefined"
  }

  /** The in-order concatenation of the words of one entry. */
  function WordsText(words: seq<Word>): string {
    if |words| == 0 then "" else WordsText(words[..|words| - 1]) + WordText(words[|words| - 1])
  }

  /** The in-order concatenation of every word of every entry that has a word array. */
  function FrameText(entries: seq<WordEntry>): string {
    if |entries| == 0 then ""
    else FrameText(entries[..|entries| - 1]) + EntryText(entries[|entries| - 1])
  }

  function EntryText(e: WordEntry): string {
    match e.cw
    case Some(words) => WordsText(words)
    case None => ""
  }

  lemma {:induction false} FrameTextAppend(a: seq<WordEntry>, b: seq<WordEntry>)
    ensures FrameText(a + b) == FrameText(a) + FrameText(b)
    decreases |b|
  {
    if |b| > 0 {
      var ab := a + b;
      assert ab[..|ab| - 1] == a + b[..|b| - 1];
      assert ab[|ab| - 1] == b[|b| - 1];
      FrameTextAppend(a, b[..|b| - 1]);
      assert FrameText(ab) == FrameText(a + b[..|b| - 1]) + EntryText(b[|b| - 1]);
    } else {
      assert a + b == a;
    }
  }

  /** An entry without a word array contributes nothing, wherever it sits. */
  lemma EntryWithoutWordsIsSilent(a: seq<WordEntry>, b: seq<WordEntry>)
    ensures FrameText(a + [WordEntry(None)] + b) == FrameText(a + b)
  {
    FrameTextAppend(a + [WordEntry(None)], b);
    FrameTextAppend(a, b);
  }

  /** The inner `forEach` over one entry's `cw` array. */
  method CollectWords(words: seq<Word>) returns (text: string)
    ensures text == WordsText(words)
  {
    text := "";
    var j := 0;
    while j < |words|
      invariant 0 <= j <= |words|
      invariant text == WordsText(words[..j])
    {
      assert words[..j + 1][..j] == words[..j];
      text := text + WordText(words[j]);
      j := j + 1;
    }
    assert words[..j] == words;
  }

  /** The nested `forEach` loops that build `tempText`. */
  method CollectText(entries: seq<WordEntry>) returns (text: string)
    ensures text == FrameText(entries)
  {
    text := "";
    var i := 0;
    while i < |entries|
      invariant 0 <= i <= |entries|
      invariant text == FrameText(entries[..i])
    {
      assert entries[..i + 1][..i] == entries[..i];
      if entries[i].cw.Some? {
        var t := CollectWords(entries[i].cw.value);
        text := text + t;
      }
      i := i + 1;
    }
    assert entries[..i] == entries;
  }

  /** The error message built from a non-zero code. */
  function ErrorMessage(resp: Response): string {
    "识别错误: " + resp.message + " (" + JsText.IntToString(resp.code) + ")"
  }

  /**
   * `handleMessage`: folds one parsed inbound frame into the session. A
   * non-zero code fails the session and releases the socket; a frame without
   * a word list changes nothing; a frame with one adds its text to the
   * accumulated text exactly when it is the final one, and only the final
   * frame ends the session.
   */
  function HandleMessage(r: Recognizer, resp: Response): (st: Step)
    ensures resp.code != 0 ==> st.r.status == Error && st.r.ws.None? && st.r.resultText == r.resultText
    ensures resp.code == 0 && !HasWordList(resp) ==> st == Step(r, [])
    ensures resp.code == 0 && HasWordList(resp) ==>
              && st.r.resultText == r.resultText + (if resp.data.value.status == 2 then TextOf(resp) else "")
              && (st.r.ws.None? <==> resp.data.value.status == 2 || r.ws.None?)
              && (resp.data.value.status == 2 ==> st.r.status == Completed)
              && (resp.data.value.status != 2 ==> st.r.status == r.status)
  {
    if resp.code != 0 then HandleError(r, ErrorMessage(resp))
    else if resp.data.None? || resp.data.value.result.None? || resp.data.value.result.value.ws.None? then
      Step(r, [])
    else
      var d := resp.data.value;
      var text := FrameText(d.result.value.ws.value);
      if d.status == 2 then
        var r1 := r.(resultText := r.resultText + text);
        var e1 := Emit(r1, ResultReady(RecognitionResult(r1.resultText, true, d.confidence)));
        var s2 := UpdateStatus(r1, Completed);
        var e3 := Emit(r1, CompletedWith(r1.resultText));
        var s4 := Cleanup(s2.r);
        Step(s4.r, e1 + s2.effects + e3 + s4.effects)
      else
        Step(r, Emit(r, ResultReady(RecognitionResult(text, false, d.confidence))))
  }

  /** The text a well-formed frame carries, if it carries a word list. */
  predicate HasWordList(resp: Response) {
    resp.data.Some? && resp.data.value.result.Some? && resp.data.value.result.value.ws.Some?
  }

  function TextOf(resp: Response): string
    requires HasWordList(resp)
  {
    FrameText(resp.data.value.result.value.ws.value)
  }

  /** A non-zero code fails the session, releases the socket and leaves the text alone. */
  lemma ErrorFrame(r: Recognizer, resp: Response)
    requires resp.code != 0
    ensures var st := HandleMessage(r, resp);
            && st.r.status == Error && st.r.ws.None? && st.r.resultText == r.resultText
            && (OnError in r.listeners ==> Notify(Failed(ErrorMessage(resp))) in st.effects)
            && (r.ws == Some(Open) <==> CloseSocket in st.effects)
            && forall e :: e in st.effects ==> !(e.Notify? && e.event.ResultReady?)
  {
  }

  /** A code-0 frame lacking `data`, `result` or a `ws` array changes nothing and emits nothing. */
  lemma IncompleteFrameIgnored(r: Recognizer, resp: Response)
    requires resp.code == 0 && !HasWordList(resp)
    ensures HandleMessage(r, resp) == Step(r, [])
  {
  }

  /** A non-final frame reports only its own text and keeps the accumulated text. */
  lemma NonFinalFrame(r: Recognizer, resp: Response)
    requires resp.code == 0 && HasWordList(resp) && resp.data.value.status != 2
    ensures var st := HandleMessage(r, resp);
            && st.r == r
            && st.effects == Emit(r, ResultReady(RecognitionResult(TextOf(resp), false, resp.data.value.confidence)))
  {
  }

  /**
   * A frame with `data.status == 2` appends its text exactly once, then emits the
   * final result carrying the whole text, the `completed` status and the completion,
   * and releases the socket, in that order.
   */
  lemma FinalFrame(r: Recognizer, resp: Response)
    requires resp.code == 0 && HasWordList(resp) && resp.data.value.status == 2
    requires {OnStatusChange, OnResult, OnComplete} <= r.listeners
    ensures var st := HandleMessage(r, resp);
            var full := r.resultText + TextOf(resp);
            && st.r == r.(resultText := full, status := Completed, ws := None)
            && st.effects == [Notify(ResultReady(RecognitionResult(full, true, resp.data.value.confidence))),
                              Notify(StatusChanged(Completed)),
                              Notify(CompletedWith(full))]
                             + (if r.ws == Some(Open) then [CloseSocket] else [])
  {
  }

  // ---------------------------------------------------------------------------
  // Outbound frames

  /** `arrayBufferToBase64`: byte-by-byte binary string, then `btoa`. */
  method ArrayBufferToBase64(bytes: seq<Base64.Byte>) returns (encoded: string)
    ensures Base64.Decode(encoded) == Some(bytes)
    ensures encoded == Base64.Encode(bytes)
  {
    var binary := "";
    var i := 0;
    while i < |bytes|
      invariant 0 <= i <= |bytes|
      invariant |binary| == i
      invariant forall k :: 0 <= k < i ==> binary[k] as int == bytes[k]
    {
      binary := binary + [bytes[i] as char];
      i := i + 1;
    }
    assert Base64.IsLatin1(binary);
    assert Base64.Latin1Bytes(binary) == bytes;
    var b := Base64.Btoa(binary);
    encoded := b.value;
  }

  /** `send`: one status-1 frame with the base64 audio, only while the socket is open. */
  function Send(r: Recognizer, audio: seq<Base64.Byte>): (st: Step)
    ensures st.r == r
    ensures r.ws != Some(Open) ==> st.effects == []
    ensures r.ws == Some(Open) ==>
              && |st.effects| == 1 && st.effects[0].SendFrame? && st.effects[0].frame.AudioFrame?
              && var d := st.effects[0].frame.data;
                 d.status == 1 && d.format == AudioFormat && d.encoding == "raw"
                 && Base64.Decode(d.audio) == Some(audio)
  {
    if r.ws == Some(Open) then
      Base64.DecodeEncode(audio);
      Step(r, [SendFrame(AudioFrame(OutData(1, AudioFormat, "raw", Base64.Encode(audio))))])
    else Step(r, [])
  }

  /** `end`: one status-2 frame with empty audio, only while the socket is open; the socket stays open. */
  function End(r: Recognizer): (st: Step)
    ensures st.r == r
    ensures r.ws != Some(Open) ==> st.effects == []
    ensures r.ws == Some(Open) ==> st.effects == [SendFrame(AudioFrame(OutData(2, AudioFormat, "raw", "")))]
  {
    if r.ws == Some(Open) then Step(r, [SendFrame(AudioFrame(OutData(2, AudioFormat, "raw", "")))])
    else Step(r, [])
  }

  /** The status-0 frame: application id, recognition parameters, and an empty first audio payload. */
  function OpeningFrameOf(r: Recognizer): (f: OutFrame)
    ensures f.OpeningFrame? && f.appId == r.appId
    ensures f.data == OutData(0, AudioFormat, "raw", "")
    ensures f.business.vadEos == 5000 && f.business.dwa == "wpgs" && f.business.accent == "mandarin"
    ensures f.business.language == r.params.language && f.business.domain == r.params.domain
    ensures f.business.ptt == r.params.ptt
  {
    OpeningFrame(r.appId,
                 Business(r.params.language, r.params.domain, "mandarin", VadEos, "wpgs", r.params.ptt),
                 OutData(0, AudioFormat, "raw", ""))
  }

  /** `sendBusinessParams`: the opening frame, then readiness (at most once), then `onReady`. */
  function SendBusinessParams(r: Recognizer): (st: Step)
    ensures r.ws != Some(Open) ==> st == Step(r, [])
    ensures r.ws == Some(Open) ==>
              && st.r == r.(readyPending := false)
              && st.effects == [SendFrame(OpeningFrameOf(r))]
                               + (if r.readyPending then [ResolveReady] else [])
                               + Emit(r, ReadyEvent)
  {
    if r.ws != Some(Open) then Step(r, [])
    else
      Step(r.(readyPending := false),
           [SendFrame(OpeningFrameOf(r))] + (if r.readyPending then [ResolveReady] else []) + Emit(r, ReadyEvent))
  }

  // ---------------------------------------------------------------------------
  // Lifecycle

  const AlreadyRunningMessage: string := "识别已在进行中"

  datatype StartOutcome =
    | AlreadyRunning        // thrown before anything changes
    | StartFailed(message: string)
    | AwaitingReady         // the connection is being opened; `start` resolves on ResolveReady

  datatype StartStep = StartStep(r: Recognizer, effects: seq<Effect>, outcome: StartOutcome)

  /**
   * `start`: rejected while a socket is open; otherwise clears the text, reports
   * `recognizing`, arms the readiness promise and connects to the resolved URL
   * (or fails if the URL could not be produced).
   */
  function Start(r: Recognizer, url: Result<string, string>): (st: StartStep)
    ensures r.ws == Some(Open) ==> st == StartStep(r, [], AlreadyRunning)
    ensures r.ws != Some(Open) && url.Success? ==>
              && st.outcome == AwaitingReady
              && st.r == r.(resultText := "", status := Recognizing, readyPending := true, ws := Some(Connecting))
              && st.effects == Emit(r, StatusChanged(Recognizing)) + [Connect(url.value)]
    ensures r.ws != Some(Open) && url.Failure? ==>
              && st.outcome == StartFailed(url.error)
              && st.r == r.(resultText := "", status := Error, readyPending := true, ws := None)
  {
    if r.ws == Some(Open) then StartStep(r, [], AlreadyRunning)
    else
      var s1 := UpdateStatus(r.(resultText := ""), Recognizing);
      var r2 := s1.r.(readyPending := true);
      match url
      case Failure(msg) =>
        var s3 := HandleError(r2, msg);
        StartStep(s3.r, s1.effects + s3.effects, StartFailed(msg))
      case Success(u) =>
        StartStep(r2.(ws := Some(Connecting)), s1.effects + [Connect(u)], AwaitingReady)
  }

  /** `cancel`: drops the socket, reports `idle` and clears the text; no completion is reported. */
  function Cancel(r: Recognizer): (st: Step)
    ensures st.r == r.(ws := None, status := Idle, resultText := "")
    ensures st.effects == (if r.ws == Some(Open) then [CloseSocket] else []) + Emit(r, StatusChanged(Idle))
  {
    var s1 := Cleanup(r);
    var s2 := UpdateStatus(s1.r, Idle);
    Step(s2.r.(resultText := ""), s1.effects + s2.effects)
  }

  /** `destroy`: cancels, then forgets every listener. */
  function Destroy(r: Recognizer): (st: Step)
    ensures st.r == r.(ws := None, status := Idle, resultText := "", listeners := {})
    ensures st.effects == (if r.ws == Some(Open) then [CloseSocket] else []) + Emit(r, StatusChanged(Idle))
  {
    var s := Cancel(r);
    Step(s.r.(listeners := {}), s.effects)
  }

  // ---------------------------------------------------------------------------
  // Socket events

  /** What the held socket reports; `Message(None)` is a frame that is not valid JSON. */
  datatype SocketEvent =
    | Opened
    | Message(frame: Option<Response>)
    | SocketError
    | CloseStarted   // the far end began the closing handshake
    | Closed

  /**
   * Dispatch of one socket event to the handlers installed by `start`. A socket
   * delivers messages only while open and nothing once released, so events reach
   * the recogniser only while it holds the socket.
   */
  function Deliver(r: Recognizer, ev: SocketEvent): Step {
    match ev
    case Opened =>
      if r.ws == Some(Connecting) then SendBusinessParams(r.(ws := Some(Open))) else Step(r, [])
    case Message(m) =>
      if r.ws == Some(Open) && m.Some? then HandleMessage(r, m.value) else Step(r, [])
    case SocketError =>
      if r.ws.Some? then HandleError(r, "语音识别连接错误") else Step(r, [])
    case CloseStarted =>
      if r.ws == Some(Open) then Step(r.(ws := Some(Closing)), []) else Step(r, [])
    case Closed =>
      Step(r.(ws := None), [])
  }

  /** A run of socket events, in arrival order. */
  function Run(r: Recognizer, evs: seq<SocketEvent>): Step
    decreases |evs|
  {
    if |evs| == 0 then Step(r, [])
    else
      var s := Deliver(r, evs[0]);
      var t := Run(s.r, evs[1..]);
      Step(t.r, s.effects + t.effects)
  }

  /** Once the socket is released, nothing more happens until the next `start`. */
  lemma {:induction false} ReleasedIsQuiet(r: Recognizer, evs: seq<SocketEvent>)
    requires r.ws.None?
    ensures Run(r, evs) == Step(r, [])
    decreases |evs|
  {
    if |evs| > 0 {
      ReleasedIsQuiet(r, evs[1..]);
    }
  }

  function CountReady(effs: seq<Effect>): nat {
    if |effs| == 0 then 0 else (if effs[0] == ResolveReady then 1 else 0) + CountReady(effs[1..])
  }

  lemma {:induction false} CountReadyAppend(a: seq<Effect>, b: seq<Effect>)
    ensures CountReady(a + b) == CountReady(a) + CountReady(b)
    decreases |a|
  {
    if |a| > 0 {
      assert (a + b)[0] == a[0];
      assert (a + b)[1..] == a[1..] + b;
      CountReadyAppend(a[1..], b);
    } else {
      assert a + b == b;
    }
  }

  lemma CountReadyNotify(effs: seq<Effect>)
    requires forall i :: 0 <= i < |effs| ==> effs[i].Notify?
    ensures CountReady(effs) == 0
  {
    if |effs| > 0 {
      CountReadyNotify(effs[1..]);
    }
  }

  /** Every readiness resolution directly follows the sending of the opening (status-0) frame. */
  predicate ReadyFollowsOpening(effs: seq<Effect>) {
    forall i :: 0 <= i < |effs| && effs[i] == ResolveReady ==>
      i > 0 && effs[i - 1].SendFrame? && effs[i - 1].frame.OpeningFrame? && effs[i - 1].frame.data.status == 0
  }

  lemma ReadyFollowsOpeningAppend(a: seq<Effect>, b: seq<Effect>)
    requires ReadyFollowsOpening(a) && ReadyFollowsOpening(b)
    ensures ReadyFollowsOpening(a + b)
  {
    forall i | 0 <= i < |a + b| && (a + b)[i] == ResolveReady
      ensures i > 0 && (a + b)[i - 1].SendFrame? && (a + b)[i - 1].frame.OpeningFrame?
              && (a + b)[i - 1].frame.data.status == 0
    {
      if i >= |a| {
        assert b[i - |a|] == ResolveReady;
      }
    }
  }

  /** Readiness resolved at most once, only if armed, only after the opening frame, and then disarmed. */
  predicate ReadinessKept(r: Recognizer, s: Step) {
    && CountReady(s.effects) <= (if r.readyPending then 1 else 0)
    && (CountReady(s.effects) > 0 ==> !s.r.readyPending)
    && (s.r.readyPending ==> r.readyPending)
    && ReadyFollowsOpening(s.effects)
  }

  /** Effects of one delivered event: readiness at most once, only if armed, only after the opening frame. */
  lemma DeliverReadiness(r: Recognizer, ev: SocketEvent)
    ensures ReadinessKept(r, Deliver(r, ev))
  {
    match ev {
      case Opened =>
        if r.ws == Some(Connecting) {
          OpenedReadiness(r);
        }
      case Message(m) =>
        if r.ws == Some(Open) && m.Some? {
          MessageReadiness(r, m.value);
        }
      case SocketError =>
        if r.ws.Some? {
          ErrorReadiness(r, "语音识别连接错误");
        }
      case CloseStarted =>
      case Closed =>
    }
  }

  lemma OpenedReadiness(r: Recognizer)
    requires r.ws == Some(Connecting)
    ensures ReadinessKept(r, SendBusinessParams(r.(ws := Some(Open))))
  {
    var r1 := r.(ws := Some(Open));
    var e := [SendFrame(OpeningFrameOf(r1))] + (if r1.readyPending then [ResolveReady] else []);
    CountReadyNotify(Emit(r1, ReadyEvent));
    CountReadyAppend(e, Emit(r1, ReadyEvent));
    assert CountReady(e) == (if r.readyPending then 1 else 0);
  }

  lemma MessageReadiness(r: Recognizer, m: Response)
    ensures ReadinessKept(r, HandleMessage(r, m))
  {
    if m.code != 0 {
      ErrorReadiness(r, ErrorMessage(m));
    } else if HasWordList(m) {
      var s := HandleMessage(r, m);
      assert s.r.readyPending == r.readyPending;
      assert ResolveReady !in s.effects;
      QuietStepKeepsReadiness(r, s);
    }
  }

  /** A step that resolves nothing and leaves the arming alone keeps the readiness rules. */
  lemma QuietStepKeepsReadiness(r: Recognizer, s: Step)
    requires ResolveReady !in s.effects && s.r.readyPending == r.readyPending
    ensures ReadinessKept(r, s)
  {
    CountReadyNoReady(s.effects);
  }

  lemma ErrorReadiness(r: Recognizer, message: string)
    ensures ReadinessKept(r, HandleError(r, message))
  {
    CountReadyNoReady(HandleError(r, message).effects);
  }

  lemma CountReadyNoReady(effs: seq<Effect>)
    requires ResolveReady !in effs
    ensures CountReady(effs) == 0
  {
    if |effs| > 0 {
      assert effs == [effs[0]] + effs[1..];
      CountReadyNoReady(effs[1..]);
    }
  }

  /**
   * Over any run of socket events, the readiness promise is resolved at most once,
   * never unless `start` armed it, and each time only after the status-0 frame was sent.
   */
  lemma {:induction false} ReadinessAtMostOnce(r: Recognizer, evs: seq<SocketEvent>)
    ensures var s := Run(r, evs);
            && CountReady(s.effects) <= (if r.readyPending then 1 else 0)
            && ReadyFollowsOpening(s.effects)
    decreases |evs|
  {
    if |evs| > 0 {
      var s := Deliver(r, evs[0]);
      var t := Run(s.r, evs[1..]);
      DeliverReadiness(r, evs[0]);
      ReadinessAtMostOnce(s.r, evs[1..]);
      CountReadyAppend(s.effects, t.effects);
      ReadyFollowsOpeningAppend(s.effects, t.effects);
    }
  }

  function CountFinal(effs: seq<Effect>): nat {
    if |effs| == 0 then 0
    else (if IsFinalNotice(effs[0]) then 1 else 0)
         + CountFinal(effs[1..])
  }

  lemma {:induction false} CountFinalAppend(a: seq<Effect>, b: seq<Effect>)
    ensures CountFinal(a + b) == CountFinal(a) + CountFinal(b)
    decreases |a|
  {
    if |a| > 0 {
      assert (a + b)[0] == a[0];
      assert (a + b)[1..] == a[1..] + b;
      CountFinalAppend(a[1..], b);
    } else {
      assert a + b == b;
    }
  }

  lemma CountFinalNone(effs: seq<Effect>)
    requires forall i :: 0 <= i < |effs| ==> !IsFinalNotice(effs[i])
    ensures CountFinal(effs) == 0
  {
    if |effs| > 0 {
      CountFinalNone(effs[1..]);
    }
  }

  /** A single effect that is not a final result. */
  lemma NoFinalNotice(effs: seq<Effect>)
    requires |effs| <= 1 && (|effs| == 1 ==> !IsFinalNotice(effs[0]))
    ensures CountFinal(effs) == 0
  {
  }

  predicate IsFinalNotice(e: Effect) {
    e.Notify? && e.event.ResultReady? && e.event.result.isFinal
  }

  predicate IsFinalFrame(resp: Response) {
    resp.code == 0 && HasWordList(resp) && resp.data.value.status == 2
  }

  /** Only a final frame can emit a final result. */
  lemma NonFinalFrameNoFinalNotice(r: Recognizer, resp: Response)
    requires !IsFinalFrame(resp)
    ensures CountFinal(HandleMessage(r, resp).effects) == 0
  {
    if resp.code != 0 {
      var e1 := Emit(r, StatusChanged(Error));
      var e2 := Emit(r, Failed(ErrorMessage(resp)));
      var e3: seq<Effect> := if r.ws == Some(Open) then [CloseSocket] else [];
      assert HandleMessage(r, resp).effects == e1 + e2 + e3;
      NoFinalNotice(e1);
      NoFinalNotice(e2);
      NoFinalNotice(e3);
      CountFinalAppend(e1, e2);
      CountFinalAppend(e1 + e2, e3);
    } else if HasWordList(resp) {
      var effs := HandleMessage(r, resp).effects;
      assert |effs| <= 1 && forall i :: 0 <= i < |effs| ==> !IsFinalNotice(effs[i]);
      CountFinalNone(effs);
    }
  }

  /** A final frame emits at most one final result and releases the socket. */
  lemma FinalFrameOneNotice(r: Recognizer, resp: Response)
    requires IsFinalFrame(resp)
    ensures CountFinal(HandleMessage(r, resp).effects) <= 1
    ensures HandleMessage(r, resp).r.ws.None?
  {
    var s := HandleMessage(r, resp);
    var d := resp.data.value;
    var r1 := r.(resultText := r.resultText + TextOf(resp));
    var e1 := Emit(r1, ResultReady(RecognitionResult(r1.resultText, true, d.confidence)));
    var e2 := UpdateStatus(r1, Completed).effects;
    var e3 := Emit(r1, CompletedWith(r1.resultText));
    var e4 := Cleanup(r1.(status := Completed)).effects;
    assert s.effects == e1 + e2 + e3 + e4;
    NoFinalNotice(e2);
    NoFinalNotice(e3);
    NoFinalNotice(e4);
    CountFinalAppend(e1, e2);
    CountFinalAppend(e1 + e2, e3);
    CountFinalAppend(e1 + e2 + e3, e4);
    assert CountFinal(e1) <= 1;
  }

  lemma HandleMessageFinal(r: Recognizer, resp: Response)
    ensures var s := HandleMessage(r, resp);
            && CountFinal(s.effects) <= 1
            && (CountFinal(s.effects) == 1 ==> s.r.ws.None?)
  {
    if IsFinalFrame(resp) {
      FinalFrameOneNotice(r, resp);
    } else {
      NonFinalFrameNoFinalNotice(r, resp);
    }
  }

  /** One delivered event emits at most one final result, and only by releasing the socket. */
  lemma DeliverFinal(r: Recognizer, ev: SocketEvent)
    ensures var s := Deliver(r, ev);
            && CountFinal(s.effects) <= 1
            && (CountFinal(s.effects) == 1 ==> s.r.ws.None?)
  {
    var s := Deliver(r, ev);
    if ev.Message? && r.ws == Some(Open) && ev.frame.Some? {
      HandleMessageFinal(r, ev.frame.value);
    } else if ev.Opened? && r.ws == Some(Connecting) {
      CountFinalNone(s.effects);
    } else if ev.SocketError? && r.ws.Some? {
      CountFinalNone(s.effects);
    } else {
      assert s.effects == [];
    }
  }

  /** Over any run of socket events, at most one final result is emitted. */
  lemma {:induction false} AtMostOneFinal(r: Recognizer, evs: seq<SocketEvent>)
    ensures CountFinal(Run(r, evs).effects) <= 1
    decreases |evs|
  {
    if |evs| > 0 {
      var s := Deliver(r, evs[0]);
      var t := Run(s.r, evs[1..]);
      DeliverFinal(r, evs[0]);
      AtMostOneFinal(s.r, evs[1..]);
      CountFinalAppend(s.effects, t.effects);
      if CountFinal(s.effects) == 1 {
        ReleasedIsQuiet(s.r, evs[1..]);
      }
    }
  }

  /** Between `start` and the next `start`/`cancel`, the accumulated text only grows. */
  lemma {:induction false} ResultTextOnlyGrows(r: Recognizer, evs: seq<SocketEvent>)
    ensures JsText.StartsWith(Run(r, evs).r.resultText, r.resultText)
    decreases |evs|
  {
    if |evs| > 0 {
      var s := Deliver(r, evs[0]);
      assert JsText.StartsWith(s.r.resultText, r.resultText);
      ResultTextOnlyGrows(s.r, evs[1..]);
    }
  }
}
